=== FILE: README.md ===
# A verified model of a Monte Carlo ray tracer

This project models the geometric and shading core of a Rust path tracer in
the style of *Ray Tracing in One Weekend / The Next Week*. It covers:

- intervals and axis-aligned bounding boxes (AABBs), with the slab test;
- rays and hit records;
- hittable lists and the bounding volume hierarchy (BVH);
- spheres, both stationary and moving, and parallelogram quads;
- translation and y-rotation instances, and constant-density volumes;
- Lambertian, metal and dielectric materials, with Schlick's approximation;
- orthonormal bases, reflection and refraction;
- Hermite smoothing and Perlin noise;
- the random-sampling helpers;
- solid, checker, image and noise textures;
- colour quantisation and the PPM pixel line;
- the camera's ray generation, the recursive `ray_color`, and the
  resumable, checkpointed render loop.

The repository contains two generations of the tracer. The older one lives in
`src/ray.rs`, `src/interval.rs`, `src/hittable.rs`, `src/hittable_list.rs`,
`src/sphere.rs` and the helpers in `src/lib.rs`. The current one lives under
`src/util/` and `src/hittable/`. Module `Legacy` models the older files and
proves that each agrees with the current definition once its values are
lifted (an old ray is a current ray at time zero; an old record is a current
record without texture coordinates). `src/lib.rs` repeats the formulas of
`src/util/`, so each concept is defined once. The `src/lib.rs` lines are cited
on the lemma that states their property (for example
`Colors.GammaOfSquare`). Its `write_color` casts with `as i32`, not `as u8`.
The value is clamped to `[0, 255.744)` first, so both casts give the same
byte.

`src/aabb.rs` imports the older interval type, which has no `from_intervals`
or `Default`. It only builds with the interval of `src/util/interval.rs`, so
the box is modelled over that one.

`src/bvh_node.rs` is likewise written against the older interval, hit
record and list. Module `Bvh` states it over the current ones, which `Legacy`
shows agree with the older ones after lifting.

## Modelling choices

- Floating-point numbers are `real`. Interval bounds are extended reals
  (`ExtReal.EReal`: `-inf`, a finite real, `+inf`). The default interval is
  `(+inf, -inf)` and the ray window is `[0.001, +inf)`.
- Transcendental functions are parameters constrained by ghost predicates:
  - the square root (`Numeric.IsSqrt`);
  - the sine (`Textures.IsSine`);
  - `log10` of the volume's random draw (an extended real `<= 0`);
  - Perlin turbulence;
  - the sphere's `(u, v)` mapping.

  This also applies to the trigonometric values the camera and the rotation
  derive from their angles, which appear as `sin`/`cos` pairs with
  `sin^2 + cos^2 = 1`.
- Every random draw is a parameter:
  - a sequence of draws in range (`Sampling`);
  - a finite list of candidates for the rejection loops;
  - for the BVH's split axis, a draw per sub-range of the object slice
    (`Bvh.ValidDraws`).
- `Hittable` is a type parameter `T` with a `hit` function
  `(T, Ray, Interval) -> Option<HitRecord<M>>` and a `boxOf` function.
  - `Hittables.RespectsInterval`: a hit lies in the window.
  - `Hittables.Monotone`: shrinking the window's end down to the hit keeps it.
  - `Hittables.HitsStrictlyInside` and `Hittables.HitsInBox`: every hit of
    one object along one ray lies strictly inside (on the first n axes), or
    in, the object's box.

  These are the object-side contracts the list, the BVH and the volumes rely
  on. The first two hold for every object of a shape: `Quads.QuadHittable`
  and `Spheres.SphereHittable` prove them for the quad's and the sphere's
  hit functions. The box premises are per object and per ray.
  `Spheres.StationaryHitsInBox` and `Spheres.MovingHitsInBox` prove the
  closed one for spheres built by `new` and `new_moving`, and
  `SphereTrees.SphereTreeComplete` combines these into completeness of the
  corrected traversal over spheres. No shape has hits strictly inside its
  box for every ray: a ray can touch a sphere or a quad edge on a box face.
- The renderer's `rayon` parallelism, memory-mapped file and progress thread
  become a sequential loop over the pixel list. The checkpoint file is a
  sequence of integers.

## Model

| member | source | states |
|---|---|---|
| Intervals.Default | src/util/interval.rs:33-40 | The default interval `(+inf, -inf)` contains no number. |
| Intervals.InvertedIsEmpty | src/util/interval.rs:19-21 | An interval whose max lies below its min contains nothing. |
| Intervals.ContainsConvex | src/util/interval.rs:19-21 | Membership is inclusive and convex: every number between two members is a member. |
| Intervals.ContainsEndpoints | src/util/interval.rs:19-21 | With finite bounds, both endpoints are members exactly when min <= max. |
| Intervals.FromIntervals | src/util/interval.rs:12-17 | The union's min is the smaller min and its max the larger max, each taken from one of the inputs, so it contains everything either input contains. |
| Intervals.FromIntervalsCommutative | src/util/interval.rs:12-17 | The union does not depend on argument order. |
| Intervals.FromIntervalsAssociative | src/util/interval.rs:12-17 | The union does not depend on grouping. |
| Intervals.DefaultIsIdentity | src/util/interval.rs:33-40 | The empty default is a unit of the union on both sides. |
| Intervals.Size | src/util/interval.rs:23-25 | With finite bounds the size is max minus min; an infinite bound makes it non-finite. |
| Intervals.Expand | src/util/interval.rs:27-30 | Each bound stays finite or infinite as it was, a finite interval's size grows by exactly delta, and for delta >= 0 the bounds move outwards and the result contains the original. |
| Legacy.ToInterval | src/interval.rs:11-13 | The older interval, seen as a current one, has the same membership test. |
| Legacy.ContainsFinite | src/interval.rs:15-17 | The older `contains` is lo <= n <= hi: an inverted interval is empty, and both ends are members exactly when lo <= hi. |
| Rays.New | src/util/ray.rs:13-19 | `new` keeps origin and direction and starts at time zero. |
| Rays.AtEndpoints | src/util/ray.rs:29-31 | at(0) is the origin and at(1) is origin + direction. |
| Rays.AtAffine | src/util/ray.rs:29-31 | `at` is affine in t and does not depend on the ray's time. |
| Legacy.At | src/ray.rs:16-18 | The older `at` displaces the origin by t times the direction. |
| Legacy.Lift | src/ray.rs:12-14 | An older ray is the current ray with the same origin and direction at time zero. |
| Legacy.AtAgrees | src/ray.rs:16-18 | The older `at` agrees with the current one on the lifted ray. |
| Aabb.NewEmpty | src/aabb.rs:11-13 | The empty box has the default interval on each axis and contains no point. |
| Aabb.FromPoints | src/aabb.rs:23-29 | Each axis spans the two coordinates in either order: finite, ordered, both points inside, and a point is inside exactly when each coordinate lies between theirs. |
| Aabb.FromPointsCommutative | src/aabb.rs:23-29 | The box does not depend on the order of the two points. |
| Aabb.FromBoxes | src/aabb.rs:31-37 | The union encloses both boxes. |
| Aabb.FromBoxesCommutative | src/aabb.rs:31-37 | The union does not depend on argument order. |
| Aabb.FromBoxesLeast | src/aabb.rs:31-37 | Any box enclosing both inputs encloses their union. |
| Aabb.Expand | src/aabb.rs:39-41 | `expand` returns the least box enclosing the receiver and the argument. |
| Aabb.SlabStep | src/aabb.rs:54-69 | One slab only narrows the window, and a surviving window is non-empty. |
| Aabb.SlabTimesOrdered | src/aabb.rs:57-62 | After the swap for a negative direction component, the entry time is at most the exit time. |
| Aabb.SlabLoop | src/aabb.rs:53-71 | Over the axes it visits the window only narrows and stays non-empty. |
| Aabb.SlabStepKeeps | src/aabb.rs:54-69 | A time at which the ray is strictly inside a slab survives that slab. |
| Aabb.HitAsWritten | src/aabb.rs:52-72 | The test as written, with the x and y slabs only, returns a non-empty sub-window of the ray's window. |
| Aabb.Hit | src/aabb.rs:52-72 | The three-slab test returns a non-empty sub-window of the ray's window. |
| Aabb.HitFindsInteriorPoint | src/aabb.rs:52-72 | If the ray is strictly inside the box at a time in a non-degenerate window, the three-slab test reports a window containing that time. |
| Aabb.HitAsWrittenFindsInteriorPoint | src/aabb.rs:52-72 | If the ray is inside the box's x and y slabs at a time in a non-degenerate window, the two-slab test as written reports a window containing that time. |
| Aabb.HitFromInside | src/aabb.rs:52-72 | A ray starting strictly inside the box hits it over the whole line. |
| Aabb.AsWrittenAcceptsMore | src/aabb.rs:53 | Whatever the three-slab test accepts, the two-slab loop accepts too. |
| Aabb.HitClosed | src/aabb.rs:52-72 | The corrected test, over all three slabs and keeping a window that shrinks to a single time, returns a sub-window of the ray's window. |
| Aabb.SlabStepClosed | src/aabb.rs:54-69 | One closed slab only narrows the window and keeps it ordered. |
| Aabb.HitClosedFindsPoint | src/aabb.rs:52-72 | If the ray reaches a point of the closed box at a time in the window, faces included, the corrected test reports a window containing that time. |
| Aabb.GrazingMissedAsWritten | src/aabb.rs:67 | For a box spanning [0, 1] in x and y, the grazing ray reaches the box point (0, 1, 0) at t = 1, yet the `<=` of the loop as written rejects its window; the closed test keeps it. |
| Aabb.ZSlabIgnored | src/aabb.rs:53 | The two-slab loop reports a hit on the unit cube for a ray above it that no point of the ray ever enters, and the three-slab test reports a miss. |
| HitRecords.New | src/hittable/mod.rs:29-52 | front_face holds exactly when the direction opposes the outward normal; the stored normal is the outward normal on a front face and its negation otherwise, so it never points along the ray; t, p, u, v and the material are stored. |
| HitRecords.NewFlipInvariant | src/hittable/mod.rs:38-45 | Negating the outward normal flips front_face and leaves the stored normal unchanged. |
| Legacy.NewRecord | src/hittable.rs:15-34 | The older record has the same front-face and normal orientation rules. |
| Legacy.NewRecordAgrees | src/hittable.rs:15-34 | The older record is the current record without its texture coordinates. |
| HittableLists.New | src/hittable/hittable_list.rs:17-22 | A new list holds no objects and a box containing no point. |
| HittableLists.AddAsWritten | src/hittable/hittable_list.rs:24-27 | `add` as written appends the object and leaves the box unchanged. |
| HittableLists.Add | src/hittable/hittable_list.rs:24-27 | The corrected `add` appends the object and makes the box the least one enclosing the old box and the object's. |
| HittableLists.AddKeepsCover | src/hittable/hittable_list.rs:24-27 | The corrected `add` keeps the invariant that the list box encloses every object's box. |
| HittableLists.AddAsWrittenLosesBox | src/hittable/hittable_list.rs:25 | After adding the unit cube to an empty list as written, the list's box misses a corner of the cube. |
| HittableLists.ScanConsistent | src/hittable/hittable_list.rs:35-41 | The loop keeps `closest_so_far` equal to the held record's t, or the window's end when nothing is held. |
| HittableLists.ScanAppend | src/hittable/hittable_list.rs:35-41 | Scanning a list extended by one object is the scan of the prefix followed by one more step. |
| HittableLists.HitEmpty | src/hittable/hittable_list.rs:31-44 | An empty list reports no hit. |
| HittableLists.HitAppend | src/hittable/hittable_list.rs:31-44 | The last object is asked over the window ending at the closest hit so far, inclusive. Its hit, if any, is the result, so ties go to the later object. |
| HittableLists.ScanSound | src/hittable/hittable_list.rs:35-41 | `closest_so_far` never grows, and a held record lies in the window. |
| HittableLists.ScanKeeps | src/hittable/hittable_list.rs:35-41 | Once a hit at or before t is held, the scan still holds one at or before t. |
| HittableLists.ScanClosest | src/hittable/hittable_list.rs:35-41 | The scan ends with a hit no farther than any object's own hit in the window. |
| HittableLists.HitClosest | src/hittable/hittable_list.rs:31-44 | If any object hits in the window, the list reports a hit in the window no farther than that hit. |
| Legacy.NewList | src/hittable_list.rs:13-15 | The older list starts empty. |
| Legacy.AddObject | src/hittable_list.rs:17-19 | The older `add` appends at the end and keeps the earlier objects in order. |
| Legacy.ListHit | src/hittable_list.rs:23-36 | The older loop computes the current list scan on the lifted ray. It reports nothing for an empty list, and for well-behaved objects reports the closest hit in bounds. |
| Bvh.Insert | src/bvh_node.rs:47-54 | Inserting into a sequence sorted by the comparator gives a permutation that is still sorted. |
| Bvh.Sort | src/bvh_node.rs:47-54 | `sort_by` with the box comparator gives a permutation ordered by non-increasing box minimum along the axis. |
| Bvh.SplitAxis | src/lib.rs:48-50 | `random_int_range(0, 2)` is 0, 1 or 2, so the `axis` lookup at src/bvh_node.rs:24 never panics. |
| Bvh.Build | src/bvh_node.rs:23-64 | For a non-empty slice the result is a node whose leaves are exactly the input objects, and each node's box is the union of its children's boxes. From three objects on, the left subtree holds the first half of the sorted slice and the right subtree the rest. |
| Bvh.BuildShape | src/bvh_node.rs:26-61 | One object becomes a node with that object on both sides. Two objects become two leaves in comparator order, with the second object on the left on ties. Three or more are split after sorting, and every leaf on the left has a key at least that of every leaf on the right. |
| Bvh.BuildShapeTwo | src/bvh_node.rs:35-45 | Two objects become two leaves holding exactly them, the smaller key on the left, and the second object on the left on equal keys. |
| Bvh.BuildShapeMany | src/bvh_node.rs:46-61 | From three objects on, every leaf on the left has a key at least that of every leaf on the right. |
| Bvh.FromList | src/bvh_node.rs:19-21 | A tree over a non-empty list holds exactly the list's objects and is well boxed. |
| Bvh.LeafEnclosed | src/bvh_node.rs:27-61 | In a well-boxed tree every node's box encloses the box of every object below it. |
| Bvh.HitSound | src/bvh_node.rs:72-85 | Whatever test checks the node boxes, a hit reported by the tree lies in the window. |
| Bvh.HitIsLeafHit | src/bvh_node.rs:72-85 | A hit reported by the tree is exactly the hit of one of its leaves, over a window that starts where the query's does and ends no later. |
| Bvh.HitNoFartherThanLeft | src/bvh_node.rs:77-84 | When the test accepts the node's box, after a left hit the node reports a hit no farther than it, and a right hit within the narrowed window wins. |
| Bvh.TraverseComplete | src/bvh_node.rs:72-85 | If a leaf hits in a non-degenerate window and the box test accepts every box enclosing that leaf's box on every window where the leaf hits, the tree reports a hit no farther than the leaf's. |
| Bvh.AsWrittenAdmits | src/aabb.rs:52-72 | The two-slab test as written accepts every enclosing box on every window where the object hits, when this ray's hits on the object lie strictly inside its box on x and y. |
| Bvh.ClosedAdmits | src/aabb.rs:52-72 | The closed three-slab test accepts every enclosing box on every window where the object hits, when this ray's hits on the object lie in its box. |
| Bvh.HitComplete | src/bvh_node.rs:72-85 | If a leaf hits in a non-degenerate window, and this ray's hits on it lie strictly inside its box on x and y, the tree as written reports a hit no farther than that hit. |
| Bvh.HitCorrectedComplete | src/bvh_node.rs:72-85 | With the closed box test, a leaf hit whose points lie in the leaf's box, faces included, is never lost: the tree reports a hit no farther away. |
| SphereTrees.SphereTreeComplete | src/bvh_node.rs:72-85 | The corrected traversal of any well-boxed tree never loses the hit of a sphere built by `new`, or by `new_moving` for a ray time in [0, 1]. |
| Spheres.NewStationary | src/hittable/sphere.rs:26-36 | A stationary sphere's box is the cube of half-width abs(radius) around its centre. |
| Spheres.NewMoving | src/hittable/sphere.rs:38-52 | A moving sphere is at its start at time 0 and its end at time 1, and its box encloses the balls at both ends. |
| Spheres.BallInBox | src/hittable/sphere.rs:26-36 | Every point of the ball lies in the sphere's box. |
| Spheres.PickRoot | src/hittable/sphere.rs:92-98 | A returned root lies in the window. |
| Spheres.SolveQuadratic | src/hittable/sphere.rs:81-98 | The root found for the sphere's quadratic lies in the window. |
| Spheres.Root | src/hittable/sphere.rs:81-98 | The root found for a ray lies in the window. |
| Spheres.QuadraticNoRoot | src/hittable/sphere.rs:85-88 | A negative discriminant means no t solves the quadratic, so the early miss is exact. |
| Spheres.SolveNearest | src/hittable/sphere.rs:85-98 | The root found solves the quadratic and is the smallest solution in the window; no root means no solution in the window. |
| Spheres.RootNearest | src/hittable/sphere.rs:81-98 | The root found puts the ray on the sphere and is the nearest such time in the window; no root means the ray meets the surface nowhere in the window. |
| Spheres.HitAsWritten | src/hittable/sphere.rs:74-112 | The hit as written, whose outward normal is taken from the time-0 centre, lies in the window at the ray's point. |
| Spheres.Hit | src/hittable/sphere.rs:74-112 | The corrected hit lies in the window and at the ray's point, carries the sphere's material, and has a normal opposing the ray. |
| Spheres.HitNearest | src/hittable/sphere.rs:74-112 | The corrected hit lies on the sphere at the ray's time and is the nearest surface point in the window, with a unit normal; a miss means no surface point in the window. |
| Spheres.HitMonotone | src/hittable/sphere.rs:92-98 | Shrinking the window's end down to the hit's t leaves the hit unchanged. |
| Spheres.SphereHittable | src/hittable/sphere.rs:74-112 | The sphere's hit function respects the window and is monotone, as the list and the tree assume. |
| Spheres.StationaryHitsInBox | src/hittable/sphere.rs:26-36 | Every hit of a stationary sphere built by `new` lies in its box, faces included. |
| Spheres.MovingBallInBox | src/hittable/sphere.rs:38-52 | At any time in [0, 1], every point of the moving ball lies in the box `new_moving` builds around both ends. |
| Spheres.MovingHitsInBox | src/hittable/sphere.rs:38-52 | Every hit of a moving sphere built by `new_moving`, for a ray time in [0, 1], lies in its box. |
| Spheres.MovingNormalAsWritten | src/hittable/sphere.rs:101 | For a moving sphere, the normal as written differs from the true unit normal at the hit point. |
| Legacy.SphereRoot | src/sphere.rs:28-45 | The older root lies within the bounds. |
| Legacy.SphereHit | src/sphere.rs:27-50 | The older hit lies in bounds and at the ray's point, carries the material, and has a normal opposing the ray. |
| Legacy.SphereRootAgrees | src/sphere.rs:28-45 | The older root choice equals the current one on the lifted ray. |
| Legacy.SphereHitAgrees | src/sphere.rs:27-50 | The older hit is the current stationary sphere's hit without texture coordinates. |
| Legacy.SphereHitNearest | src/sphere.rs:27-50 | The older hit is the nearest surface point in bounds, with a unit normal; a miss means there is none. |
| Quads.New | src/hittable/quad.rs:21-41 | The normal is a unit vector along u x v, perpendicular to u and v; d places q on the plane; w . (u x v) = 1; the box is the padded box of the diagonal from q to q + u + v, as written. |
| Quads.NewCorrected | src/hittable/quad.rs:21-41 | The same plane data as `Quads.New`, with the padded box through all four corners instead. |
| Quads.PlaneCoordinates | src/hittable/quad.rs:64-67 | The point q + a u + b v gets planar coordinates alpha = a and beta = b and lies on the plane. |
| Quads.PlaneCrossing | src/hittable/quad.rs:58-61 | The t computed puts the ray's point on the plane. |
| Quads.Hit | src/hittable/quad.rs:49-82 | Nearly parallel rays miss. A hit lies in the window and on the plane, has interior coordinates, stores them as u and v, and carries the material. |
| Quads.HitMonotone | src/hittable/quad.rs:58-61 | Shrinking the window's end down to the hit's t leaves the hit unchanged. |
| Quads.QuadHittable | src/hittable/quad.rs:49-82 | The quad's hit respects the window and is monotone. |
| Quads.HitFindsCrossing | src/hittable/quad.rs:49-82 | Conversely, a ray that is not nearly parallel, whose plane crossing lies in the window with interior coordinates, hits the quad there. |
| Quads.NewUnitSquare | src/hittable/quad.rs:21-41 | `new` on q = 0, u = (1, 0, 0), v = (0, 1, 0) builds the unit square with normal (0, 0, 1), d = 0 and w = (0, 0, 1). |
| Quads.GrazingCornerHit | src/hittable/quad.rs:49-82 | The unit square is hit by the grazing ray at its corner (0, 1, 0) at t = 1, in every window containing 1. |
| GrazingQuad.GrazingTreeMissed | src/bvh_node.rs:72-75 | A node over the unit square whose box spans [0, 1] in x and y rejects the grazing ray, so the tree as written reports no hit. |
| GrazingQuad.GrazingTreeCorrected | src/bvh_node.rs:72-85 | The corrected traversal of the same node reports the corner hit at t = 1. |
| GrazingQuad.GrazingQuadMissed | src/aabb.rs:67 | The quad reports the corner hit, the tree as written over it reports none, and the corrected tree reports one. |
| Quads.PlanePointInCornerBox | src/hittable/quad.rs:39-41 | With the box spanning all four corners, every point of the parallelogram lies in it. |
| Quads.DiagonalBoxMissesCorner | src/hittable/quad.rs:40 | The diagonal box of q = 0, u = (1,0,0), v = (-1,1,0) misses the quad's corner q + u = (1,0,0), which the corner box holds. |
| Instances.TranslateHit | src/hittable/instance.rs:27-34 | A translated object is hit exactly when the child is hit by the ray moved back by the offset. The record is the child's with p moved by the offset. |
| Instances.TranslateOnRay | src/hittable/instance.rs:27-34 | A child point on the moved ray at t becomes the world ray's point at t. |
| Instances.TranslatePreserves | src/hittable/instance.rs:27-34 | Translation keeps window soundness and monotonicity. |
| Instances.RotationInverse | src/hittable/instance.rs:92-112 | The world-to-object and object-to-world rotations undo each other and preserve dot products. |
| Instances.RotationHit | src/hittable/instance.rs:87-118 | A rotated object is hit exactly when the child is hit by the rotated ray. t, front_face, u, v and the material come from the child. |
| Instances.ToWorldAt | src/hittable/instance.rs:92-105 | Rotating back the rotated ray's point at t gives the world ray's point at t. |
| Instances.RotationConsistent | src/hittable/instance.rs:101-112 | A child hit on the rotated ray becomes a point on the world ray. The normal's length and its dot product with the direction are kept, so front_face stays consistent. |
| Instances.RotationPreserves | src/hittable/instance.rs:87-118 | Rotation keeps window soundness and monotonicity. |
| Instances.FoldMin | src/hittable/instance.rs:69-72 | The running minimum is below every corner coordinate and, for a non-empty list, equals one of them. |
| Instances.FoldMax | src/hittable/instance.rs:69-72 | The running maximum is above every corner coordinate and, for a non-empty list, equals one of them. |
| Instances.NewRotation | src/hittable/instance.rs:49-83 | The rotated box contains all eight rotated corners of the child's box. |
| Instances.RotationBoxTight | src/hittable/instance.rs:54-79 | Each bound of the rotated box is attained by a rotated corner. |
| ConstantMedia.New | src/hittable/constant_medium.rs:21-27 | neg_inv_density times the density is -1, so it is negative exactly for a positive density. |
| ConstantMedia.HitDistance | src/hittable/constant_medium.rs:56 | For a positive density the sampled distance is non-negative, or +inf when the draw is 0. For a negative density it is at most zero, or -inf. For a zero factor with a draw of 0 it is NaN. |
| ConstantMedia.ClipWindow | src/hittable/constant_medium.rs:45-52 | After clipping to the window and clamping at 0, the entry and exit are finite, lie within the crossings and the window, and start at 0 or later. |
| ConstantMedia.ScatterTime | src/hittable/constant_medium.rs:54-62 | Scattering happens exactly when the distance is at most the stretch's length. The scatter time is at most the exit, exactly that distance past the entry, and at or after the entry exactly when the distance is non-negative. |
| ConstantMedia.Scatter | src/hittable/constant_medium.rs:45-62 | A scatter time is at most the second crossing and the window's end; with a non-negative distance it also lies after the first crossing, at 0 or later and in the window. With a non-empty clipped stretch it exists exactly when the distance fits. |
| ConstantMedia.ScatterRecord | src/hittable/constant_medium.rs:69-79 | The record has the scatter time and the ray's point there, zero texture coordinates, a front face and the phase function as material. |
| ConstantMedia.Hit | src/hittable/constant_medium.rs:31-86 | A hit needs two boundary crossings and a non-empty clipped stretch, and its t is at most the second crossing. For a positive density t lies between the crossings, is non-negative and is in the window. For a negative density t is at or before the entry. |
| ConstantMedia.HitUnfolds | src/hittable/constant_medium.rs:36-81 | Once both crossings are found, the hit is the scatter time's record, and there is none when the distance is not a real number or +inf. |
| ConstantMedia.ScattersIffWithin | src/hittable/constant_medium.rs:45-62 | Given both crossings and a non-empty clipped stretch, the medium reports a hit exactly when the sampled distance is a real number or +inf and at most the stretch's length. The hit is then that distance past the entry. |
| ConstantMedia.ScatterWithin | src/hittable/constant_medium.rs:45-62 | On a non-empty clipped stretch the entry and exit are finite, and the scatter time exists exactly when the distance fits, at that distance past the entry. |
| ConstantMedia.NegativeDensityHitsBeforeEntry | src/hittable/constant_medium.rs:55-62 | With a negative density, a finite draw and a clipped stretch that ends at 0 or later, the medium always reports a hit. For a draw below one it lies strictly before the entry. |
| ConstantMedia.ScatterInBox | src/hittable/constant_medium.rs:31-90 | For a positive density, if this ray's two boundary crossings are strictly inside the boundary's box, the scatter point is too, so the medium's box bounds its hits. |
| ConstantMedia.ScatterInClosedBox | src/hittable/constant_medium.rs:31-90 | For a positive density, if this ray's two boundary crossings lie in the boundary's box, faces included, so does the scatter point. |
| Materials.NewMetal | src/material.rs:59-64 | The fuzz is capped at 1 and is kept exactly when it is at most 1. |
| Materials.LambertianScatter | src/material.rs:38-49 | A Lambertian surface always scatters from the hit point with the albedo. The direction is normal + unit vector, or the normal when that sum is near zero. |
| Materials.LambertianAboveSurface | src/material.rs:38-49 | For a unit normal and unit draw, the scattered direction is not near zero and does not point below the surface. |
| Materials.MetalScatter | src/material.rs:68-84 | Metal scatters exactly when the fuzzed reflection leaves the surface (positive dot with the normal), from the hit point with the albedo. A zero incoming direction, which normalises to NaN, is absorbed. |
| Materials.PolishedMetalMirrors | src/material.rs:68-84 | With no fuzz, metal scatters exactly when the incoming ray meets the front of the surface, along the unit mirror direction. |
| Materials.NormalReflectance | src/material.rs:97-101 | The reflectance at normal incidence lies in [0, 1) and is zero exactly for an index of 1. |
| Materials.NormalReflectanceSymmetric | src/material.rs:97-101 | The reflectance at normal incidence is the same for an index and its reciprocal. |
| Materials.Reflectance | src/material.rs:97-101 | For a cosine in [0, 1], Schlick's reflectance lies between the normal-incidence value and 1. |
| Materials.ReflectanceEnds | src/material.rs:97-101 | Schlick's reflectance is the normal-incidence value at cosine 1 and 1 at cosine 0. |
| Materials.RefractionRatio | src/material.rs:106-110 | The ratio is 1/ir on a front face and ir on a back face. |
| Materials.DielectricScatter | src/material.rs:105-125 | A dielectric always scatters with attenuation one from the hit point. It reflects exactly when refraction is impossible or the reflectance exceeds the draw, and refracts otherwise. |
| Materials.RefractionPossible | src/material.rs:116-121 | When the test allows refraction, ratio^2 (1 - cos^2) <= 1, so the refracted ray is real. |
| Materials.DielectricDirection | src/material.rs:105-125 | For a unit normal the dielectric's direction is a unit vector that is either the mirror direction or one crossing the surface. |
| Materials.Scatter | src/material.rs:16-24 | Dispatch: a scattered ray leaves from the hit point at the incoming time. Only metal can absorb, and it absorbs a zero incoming direction. The attenuation is the albedo, or one for a dielectric. |
| VecOps.NearZeroShort | src/util/vec.rs:3-5 | The zero vector is near zero, and a near-zero vector has squared length below 3e-16. |
| VecOps.ReflectComponents | src/util/vec.rs:7-9 | For a unit normal, reflection negates the normal component, keeps the tangential part and keeps the length. |
| VecOps.ReflectInvolution | src/lib.rs:89-91 | Reflecting twice about a unit normal gives back the vector. |
| VecOps.RefractPerpendicular | src/util/vec.rs:11-16 | The perpendicular part of the refracted ray is orthogonal to the normal with squared length ratio^2 (1 - cos^2). |
| VecOps.RefractUnit | src/util/vec.rs:11-16 | Below the critical angle, a unit vector refracts to a unit vector on the far side of the surface. |
| VecOps.RefractStraight | src/lib.rs:93-98 | With ratio 1 a unit vector passes through unchanged. |
| Onbs.HelperNotParallel | src/util/onb.rs:11 | The helper axis is never parallel to a unit w: the cross product's squared length is at least 0.19. |
| Onbs.NewFromW | src/util/onb.rs:9-15 | The basis is orthonormal, w is parallel to the input and points the same way, and u = w x v. |
| Onbs.LocalCoordinates | src/util/onb.rs:17-19 | `local(a)` has coordinates a along u, v and w, and `local(0,0,1)` is w. |
| Onbs.LocalLinear | src/util/onb.rs:17-19 | `local` is linear. |
| Smoothing.Hermite | src/util/mod.rs:12-14 | Hermite smoothing fixes exactly 0, 1/2 and 1. |
| Smoothing.HermiteUnitInterval | src/util/mod.rs:12-14 | It maps [0, 1] into [0, 1]. |
| Smoothing.HermiteSymmetric | src/util/mod.rs:12-14 | h(1 - t) = 1 - h(t). |
| Smoothing.HermiteMonotone | src/util/mod.rs:12-14 | It is monotone on [0, 1]. |
| PerlinNoise.Identity | src/util/perlin.rs:78-80 | The starting table maps each index to itself. |
| PerlinNoise.Swap | src/util/perlin.rs:82-84 | A swap exchanges two entries, leaves the rest and keeps the multiset. |
| PerlinNoise.Partner | src/util/perlin.rs:82-84 | The swap partner of i is at most i. |
| PerlinNoise.ShuffledPermutation | src/util/perlin.rs:82-84 | Every stage of the shuffle is a permutation of 0..255. |
| PerlinNoise.PermutationValues | src/util/perlin.rs:75-87 | A permutation of 0..255 holds valid indices and every index appears. |
| PerlinNoise.GeneratePerm | src/util/perlin.rs:75-87 | The loops build the shuffled table, a permutation of 0..255. |
| PerlinNoise.New | src/util/perlin.rs:19-31 | A new generator is valid, keeps the given gradients, and holds three permutation tables of 0..255. |
| PerlinNoise.Lattice | src/util/perlin.rs:46-48 | `(i + di) & 255` is below 256 and equals i + di when that is in range. |
| PerlinNoise.LatticePeriodic | src/util/perlin.rs:46-48 | The masked index has period 256. |
| PerlinNoise.Xor3 | src/util/perlin.rs:46-49 | The xor of three table entries is a valid gradient index. |
| PerlinNoise.Frac | src/util/perlin.rs:34-36 | The fractional part lies in [0, 1) and differs from the input by an integer. |
| PerlinNoise.FracPeriodic | src/util/perlin.rs:34-40 | Shifting the point by a whole number keeps the fractional part and shifts the floor. |
| PerlinNoise.TrilinearConstant | src/util/perlin.rs:90-103 | Trilinear interpolation of equal corners gives that value. |
| PerlinNoise.TrilinearCorners | src/util/perlin.rs:90-103 | At a corner, trilinear interpolation returns that corner's value. |
| PerlinNoise.PerlinIsSmoothedTrilinear | src/util/perlin.rs:105-123 | Gradient interpolation is trilinear interpolation, at Hermite-smoothed weights, of each corner's gradient dotted with the offset. |
| PerlinNoise.PerlinInterpCorners | src/util/perlin.rs:105-123 | Gradient interpolation is zero at the cell's corners. |
| PerlinNoise.NoiseAtLattice | src/util/perlin.rs:33-55 | Noise is zero at every lattice point. |
| PerlinNoise.NoisePeriodic | src/util/perlin.rs:33-55 | Noise repeats with period 256 along each axis. |
| PerlinNoise.Terb | src/util/perlin.rs:61-73 | Turbulence is the absolute value of the weighted octave sum, so it is non-negative. |
| PerlinNoise.OctaveStep | src/util/perlin.rs:66-70 | Each loop turn adds one octave and halves the weight while doubling the point. |
| Textures.NewChecker | src/texture.rs:25-31 | The checker stores the reciprocal of its scale and its two textures. |
| Textures.RemTwo | src/texture.rs:40 | Rust's `% 2` truncates: the result lies in (-2, 2), takes the sign of its operand, and has the operand's parity. |
| Textures.RemTwoParity | src/texture.rs:40 | `% 2` is zero exactly for even operands, and -1 for negative odd ones. |
| Textures.EvenCellIffEven | src/texture.rs:36-40 | The even texture is chosen exactly when the sum of the three cell indices is even, including negative sums. |
| Textures.CheckerShiftFlips | src/texture.rs:35-45 | Moving one scale along x switches between the two textures. |
| Textures.GetPixel | src/texture.rs:61 | A pixel is returned exactly for in-bounds coordinates, with valid channels. |
| Textures.Channels | src/texture.rs:62-66 | Each channel is its byte divided by 256, so it lies in [0, 255/256]. |
| Textures.PixelIndex | src/texture.rs:55-59 | The column lies in 0..=width and reaches width exactly at u >= 1. The row lies in 0..=height and reaches height at v <= 0. |
| Textures.ImageEdgePanics | src/texture.rs:58-61 | As written, sampling at u = 1 reads the column one past the image, so `get_pixel` fails. |
| Textures.ImageSample | src/texture.rs:49-67 | The corrected sample returns the debug colour for an empty image and otherwise an in-bounds pixel's channels. |
| Textures.ImageSampleAgrees | src/texture.rs:49-67 | Wherever the as-written sample succeeds it agrees with the corrected one, and it succeeds for u in [0, 1) and v in (0, 1]. |
| Textures.NoiseSample | src/texture.rs:82-86 | The noise texture is a grey level in [0, 1]. |
| Textures.Sample | src/texture.rs:10-45 | Dispatch: a solid colour is returned as is, a checker samples its even or odd texture by cell parity, and noise is grey in [0, 1]. An image is read with the corrected sampler, which equals the as-written sample wherever that one does not panic. |
| Textures.SpatialIgnoresUV | src/texture.rs:35-45 | A texture built without images does not depend on u and v. |
| Sampling.RandomF64s | src/util/random.rs:4-15 | The loop returns the n draws in order, each in [min, max). |
| Sampling.RandomF64 | src/util/random.rs:17-19 | One draw lies in [min, max). |
| Sampling.TwoRandomF64s | src/util/random.rs:21-24 | Both draws lie in [min, max). |
| Sampling.RandomVecInRange | src/util/random.rs:26-28 | Each coordinate lies in [min, max). |
| Sampling.RandomIntInRange | src/util/random.rs:30-32 | Rounding a draw in [min, max) gives an integer in [min, max] within 1/2 of the draw. |
| Sampling.InUnitSphere | src/util/random.rs:34-41 | The result is the first candidate strictly inside the unit sphere; nothing is returned exactly when no candidate is inside. |
| Sampling.UnitSphereFromCube | src/lib.rs:52-59 | An accepted point was drawn from the cube [-1, 1)^3 and lies inside the unit sphere. |
| Sampling.InUnitDisk | src/util/random.rs:43-51 | The result is the first candidate inside the unit disk in the z = 0 plane, every earlier one being outside; nothing is returned exactly when none is inside. |
| Sampling.UnitVector | src/util/random.rs:53-55 | Normalising a non-zero point of the ball gives a unit vector in its direction. |
| Sampling.OnHemisphere | src/util/random.rs:57-65 | The result is the input or its negation, of equal length, on the normal's side. It is the input exactly when the input already points that side. |
| Colors.LinearToGamma | src/util/color.rs:3-5 | Gamma correction is the non-negative square root. |
| Colors.GammaOfSquare | src/lib.rs:17-19 | Gamma correction undoes squaring. |
| Colors.ChannelByte | src/util/color.rs:7-12 | A channel quantises to a byte in 0..=255, and a non-positive sum gives 0. |
| Colors.ChannelMonotone | src/util/color.rs:10-12 | A brighter channel never gives a smaller byte. |
| Colors.ChannelSaturates | src/lib.rs:21-29 | An average of at least 1 gives 255. |
| Colors.ConvertColor | src/util/color.rs:7-15 | `convert_color` gives three bytes in 0..=255. |
| Colors.BlackIsZero | src/util/color.rs:7-15 | Black quantises to [0, 0, 0], the value a resumed render treats as not yet rendered. |
| Colors.ConvertMonotone | src/util/color.rs:7-15 | Each byte is monotone in its own channel. |
| Colors.Decimal | src/util/color.rs:19 | Formatting a byte gives a non-empty digit string without spaces or newlines. |
| Colors.DecimalRoundTrip | src/util/color.rs:19 | Reading the decimal digits back gives the number. |
| Colors.WriteColor | src/util/color.rs:17-20 | The pixel line ends with a newline. |
| Colors.WriteColorReadsBack | src/util/color.rs:17-20 | The pixel line parses back as exactly the three bytes of `convert_color`. |
| Cameras.ImageHeight | src/camera.rs:101 | The image height is the integer part of max(width / aspect, 1), saturating at the largest `i32`. An aspect of 0 gives the largest `i32` for a positive width (+inf) and 1 otherwise (NaN or -inf, which `max` replaces). |
| Cameras.SaturatingTrunc | src/camera.rs:101 | The `as i32` cast of a number at least 1 is its integer part, or the largest `i32` from there on. |
| Cameras.ImageHeightFollowsAspect | src/camera.rs:101 | When the width is at least the aspect ratio and the quotient fits an `i32`, the height is the integer part of width / aspect. |
| Cameras.ImageHeightOppositeSigns | src/camera.rs:101 | A width and an aspect ratio of opposite signs give a height of 1. |
| Cameras.PixelSquaresTile | src/camera.rs:158-163 | Pixel sample squares tile the viewport, and the offset (1/2, 1/2) is the pixel centre. |
| Cameras.DiskCenterIsOrigin | src/camera.rs:153-156 | The centre of the defocus disk is the camera's origin. |
| Cameras.GetRay | src/camera.rs:137-150 | The ray starts at the origin without defocus, otherwise at the disk sample. It reaches the pixel sample at t = 1 and carries the drawn time. |
| Cameras.RayColorStep | src/camera.rs:165-184 | One level of `ray_color`: the background on a miss, the emission when the material absorbs, and otherwise emission plus attenuation times the next level. |
| Cameras.RayColorBounded | src/camera.rs:165-184 | With bounded emission, attenuation at most 1 and a bounded background, every channel lies in [0, depth e + b]. |
| Cameras.TraceIterative | src/camera.rs:165-184 | An iterative loop computes the same colour as the recursion. |
| Cameras.PixelsRowMajor | src/camera.rs:193-195 | The pixel list is row-major: entry k is (k mod width, k div width). |
| Cameras.PixelIndex | src/camera.rs:193-195 | Pixel (i, j) is entry j * width + i. |
| Cameras.ChunksOfFile | src/camera.rs:203-219 | A file of the right size splits into one triple per pixel, triple k being bytes 3k..3k+3. |
| Cameras.Zip | src/camera.rs:224 | Zipping pairs entries up to the shorter length. |
| Cameras.Resume | src/camera.rs:203-219 | A pixel counts as done exactly when the file has the expected size and the pixel's triple is not all zero. |
| Cameras.Checkpoint | src/camera.rs:203-221 | The checkpoint buffer has the file size, and is all zeros when the old file's size did not match. |
| Cameras.ResumeConsistent | src/camera.rs:203-221 | A pixel is done exactly when its slot in the checkpoint buffer is not black. |
| Cameras.SampleSumBounded | src/camera.rs:254-258 | The sum of n samples in [0, b] lies in [0, n b]. |
| Cameras.PixelColor | src/camera.rs:254-258 | The sampling loop computes the sum of the pixel's samples. |
| Cameras.Render | src/camera.rs:248-262 | Done pixels keep their bytes, and every other pixel gets `convert_color` of its sample sum. |
| Cameras.FlattenTriples | src/camera.rs:224 | Writing one triple per slot puts slot k at bytes 3k..3k+3, giving the file size. |
| Cameras.ResumeAfterRender | src/camera.rs:186-279 | After a render, a rerun skips exactly the pixels that were done before or were rendered to a non-black colour. |
| Cameras.ProgressAsWritten | src/camera.rs:190-234 | As written, the progress step divides by zero exactly when there are fewer than 100 pixels; otherwise it reports at multiples of total/100. |
| Cameras.ProgressPanicsOnSmallImage | src/camera.rs:190-234 | A 99-pixel image makes the progress check divide by zero. |
| Cameras.Progress | src/camera.rs:229-239 | The corrected progress check never divides by zero, and reports every pixel for images under 100 pixels. |
| Cameras.ProgressAgrees | src/camera.rs:229-239 | Where the as-written check does not panic, it agrees with the corrected one. |
| Cameras.Percent | src/camera.rs:237 | The reported percentage lies in 0..=100: 0 at the start and 100 at the end. |

## Left out

- Floating-point rounding, NaN and infinities other than interval bounds: all arithmetic is exact real arithmetic. `f32` in the camera's image height is modelled as a real.
- Integer overflow of `i32`/`usize`: integers are unbounded. A float-to-integer `as` cast is truncation toward zero (`Numeric.Trunc`). Only the image height's cast also saturates (`Cameras.SaturatingTrunc`); the other casts only ever see small values.
- Square roots, `sin`, `cos`, `tan`, `acos`, `atan2`, `log10` and `powi`: square roots and sines are parameters with their defining property. `atan2`/`acos` appear only inside `get_sphere_uv`, which is a parameter. The camera's and the rotation's trigonometric values are given as numbers.
- Camera `initialize` (src/camera.rs:100-133): only the image height is modelled. The viewport vectors are the camera's fields, because they come from `tan` and cross products whose exact values do not enter any stated property.
- Threads (`rayon`), the memory map, file creation and `set_len`, timing and the progress thread's printing: the render loop is sequential and the file is a sequence of integers.
- Writing `image.jpg` with `image::save_buffer` and the final `remove_file` of the raw file (src/camera.rs:265-274): file-system effects after the pixels are computed.
- Randomness: every draw is a parameter. Rejection loops take a finite list of candidates, and running out of candidates gives `None`.
- Spheres.Hit, Spheres.HitNearest: require a non-zero radius, where the source would divide by zero and produce NaN.
- Quads.New, Quads.NewCorrected: require a non-degenerate quad (u x v not zero), where the source's normalisation divides by zero.
- Materials.DielectricScatter: requires ir > 0 and a non-zero incoming direction. The source has no such guard. A zero direction normalizes to NaN in glam. At ir = 0 on a front face `1.0 / self.ir` is infinite, and at ir = -1 Schlick's `1.0 + ref_idx` (src/material.rs:99) is 0. Any other negative index computes without division by zero but gives a negative refraction ratio, outside Schlick's approximation, which the model states only for positive indices. Every scene passes `Dielectric::new(1.5)`.
- ConstantMedia.New: requires a non-zero density, where the source divides by zero.
- ConstantMedia.Hit: where the source's t would not be a real number, the model reports no hit. This happens for a negative density with a draw of 0 (t = -inf) and for a zero factor with a draw of 0 (t = NaN). Such a factor comes only from an infinite density.
- Materials.Scatter: a dielectric still requires a non-zero incoming direction and ir > 0, as `Materials.DielectricScatter` does. In the source a zero direction gives a NaN scattered ray, which is not a real vector.
- Textures.NewChecker: requires a non-zero scale. At scale 0 the source stores `inv_scale = inf` and keeps sampling. Each cell index is then `floor(inf * x) as i32`: `i32::MAX` for x > 0, `i32::MIN` for x < 0, and 0 for x = 0, where the product is NaN. The sum of three such indices can overflow `i32`. Reals have no infinity, so the model leaves this out. The scenes pass scales 1.0 and 0.8.
- Cameras.Render: requires at least one sample per pixel. With 0 samples, the source's sample loop (src/camera.rs:255) runs zero times. `convert_color`'s scale `1.0 / 0` is then +inf, and `0 * inf` is NaN. `clamp` keeps the NaN and `as u8` turns it into 0, so every pixel is written as [0, 0, 0] (src/util/color.rs:8-12). The model's scale is a real division, which has no value at 0. Every scene sets a positive sample count.
- Cameras.ImageHeight: reals have no signed zero, so an aspect ratio of `-0.0` is the aspect 0 (height `I32Max` for a positive width), where the source gets `-inf` and height 1. The `as f32` rounding of a width beyond 2^24 is not modelled.
- Spheres.HitAsWritten: requires a non-zero radius. At radius 0 the source divides the outward normal by zero and gets a NaN normal; the corrected `Spheres.HitFunction` reports no hit there.
- Sampling.UnitVector: requires a non-zero sample. `normalize` of the origin is NaN in glam, which is not a real vector.
- Onbs.NewFromW: requires a non-zero vector, for the same reason.
- Instances.NewRotation: requires a finite child box. An infinite bound makes `0 * inf` NaN in the corner arithmetic when the sine or cosine is 0.
- ConstantMedia.Hit: requires a non-zero ray direction, where the source's `length()` is 0 and the distance division would give inf or NaN. With a sphere or quad boundary the source returns a plain `None` before that: the quad misses a ray whose denominator is 0, and the sphere's root is 0 / 0, which no window contains.
- Quad hits and boxes: that a quad's hits lie in its box is not proved in general. The diagonal box as written misses corners (Findings), and the padded corner box holds every point (`Quads.PlanePointInCornerBox`).
- Aabb.Axis has no contract row: its panic on an index above 2 is its precondition. `Bvh.SplitAxis` shows the only caller never reaches it.
- `Aabb::pad` and `Interval::UNIVERSE` are not part of this model's source files. The padded box and the universe interval are parameters.
- `Translate::new`'s box (`bbox + offset`) relies on an `Add` impl for the box that is not part of this model. The translate instance takes its box as given.
- `Isotropic` and `emitted`: the materials file defines neither, so the volume's phase function and the emitted light are type and function parameters.
- `Perlin::turb`'s octave loop is modelled (`PerlinNoise.Terb`). The noise texture takes turbulence as a parameter.
- Instances.NewRotation: states that the box contains the eight rotated corners and that each bound is attained (`Instances.RotationBoxTight`). It does not prove that every rotated interior point is inside the box.
- Bvh.Sort: the comparator never answers `Equal`, so the order of equal keys depends on the sort implementation. The model sorts stably, and the properties stated about the tree do not depend on that order. Such a comparator is not a total order, and recent Rust standard libraries may panic in `sort_by` when they detect that; the model does not.
- Bvh.Build: requires at least one object. On an empty slice the source's `_` arm takes `mid = 0` and calls itself on the same empty slice, recursing until the stack overflows.
- Aabb.HitAsWritten, Aabb.Hit, Bvh.Hit, Bvh.HitCorrected, Bvh.AsWrittenAdmits, Bvh.ClosedAdmits, Bvh.HitComplete, Bvh.HitCorrectedComplete and SphereTrees.SphereTreeComplete: require non-zero direction components on the slabs they examine. The source divides by zero there and relies on IEEE infinities.
- Bvh.BuildShape: also records that the two-object case puts the smaller key on the left, while three or more objects are sorted largest key first. Both orders are as the source has them.
- Cameras.RayColorStep: the scatter function also receives the remaining depth, which keys each bounce's random draws. The source's `scatter` has no such argument.
- Accessors `Onb::u`, `Onb::v` and `Onb::w`, and `Ray::new_with_time`, are the datatypes' fields and constructor.
- Textures.Sample: the image case uses the corrected sampler `Textures.ImageSample`, not the as-written one that panics at u = 1 (the Findings table). `Textures.ImageSampleAgrees` relates the two.
- Textures.ImageSample: an image of width 0 takes the debug branch. As written, only height 0 does, and width 0 would panic in `get_pixel`.

## Findings

| source | as written | input that shows it | evidently intended | confidence | as-written member | corrected member |
|---|---|---|---|---|---|---|
| src/aabb.rs:53 | the slab loop runs over `0..2`, so the z slab is never examined | unit cube, ray from (0.5, 0.5, 5) along (1, 1, 1), window [0, inf) | test all three axes, `0..3` | not executed | Aabb.ZSlabIgnored | Aabb.HitFindsInteriorPoint |
| src/texture.rs:58-61 | the column index is `u * width` truncated, which is `width` at u = 1 | any non-empty image, u = 1 | clamp the index to width - 1 | not executed | Textures.ImageEdgePanics | Textures.ImageSample |
| src/camera.rs:190-234 | `pixels_per_percent = total / 100` is 0 below 100 pixels, and `% 0` panics | a 99-pixel image | report with a step of at least 1 | not executed | Cameras.ProgressPanicsOnSmallImage | Cameras.Progress |
| src/hittable/hittable_list.rs:25 | `self.bbox.expand(..)` returns a new box that is discarded | add the unit cube to an empty list | assign the expanded box back | not executed | HittableLists.AddAsWrittenLosesBox | HittableLists.AddKeepsCover |
| src/hittable/sphere.rs:101 | the outward normal is taken from the time-0 centre, not the centre at the ray's time | moving sphere hit at time 1 | use `position(r.time)` | not executed | Spheres.MovingNormalAsWritten | Spheres.HitNearest |
| src/aabb.rs:67 | `ray_t.max <= ray_t.min` rejects a window that shrinks to one time, so a ray touching a box only on an edge is pruned | quad q = 0, u = (1, 0, 0), v = (0, 1, 0) alone in a node; ray (-1, 0, -1) + t (1, 1, 1) hits its corner (0, 1, 0) at t = 1, the window becomes [1, 1] | reject only `max < min` | not executed | GrazingQuad.GrazingQuadMissed | Bvh.HitCorrectedComplete |
| src/hittable/quad.rs:40 | the box spans only q and q + u + v | q = 0, u = (1, 0, 0), v = (-1, 1, 0): corner q + u = (1, 0, 0) lies outside | span all four corners | not executed | Quads.DiagonalBoxMissesCorner | Quads.PlanePointInCornerBox |

=== FILE: aabb.dfy ===
/**
 The axis-aligned bounding box of `src/aabb.rs`: one interval per axis, and
 the slab test that decides whether a ray window meets the box.
 */
module Aabb {
  import opened ExtReal
  import opened Vectors
  import opened Intervals
  import opened Rays
  import opened Options

  datatype AABB = AABB(x: Interval, y: Interval, z: Interval)

  /** `axis`: the interval of axis 0, 1 or 2; any other index panics, which is the precondition. */
  function Axis(b: AABB, a: int): Interval
    requires 0 <= a <= 2
  {
    if a == 0 then b.x else if a == 1 then b.y else b.z
  }

  predicate InBox(b: AABB, p: Vec3) {
    Contains(b.x, p.x) && Contains(b.y, p.y) && Contains(b.z, p.z)
  }

  /** `outer` covers `inner` on every axis. */
  predicate Encloses(outer: AABB, inner: AABB) {
    forall a :: 0 <= a <= 2 ==>
      Le(Axis(outer, a).min, Axis(inner, a).min) && Le(Axis(inner, a).max, Axis(outer, a).max)
  }

  lemma EnclosesInBox(outer: AABB, inner: AABB, p: Vec3)
    requires Encloses(outer, inner) && InBox(inner, p)
    ensures InBox(outer, p)
  {
    assert Axis(outer, 0) == outer.x && Axis(inner, 0) == inner.x;
    assert Axis(outer, 1) == outer.y && Axis(inner, 1) == inner.y;
    assert Axis(outer, 2) == outer.z && Axis(inner, 2) == inner.z;
    LeTrans(outer.x.min, inner.x.min, Fin(p.x));
    LeTrans(Fin(p.x), inner.x.max, outer.x.max);
    LeTrans(outer.y.min, inner.y.min, Fin(p.y));
    LeTrans(Fin(p.y), inner.y.max, outer.y.max);
    LeTrans(outer.z.min, inner.z.min, Fin(p.z));
    LeTrans(Fin(p.z), inner.z.max, outer.z.max);
  }

  lemma EnclosesTrans(a: AABB, b: AABB, c: AABB)
    requires Encloses(a, b) && Encloses(b, c)
    ensures Encloses(a, c)
  {
    forall k | 0 <= k <= 2
      ensures Le(Axis(a, k).min, Axis(c, k).min) && Le(Axis(c, k).max, Axis(a, k).max)
    {
      LeTrans(Axis(a, k).min, Axis(b, k).min, Axis(c, k).min);
      LeTrans(Axis(c, k).max, Axis(b, k).max, Axis(a, k).max);
    }
  }

  lemma EnclosesRefl(a: AABB)
    ensures Encloses(a, a)
  {
  }

  /** `new_empty`: the default (empty) interval on every axis, so no point is inside. */
  function NewEmpty(): (b: AABB)
    ensures b.x == Default() && b.y == Default() && b.z == Default()
    ensures forall p :: !InBox(b, p)
  {
    AABB(Default(), Default(), Default())
  }

  /** The interval spanned by two coordinates, whichever order they come in. */
  function Span(u: real, v: real): (i: Interval)
    ensures i.min.Fin? && i.max.Fin? && i.min.r <= i.max.r
    ensures Contains(i, u) && Contains(i, v)
    ensures forall n :: Contains(i, n) <==> (u <= n <= v || v <= n <= u)
  {
    Interval(Fin(if u <= v then u else v), Fin(if u <= v then v else u))
  }

  /**
   `from_points`: the smallest box holding both corners; on each axis the
   interval runs from the smaller to the larger coordinate.
   */
  function FromPoints(a: Vec3, b: Vec3): (r: AABB)
    ensures InBox(r, a) && InBox(r, b)
    ensures r.x.min.Fin? && r.x.max.Fin? && r.x.min.r <= r.x.max.r
    ensures r.y.min.Fin? && r.y.max.Fin? && r.y.min.r <= r.y.max.r
    ensures r.z.min.Fin? && r.z.max.Fin? && r.z.min.r <= r.z.max.r
    ensures forall p :: InBox(r, p) <==>
      (a.x <= p.x <= b.x || b.x <= p.x <= a.x) &&
      (a.y <= p.y <= b.y || b.y <= p.y <= a.y) &&
      (a.z <= p.z <= b.z || b.z <= p.z <= a.z)
  {
    AABB(Span(a.x, b.x), Span(a.y, b.y), Span(a.z, b.z))
  }

  lemma FromPointsCommutative(a: Vec3, b: Vec3)
    ensures FromPoints(a, b) == FromPoints(b, a)
  {
  }

  /** `from_boxes`: the box enclosing both arguments, axis by axis. */
  function FromBoxes(b1: AABB, b2: AABB): (r: AABB)
    ensures Encloses(r, b1) && Encloses(r, b2)
    ensures forall p :: InBox(b1, p) || InBox(b2, p) ==> InBox(r, p)
  {
    AABB(FromIntervals(b1.x, b2.x), FromIntervals(b1.y, b2.y), FromIntervals(b1.z, b2.z))
  }

  lemma FromBoxesCommutative(b1: AABB, b2: AABB)
    ensures FromBoxes(b1, b2) == FromBoxes(b2, b1)
  {
    FromIntervalsCommutative(b1.x, b2.x);
    FromIntervalsCommutative(b1.y, b2.y);
    FromIntervalsCommutative(b1.z, b2.z);
  }

  /** Any box enclosing both arguments encloses their union: `from_boxes` is the least such box. */
  lemma FromBoxesLeast(b1: AABB, b2: AABB, c: AABB)
    requires Encloses(c, b1) && Encloses(c, b2)
    ensures Encloses(c, FromBoxes(b1, b2))
  {
    var r := FromBoxes(b1, b2);
    forall k | 0 <= k <= 2
      ensures Le(Axis(c, k).min, Axis(r, k).min) && Le(Axis(r, k).max, Axis(c, k).max)
    {
    }
  }

  /**
   `expand`: returns `from_boxes(self, other)` as a NEW box; the receiver is
   not modified, so a caller that drops the result keeps its old box.
   */
  function Expand(self: AABB, other: AABB): (r: AABB)
    ensures Encloses(r, self) && Encloses(r, other)
    ensures forall c :: Encloses(c, self) && Encloses(c, other) ==> Encloses(c, r)
  {
    var r := FromBoxes(self, other);
    forall c | Encloses(c, self) && Encloses(c, other)
      ensures Encloses(c, r)
    {
      FromBoxesLeast(self, other, c);
    }
    r
  }

  // ---------------------------------------------------------------------------
  // The slab test
  // ---------------------------------------------------------------------------

  /** The direction has a non-zero component on each of the first `n` axes (so `1.0 / d` is finite). */
  predicate NonZeroDirection(r: Ray, n: nat) {
    forall a :: 0 <= a < n && a <= 2 ==> Get(r.direction, a) != 0.0
  }

  /**
   Entry and exit parameters of the ray through the slab of axis `a`, after
   the swap that orders them when the direction component is negative.
   */
  function SlabTimes(b: AABB, r: Ray, a: int): (ts: (EReal, EReal))
    requires 0 <= a <= 2
    requires Get(r.direction, a) != 0.0
  {
    var invD := 1.0 / Get(r.direction, a);
    var orig := Get(r.origin, a);
    var t0 := Times(Shift(Axis(b, a).min, -orig), invD);
    var t1 := Times(Shift(Axis(b, a).max, -orig), invD);
    if invD < 0.0 then (t1, t0) else (t0, t1)
  }

  /** One iteration of the loop body: narrow the window to the slab, or report a miss. */
  function SlabStep(b: AABB, r: Ray, rayT: Interval, a: int): (o: Option<Interval>)
    requires 0 <= a <= 2
    requires Get(r.direction, a) != 0.0
    ensures o.Some? ==> Le(rayT.min, o.value.min) && Le(o.value.max, rayT.max) && Lt(o.value.min, o.value.max)
  {
    var (t0, t1) := SlabTimes(b, r, a);
    var lo := if Lt(rayT.min, t0) then t0 else rayT.min;
    var hi := if Lt(t1, rayT.max) then t1 else rayT.max;
    if Le(hi, lo) then None else Some(Interval(lo, hi))
  }

  /** The loop `for a in k..n` of `hit`, carrying the narrowed window. */
  function SlabLoop(b: AABB, r: Ray, rayT: Interval, k: nat, n: nat): (o: Option<Interval>)
    requires n <= 3
    requires NonZeroDirection(r, n)
    ensures o.Some? ==> Le(rayT.min, o.value.min) && Le(o.value.max, rayT.max)
    ensures o.Some? && k < n ==> Lt(o.value.min, o.value.max)
    decreases n - k
  {
    if k >= n then Some(rayT)
    else
      match SlabStep(b, r, rayT, k)
      case None => None
      case Some(next) =>
        SlabLoop(b, r, next, k + 1, n)
  }

  /**
   `hit` as written: the loop runs `for a in 0..2`, so only the x and y slabs
   are examined and the z extent of the box never causes a miss.
   */
  function HitAsWritten(b: AABB, r: Ray, rayT: Interval): (o: Option<Interval>)
    requires NonZeroDirection(r, 2)
    ensures o.Some? ==> Le(rayT.min, o.value.min) && Lt(o.value.min, o.value.max) && Le(o.value.max, rayT.max)
  {
    SlabLoop(b, r, rayT, 0, 2)
  }

  /** `hit` with all three slabs examined, the evident intent of the loop. */
  function Hit(b: AABB, r: Ray, rayT: Interval): (o: Option<Interval>)
    requires NonZeroDirection(r, 3)
    ensures o.Some? ==> Le(rayT.min, o.value.min) && Lt(o.value.min, o.value.max) && Le(o.value.max, rayT.max)
  {
    SlabLoop(b, r, rayT, 0, 3)
  }

  /** Scalar step of the slab test: dividing an inequality by a positive direction component. */
  lemma DivPositive(x: real, t: real, d: real)
    requires d > 0.0
    ensures x < t * d ==> x * (1.0 / d) < t
    ensures t * d < x ==> t < x * (1.0 / d)
  {
    var k := 1.0 / d;
    assert d * k == 1.0;
    if x < t * d {
      calc {
        x * k;
      < { MulLt(x, t * d, k); }
        t * d * k;
        t;
      }
    }
    if t * d < x {
      calc {
        t;
        t * d * k;
      < { MulLt(t * d, x, k); }
        x * k;
      }
    }
  }

  /** The same step for a negative direction component, which reverses the inequality. */
  lemma DivNegative(x: real, t: real, d: real)
    requires d < 0.0
    ensures t * d < x ==> x * (1.0 / d) < t
    ensures x < t * d ==> t < x * (1.0 / d)
  {
    DivPositive(-x, t, -d);
    assert 1.0 / -d == -(1.0 / d);
    assert (-x) * (1.0 / -d) == x * (1.0 / d);
    assert t * -d == -(t * d);
  }

  lemma MulLt(a: real, b: real, k: real)
    requires a < b && k > 0.0
    ensures a * k < b * k
  {
  }

  /** The point reached at `t` lies strictly inside the box on each of the first `n` axes. */
  predicate StrictlyInside(b: AABB, p: Vec3, n: nat) {
    forall a :: 0 <= a < n && a <= 2 ==>
      Lt(Axis(b, a).min, Fin(Get(p, a))) && Lt(Fin(Get(p, a)), Axis(b, a).max)
  }

  /** A point strictly inside a box is strictly inside every box that encloses it. */
  lemma StrictlyInsideEnclosed(outer: AABB, inner: AABB, p: Vec3, n: nat)
    requires Encloses(outer, inner) && StrictlyInside(inner, p, n)
    ensures StrictlyInside(outer, p, n)
  {
    forall a | 0 <= a < n && a <= 2
      ensures Lt(Axis(outer, a).min, Fin(Get(p, a))) && Lt(Fin(Get(p, a)), Axis(outer, a).max)
    {
      LeLtTrans(Axis(outer, a).min, Axis(inner, a).min, Fin(Get(p, a)));
      LtLeTrans(Fin(Get(p, a)), Axis(inner, a).max, Axis(outer, a).max);
    }
  }

  /**
   When the ray is strictly inside the slab of axis `a` at parameter `t`, the
   slab's entry parameter is below `t` and its exit parameter above it.
   */
  lemma SlabTimesAround(b: AABB, r: Ray, a: int, t: real)
    requires 0 <= a <= 2
    requires Get(r.direction, a) != 0.0
    requires Lt(Axis(b, a).min, Fin(Get(At(r, t), a))) && Lt(Fin(Get(At(r, t), a)), Axis(b, a).max)
    ensures Lt(SlabTimes(b, r, a).0, Fin(t)) && Lt(Fin(t), SlabTimes(b, r, a).1)
  {
    var d := Get(r.direction, a);
    var o := Get(r.origin, a);
    assert Get(At(r, t), a) == o + t * d;
    var lo, hi := Axis(b, a).min, Axis(b, a).max;
    if d > 0.0 {
      assert 1.0 / d > 0.0;
      EntryBelow(lo, o, d, t);
      ExitAbove(hi, o, d, t);
    } else {
      assert 1.0 / d < 0.0;
      EntryBelowNegative(hi, o, d, t);
      ExitAboveNegative(lo, o, d, t);
    }
  }

  lemma EntryBelow(lo: EReal, o: real, d: real, t: real)
    requires d > 0.0 && Lt(lo, Fin(o + t * d))
    ensures Lt(Times(Shift(lo, -o), 1.0 / d), Fin(t))
  {
    if lo.Fin? {
      DivPositive(lo.r - o, t, d);
    }
  }

  lemma ExitAbove(hi: EReal, o: real, d: real, t: real)
    requires d > 0.0 && Lt(Fin(o + t * d), hi)
    ensures Lt(Fin(t), Times(Shift(hi, -o), 1.0 / d))
  {
    if hi.Fin? {
      DivPositive(hi.r - o, t, d);
    }
  }

  lemma EntryBelowNegative(hi: EReal, o: real, d: real, t: real)
    requires d < 0.0 && Lt(Fin(o + t * d), hi)
    ensures Lt(Times(Shift(hi, -o), 1.0 / d), Fin(t))
  {
    if hi.Fin? {
      DivNegative(hi.r - o, t, d);
    }
  }

  lemma ExitAboveNegative(lo: EReal, o: real, d: real, t: real)
    requires d < 0.0 && Lt(lo, Fin(o + t * d))
    ensures Lt(Fin(t), Times(Shift(lo, -o), 1.0 / d))
  {
    if lo.Fin? {
      DivNegative(lo.r - o, t, d);
    }
  }

  /** On a box whose axis is not inverted, the (swapped) entry parameter never exceeds the exit parameter. */
  lemma SlabTimesOrdered(b: AABB, r: Ray, a: int)
    requires 0 <= a <= 2
    requires Get(r.direction, a) != 0.0
    requires Le(Axis(b, a).min, Axis(b, a).max)
    ensures Le(SlabTimes(b, r, a).0, SlabTimes(b, r, a).1)
  {
    var d := Get(r.direction, a);
    var o := Get(r.origin, a);
    var k := 1.0 / d;
    var lo, hi := Axis(b, a).min, Axis(b, a).max;
    if lo.Fin? && hi.Fin? && lo.r < hi.r {
      if k > 0.0 {
        MulLt(lo.r - o, hi.r - o, k);
      } else {
        MulLt(lo.r - o, hi.r - o, -k);
        assert (lo.r - o) * -k == -((lo.r - o) * k);
        assert (hi.r - o) * -k == -((hi.r - o) * k);
      }
    }
  }

  /** One slab keeps a window that holds `t` strictly inside the slab, and keeps it non-degenerate. */
  lemma SlabStepKeeps(b: AABB, r: Ray, rayT: Interval, a: int, t: real)
    requires 0 <= a <= 2
    requires Get(r.direction, a) != 0.0
    requires Contains(rayT, t) && Lt(rayT.min, rayT.max)
    requires Lt(Axis(b, a).min, Fin(Get(At(r, t), a))) && Lt(Fin(Get(At(r, t), a)), Axis(b, a).max)
    ensures SlabStep(b, r, rayT, a).Some?
    ensures Contains(SlabStep(b, r, rayT, a).value, t)
  {
    SlabTimesAround(b, r, a, t);
    var (t0, t1) := SlabTimes(b, r, a);
    LtLeTrans(t0, Fin(t), rayT.max);
    LeLtTrans(rayT.min, Fin(t), t1);
    LtLeTrans(t0, Fin(t), t1);
  }

  lemma SlabLoopKeeps(b: AABB, r: Ray, rayT: Interval, k: nat, n: nat, t: real)
    requires n <= 3
    requires NonZeroDirection(r, n)
    requires Contains(rayT, t) && Lt(rayT.min, rayT.max)
    requires StrictlyInside(b, At(r, t), n)
    ensures SlabLoop(b, r, rayT, k, n).Some?
    ensures Contains(SlabLoop(b, r, rayT, k, n).value, t)
    decreases n - k
  {
    if k < n {
      SlabStepKeeps(b, r, rayT, k, t);
      SlabLoopKeeps(b, r, SlabStep(b, r, rayT, k).value, k + 1, n, t);
    }
  }

  /**
   The slab test never prunes a real hit: if the ray is strictly inside the
   box at some `t` of a non-degenerate window, `hit` succeeds and the window
   it returns still holds `t`.
   */
  lemma HitFindsInteriorPoint(b: AABB, r: Ray, rayT: Interval, t: real)
    requires NonZeroDirection(r, 3)
    requires Contains(rayT, t) && Lt(rayT.min, rayT.max)
    requires StrictlyInside(b, At(r, t), 3)
    ensures Hit(b, r, rayT).Some? && Contains(Hit(b, r, rayT).value, t)
  {
    SlabLoopKeeps(b, r, rayT, 0, 3, t);
  }

  /**
   The two-slab test as written prunes no real hit either: being strictly
   inside the x and y slabs at `t` is enough for it to keep `t`.
   */
  lemma HitAsWrittenFindsInteriorPoint(b: AABB, r: Ray, rayT: Interval, t: real)
    requires NonZeroDirection(r, 2)
    requires Contains(rayT, t) && Lt(rayT.min, rayT.max)
    requires StrictlyInside(b, At(r, t), 2)
    ensures HitAsWritten(b, r, rayT).Some? && Contains(HitAsWritten(b, r, rayT).value, t)
  {
    SlabLoopKeeps(b, r, rayT, 0, 2, t);
  }

  /** A ray cast from strictly inside the box meets it over the universal window. */
  lemma HitFromInside(b: AABB, r: Ray)
    requires NonZeroDirection(r, 3)
    requires StrictlyInside(b, r.origin, 3)
    ensures Hit(b, r, Interval(NegInf, PosInf)).Some?
  {
    assert At(r, 0.0) == r.origin;
    HitFindsInteriorPoint(b, r, Interval(NegInf, PosInf), 0.0);
  }

  /** Testing fewer slabs can only accept more windows. */
  lemma SlabLoopPrefix(b: AABB, r: Ray, rayT: Interval, k: nat, m: nat, n: nat)
    requires m <= n <= 3
    requires NonZeroDirection(r, n)
    requires SlabLoop(b, r, rayT, k, n).Some?
    ensures SlabLoop(b, r, rayT, k, m).Some?
    decreases n - k
  {
    if k < m {
      SlabLoopPrefix(b, r, SlabStep(b, r, rayT, k).value, k + 1, m, n);
    }
  }

  /** Whatever the three-slab test accepts, the two-slab test as written accepts too. */
  lemma AsWrittenAcceptsMore(b: AABB, r: Ray, rayT: Interval)
    requires NonZeroDirection(r, 3)
    ensures Hit(b, r, rayT).Some? ==> HitAsWritten(b, r, rayT).Some?
  {
    if Hit(b, r, rayT).Some? {
      SlabLoopPrefix(b, r, rayT, 0, 2, 3);
    }
  }

  /**
   The loop bound `0..2` lets a ray through that never enters the box: the
   unit cube, probed from (0.5, 0.5, 5) along (1, 1, 1) over `[0, +inf)`,
   passes the test as written although every point of the ray at `t >= 0`
   has `z >= 5`; the three-slab test rejects it.
   */
  lemma ZSlabIgnored()
    ensures var b := AABB(Interval(Fin(0.0), Fin(1.0)), Interval(Fin(0.0), Fin(1.0)), Interval(Fin(0.0), Fin(1.0)));
            var r := Ray(Vec3(0.5, 0.5, 5.0), Vec3(1.0, 1.0, 1.0), 0.0);
            var w := Interval(Fin(0.0), PosInf);
            && HitAsWritten(b, r, w).Some?
            && Hit(b, r, w).None?
            && forall t :: Contains(w, t) ==> !InBox(b, At(r, t))
  {
    var b := AABB(Interval(Fin(0.0), Fin(1.0)), Interval(Fin(0.0), Fin(1.0)), Interval(Fin(0.0), Fin(1.0)));
    var r := Ray(Vec3(0.5, 0.5, 5.0), Vec3(1.0, 1.0, 1.0), 0.0);
    var w := Interval(Fin(0.0), PosInf);
    var s0 := SlabStep(b, r, w, 0);
    assert s0 == Some(Interval(Fin(0.0), Fin(0.5)));
    var s1 := SlabStep(b, r, s0.value, 1);
    assert s1 == Some(Interval(Fin(0.0), Fin(0.5)));
    assert SlabStep(b, r, s1.value, 2) == None;
  }
  // ---------------------------------------------------------------------------
  // The closed slab test
  // ---------------------------------------------------------------------------

  /**
   One slab with a closed comparison: a miss only when the narrowed window is
   inverted, so a ray that meets the slab at a single parameter (grazing an
   edge or a corner) is kept.
   */
  function SlabStepClosed(b: AABB, r: Ray, rayT: Interval, a: int): (o: Option<Interval>)
    requires 0 <= a <= 2
    requires Get(r.direction, a) != 0.0
    ensures o.Some? ==> Le(rayT.min, o.value.min) && Le(o.value.max, rayT.max) && Le(o.value.min, o.value.max)
  {
    var (t0, t1) := SlabTimes(b, r, a);
    var lo := if Lt(rayT.min, t0) then t0 else rayT.min;
    var hi := if Lt(t1, rayT.max) then t1 else rayT.max;
    LeTotal(lo, hi);
    if Lt(hi, lo) then None else Some(Interval(lo, hi))
  }

  /** The loop `for a in k..n` with the closed comparison. */
  function SlabLoopClosed(b: AABB, r: Ray, rayT: Interval, k: nat, n: nat): (o: Option<Interval>)
    requires n <= 3
    requires NonZeroDirection(r, n)
    ensures o.Some? ==> Le(rayT.min, o.value.min) && Le(o.value.max, rayT.max)
    ensures o.Some? && k < n ==> Le(o.value.min, o.value.max)
    decreases n - k
  {
    if k >= n then Some(rayT)
    else
      match SlabStepClosed(b, r, rayT, k)
      case None => None
      case Some(next) =>
        SlabLoopClosed(b, r, next, k + 1, n)
  }

  /**
   The corrected `hit`: all three slabs, and a miss only when the narrowed
   window is inverted (`ray_t.max < ray_t.min`).
   */
  function HitClosed(b: AABB, r: Ray, rayT: Interval): (o: Option<Interval>)
    requires NonZeroDirection(r, 3)
    ensures o.Some? ==> Le(rayT.min, o.value.min) && Le(o.value.min, o.value.max) && Le(o.value.max, rayT.max)
  {
    SlabLoopClosed(b, r, rayT, 0, 3)
  }

  /** The point lies in the closed slabs of the first `n` axes. */
  predicate InSlabs(b: AABB, p: Vec3, n: nat) {
    forall a :: 0 <= a < n && a <= 2 ==> Contains(Axis(b, a), Get(p, a))
  }

  lemma InBoxInSlabs(b: AABB, p: Vec3)
    requires InBox(b, p)
    ensures InSlabs(b, p, 3)
  {
    forall a | 0 <= a < 3
      ensures Contains(Axis(b, a), Get(p, a))
    {
    }
  }

  /** Dividing a non-strict inequality by a positive direction component. */
  lemma DivPositiveLe(x: real, t: real, d: real)
    requires d > 0.0
    ensures x <= t * d ==> x * (1.0 / d) <= t
    ensures t * d <= x ==> t <= x * (1.0 / d)
  {
    DivPositive(x, t, d);
    if x == t * d {
      assert x * (1.0 / d) == t * (d * (1.0 / d));
    }
  }

  /** The same for a negative direction component, which reverses the inequality. */
  lemma DivNegativeLe(x: real, t: real, d: real)
    requires d < 0.0
    ensures t * d <= x ==> x * (1.0 / d) <= t
    ensures x <= t * d ==> t <= x * (1.0 / d)
  {
    DivNegative(x, t, d);
    if x == t * d {
      assert x * (1.0 / d) == t * (d * (1.0 / d));
    }
  }

  /**
   When the ray is in the closed slab of axis `a` at parameter `t`, the slab's
   entry parameter is at most `t` and its exit parameter at least `t`.
   */
  lemma SlabTimesAroundClosed(b: AABB, r: Ray, a: int, t: real)
    requires 0 <= a <= 2
    requires Get(r.direction, a) != 0.0
    requires Contains(Axis(b, a), Get(At(r, t), a))
    ensures Le(SlabTimes(b, r, a).0, Fin(t)) && Le(Fin(t), SlabTimes(b, r, a).1)
  {
    var d := Get(r.direction, a);
    var o := Get(r.origin, a);
    assert Get(At(r, t), a) == o + t * d;
    var lo, hi := Axis(b, a).min, Axis(b, a).max;
    if d > 0.0 {
      assert 1.0 / d > 0.0;
      EntryAtMost(lo, o, d, t);
      ExitAtLeast(hi, o, d, t);
    } else {
      assert 1.0 / d < 0.0;
      EntryAtMostNegative(hi, o, d, t);
      ExitAtLeastNegative(lo, o, d, t);
    }
  }

  lemma EntryAtMost(lo: EReal, o: real, d: real, t: real)
    requires d > 0.0 && Le(lo, Fin(o + t * d))
    ensures Le(Times(Shift(lo, -o), 1.0 / d), Fin(t))
  {
    if lo.Fin? {
      DivPositiveLe(lo.r - o, t, d);
    }
  }

  lemma ExitAtLeast(hi: EReal, o: real, d: real, t: real)
    requires d > 0.0 && Le(Fin(o + t * d), hi)
    ensures Le(Fin(t), Times(Shift(hi, -o), 1.0 / d))
  {
    if hi.Fin? {
      DivPositiveLe(hi.r - o, t, d);
    }
  }

  lemma EntryAtMostNegative(hi: EReal, o: real, d: real, t: real)
    requires d < 0.0 && Le(Fin(o + t * d), hi)
    ensures Le(Times(Shift(hi, -o), 1.0 / d), Fin(t))
  {
    if hi.Fin? {
      DivNegativeLe(hi.r - o, t, d);
    }
  }

  lemma ExitAtLeastNegative(lo: EReal, o: real, d: real, t: real)
    requires d < 0.0 && Le(lo, Fin(o + t * d))
    ensures Le(Fin(t), Times(Shift(lo, -o), 1.0 / d))
  {
    if lo.Fin? {
      DivNegativeLe(lo.r - o, t, d);
    }
  }

  /** One closed slab keeps every window time at which the ray is in the slab. */
  lemma SlabStepClosedKeeps(b: AABB, r: Ray, rayT: Interval, a: int, t: real)
    requires 0 <= a <= 2
    requires Get(r.direction, a) != 0.0
    requires Contains(rayT, t)
    requires Contains(Axis(b, a), Get(At(r, t), a))
    ensures SlabStepClosed(b, r, rayT, a).Some?
    ensures Contains(SlabStepClosed(b, r, rayT, a).value, t)
  {
    SlabTimesAroundClosed(b, r, a, t);
    var (t0, t1) := SlabTimes(b, r, a);
    LeTrans(t0, Fin(t), rayT.max);
    LeTrans(rayT.min, Fin(t), t1);
    LeTrans(t0, Fin(t), t1);
  }

  lemma SlabLoopClosedKeeps(b: AABB, r: Ray, rayT: Interval, k: nat, n: nat, t: real)
    requires n <= 3
    requires NonZeroDirection(r, n)
    requires Contains(rayT, t)
    requires InSlabs(b, At(r, t), n)
    ensures SlabLoopClosed(b, r, rayT, k, n).Some?
    ensures Contains(SlabLoopClosed(b, r, rayT, k, n).value, t)
    decreases n - k
  {
    if k < n {
      SlabStepClosedKeeps(b, r, rayT, k, t);
      SlabLoopClosedKeeps(b, r, SlabStepClosed(b, r, rayT, k).value, k + 1, n, t);
    }
  }

  /**
   The corrected test never prunes a point of the box: if the ray is in the
   closed box at some `t` of the window, even on its boundary, `hit` succeeds
   and the window it returns still holds `t`. No non-degenerate window is
   needed.
   */
  lemma HitClosedFindsPoint(b: AABB, r: Ray, rayT: Interval, t: real)
    requires NonZeroDirection(r, 3)
    requires Contains(rayT, t)
    requires InBox(b, At(r, t))
    ensures HitClosed(b, r, rayT).Some? && Contains(HitClosed(b, r, rayT).value, t)
  {
    InBoxInSlabs(b, At(r, t));
    SlabLoopClosedKeeps(b, r, rayT, 0, 3, t);
  }

  /** The ray of the grazing example: from `(-1, 0, -1)` along `(1, 1, 1)`, through the corner `(0, 1, 0)` at `t = 1`. */
  function GrazingRay(): (r: Ray)
    ensures NonZeroDirection(r, 3)
  {
    Ray(Vec3(-1.0, 0.0, -1.0), Vec3(1.0, 1.0, 1.0), 0.0)
  }

  /**
   The `<=` of the loop as written loses a ray that meets the box on its
   boundary only: for a box spanning `[0, 1]` in x and y, the grazing ray
   enters the x slab at `t = 1` and leaves the y slab at `t = 1`, so the window
   shrinks to `[1, 1]` and is rejected, although the ray reaches the box point
   `(0, 1, 0)` at `t = 1`. The closed test keeps it.
   */
  lemma GrazingMissedAsWritten(b: AABB)
    requires b.x == Interval(Fin(0.0), Fin(1.0)) && b.y == Interval(Fin(0.0), Fin(1.0))
    requires Contains(b.z, 0.0)
    ensures At(GrazingRay(), 1.0) == Vec3(0.0, 1.0, 0.0) && InBox(b, At(GrazingRay(), 1.0))
    ensures HitAsWritten(b, GrazingRay(), Interval(Fin(0.001), PosInf)).None?
    ensures HitClosed(b, GrazingRay(), Interval(Fin(0.001), PosInf)).Some?
  {
    var r, w := GrazingRay(), Interval(Fin(0.001), PosInf);
    assert SlabStep(b, r, w, 0) == Some(Interval(Fin(1.0), Fin(2.0)));
    assert SlabStep(b, r, Interval(Fin(1.0), Fin(2.0)), 1).None?;
    HitClosedFindsPoint(b, r, w, 1.0);
  }
}

=== FILE: bvh.dfy ===
/**
 The bounding volume hierarchy of `src/bvh_node.rs`: how `BVHNode::new`
 splits a slice of objects into a binary tree, and how `hit` walks the tree
 with a window whose upper end shrinks to the nearest hit on the left.

 Objects are of a generic type `T` with a bounding box `boxOf`. The `Arc`
 children are modelled as subtrees; a `Leaf` is a scene object itself.
 */
module Bvh {
  import opened ExtReal
  import opened Intervals
  import opened Rays
  import opened Options
  import opened HitRecords
  import opened Aabb
  import opened Hittables
  import opened HittableLists
  import opened Sampling

  datatype Bvh<T> = Leaf(obj: T) | Node(left: Bvh<T>, right: Bvh<T>, bbox: AABB)

  /** `bounding_box` of a tree position: the object's box at a leaf, the stored box at a node. */
  function BoxOf<T>(boxOf: T -> AABB, n: Bvh<T>): AABB {
    match n
    case Leaf(o) => boxOf(o)
    case Node(_, _, b) => b
  }

  /** The objects reachable from a tree position. */
  function Leaves<T>(n: Bvh<T>): set<T> {
    match n
    case Leaf(o) => {o}
    case Node(l, r, _) => Leaves(l) + Leaves(r)
  }

  /** Every node's box is the union of its children's boxes. */
  ghost predicate WellBoxed<T>(boxOf: T -> AABB, n: Bvh<T>) {
    match n
    case Leaf(_) => true
    case Node(l, r, b) => b == FromBoxes(BoxOf(boxOf, l), BoxOf(boxOf, r)) && WellBoxed(boxOf, l) && WellBoxed(boxOf, r)
  }

  // ---------------------------------------------------------------------------
  // Ordering objects along an axis
  // ---------------------------------------------------------------------------

  /** The sort key: the minimum of the object's box along `axis`. */
  function Key<T>(boxOf: T -> AABB, axis: int, o: T): EReal
    requires 0 <= axis <= 2
  {
    Axis(boxOf(o), axis).min
  }

  /** `box_compare`: `a`'s box starts strictly before `b`'s along `axis`. */
  predicate BoxCompare<T>(boxOf: T -> AABB, axis: int, a: T, b: T)
    requires 0 <= axis <= 2
  {
    Lt(Key(boxOf, axis, a), Key(boxOf, axis, b))
  }

  /**
   The order `sort_by` is asked for: the comparator answers `Greater` when
   `a` starts before `b`, so keys come out non-increasing.
   */
  ghost predicate SortedDesc<T>(boxOf: T -> AABB, axis: int, s: seq<T>)
    requires 0 <= axis <= 2
  {
    forall i, j :: 0 <= i < j < |s| ==> Le(Key(boxOf, axis, s[j]), Key(boxOf, axis, s[i]))
  }

  function Insert<T>(boxOf: T -> AABB, axis: int, x: T, s: seq<T>): (r: seq<T>)
    requires 0 <= axis <= 2
    requires SortedDesc(boxOf, axis, s)
    ensures multiset(r) == multiset(s) + multiset{x}
    ensures forall y :: y in r ==> y == x || y in s
    ensures SortedDesc(boxOf, axis, r)
  {
    if |s| == 0 then [x]
    else if BoxCompare(boxOf, axis, x, s[0]) then
      var rest := Insert(boxOf, axis, x, s[1..]);
      assert s == [s[0]] + s[1..];
      var r := [s[0]] + rest;
      assert forall j :: 0 < j < |r| ==> Le(Key(boxOf, axis, r[j]), Key(boxOf, axis, s[0])) by {
        forall j | 0 < j < |r|
          ensures Le(Key(boxOf, axis, r[j]), Key(boxOf, axis, s[0]))
        {
          assert r[j] in rest;
          if r[j] != x {
            var k :| 0 <= k < |s[1..]| && s[1..][k] == r[j];
            assert s[k + 1] == r[j];
          }
        }
      }
      r
    else
      LeTotal(Key(boxOf, axis, x), Key(boxOf, axis, s[0]));
      var r := [x] + s;
      assert forall j :: 0 < j < |r| ==> Le(Key(boxOf, axis, r[j]), Key(boxOf, axis, x)) by {
        forall j | 0 < j < |r|
          ensures Le(Key(boxOf, axis, r[j]), Key(boxOf, axis, x))
        {
          if j > 1 {
            LeTrans(Key(boxOf, axis, r[j]), Key(boxOf, axis, s[0]), Key(boxOf, axis, x));
          }
        }
      }
      r
  }

  /** `sort_by` with the comparator of `new`: a permutation with non-increasing keys. */
  function Sort<T>(boxOf: T -> AABB, axis: int, s: seq<T>): (r: seq<T>)
    requires 0 <= axis <= 2
    ensures multiset(r) == multiset(s)
    ensures |r| == |s|
    ensures SortedDesc(boxOf, axis, r)
  {
    if |s| == 0 then []
    else
      assert s == [s[0]] + s[1..];
      var r := Insert(boxOf, axis, s[0], Sort(boxOf, axis, s[1..]));
      assert |r| == |multiset(r)|;
      r
  }

  // ---------------------------------------------------------------------------
  // Construction
  // ---------------------------------------------------------------------------

  /**
   Every split-axis draw is a draw from `Uniform::from(0.0..2.0)`. The draw
   of the node covering positions `lo..hi` of the sorted order is
   `draws(lo, hi)`.
   */
  ghost predicate ValidDraws(draws: (nat, nat) -> real) {
    forall lo, hi :: 0.0 <= draws(lo, hi) < 2.0
  }

  /** The split axis of the node over positions `lo..lo + n`, from `random_int_range(0, 2)`. */
  function SplitAxis(draws: (nat, nat) -> real, lo: nat, n: nat): (axis: int)
    requires ValidDraws(draws)
    ensures 0 <= axis <= 2
  {
    RandomIntInRange(0, 2, draws(lo, lo + n))
  }

  lemma FromBoxesSelf(b: AABB)
    ensures FromBoxes(b, b) == b
  {
  }

  /**
   `BVHNode::new` on the objects at positions `lo..lo + |objs|`: one object
   becomes both children of a node with its box, two objects are ordered by
   `box_compare`, and three or more are sorted along the drawn axis and
   split at `len / 2`. The axis, from `random_int_range(0, 2)`, always names a
   valid axis. The empty slice is excluded: it would recurse forever.
   */
  function Build<T>(boxOf: T -> AABB, draws: (nat, nat) -> real, objs: seq<T>, lo: nat): (n: Bvh<T>)
    requires ValidDraws(draws)
    requires |objs| >= 1
    ensures n.Node?
    ensures Leaves(n) == set o | o in objs
    ensures WellBoxed(boxOf, n)
    ensures |objs| >= 3 ==>
      var sorted := Sort(boxOf, SplitAxis(draws, lo, |objs|), objs);
      Leaves(n.left) == (set o | o in sorted[..|objs| / 2]) && Leaves(n.right) == (set o | o in sorted[|objs| / 2..])
    decreases |objs|
  {
    var axis := SplitAxis(draws, lo, |objs|);
    if |objs| == 1 then
      FromBoxesSelf(boxOf(objs[0]));
      Node(Leaf(objs[0]), Leaf(objs[0]), boxOf(objs[0]))
    else if |objs| == 2 then
      var (l, r) := if BoxCompare(boxOf, axis, objs[0], objs[1]) then (objs[0], objs[1]) else (objs[1], objs[0]);
      Node(Leaf(l), Leaf(r), FromBoxes(boxOf(l), boxOf(r)))
    else
      var sorted := Sort(boxOf, axis, objs);
      var mid := |sorted| / 2;
      var left := Build(boxOf, draws, sorted[..mid], lo);
      var right := Build(boxOf, draws, sorted[mid..], lo + mid);
      SplitElements(objs, sorted, mid);
      Node(left, right, FromBoxes(BoxOf(boxOf, left), BoxOf(boxOf, right)))
  }

  /** A permutation split at `mid` holds exactly the original objects between its two halves. */
  lemma SplitElements<T>(objs: seq<T>, sorted: seq<T>, mid: nat)
    requires multiset(sorted) == multiset(objs)
    requires mid <= |sorted|
    ensures (set o | o in sorted[..mid]) + (set o | o in sorted[mid..]) == set o | o in objs
  {
    assert sorted == sorted[..mid] + sorted[mid..];
    forall o | o in objs
      ensures o in sorted[..mid] || o in sorted[mid..]
    {
      assert o in multiset(objs);
      assert o in sorted;
    }
    forall o | o in sorted
      ensures o in objs
    {
      assert o in multiset(sorted);
    }
  }

  /**
   The shape of the node `new` builds. A single object sits on both sides
   under its own box. Two objects become two leaves with the smaller key on
   the left, and on equal keys the second object goes left. From three objects
   on, every object in the left subtree starts no earlier along the split axis
   than any object in the right one, since the sort is descending.
   */
  lemma BuildShape<T>(boxOf: T -> AABB, draws: (nat, nat) -> real, objs: seq<T>, lo: nat)
    requires ValidDraws(draws)
    requires |objs| >= 1
    ensures var n := Build(boxOf, draws, objs, lo);
            var axis := SplitAxis(draws, lo, |objs|);
            && (|objs| == 1 ==> n == Node(Leaf(objs[0]), Leaf(objs[0]), boxOf(objs[0])))
            && (|objs| == 2 ==>
                  && n.left.Leaf? && n.right.Leaf?
                  && multiset{n.left.obj, n.right.obj} == multiset(objs)
                  && Le(Key(boxOf, axis, n.left.obj), Key(boxOf, axis, n.right.obj))
                  && (Key(boxOf, axis, objs[0]) == Key(boxOf, axis, objs[1]) ==> n.left.obj == objs[1]))
            && (|objs| >= 3 ==>
                  forall a, b :: a in Leaves(n.left) && b in Leaves(n.right) ==> Le(Key(boxOf, axis, b), Key(boxOf, axis, a)))
  {
    if |objs| == 2 {
      BuildShapeTwo(boxOf, draws, objs, lo);
    } else if |objs| >= 3 {
      BuildShapeMany(boxOf, draws, objs, lo);
    }
  }

  lemma BuildShapeTwo<T>(boxOf: T -> AABB, draws: (nat, nat) -> real, objs: seq<T>, lo: nat)
    requires ValidDraws(draws)
    requires |objs| == 2
    ensures var n := Build(boxOf, draws, objs, lo);
            var axis := SplitAxis(draws, lo, |objs|);
            && n.left.Leaf? && n.right.Leaf?
            && multiset{n.left.obj, n.right.obj} == multiset(objs)
            && Le(Key(boxOf, axis, n.left.obj), Key(boxOf, axis, n.right.obj))
            && (Key(boxOf, axis, objs[0]) == Key(boxOf, axis, objs[1]) ==> n.left.obj == objs[1])
  {
    var axis := SplitAxis(draws, lo, |objs|);
    LeTotal(Key(boxOf, axis, objs[0]), Key(boxOf, axis, objs[1]));
    assert objs == [objs[0], objs[1]];
  }

  lemma BuildShapeMany<T>(boxOf: T -> AABB, draws: (nat, nat) -> real, objs: seq<T>, lo: nat)
    requires ValidDraws(draws)
    requires |objs| >= 3
    ensures var n := Build(boxOf, draws, objs, lo);
            var axis := SplitAxis(draws, lo, |objs|);
            forall a, b :: a in Leaves(n.left) && b in Leaves(n.right) ==> Le(Key(boxOf, axis, b), Key(boxOf, axis, a))
  {
    var axis := SplitAxis(draws, lo, |objs|);
    var sorted := Sort(boxOf, axis, objs);
    var mid := |sorted| / 2;
    var n := Build(boxOf, draws, objs, lo);
    forall a, b | a in Leaves(n.left) && b in Leaves(n.right)
      ensures Le(Key(boxOf, axis, b), Key(boxOf, axis, a))
    {
      SplitOrdered(boxOf, axis, sorted, mid, a, b);
    }
  }

  /** In a descending sequence, everything before the split has a key at least that of everything after it. */
  lemma SplitOrdered<T>(boxOf: T -> AABB, axis: int, sorted: seq<T>, mid: nat, a: T, b: T)
    requires 0 <= axis <= 2 && SortedDesc(boxOf, axis, sorted) && mid <= |sorted|
    requires a in sorted[..mid] && b in sorted[mid..]
    ensures Le(Key(boxOf, axis, b), Key(boxOf, axis, a))
  {
    var i :| 0 <= i < mid && sorted[..mid][i] == a;
    var j :| 0 <= j < |sorted| - mid && sorted[mid..][j] == b;
    assert sorted[i] == a && sorted[mid + j] == b;
  }

  /** `from_list`: the tree over all of the list's objects. */
  function FromList<T>(boxOf: T -> AABB, draws: (nat, nat) -> real, l: HittableList<T>): (n: Bvh<T>)
    requires ValidDraws(draws)
    requires |l.objects| >= 1
    ensures Leaves(n) == set o | o in l.objects
    ensures WellBoxed(boxOf, n)
  {
    Build(boxOf, draws, l.objects, 0)
  }

  /** In a well-boxed tree, every node's box encloses the box of every object below it. */
  lemma {:induction false} LeafEnclosed<T>(boxOf: T -> AABB, n: Bvh<T>, o: T)
    requires WellBoxed(boxOf, n) && o in Leaves(n)
    ensures Encloses(BoxOf(boxOf, n), boxOf(o))
  {
    match n
    case Leaf(_) =>
      EnclosesRefl(boxOf(o));
    case Node(l, r, b) =>
      if o in Leaves(l) {
        LeafEnclosed(boxOf, l, o);
        EnclosesTrans(b, BoxOf(boxOf, l), boxOf(o));
      } else {
        LeafEnclosed(boxOf, r, o);
        EnclosesTrans(b, BoxOf(boxOf, r), boxOf(o));
      }
  }

  // ---------------------------------------------------------------------------
  // Traversal
  // ---------------------------------------------------------------------------

  /**
   `hit` for `BVHNode`, over a box test `accept`: a node whose box the test
   rejects for the window is a miss; otherwise the left child is asked first,
   and the right child is asked on `[min, left.t]` after a left hit (winning
   if it reports anything), or on the whole window after a left miss.
   */
  function Traverse<T, M>(accept: (AABB, Interval) -> bool, hit: (T, Ray, Interval) -> Option<HitRecord<M>>, n: Bvh<T>, r: Ray, rayT: Interval): Option<HitRecord<M>> {
    match n
    case Leaf(o) => hit(o, r, rayT)
    case Node(left, right, b) =>
      if !accept(b, rayT) then None
      else
        match Traverse(accept, hit, left, r, rayT)
        case Some(lh) =>
          (match Traverse(accept, hit, right, r, Interval(rayT.min, Fin(lh.t)))
           case Some(rh) => Some(rh)
           case None => Some(lh))
        case None => Traverse(accept, hit, right, r, rayT)
  }

  /** The box test `AABB::hit` as written: the x and y slabs, and a miss on `ray_t.max <= ray_t.min`. */
  function AsWrittenTest(r: Ray): (AABB, Interval) -> bool {
    (b: AABB, w: Interval) => NonZeroDirection(r, 2) && HitAsWritten(b, r, w).Some?
  }

  /** The corrected box test: all three slabs, and a miss only on an inverted window. */
  function ClosedTest(r: Ray): (AABB, Interval) -> bool {
    (b: AABB, w: Interval) => NonZeroDirection(r, 3) && HitClosed(b, r, w).Some?
  }

  /** `hit` for `BVHNode` as written, pruning with `AsWrittenTest`. */
  function Hit<T, M>(hit: (T, Ray, Interval) -> Option<HitRecord<M>>, n: Bvh<T>, r: Ray, rayT: Interval): Option<HitRecord<M>>
    requires NonZeroDirection(r, 2)
  {
    Traverse(AsWrittenTest(r), hit, n, r, rayT)
  }

  /** `hit` for `BVHNode` pruning with the corrected `ClosedTest`. */
  function HitCorrected<T, M>(hit: (T, Ray, Interval) -> Option<HitRecord<M>>, n: Bvh<T>, r: Ray, rayT: Interval): Option<HitRecord<M>>
    requires NonZeroDirection(r, 3)
  {
    Traverse(ClosedTest(r), hit, n, r, rayT)
  }

  /** A hit reported by the tree lies in the window, whatever the box test. */
  lemma {:induction false} HitSound<T(!new), M>(accept: (AABB, Interval) -> bool, hit: (T, Ray, Interval) -> Option<HitRecord<M>>, n: Bvh<T>, r: Ray, rayT: Interval)
    requires RespectsInterval(hit)
    ensures Traverse(accept, hit, n, r, rayT).Some? ==> Contains(rayT, Traverse(accept, hit, n, r, rayT).value.t)
  {
    match n
    case Leaf(o) =>
    case Node(left, right, b) =>
      HitSound(accept, hit, left, r, rayT);
      HitSound(accept, hit, right, r, rayT);
      var lh := Traverse(accept, hit, left, r, rayT);
      if lh.Some? {
        HitSound(accept, hit, right, r, Interval(rayT.min, Fin(lh.value.t)));
      }
  }

  /** `w` keeps the start of `rayT` and ends no later. */
  predicate SubWindow(w: Interval, rayT: Interval) {
    w.min == rayT.min && Le(w.max, rayT.max)
  }

  /**
   The tree's answer is some object's own answer: whatever the tree reports
   is exactly what one object below the node reports for the ray over a
   window that starts where `rayT` starts and ends no later.
   */
  lemma {:induction false} HitIsLeafHit<T(!new), M>(accept: (AABB, Interval) -> bool, hit: (T, Ray, Interval) -> Option<HitRecord<M>>, n: Bvh<T>, r: Ray, rayT: Interval)
    requires RespectsInterval(hit)
    requires Traverse(accept, hit, n, r, rayT).Some?
    ensures exists o, w :: o in Leaves(n) && SubWindow(w, rayT) && hit(o, r, w) == Traverse(accept, hit, n, r, rayT)
  {
    match n
    case Leaf(o) =>
      assert o in Leaves(n) && SubWindow(rayT, rayT) && hit(o, r, rayT) == Traverse(accept, hit, n, r, rayT);
    case Node(left, right, b) =>
      var lo := Traverse(accept, hit, left, r, rayT);
      if lo.Some? {
        var k := Interval(rayT.min, Fin(lo.value.t));
        HitSound(accept, hit, left, r, rayT);
        var ro := Traverse(accept, hit, right, r, k);
        if ro.Some? {
          HitIsLeafHit(accept, hit, right, r, k);
          var o, w :| o in Leaves(right) && SubWindow(w, k) && hit(o, r, w) == ro;
          LeTrans(w.max, k.max, rayT.max);
          assert o in Leaves(n) && SubWindow(w, rayT) && hit(o, r, w) == Traverse(accept, hit, n, r, rayT);
        } else {
          HitIsLeafHit(accept, hit, left, r, rayT);
          var o, w :| o in Leaves(left) && SubWindow(w, rayT) && hit(o, r, w) == lo;
          assert o in Leaves(n) && SubWindow(w, rayT) && hit(o, r, w) == Traverse(accept, hit, n, r, rayT);
        }
      } else {
        HitIsLeafHit(accept, hit, right, r, rayT);
        var o, w :| o in Leaves(right) && SubWindow(w, rayT) && hit(o, r, w) == Traverse(accept, hit, right, r, rayT);
        assert o in Leaves(n) && SubWindow(w, rayT) && hit(o, r, w) == Traverse(accept, hit, n, r, rayT);
      }
  }

  /**
   After a left hit, a node whose box the test accepts answers with the right
   child's hit on `[min, left.t]` when there is one, else with the left hit:
   never farther than the left hit, and a right hit at the same distance wins.
   */
  lemma HitNoFartherThanLeft<T(!new), M>(accept: (AABB, Interval) -> bool, hit: (T, Ray, Interval) -> Option<HitRecord<M>>, n: Bvh<T>, r: Ray, rayT: Interval)
    requires RespectsInterval(hit)
    requires n.Node? && accept(n.bbox, rayT)
    requires Traverse(accept, hit, n.left, r, rayT).Some?
    ensures Traverse(accept, hit, n, r, rayT).Some?
    ensures Traverse(accept, hit, n, r, rayT).value.t <= Traverse(accept, hit, n.left, r, rayT).value.t
    ensures Traverse(accept, hit, n.right, r, Interval(rayT.min, Fin(Traverse(accept, hit, n.left, r, rayT).value.t))).Some? ==>
      Traverse(accept, hit, n, r, rayT) == Traverse(accept, hit, n.right, r, Interval(rayT.min, Fin(Traverse(accept, hit, n.left, r, rayT).value.t)))
  {
    var lh := Traverse(accept, hit, n.left, r, rayT).value;
    HitSound(accept, hit, n.right, r, Interval(rayT.min, Fin(lh.t)));
  }

  /**
   The box test never rejects a box enclosing `o`'s box for a non-degenerate
   window in which `o` reports a hit for the ray.
   */
  ghost predicate Admits<T(!new), M>(accept: (AABB, Interval) -> bool, boxOf: T -> AABB, hit: (T, Ray, Interval) -> Option<HitRecord<M>>, o: T, r: Ray) {
    forall b: AABB, w: Interval :: Encloses(b, boxOf(o)) && Lt(w.min, w.max) && hit(o, r, w).Some? ==> accept(b, w)
  }

  /**
   A traversal whose box test admits `o` never loses `o`'s hit: for a
   non-degenerate window in which `o` hits, the tree reports a hit no
   farther away.
   */
  lemma {:induction false} TraverseComplete<T(!new), M>(accept: (AABB, Interval) -> bool, hit: (T, Ray, Interval) -> Option<HitRecord<M>>, boxOf: T -> AABB,
                                                        n: Bvh<T>, r: Ray, rayT: Interval, o: T)
    requires RespectsInterval(hit) && Monotone(hit)
    requires Admits(accept, boxOf, hit, o, r)
    requires WellBoxed(boxOf, n) && o in Leaves(n)
    requires Lt(rayT.min, rayT.max)
    requires hit(o, r, rayT).Some?
    ensures Traverse(accept, hit, n, r, rayT).Some?
    ensures Traverse(accept, hit, n, r, rayT).value.t <= hit(o, r, rayT).value.t
  {
    var h := hit(o, r, rayT).value;
    match n
    case Leaf(_) =>
    case Node(left, right, b) =>
      LeafEnclosed(boxOf, n, o);
      assert accept(b, rayT);
      if o in Leaves(left) {
        TraverseComplete(accept, hit, boxOf, left, r, rayT, o);
        var lh := Traverse(accept, hit, left, r, rayT).value;
        HitSound(accept, hit, right, r, Interval(rayT.min, Fin(lh.t)));
      } else {
        var lo := Traverse(accept, hit, left, r, rayT);
        if lo.None? {
          TraverseComplete(accept, hit, boxOf, right, r, rayT, o);
        } else {
          var lh := lo.value;
          var k := Interval(rayT.min, Fin(lh.t));
          HitSound(accept, hit, right, r, k);
          if h.t < lh.t {
            HitSound(accept, hit, left, r, rayT);
            Narrow(hit, o, r, rayT, Fin(lh.t));
            assert Lt(rayT.min, Fin(lh.t)) by {
              LeLtTrans(rayT.min, Fin(h.t), Fin(lh.t));
            }
            TraverseComplete(accept, hit, boxOf, right, r, k, o);
          }
        }
      }
  }

  /** The test as written admits an object whose hits for this ray lie strictly inside its x and y slabs. */
  lemma AsWrittenAdmits<T(!new), M>(hit: (T, Ray, Interval) -> Option<HitRecord<M>>, boxOf: T -> AABB, o: T, r: Ray)
    requires NonZeroDirection(r, 2)
    requires RespectsInterval(hit) && HitsStrictlyInside(hit, boxOf, o, r, 2)
    ensures Admits(AsWrittenTest(r), boxOf, hit, o, r)
  {
    forall b: AABB, w: Interval | Encloses(b, boxOf(o)) && Lt(w.min, w.max) && hit(o, r, w).Some?
      ensures AsWrittenTest(r)(b, w)
    {
      var t := hit(o, r, w).value.t;
      StrictlyInsideEnclosed(b, boxOf(o), At(r, t), 2);
      HitAsWrittenFindsInteriorPoint(b, r, w, t);
    }
  }

  /** The corrected test admits an object whose hits for this ray lie in its closed box, boundary included. */
  lemma ClosedAdmits<T(!new), M>(hit: (T, Ray, Interval) -> Option<HitRecord<M>>, boxOf: T -> AABB, o: T, r: Ray)
    requires NonZeroDirection(r, 3)
    requires RespectsInterval(hit) && HitsInBox(hit, boxOf, o, r)
    ensures Admits(ClosedTest(r), boxOf, hit, o, r)
  {
    forall b: AABB, w: Interval | Encloses(b, boxOf(o)) && Lt(w.min, w.max) && hit(o, r, w).Some?
      ensures ClosedTest(r)(b, w)
    {
      var t := hit(o, r, w).value.t;
      EnclosesInBox(b, boxOf(o), At(r, t));
      HitClosedFindsPoint(b, r, w, t);
    }
  }

  /**
   The tree as written never loses a hit of an object whose hits for this
   ray lie strictly inside its x and y slabs: for a non-degenerate window in
   which that object hits, the tree reports a hit no farther away. A hit on
   the boundary of the box can be lost (`GrazingQuad.GrazingQuadMissed`).
   */
  lemma HitComplete<T(!new), M>(hit: (T, Ray, Interval) -> Option<HitRecord<M>>, boxOf: T -> AABB, n: Bvh<T>, r: Ray, rayT: Interval, o: T)
    requires NonZeroDirection(r, 2)
    requires RespectsInterval(hit) && Monotone(hit)
    requires HitsStrictlyInside(hit, boxOf, o, r, 2)
    requires WellBoxed(boxOf, n) && o in Leaves(n)
    requires Lt(rayT.min, rayT.max)
    requires hit(o, r, rayT).Some?
    ensures Hit(hit, n, r, rayT).Some?
    ensures Hit(hit, n, r, rayT).value.t <= hit(o, r, rayT).value.t
  {
    AsWrittenAdmits(hit, boxOf, o, r);
    TraverseComplete(AsWrittenTest(r), hit, boxOf, n, r, rayT, o);
  }

  /**
   The tree with the corrected box test never loses a hit of an object whose
   hits lie in its closed box, boundary hits included.
   */
  lemma HitCorrectedComplete<T(!new), M>(hit: (T, Ray, Interval) -> Option<HitRecord<M>>, boxOf: T -> AABB, n: Bvh<T>, r: Ray, rayT: Interval, o: T)
    requires NonZeroDirection(r, 3)
    requires RespectsInterval(hit) && Monotone(hit)
    requires HitsInBox(hit, boxOf, o, r)
    requires WellBoxed(boxOf, n) && o in Leaves(n)
    requires Lt(rayT.min, rayT.max)
    requires hit(o, r, rayT).Some?
    ensures HitCorrected(hit, n, r, rayT).Some?
    ensures HitCorrected(hit, n, r, rayT).value.t <= hit(o, r, rayT).value.t
  {
    ClosedAdmits(hit, boxOf, o, r);
    TraverseComplete(ClosedTest(r), hit, boxOf, n, r, rayT, o);
  }

  /** A node whose box the test rejects reports nothing. */
  lemma RejectedNode<T, M>(accept: (AABB, Interval) -> bool, hit: (T, Ray, Interval) -> Option<HitRecord<M>>, n: Bvh<T>, r: Ray, rayT: Interval)
    requires n.Node? && !accept(n.bbox, rayT)
    ensures Traverse(accept, hit, n, r, rayT).None?
  {
  }

  /**
   A node built over one object (both children the same leaf) whose box the
   test accepts reports the object's hit on `[min, t]` after its hit at `t`,
   and that hit when there is nothing on `[min, t]`.
   */
  lemma SingleObjectNode<T, M>(accept: (AABB, Interval) -> bool, hit: (T, Ray, Interval) -> Option<HitRecord<M>>, o: T, b: AABB, r: Ray, rayT: Interval)
    requires accept(b, rayT) && hit(o, r, rayT).Some?
    ensures var k := Interval(rayT.min, Fin(hit(o, r, rayT).value.t));
      Traverse(accept, hit, Node(Leaf(o), Leaf(o), b), r, rayT) == if hit(o, r, k).Some? then hit(o, r, k) else hit(o, r, rayT)
  {
  }

  /** Hence such a node reports `t` when the object's hit on both windows is at `t`. */
  lemma SingleObjectFound<T, M>(accept: (AABB, Interval) -> bool, hit: (T, Ray, Interval) -> Option<HitRecord<M>>, o: T, b: AABB, r: Ray, rayT: Interval, t: real)
    requires accept(b, rayT)
    requires hit(o, r, rayT).Some? && hit(o, r, rayT).value.t == t
    requires hit(o, r, Interval(rayT.min, Fin(t))).Some? && hit(o, r, Interval(rayT.min, Fin(t))).value.t == t
    ensures Traverse(accept, hit, Node(Leaf(o), Leaf(o), b), r, rayT).Some?
    ensures Traverse(accept, hit, Node(Leaf(o), Leaf(o), b), r, rayT).value.t == t
  {
    SingleObjectNode(accept, hit, o, b, r, rayT);
  }
}

=== FILE: camera.dfy ===
/**
 The camera of `src/camera.rs`: the image height derived from the width and
 aspect ratio, the ray cast through a pixel, the bounded-depth path-tracing
 recursion `ray_color`, and the bookkeeping of `render` — the row-major pixel
 order, the resumable checkpoint whose all-zero pixels count as "not
 rendered", the per-pixel sample sum, and the progress arithmetic.

 The viewport frame `initialize` derives with `tan` and normalisation is
 taken as given (a `Camera` value); random draws are parameters.
 */
module Cameras {
  import opened Vectors
  import opened Numeric
  import opened Options
  import opened ExtReal
  import opened Rays
  import opened Intervals
  import opened HitRecords
  import Colors

  // ---------------------------------------------------------------------------
  // Image size and the ray through a pixel
  // ---------------------------------------------------------------------------

  /** The largest `i32`, where a float-to-`i32` cast saturates. */
  const I32Max: int := 0x7fff_ffff

  /** The float-to-`i32` cast `as i32` of a number at least one: truncation, saturating at `I32Max`. */
  function SaturatingTrunc(x: real): (n: int)
    requires x >= 1.0
    ensures 1 <= n <= I32Max
    ensures x < I32Max as real ==> n as real <= x < n as real + 1.0
    ensures x >= I32Max as real ==> n == I32Max
  {
    if x >= I32Max as real then I32Max else Trunc(x)
  }

  /**
   `image_height`: the width over the aspect ratio, at least one, cast to
   `i32`. A zero aspect ratio divides by zero: a positive width gives `+inf`,
   which saturates, and a zero or negative width gives NaN or `-inf`, which
   `max(1.0)` replaces by one.
   */
  function ImageHeight(width: int, aspect: real): (h: int)
    ensures 1 <= h <= I32Max
    ensures aspect == 0.0 ==> h == (if width > 0 then I32Max else 1)
    ensures aspect != 0.0 && width as real / aspect < I32Max as real ==>
      h as real <= MaxReal(width as real / aspect, 1.0) < h as real + 1.0
    ensures aspect != 0.0 && width as real / aspect >= I32Max as real ==> h == I32Max
  {
    if aspect == 0.0 then (if width > 0 then I32Max else 1)
    else SaturatingTrunc(MaxReal(width as real / aspect, 1.0))
  }

  /** A wide enough image keeps the aspect ratio up to truncation. */
  lemma ImageHeightFollowsAspect(width: int, aspect: real)
    requires aspect > 0.0 && aspect <= width as real && width as real / aspect < I32Max as real
    ensures ImageHeight(width, aspect) as real <= width as real / aspect < ImageHeight(width, aspect) as real + 1.0
  {
    assert width as real / aspect >= 1.0;
  }

  /** The height is one whenever the width and the aspect ratio have opposite signs. */
  lemma ImageHeightOppositeSigns(width: int, aspect: real)
    requires (width >= 0 && aspect < 0.0) || (width <= 0 && aspect > 0.0)
    ensures ImageHeight(width, aspect) == 1
  {
    assert width as real / aspect <= 0.0;
  }

  /**
   The camera frame `initialize` computes: the origin, the centre of the
   top-left pixel, the steps between pixels, the defocus angle and the
   two radii of the defocus disk.
   */
  datatype Camera = Camera(
    origin: Vec3,
    pixel00: Vec3,
    deltaU: Vec3,
    deltaV: Vec3,
    defocusAngle: real,
    diskU: Vec3,
    diskV: Vec3)

  function PixelCenter(cam: Camera, i: int, j: int): Vec3 {
    Add(Add(cam.pixel00, Scale(i as real, cam.deltaU)), Scale(j as real, cam.deltaV))
  }

  /**
   `pixel_sample_square` added to the pixel centre: each draw in `[0, 1)` is
   shifted by `-0.5`, so the sample lies in the pixel's own square.
   */
  function PixelSample(cam: Camera, i: int, j: int, draws: (real, real)): Vec3 {
    Add(PixelCenter(cam, i, j), Add(Scale(-0.5 + draws.0, cam.deltaU), Scale(-0.5 + draws.1, cam.deltaV)))
  }

  /**
   The sample squares of neighbouring pixels tile the viewport: the far edge
   of one pixel's square is the near edge of the next one's, in both directions.
   */
  lemma PixelSquaresTile(cam: Camera, i: int, j: int, a: real, b: real)
    ensures PixelSample(cam, i, j, (a + 1.0, b)) == PixelSample(cam, i + 1, j, (a, b))
    ensures PixelSample(cam, i, j, (a, b + 1.0)) == PixelSample(cam, i, j + 1, (a, b))
    ensures PixelSample(cam, i, j, (0.5, 0.5)) == PixelCenter(cam, i, j)
  {
    SampleCoordinates(cam, i, j, a + 1.0, b);
    SampleCoordinates(cam, i + 1, j, a, b);
    SampleCoordinates(cam, i, j, a, b + 1.0);
    SampleCoordinates(cam, i, j + 1, a, b);
    SampleCoordinates(cam, i, j, 0.5, 0.5);
  }

  /** A sample is the top-left centre plus `i + a - 0.5` steps across and `j + b - 0.5` steps down. */
  lemma SampleCoordinates(cam: Camera, i: int, j: int, a: real, b: real)
    ensures PixelSample(cam, i, j, (a, b))
      == Add(cam.pixel00, Add(Scale(i as real - 0.5 + a, cam.deltaU), Scale(j as real - 0.5 + b, cam.deltaV)))
  {
    Collect(cam.pixel00.x, i as real, a, cam.deltaU.x, j as real, b, cam.deltaV.x);
    Collect(cam.pixel00.y, i as real, a, cam.deltaU.y, j as real, b, cam.deltaV.y);
    Collect(cam.pixel00.z, i as real, a, cam.deltaU.z, j as real, b, cam.deltaV.z);
  }

  lemma Collect(p: real, i: real, a: real, d: real, j: real, b: real, e: real)
    ensures p + i * d + j * e + ((-0.5 + a) * d + (-0.5 + b) * e) == p + ((i - 0.5 + a) * d + (j - 0.5 + b) * e)
  {
  }

  /** `defocus_disk_sample`: a point of the unit disk mapped onto the lens. */
  function DefocusDiskSample(cam: Camera, disk: Vec3): Vec3 {
    Add(Add(cam.origin, Scale(disk.x, cam.diskU)), Scale(disk.y, cam.diskV))
  }

  /** The centre of the lens is the camera origin. */
  lemma DiskCenterIsOrigin(cam: Camera, disk: Vec3)
    requires disk.x == 0.0 && disk.y == 0.0
    ensures DefocusDiskSample(cam, disk) == cam.origin
  {
  }

  /**
   `get_ray`: from the camera origin when defocus blur is off, from a lens
   point otherwise, aimed so that the ray reaches the pixel sample at
   parameter one; its time is the time draw.
   */
  function GetRay(cam: Camera, i: int, j: int, square: (real, real), disk: Vec3, time: real): (r: Ray)
    ensures cam.defocusAngle <= 0.0 ==> r.origin == cam.origin
    ensures cam.defocusAngle > 0.0 ==> r.origin == DefocusDiskSample(cam, disk)
    ensures At(r, 1.0) == PixelSample(cam, i, j, square)
    ensures r.time == time
  {
    var sample := PixelSample(cam, i, j, square);
    var origin := if cam.defocusAngle <= 0.0 then cam.origin else DefocusDiskSample(cam, disk);
    Ray(origin, Sub(sample, origin), time)
  }

  // ---------------------------------------------------------------------------
  // The path-tracing recursion
  // ---------------------------------------------------------------------------

  /** The parameter window `ray_color` searches for hits: `[0.001, ∞)`. */
  const HitWindow := Interval(Fin(0.001), PosInf)

  /**
   `ray_color`. The world's `hit`, the material's `scatter` and `emitted`
   are parameters; `scatter` also receives the remaining depth, which keys
   the random draws of each bounce (one path has one bounce per depth).
   */
  function RayColor<M>(
    world: (Ray, Interval) -> Option<HitRecord<M>>,
    scatter: (M, Ray, HitRecord<M>, int) -> Option<(Ray, Vec3)>,
    emitted: (M, real, real, Vec3) -> Vec3,
    background: Vec3,
    r: Ray,
    depth: int): Vec3
    decreases depth
  {
    if depth <= 0 then Zero
    else match world(r, HitWindow)
      case None => background
      case Some(rec) =>
        var emission := emitted(rec.material, rec.u, rec.v, rec.p);
        match scatter(rec.material, r, rec, depth)
        case None => emission
        case Some((scattered, attenuation)) =>
          Add(emission, Mul(attenuation, RayColor(world, scatter, emitted, background, scattered, depth - 1)))
  }

  predicate Within(c: Vec3, lo: real, hi: real) {
    lo <= c.x <= hi && lo <= c.y <= hi && lo <= c.z <= hi
  }

  /** The most light a path of `depth` bounces can gather: one emission per bounce, then the background. */
  function Budget(depth: int, e: real, b: real): real {
    (if depth > 0 then depth else 0) as real * e + b
  }

  /**
   With emissions in `[0, e]`, a background in `[0, b]` and attenuations in
   `[0, 1]`, every colour `ray_color` returns lies in `[0, depth * e + b]`.
   */
  lemma {:induction false} RayColorBounded<M(!new)>(
    world: (Ray, Interval) -> Option<HitRecord<M>>,
    scatter: (M, Ray, HitRecord<M>, int) -> Option<(Ray, Vec3)>,
    emitted: (M, real, real, Vec3) -> Vec3,
    background: Vec3,
    r: Ray,
    depth: int,
    e: real,
    b: real)
    requires 0.0 <= e
    requires Within(background, 0.0, b)
    requires forall m: M, u: real, v: real, p: Vec3 :: Within(emitted(m, u, v, p), 0.0, e)
    requires forall m: M, ray: Ray, rec: HitRecord<M>, d: int :: scatter(m, ray, rec, d).Some? ==> Within(scatter(m, ray, rec, d).value.1, 0.0, 1.0)
    ensures Within(RayColor(world, scatter, emitted, background, r, depth), 0.0, Budget(depth, e, b))
    decreases depth
  {
    if depth > 0 {
      RayColorStep(world, scatter, emitted, background, r, depth);
      BudgetCovers(depth, e, b);
      var hit := world(r, HitWindow);
      if hit.Some? {
        var rec := hit.value;
        var emission := emitted(rec.material, rec.u, rec.v, rec.p);
        var bounce := scatter(rec.material, r, rec, depth);
        if bounce.Some? {
          var (scattered, attenuation) := bounce.value;
          RayColorBounded(world, scatter, emitted, background, scattered, depth - 1, e, b);
          BudgetStep(depth, e, b);
          StepBounded(emission, attenuation,
            RayColor(world, scatter, emitted, background, scattered, depth - 1), e, Budget(depth - 1, e, b));
        }
      }
    }
  }

  /** One unfolding of `ray_color` at positive depth. */
  lemma RayColorStep<M>(
    world: (Ray, Interval) -> Option<HitRecord<M>>,
    scatter: (M, Ray, HitRecord<M>, int) -> Option<(Ray, Vec3)>,
    emitted: (M, real, real, Vec3) -> Vec3,
    background: Vec3,
    r: Ray,
    depth: int)
    requires depth > 0
    ensures world(r, HitWindow).None? ==> RayColor(world, scatter, emitted, background, r, depth) == background
    ensures world(r, HitWindow).Some? ==>
      var rec := world(r, HitWindow).value;
      var emission := emitted(rec.material, rec.u, rec.v, rec.p);
      match scatter(rec.material, r, rec, depth)
      case None => RayColor(world, scatter, emitted, background, r, depth) == emission
      case Some((scattered, attenuation)) =>
        RayColor(world, scatter, emitted, background, r, depth)
          == Add(emission, Mul(attenuation, RayColor(world, scatter, emitted, background, scattered, depth - 1)))
  {
  }

  lemma StepBounded(emission: Vec3, attenuation: Vec3, x: Vec3, e: real, bound: real)
    requires Within(emission, 0.0, e) && Within(attenuation, 0.0, 1.0) && Within(x, 0.0, bound)
    ensures Within(Add(emission, Mul(attenuation, x)), 0.0, e + bound)
  {
    AttenuatedBelow(emission.x, attenuation.x, x.x, e, bound);
    AttenuatedBelow(emission.y, attenuation.y, x.y, e, bound);
    AttenuatedBelow(emission.z, attenuation.z, x.z, e, bound);
  }

  lemma BudgetCovers(depth: int, e: real, b: real)
    requires depth > 0 && 0.0 <= e && 0.0 <= b
    ensures e <= Budget(depth, e, b) && b <= Budget(depth, e, b)
  {
    BudgetStep(depth, e, b);
    assert 0.0 <= Budget(depth - 1, e, b) by {
      NonNegativeTimes((if depth - 1 > 0 then depth - 1 else 0) as real, e);
    }
  }

  lemma NonNegativeTimes(x: real, y: real)
    requires 0.0 <= x && 0.0 <= y
    ensures 0.0 <= x * y
  {
  }

  lemma BudgetStep(depth: int, e: real, b: real)
    requires depth > 0
    ensures Budget(depth, e, b) == e + Budget(depth - 1, e, b)
  {
    assert depth as real * e == e + (depth - 1) as real * e;
  }

  lemma AttenuatedBelow(em: real, a: real, x: real, e: real, bound: real)
    requires 0.0 <= em <= e && 0.0 <= a <= 1.0 && 0.0 <= x <= bound
    ensures 0.0 <= em + a * x <= e + bound
  {
    assert a * x <= x by {
      assert x - a * x == x * (1.0 - a);
    }
  }

  /**
   The same colour computed the way a loop would: carry the light gathered
   so far and the product of the attenuations met, and stop at the first
   miss, absorption or exhausted depth.
   */
  method TraceIterative<M>(
    world: (Ray, Interval) -> Option<HitRecord<M>>,
    scatter: (M, Ray, HitRecord<M>, int) -> Option<(Ray, Vec3)>,
    emitted: (M, real, real, Vec3) -> Vec3,
    background: Vec3,
    r: Ray,
    depth: int) returns (c: Vec3)
    ensures c == RayColor(world, scatter, emitted, background, r, depth)
  {
    var gathered, weight, ray, d := Zero, One, r, depth;
    while d > 0
      invariant RayColor(world, scatter, emitted, background, r, depth)
        == Add(gathered, Mul(weight, RayColor(world, scatter, emitted, background, ray, d)))
      decreases d
    {
      RayColorStep(world, scatter, emitted, background, ray, d);
      var hit := world(ray, HitWindow);
      if hit.None? {
        return Add(gathered, Mul(weight, background));
      }
      var rec := hit.value;
      var emission := emitted(rec.material, rec.u, rec.v, rec.p);
      var bounce := scatter(rec.material, ray, rec, d);
      if bounce.None? {
        return Add(gathered, Mul(weight, emission));
      }
      var (scattered, attenuation) := bounce.value;
      Distribute(gathered, weight, emission, attenuation, RayColor(world, scatter, emitted, background, scattered, d - 1));
      gathered, weight, ray, d := Add(gathered, Mul(weight, emission)), Mul(weight, attenuation), scattered, d - 1;
    }
    assert RayColor(world, scatter, emitted, background, ray, d) == Zero;
    NoFurtherLight(gathered, weight);
    c := gathered;
  }

  /** Light weighted onto nothing adds nothing. */
  lemma NoFurtherLight(g: Vec3, w: Vec3)
    ensures Add(g, Mul(w, Zero)) == g
  {
  }

  lemma Distribute(g: Vec3, w: Vec3, e: Vec3, a: Vec3, x: Vec3)
    ensures Add(g, Mul(w, Add(e, Mul(a, x)))) == Add(Add(g, Mul(w, e)), Mul(Mul(w, a), x))
  {
    DistributeReal(g.x, w.x, e.x, a.x, x.x);
    DistributeReal(g.y, w.y, e.y, a.y, x.y);
    DistributeReal(g.z, w.z, e.z, a.z, x.z);
  }

  lemma DistributeReal(g: real, w: real, e: real, a: real, x: real)
    ensures g + w * (e + a * x) == (g + w * e) + (w * a) * x
  {
  }

  // ---------------------------------------------------------------------------
  // Pixel order, checkpoint and rendering
  // ---------------------------------------------------------------------------

  function Row(width: nat, j: int): seq<(int, int)> {
    seq(width, i => (i, j))
  }

  /** The pixel list of `render`: rows `j` of the image in order, columns `i` within each row. */
  function Pixels(width: nat, height: nat): seq<(int, int)> {
    if height == 0 then [] else Pixels(width, height - 1) + Row(width, height - 1)
  }

  /** The list is row-major: entry `k` is the pixel `(k % width, k / width)`. */
  lemma {:induction false} PixelsRowMajor(width: nat, height: nat)
    ensures |Pixels(width, height)| == width * height
    ensures forall k :: 0 <= k < width * height ==> Pixels(width, height)[k] == (k % width, k / width)
  {
    if height > 0 {
      PixelsRowMajor(width, height - 1);
      var before, row := Pixels(width, height - 1), Row(width, height - 1);
      assert width * height == width * (height - 1) + width;
      forall k | 0 <= k < width * height
        ensures Pixels(width, height)[k] == (k % width, k / width)
      {
        if k >= width * (height - 1) {
          var i := k - width * (height - 1);
          DivModOfRow(width, height - 1, i);
          assert Pixels(width, height)[k] == row[i];
        } else {
          assert Pixels(width, height)[k] == before[k];
        }
      }
    }
  }

  /** Conversely, pixel `(i, j)` sits at entry `j * width + i`. */
  lemma PixelIndex(width: nat, height: nat, i: int, j: int)
    requires 0 <= i < width && 0 <= j < height
    ensures j * width + i < |Pixels(width, height)|
    ensures Pixels(width, height)[j * width + i] == (i, j)
  {
    PixelsRowMajor(width, height);
    assert j * width == width * j;
    assert width * (j + 1) == width * j + width;
    MulLeNat(width, j + 1, height);
    DivModOfRow(width, j, i);
  }

  lemma DivModOfRow(w: nat, q: nat, i: int)
    requires 0 <= i < w
    ensures (w * q + i) / w == q && (w * q + i) % w == i
  {
    var k := w * q + i;
    var d, m := k / w, k % w;
    assert w * (d - q) == i - m;
    if d > q {
      MulAtLeast(w, d - q);
    } else if d < q {
      MulAtLeast(w, q - d);
    }
  }

  lemma MulLeNat(w: nat, a: nat, b: nat)
    requires a <= b
    ensures w * a <= w * b
  {
    assert w * b - w * a == w * (b - a);
  }

  lemma MulAtLeast(w: nat, n: int)
    requires n >= 1
    ensures w * n >= w
  {
    assert w * n - w == w * (n - 1);
  }

  /** The checkpoint file holds three bytes per pixel. */
  function FileSize(total: nat): nat {
    total * 3
  }

  /** `par_chunks(3)`: consecutive runs of three bytes, the last one possibly shorter. */
  function Chunks(s: seq<int>): seq<seq<int>>
    decreases |s|
  {
    if |s| == 0 then [] else if |s| <= 3 then [s] else [s[..3]] + Chunks(s[3..])
  }

  /** A checkpoint-sized file splits into one three-byte chunk per pixel. */
  lemma {:induction false} ChunksOfFile(s: seq<int>, total: nat)
    requires |s| == FileSize(total)
    ensures |Chunks(s)| == total
    ensures forall k :: 0 <= k < total ==> Chunks(s)[k] == s[3 * k..3 * k + 3]
  {
    if total > 1 {
      ChunksOfFile(s[3..], total - 1);
      forall k | 0 <= k < total
        ensures Chunks(s)[k] == s[3 * k..3 * k + 3]
      {
        if k > 0 {
          assert Chunks(s)[k] == Chunks(s[3..])[k - 1];
        }
      }
    }
  }

  /** Rust's `zip`: pairs up to the shorter of the two. */
  function Zip<A, B>(a: seq<A>, b: seq<B>): (z: seq<(A, B)>)
    ensures |z| == (if |a| <= |b| then |a| else |b|)
    ensures forall k :: 0 <= k < |z| ==> z[k] == (a[k], b[k])
  {
    if |a| == 0 || |b| == 0 then [] else [(a[0], b[0])] + Zip(a[1..], b[1..])
  }

  /** One entry of `render`'s work list: whether the pixel is already rendered, and its position. */
  datatype Task = Task(done: bool, i: int, j: int)

  const Black: seq<int> := [0, 0, 0]

  /**
   The resume step: when the checkpoint has exactly the expected size each
   pixel whose three bytes are not all zero counts as rendered; otherwise
   the file is recreated and every pixel is pending.
   */
  function Resume(contents: seq<int>, pixels: seq<(int, int)>): (tasks: seq<Task>)
    ensures |tasks| == |pixels|
    ensures forall k :: 0 <= k < |pixels| ==> (tasks[k].i, tasks[k].j) == pixels[k]
    ensures forall k :: 0 <= k < |pixels| ==>
      (tasks[k].done <==> |contents| == FileSize(|pixels|) && contents[3 * k..3 * k + 3] != Black)
  {
    if |contents| == FileSize(|pixels|) then
      ChunksOfFile(contents, |pixels|);
      var z := Zip(Chunks(contents), pixels);
      seq(|z|, k requires 0 <= k < |z| => Task(z[k].0 != Black, z[k].1.0, z[k].1.1))
    else
      seq(|pixels|, k requires 0 <= k < |pixels| => Task(false, pixels[k].0, pixels[k].1))
  }

  /** The bytes the render starts from: the old file if it was kept, zeros (`set_len` on a new file) if not. */
  function Checkpoint(contents: seq<int>, total: nat): (buffer: seq<int>)
    ensures |buffer| == FileSize(total)
    ensures |contents| != FileSize(total) ==> forall n :: 0 <= n < |buffer| ==> buffer[n] == 0
  {
    if |contents| == FileSize(total) then contents else seq(FileSize(total), _ => 0)
  }

  /**
   Whatever file is found, a pixel is marked rendered exactly when its slot
   in the starting buffer is not black.
   */
  lemma ResumeConsistent(contents: seq<int>, pixels: seq<(int, int)>)
    ensures forall k :: 0 <= k < |pixels| ==>
      (Resume(contents, pixels)[k].done <==> Checkpoint(contents, |pixels|)[3 * k..3 * k + 3] != Black)
  {
    var tasks, buffer := Resume(contents, pixels), Checkpoint(contents, |pixels|);
    if |contents| != FileSize(|pixels|) {
      forall k | 0 <= k < |pixels|
        ensures !tasks[k].done && buffer[3 * k..3 * k + 3] == Black
      {
        assert buffer[3 * k..3 * k + 3] == [buffer[3 * k], buffer[3 * k + 1], buffer[3 * k + 2]];
      }
    }
  }

  /** The sum of the first `n` colour samples of pixel `(i, j)`. */
  function SampleSum(radiance: (int, int, nat) -> Vec3, i: int, j: int, n: nat): Vec3 {
    if n == 0 then Zero else Add(SampleSum(radiance, i, j, n - 1), radiance(i, j, n - 1))
  }

  /** Samples in `[0, b]` sum to at most `n * b`. */
  lemma {:induction false} SampleSumBounded(radiance: (int, int, nat) -> Vec3, i: int, j: int, n: nat, b: real)
    requires forall s: nat :: Within(radiance(i, j, s), 0.0, b)
    ensures Within(SampleSum(radiance, i, j, n), 0.0, n as real * b)
  {
    if n > 0 {
      var prev := SampleSum(radiance, i, j, n - 1);
      SampleSumBounded(radiance, i, j, n - 1, b);
      assert SampleSum(radiance, i, j, n) == Add(prev, radiance(i, j, n - 1));
      OneMore(n, b);
      AddBounded(prev, radiance(i, j, n - 1), (n - 1) as real * b, b, n as real * b);
    }
  }

  lemma AddBounded(a: Vec3, c: Vec3, x: real, y: real, z: real)
    requires Within(a, 0.0, x) && Within(c, 0.0, y) && z == x + y
    ensures Within(Add(a, c), 0.0, z)
  {
  }

  lemma OneMore(n: nat, b: real)
    requires n > 0
    ensures n as real * b == (n - 1) as real * b + b
  {
  }

  /** The sample loop of one pixel. */
  method PixelColor(radiance: (int, int, nat) -> Vec3, i: int, j: int, spp: int) returns (c: Vec3)
    ensures c == SampleSum(radiance, i, j, if spp > 0 then spp else 0)
  {
    c := Zero;
    var s := 0;
    while s < spp
      invariant 0 <= s && (spp > 0 ==> s <= spp) && (spp <= 0 ==> s == 0)
      invariant c == SampleSum(radiance, i, j, s)
    {
      c := Add(c, radiance(i, j, s));
      s := s + 1;
    }
  }

  /**
   The per-pixel pass of `render` over the three-byte slots: rendered pixels
   are skipped with their slot untouched, pending ones receive the bytes of
   their summed samples.
   */
  method Render(sqrt: real -> real, tasks: seq<Task>, slots: seq<seq<int>>, radiance: (int, int, nat) -> Vec3, spp: int)
    returns (out: seq<seq<int>>)
    requires IsSqrt(sqrt) && spp > 0
    requires |slots| == |tasks|
    ensures |out| == |slots|
    ensures forall k :: 0 <= k < |tasks| && tasks[k].done ==> out[k] == slots[k]
    ensures forall k :: 0 <= k < |tasks| && !tasks[k].done ==>
      out[k] == Colors.ConvertColor(sqrt, SampleSum(radiance, tasks[k].i, tasks[k].j, spp), spp)
  {
    out := slots;
    var n := 0;
    while n < |tasks|
      invariant 0 <= n <= |tasks| && |out| == |slots|
      invariant forall k :: n <= k < |tasks| ==> out[k] == slots[k]
      invariant forall k :: 0 <= k < n && tasks[k].done ==> out[k] == slots[k]
      invariant forall k :: 0 <= k < n && !tasks[k].done ==>
        out[k] == Colors.ConvertColor(sqrt, SampleSum(radiance, tasks[k].i, tasks[k].j, spp), spp)
    {
      if !tasks[n].done {
        var color := PixelColor(radiance, tasks[n].i, tasks[n].j, spp);
        out := out[n := Colors.ConvertColor(sqrt, color, spp)];
      }
      n := n + 1;
    }
  }

  /** The memory map seen as bytes: the slots one after another. */
  function Flatten(slots: seq<seq<int>>): seq<int> {
    if |slots| == 0 then [] else slots[0] + Flatten(slots[1..])
  }

  lemma {:induction false} FlattenTriples(slots: seq<seq<int>>)
    requires forall k :: 0 <= k < |slots| ==> |slots[k]| == 3
    ensures |Flatten(slots)| == FileSize(|slots|)
    ensures forall k :: 0 <= k < |slots| ==> Flatten(slots)[3 * k..3 * k + 3] == slots[k]
  {
    if |slots| > 0 {
      FlattenTriples(slots[1..]);
      var rest := Flatten(slots[1..]);
      forall k | 0 <= k < |slots|
        ensures Flatten(slots)[3 * k..3 * k + 3] == slots[k]
      {
        if k > 0 {
          assert Flatten(slots)[3 * k..3 * k + 3] == rest[3 * (k - 1)..3 * (k - 1) + 3];
        }
      }
    }
  }

  /**
   Resuming from the file a render left behind: every pixel that was done
   stays done, and a pending pixel becomes done exactly when its bytes are
   not all zero — a pixel whose samples quantise to black is rendered again.
   */
  lemma ResumeAfterRender(
    sqrt: real -> real,
    pixels: seq<(int, int)>,
    tasks: seq<Task>,
    slots: seq<seq<int>>,
    out: seq<seq<int>>,
    radiance: (int, int, nat) -> Vec3,
    spp: int)
    requires IsSqrt(sqrt) && spp > 0
    requires |tasks| == |pixels| == |slots| == |out|
    requires forall k :: 0 <= k < |slots| ==> |slots[k]| == 3
    requires forall k :: 0 <= k < |tasks| ==> (tasks[k].done <==> slots[k] != Black)
    requires forall k :: 0 <= k < |tasks| && tasks[k].done ==> out[k] == slots[k]
    requires forall k :: 0 <= k < |tasks| && !tasks[k].done ==>
      out[k] == Colors.ConvertColor(sqrt, SampleSum(radiance, tasks[k].i, tasks[k].j, spp), spp)
    ensures forall k :: 0 <= k < |tasks| ==>
      (Resume(Flatten(out), pixels)[k].done <==>
        tasks[k].done || Colors.ConvertColor(sqrt, SampleSum(radiance, tasks[k].i, tasks[k].j, spp), spp) != Black)
  {
    FlattenTriples(out);
  }

  // ---------------------------------------------------------------------------
  // Progress
  // ---------------------------------------------------------------------------

  /**
   The progress report as written: every `total / 100` pixels. With fewer
   than a hundred pixels the step is zero and the remainder panics (`None`).
   */
  function ProgressAsWritten(total: nat, done: nat): (report: Option<bool>)
    ensures report.None? <==> total < 100
    ensures report.Some? ==> (report.value <==> exists n :: 0 <= n <= done && n * (total / 100) == done)
  {
    var step := total / 100;
    if step == 0 then None
    else
      MultipleIff(done, step);
      Some(done % step == 0)
  }

  lemma MultipleIff(done: nat, step: nat)
    requires step > 0
    ensures done % step == 0 <==> exists n :: 0 <= n <= done && n * step == done
  {
    if done % step == 0 {
      var n := done / step;
      assert n * step == done;
      MulAtLeast(n, step);
      assert 0 <= n <= done && n * step == done;
    } else {
      forall n | 0 <= n <= done
        ensures n * step != done
      {
        DivModOfRow(step, n, 0);
        assert step * n == n * step;
      }
    }
  }

  /** A small image never reaches a report without panicking. */
  lemma ProgressPanicsOnSmallImage()
    ensures ProgressAsWritten(99, 1).None?
  {
  }

  /** The evidently intended report: a step of at least one pixel. */
  function Progress(total: nat, done: nat): (report: bool)
    ensures total < 100 ==> report
  {
    var step := if total / 100 > 0 then total / 100 else 1;
    done % step == 0
  }

  /** The corrected report agrees with the original wherever the original does not panic. */
  lemma ProgressAgrees(total: nat, done: nat)
    ensures ProgressAsWritten(total, done).Some? ==> ProgressAsWritten(total, done).value == Progress(total, done)
  {
  }

  lemma FractionBounds(d: real, t: real)
    requires 0.0 <= d <= t && 0.0 < t
    ensures 0.0 <= d / t <= 1.0
    ensures d == t ==> d / t == 1.0
    ensures d == 0.0 ==> d / t == 0.0
  {
    var f := d / t;
    assert f * t == d;
    if f > 1.0 {
      MulStrictMono(1.0, f, t);
    }
    if f < 0.0 {
      MulStrictMono(0.0, -f, t);
    }
  }

  /** The percentage printed: done over total, times 100, truncated to a byte. */
  function Percent(done: nat, total: nat): (p: int)
    requires 0 < total && done <= total
    ensures 0 <= p <= 100
    ensures done == total ==> p == 100
    ensures done == 0 ==> p == 0
  {
    var fraction := done as real / total as real;
    FractionBounds(done as real, total as real);
    Trunc(fraction * 100.0)
  }
}

=== FILE: color.dfy ===
/**
 The colour output of `src/util/color.rs`: gamma correction, quantisation of
 an accumulated sample sum to three bytes, and the text line the PPM writer
 emits for one pixel. The square root is a parameter (`Numeric.IsSqrt`).
 */
module Colors {
  import opened Vectors
  import opened Numeric
  import opened Options

  /** `linear_to_gamma`: gamma 2, the square root. */
  function LinearToGamma(sqrt: real -> real, x: real): (g: real)
    requires IsSqrt(sqrt) && x >= 0.0
    ensures g >= 0.0 && g * g == x
  {
    sqrt(x)
  }

  /** Gamma correction undoes squaring: a squared intensity maps back to itself. */
  lemma GammaOfSquare(sqrt: real -> real, y: real)
    requires IsSqrt(sqrt) && y >= 0.0
    ensures LinearToGamma(sqrt, y * y) == y
  {
    SquareNonNegative(y);
    SqrtOfSquare(sqrt, y);
  }

  /**
   One channel of `convert_color`: average over the samples, gamma-correct,
   clamp to `[0, 0.999]`, scale by 256 and truncate. A negative average has a
   NaN square root, which the clamp keeps and the cast turns into `0`.
   */
  function ChannelByte(sqrt: real -> real, c: real, spp: int): (b: int)
    requires IsSqrt(sqrt) && spp > 0
    ensures 0 <= b <= 255
    ensures c <= 0.0 ==> b == 0
  {
    var x := c * (1.0 / spp as real);
    if x < 0.0 then 0
    else
      var y := Clamp(LinearToGamma(sqrt, x), 0.0, 0.999);
      ByteRange(y);
      if x == 0.0 then
        SqrtZero(sqrt);
        Trunc(256.0 * y)
      else
        Trunc(256.0 * y)
  }

  lemma ByteRange(y: real)
    requires 0.0 <= y <= 0.999
    ensures 0 <= Trunc(256.0 * y) <= 255
    ensures y == 0.0 ==> Trunc(256.0 * y) == 0
  {
  }

  lemma SqrtZero(sqrt: real -> real)
    requires IsSqrt(sqrt)
    ensures sqrt(0.0) == 0.0
  {
    SqrtOfSquare(sqrt, 0.0);
  }

  /** The average `c / spp` as the source computes it, `c * (1 / spp)`. */
  lemma AverageMono(c1: real, c2: real, spp: int)
    requires spp > 0 && c1 <= c2
    ensures c1 * (1.0 / spp as real) <= c2 * (1.0 / spp as real)
  {
    MulMono(1.0 / spp as real, c1, c2);
  }

  /** A brighter channel never gives a smaller byte. */
  lemma ChannelMonotone(sqrt: real -> real, c1: real, c2: real, spp: int)
    requires IsSqrt(sqrt) && spp > 0
    requires c1 <= c2
    ensures ChannelByte(sqrt, c1, spp) <= ChannelByte(sqrt, c2, spp)
  {
    var x1, x2 := c1 * (1.0 / spp as real), c2 * (1.0 / spp as real);
    AverageMono(c1, c2, spp);
    if 0.0 <= x1 {
      SqrtMono(sqrt, x1, x2);
      var y1, y2 := Clamp(sqrt(x1), 0.0, 0.999), Clamp(sqrt(x2), 0.0, 0.999);
      assert y1 <= y2;
      assert 256.0 * y1 <= 256.0 * y2;
    }
  }

  /** A channel whose average reaches full intensity saturates at 255. */
  lemma ChannelSaturates(sqrt: real -> real, c: real, spp: int)
    requires IsSqrt(sqrt) && spp > 0
    requires c >= spp as real
    ensures ChannelByte(sqrt, c, spp) == 255
  {
    var x := c * (1.0 / spp as real);
    AverageMono(spp as real, c, spp);
    assert spp as real * (1.0 / spp as real) == 1.0;
    SqrtMono(sqrt, 1.0, x);
    SqrtOfSquare(sqrt, 1.0);
    assert sqrt(x) >= 1.0;
  }

  /** `convert_color`: the three channel bytes. */
  function ConvertColor(sqrt: real -> real, c: Vec3, spp: int): (rgb: seq<int>)
    requires IsSqrt(sqrt) && spp > 0
    ensures |rgb| == 3 && forall k :: 0 <= k < 3 ==> 0 <= rgb[k] <= 255
  {
    [ChannelByte(sqrt, c.x, spp), ChannelByte(sqrt, c.y, spp), ChannelByte(sqrt, c.z, spp)]
  }

  /** Black quantises to `[0, 0, 0]`, the bytes a resumed render reads as "not rendered". */
  lemma BlackIsZero(sqrt: real -> real, spp: int)
    requires IsSqrt(sqrt) && spp > 0
    ensures ConvertColor(sqrt, Zero, spp) == [0, 0, 0]
  {
  }

  /**
   Each byte follows its own channel only, and never decreases when that
   channel brightens.
   */
  lemma ConvertMonotone(sqrt: real -> real, c1: Vec3, c2: Vec3, spp: int)
    requires IsSqrt(sqrt) && spp > 0
    ensures c1.x <= c2.x ==> ConvertColor(sqrt, c1, spp)[0] <= ConvertColor(sqrt, c2, spp)[0]
    ensures c1.y <= c2.y ==> ConvertColor(sqrt, c1, spp)[1] <= ConvertColor(sqrt, c2, spp)[1]
    ensures c1.z <= c2.z ==> ConvertColor(sqrt, c1, spp)[2] <= ConvertColor(sqrt, c2, spp)[2]
  {
    if c1.x <= c2.x {
      ChannelMonotone(sqrt, c1.x, c2.x, spp);
    }
    if c1.y <= c2.y {
      ChannelMonotone(sqrt, c1.y, c2.y, spp);
    }
    if c1.z <= c2.z {
      ChannelMonotone(sqrt, c1.z, c2.z, spp);
    }
  }

  // ---------------------------------------------------------------------------
  // The text line of one pixel
  // ---------------------------------------------------------------------------

  predicate IsDigit(c: char) {
    '0' <= c <= '9'
  }

  predicate AllDigits(s: string) {
    forall k :: 0 <= k < |s| ==> IsDigit(s[k])
  }

  function DigitChar(d: int): (c: char)
    requires 0 <= d < 10
    ensures IsDigit(c) && c as int - '0' as int == d
  {
    ('0' as int + d) as char
  }

  /** The decimal representation `{}` formats a non-negative integer with. */
  function Decimal(n: nat): (s: string)
    ensures |s| > 0 && AllDigits(s)
    ensures ' ' !in s && '\n' !in s
  {
    if n < 10 then [DigitChar(n)] else Decimal(n / 10) + [DigitChar(n % 10)]
  }

  /** Reads a string of decimal digits back as a number. */
  function ParseDecimal(s: string): nat
    requires AllDigits(s)
  {
    if |s| == 0 then 0 else ParseDecimal(s[..|s| - 1]) * 10 + (s[|s| - 1] as int - '0' as int)
  }

  lemma {:induction false} DecimalRoundTrip(n: nat)
    ensures ParseDecimal(Decimal(n)) == n
  {
    var s := Decimal(n);
    if n >= 10 {
      assert s[..|s| - 1] == Decimal(n / 10);
      DecimalRoundTrip(n / 10);
    } else {
      assert s[..|s| - 1] == [];
    }
  }

  /** Splits a string at every occurrence of `sep`. */
  function Split(s: string, sep: char): (r: seq<string>)
    ensures |r| > 0
  {
    if |s| == 0 then [""]
    else if s[0] == sep then [""] + Split(s[1..], sep)
    else
      var rest := Split(s[1..], sep);
      [[s[0]] + rest[0]] + rest[1..]
  }

  /** A piece without the separator is a single field. */
  lemma {:induction false} SplitNoSeparator(a: string, sep: char)
    requires sep !in a
    ensures Split(a, sep) == [a]
  {
    if |a| > 0 {
      assert sep !in a[1..];
      SplitNoSeparator(a[1..], sep);
      assert [a[0]] + a[1..] == a;
    }
  }

  /** A field followed by the separator splits off as the first field. */
  lemma {:induction false} SplitFirst(a: string, sep: char, b: string)
    requires sep !in a
    ensures Split(a + [sep] + b, sep) == [a] + Split(b, sep)
  {
    var s := a + [sep] + b;
    if |a| == 0 {
      assert s == [sep] + b;
      assert s[1..] == b;
    } else {
      assert s[0] == a[0];
      assert s[1..] == a[1..] + [sep] + b;
      assert sep !in a[1..];
      SplitFirst(a[1..], sep, b);
      assert [a[0]] + a[1..] == a;
    }
  }

  /** `write_color`: the three bytes in decimal, separated by spaces, and a newline. */
  function WriteColor(sqrt: real -> real, c: Vec3, spp: int): (line: string)
    requires IsSqrt(sqrt) && spp > 0
    ensures |line| > 0 && line[|line| - 1] == '\n'
  {
    var rgb := ConvertColor(sqrt, c, spp);
    Decimal(rgb[0]) + " " + Decimal(rgb[1]) + " " + Decimal(rgb[2]) + "\n"
  }

  /** Reads one pixel line back: three decimal fields separated by single spaces, ending in a newline. */
  function ReadColor(line: string): Option<seq<int>> {
    if |line| == 0 || line[|line| - 1] != '\n' then None
    else
      var fields := Split(line[..|line| - 1], ' ');
      if |fields| == 3 && forall k :: 0 <= k < 3 ==> |fields[k]| > 0 && AllDigits(fields[k]) then
        Some([ParseDecimal(fields[0]), ParseDecimal(fields[1]), ParseDecimal(fields[2])])
      else None
  }

  /** The line `write_color` emits reads back as exactly the bytes of `convert_color`. */
  lemma WriteColorReadsBack(sqrt: real -> real, c: Vec3, spp: int)
    requires IsSqrt(sqrt) && spp > 0
    ensures ReadColor(WriteColor(sqrt, c, spp)) == Some(ConvertColor(sqrt, c, spp))
  {
    var rgb := ConvertColor(sqrt, c, spp);
    var r, g, b := Decimal(rgb[0]), Decimal(rgb[1]), Decimal(rgb[2]);
    var line := WriteColor(sqrt, c, spp);
    assert line[..|line| - 1] == r + [' '] + (g + [' '] + b);
    SplitFirst(r, ' ', g + [' '] + b);
    SplitFirst(g, ' ', b);
    SplitNoSeparator(b, ' ');
    var fields := Split(line[..|line| - 1], ' ');
    assert fields == [r, g, b];
    DecimalRoundTrip(rgb[0]);
    DecimalRoundTrip(rgb[1]);
    DecimalRoundTrip(rgb[2]);
  }
}

=== FILE: constant_medium.dfy ===
/**
 The participating medium of `src/hittable/constant_medium.rs`: a volume of
 constant density bounded by another hittable. A ray entering the boundary
 travels a random distance inside and scatters there, or passes through
 when that distance exceeds the stretch of the ray inside the boundary.

 The boundary's hit function is a parameter, as for the other instances. So
 are the window `Interval::UNIVERSE` used for the first boundary query
 (defined outside this model), the square root behind `length`, and the
 logarithm `log10` of the uniform draw, which is at most zero (and `-inf`
 for a draw of zero).
 */
module ConstantMedia {
  import opened ExtReal
  import opened Vectors
  import opened Numeric
  import opened Intervals
  import opened Rays
  import opened Options
  import opened HitRecords
  import opened Aabb
  import opened Hittables

  datatype ConstantMedium<T, M> = ConstantMedium(boundary: T, negInvDensity: real, phase: M)

  /** The gap after the first boundary hit before looking for the second one. */
  const ExitGap: real := 0.0001

  /** `ConstantMedium::new`: stores `-1 / d`; a positive density gives a negative factor. */
  function New<T, M>(boundary: T, d: real, phase: M): (cm: ConstantMedium<T, M>)
    requires d != 0.0
    ensures cm.boundary == boundary && cm.phase == phase
    ensures cm.negInvDensity * d == -1.0
    ensures cm.negInvDensity < 0.0 <==> d > 0.0
  {
    ConstantMedium(boundary, -1.0 / d, phase)
  }

  /** The first boundary crossing, searched over the whole line. */
  function FirstHit<T, M>(hit: (T, Ray, Interval) -> Option<HitRecord<M>>, cm: ConstantMedium<T, M>, r: Ray, universe: Interval): Option<HitRecord<M>> {
    hit(cm.boundary, r, universe)
  }

  /** The second boundary crossing, searched strictly beyond the first. */
  function SecondHit<T, M>(hit: (T, Ray, Interval) -> Option<HitRecord<M>>, cm: ConstantMedium<T, M>, r: Ray, t1: real): Option<HitRecord<M>> {
    hit(cm.boundary, r, Interval(Fin(t1 + ExitGap), PosInf))
  }

  /** Where the ray starts inside: the first crossing clipped to the window (`hit1.t.max(ray_t.min)`). */
  function Enter(t1: real, rayT: Interval): EReal {
    Max(Fin(t1), rayT.min)
  }

  /** Where the ray leaves: the second crossing clipped to the window (`hit2.t.min(ray_t.max)`). */
  function Leave(t2: real, rayT: Interval): EReal {
    Min(Fin(t2), rayT.max)
  }

  /**
   The scattering distance `neg_inv_density * log10(draw)`. A draw of zero
   gives `-inf`, and so an infinite distance whose sign is opposite to the
   factor's; a zero factor makes that product NaN, here `None`. A positive
   density (negative factor) gives a distance of zero or more, a negative
   density one of zero or less.
   */
  function HitDistance(negInvDensity: real, logDraw: EReal): (hd: Option<EReal>)
    requires Le(logDraw, Fin(0.0))
    ensures hd.None? <==> negInvDensity == 0.0 && logDraw.NegInf?
    ensures logDraw.Fin? ==> hd == Some(Fin(negInvDensity * logDraw.r))
    ensures logDraw.NegInf? && negInvDensity < 0.0 ==> hd == Some(PosInf)
    ensures logDraw.NegInf? && negInvDensity > 0.0 ==> hd == Some(NegInf)
    ensures negInvDensity < 0.0 ==> hd.Some? && (hd.value == PosInf || (hd.value.Fin? && hd.value.r >= 0.0))
    ensures negInvDensity > 0.0 ==> hd.Some? && (hd.value == NegInf || (hd.value.Fin? && hd.value.r <= 0.0))
  {
    match logDraw
    case Fin(x) =>
      ProductSign(negInvDensity, x);
      Some(Fin(negInvDensity * x))
    case NegInf => if negInvDensity == 0.0 then None else Some(Times(NegInf, negInvDensity))
    case PosInf => assert false; None
  }

  /** A non-positive `x` times `k` has the sign opposite to `k`'s. */
  lemma ProductSign(k: real, x: real)
    requires x <= 0.0
    ensures k < 0.0 ==> k * x >= 0.0
    ensures k > 0.0 ==> k * x <= 0.0
  {
    if k < 0.0 {
      MulAntitone(k, x, 0.0);
    } else if k > 0.0 {
      MulMono(k, x, 0.0);
    }
  }

  /**
   The clipped stretch: finite ends, the entry clamped to zero at or after the
   first crossing and the window's start, the exit at or before the second
   crossing and the window's end.
   */
  lemma ClipWindow(t1: real, t2: real, rayT: Interval)
    requires Lt(Enter(t1, rayT), Leave(t2, rayT))
    ensures Max(Enter(t1, rayT), Fin(0.0)).Fin? && Leave(t2, rayT).Fin?
    ensures var enter, leave := Max(Enter(t1, rayT), Fin(0.0)).r, Leave(t2, rayT).r;
      0.0 <= enter && t1 <= enter && Le(rayT.min, Fin(enter)) &&
      leave <= t2 && Le(Fin(leave), rayT.max)
  {
  }

  /**
   The scattering parameter along the stretch from `enter` to `leave` of a ray
   whose direction has length `len`: present exactly when the drawn distance
   is at most the stretch's length, and then that distance further along the
   ray. A negative distance (from a negative density) goes backwards, before
   the entry.
   */
  function ScatterTime(enter: real, leave: real, len: real, hd: EReal): (t: Option<real>)
    requires len > 0.0
    requires hd != NegInf
    ensures t.Some? <==> Le(hd, Fin((leave - enter) * len))
    ensures t.Some? ==> t.value <= leave && hd == Fin((t.value - enter) * len)
    ensures t.Some? ==> (enter <= t.value <==> hd.r >= 0.0)
  {
    if Lt(Fin((leave - enter) * len), hd) then None
    else
      DivideBelow(hd.r, leave - enter, len);
      Some(enter + hd.r / len)
  }

  lemma DivideBelow(x: real, y: real, len: real)
    requires len > 0.0 && x <= y * len
    ensures x / len <= y && (x / len) * len == x
    ensures 0.0 <= x / len <==> 0.0 <= x
  {
    assert y - x / len == (y * len - x) / len;
    if x < 0.0 {
      assert x / len < 0.0;
    }
  }

  /**
   `hit`. The ray is clipped to the stretch between the two boundary crossings
   and the window; if that is empty there is no hit. Otherwise the entry is
   clamped to zero, the ray travels the scattering distance from the entry
   (measured along the ray, so divided by the direction's length), and
   scatters there unless that lies beyond the exit. The record has the phase
   function as material, zero texture coordinates, an arbitrary normal and
   `front_face` set.

   A negative density makes the distance negative, and the reported hit lies
   before the entry. Where the parameter would not be a real number (`-inf`
   for a negative density and a draw of zero, NaN for a zero factor) the
   model reports no hit. The direction must be non-zero: its length divides.
   */
  function Hit<T, M>(hit: (T, Ray, Interval) -> Option<HitRecord<M>>, cm: ConstantMedium<T, M>, r: Ray, rayT: Interval,
                     universe: Interval, sqrt: real -> real, logDraw: EReal): (o: Option<HitRecord<M>>)
    requires IsSqrt(sqrt) && LengthSquared(r.direction) > 0.0
    requires Le(logDraw, Fin(0.0))
    ensures o.Some? ==>
      var h1 := FirstHit(hit, cm, r, universe);
      h1.Some? && SecondHit(hit, cm, r, h1.value.t).Some? &&
      var h2 := SecondHit(hit, cm, r, h1.value.t).value;
      Lt(Enter(h1.value.t, rayT), Leave(h2.t, rayT)) &&
      o.value.t <= h2.t && Le(Fin(o.value.t), rayT.max) &&
      (cm.negInvDensity < 0.0 ==> h1.value.t <= o.value.t && 0.0 <= o.value.t && Contains(rayT, o.value.t)) &&
      (cm.negInvDensity > 0.0 ==> Le(Fin(o.value.t), Max(Enter(h1.value.t, rayT), Fin(0.0))))
    ensures o.Some? ==>
      o.value.p == At(r, o.value.t) && o.value.u == 0.0 && o.value.v == 0.0 &&
      o.value.frontFace && o.value.material == cm.phase
  {
    match FirstHit(hit, cm, r, universe)
    case None => None
    case Some(h1) =>
      match SecondHit(hit, cm, r, h1.t)
      case None => None
      case Some(h2) =>
        SqrtPositive(sqrt, LengthSquared(r.direction));
        var hd := HitDistance(cm.negInvDensity, logDraw);
        if hd.None? || hd.value.NegInf? then None
        else
          match Scatter(h1.t, h2.t, rayT, Length(sqrt, r.direction), hd.value)
          case None => None
          case Some(t) => Some(ScatterRecord(r, t, cm.phase))
  }

  /**
   The scattering parameter between the boundary crossings `t1` and `t2`, for
   a ray whose direction has length `len` and a drawn distance `hd`: none when
   the clipped stretch is empty; otherwise present exactly when the distance
   fits in the stretch, and then that distance past the (zero-clamped) entry.
   A distance of zero or more keeps the parameter between the crossings, at
   or after zero and in the window.
   */
  function Scatter(t1: real, t2: real, rayT: Interval, len: real, hd: EReal): (t: Option<real>)
    requires len > 0.0
    requires hd != NegInf
    ensures t.Some? ==> Lt(Enter(t1, rayT), Leave(t2, rayT))
    ensures t.Some? ==> t.value <= t2 && Le(Fin(t.value), rayT.max)
    ensures t.Some? && Le(Fin(0.0), hd) ==> t1 <= t.value && 0.0 <= t.value && Contains(rayT, t.value)
    ensures Lt(Enter(t1, rayT), Leave(t2, rayT)) ==>
      var enter, leave := Max(Enter(t1, rayT), Fin(0.0)), Leave(t2, rayT);
      enter.Fin? && leave.Fin? &&
      (t.Some? <==> Le(hd, Fin((leave.r - enter.r) * len))) &&
      (t.Some? ==> hd == Fin((t.value - enter.r) * len)) &&
      (t.Some? ==> (enter.r <= t.value <==> Le(Fin(0.0), hd)))
  {
    if Le(Leave(t2, rayT), Enter(t1, rayT)) then None
    else
      ClipWindow(t1, t2, rayT);
      ScatterTime(Max(Enter(t1, rayT), Fin(0.0)).r, Leave(t2, rayT).r, len, hd)
  }

  /** The record of a scattering event: no texture coordinates, an arbitrary normal, always the front face. */
  function ScatterRecord<M>(r: Ray, t: real, phase: M): (rec: HitRecord<M>)
    ensures rec.t == t && rec.p == At(r, t) && rec.u == 0.0 && rec.v == 0.0
    ensures rec.frontFace && rec.material == phase
  {
    HitRecords.New(r, t, At(r, t), 0.0, 0.0, phase, UnitX).(frontFace := true)
  }

  /** With both crossings found, `hit` is the scattering parameter's record, when the distance is a real number or `+inf`. */
  lemma HitUnfolds<T, M>(hit: (T, Ray, Interval) -> Option<HitRecord<M>>, cm: ConstantMedium<T, M>, r: Ray, rayT: Interval,
                         universe: Interval, sqrt: real -> real, logDraw: EReal)
    requires IsSqrt(sqrt) && LengthSquared(r.direction) > 0.0
    requires Le(logDraw, Fin(0.0))
    requires FirstHit(hit, cm, r, universe).Some?
    requires SecondHit(hit, cm, r, FirstHit(hit, cm, r, universe).value.t).Some?
    ensures Length(sqrt, r.direction) > 0.0
    ensures
      var h1 := FirstHit(hit, cm, r, universe).value;
      FollowsScatter(Hit(hit, cm, r, rayT, universe, sqrt, logDraw), HitDistance(cm.negInvDensity, logDraw),
                     h1.t, SecondHit(hit, cm, r, h1.t).value.t, rayT, Length(sqrt, r.direction))
  {
    SqrtPositive(sqrt, LengthSquared(r.direction));
  }

  /**
   `o` is what `Scatter` gives between crossings `t1` and `t2` for the
   distance `hd`, and nothing when that is not a real number or `+inf`.
   */
  ghost predicate FollowsScatter<M>(o: Option<HitRecord<M>>, hd: Option<EReal>, t1: real, t2: real, rayT: Interval, len: real) {
    if hd.None? || hd.value.NegInf? then o.None?
    else
      len > 0.0 &&
      var sc := Scatter(t1, t2, rayT, len, hd.value);
      (o.Some? <==> sc.Some?) && (o.Some? ==> o.value.t == sc.value)
  }

  /**
   With both crossings found and a non-empty clipped stretch, the medium
   scatters exactly when the drawn distance is a real number or `+inf` and
   fits inside the stretch, and then the ray has travelled exactly that
   distance past the entry.
   */
  lemma ScattersIffWithin<T, M>(hit: (T, Ray, Interval) -> Option<HitRecord<M>>, cm: ConstantMedium<T, M>, r: Ray, rayT: Interval,
                                universe: Interval, sqrt: real -> real, logDraw: EReal)
    requires IsSqrt(sqrt) && LengthSquared(r.direction) > 0.0
    requires Le(logDraw, Fin(0.0))
    requires FirstHit(hit, cm, r, universe).Some?
    requires SecondHit(hit, cm, r, FirstHit(hit, cm, r, universe).value.t).Some?
    requires
      var h1 := FirstHit(hit, cm, r, universe).value;
      var h2 := SecondHit(hit, cm, r, h1.t).value;
      Lt(Enter(h1.t, rayT), Leave(h2.t, rayT))
    ensures
      var h1 := FirstHit(hit, cm, r, universe).value;
      ScattersWithin(Hit(hit, cm, r, rayT, universe, sqrt, logDraw), HitDistance(cm.negInvDensity, logDraw),
                     h1.t, SecondHit(hit, cm, r, h1.t).value.t, rayT, Length(sqrt, r.direction))
  {
    HitUnfolds(hit, cm, r, rayT, universe, sqrt, logDraw);
    var h1 := FirstHit(hit, cm, r, universe).value;
    var h2 := SecondHit(hit, cm, r, h1.t).value;
    WithinFromScatter(Hit(hit, cm, r, rayT, universe, sqrt, logDraw), HitDistance(cm.negInvDensity, logDraw),
                      h1.t, h2.t, rayT, Length(sqrt, r.direction));
  }

  /**
   `o` scatters exactly when the distance `hd` is a real number or `+inf`
   no longer than the clipped stretch between crossings `t1` and `t2` times
   the ray's speed `len`, and then at the parameter that distance past the
   entry.
   */
  ghost predicate ScattersWithin<M>(o: Option<HitRecord<M>>, hd: Option<EReal>, t1: real, t2: real, rayT: Interval, len: real) {
    var enter, leave := Max(Enter(t1, rayT), Fin(0.0)), Leave(t2, rayT);
    enter.Fin? && leave.Fin? &&
    (o.Some? <==> hd.Some? && hd.value != NegInf && Le(hd.value, Fin((leave.r - enter.r) * len))) &&
    (o.Some? ==> hd.Some? && hd.value == Fin((o.value.t - enter.r) * len))
  }

  /** `ScattersIffWithin` for a result `o` already known to follow `Scatter`. */
  lemma WithinFromScatter<M>(o: Option<HitRecord<M>>, hd: Option<EReal>, t1: real, t2: real, rayT: Interval, len: real)
    requires len > 0.0 && Lt(Enter(t1, rayT), Leave(t2, rayT))
    requires FollowsScatter(o, hd, t1, t2, rayT, len)
    ensures ScattersWithin(o, hd, t1, t2, rayT, len)
  {
    if hd.Some? && hd.value != NegInf {
      ScatterWithin(t1, t2, rayT, len, hd.value);
    }
  }

  /** `Scatter` on a non-empty clipped stretch, with the ends named. */
  lemma ScatterWithin(t1: real, t2: real, rayT: Interval, len: real, hd: EReal)
    requires len > 0.0 && hd != NegInf
    requires Lt(Enter(t1, rayT), Leave(t2, rayT))
    ensures
      var enter, leave := Max(Enter(t1, rayT), Fin(0.0)), Leave(t2, rayT);
      var t := Scatter(t1, t2, rayT, len, hd);
      enter.Fin? && leave.Fin? &&
      (t.Some? <==> Le(hd, Fin((leave.r - enter.r) * len))) &&
      (t.Some? ==> hd == Fin((t.value - enter.r) * len))
  {
    var t := Scatter(t1, t2, rayT, len, hd);
  }

  /**
   A negative density with a non-zero draw scatters at once, behind the
   entry: whenever the clipped stretch is non-empty and ends at zero or
   later, there is a hit, and it lies strictly before the entry point when
   the draw is below one.
   */
  lemma NegativeDensityHitsBeforeEntry<T, M>(hit: (T, Ray, Interval) -> Option<HitRecord<M>>, cm: ConstantMedium<T, M>, r: Ray, rayT: Interval,
                                             universe: Interval, sqrt: real -> real, logDraw: EReal)
    requires IsSqrt(sqrt) && LengthSquared(r.direction) > 0.0
    requires cm.negInvDensity > 0.0 && logDraw.Fin? && logDraw.r <= 0.0
    requires FirstHit(hit, cm, r, universe).Some?
    requires SecondHit(hit, cm, r, FirstHit(hit, cm, r, universe).value.t).Some?
    requires
      var h1 := FirstHit(hit, cm, r, universe).value;
      var h2 := SecondHit(hit, cm, r, h1.t).value;
      Lt(Enter(h1.t, rayT), Leave(h2.t, rayT)) && Le(Fin(0.0), Leave(h2.t, rayT))
    ensures
      var h1 := FirstHit(hit, cm, r, universe).value;
      var o := Hit(hit, cm, r, rayT, universe, sqrt, logDraw);
      o.Some? && (logDraw.r < 0.0 ==> Lt(Fin(o.value.t), Max(Enter(h1.t, rayT), Fin(0.0))))
  {
    var h1 := FirstHit(hit, cm, r, universe).value;
    var h2 := SecondHit(hit, cm, r, h1.t).value;
    ScattersIffWithin(hit, cm, r, rayT, universe, sqrt, logDraw);
    SqrtPositive(sqrt, LengthSquared(r.direction));
    var enter, leave := Max(Enter(h1.t, rayT), Fin(0.0)), Leave(h2.t, rayT);
    var len := Length(sqrt, r.direction);
    ClipWindow(h1.t, h2.t, rayT);
    assert leave.r >= 0.0;
    assert Fin(0.0) == Max(Fin(0.0), rayT.min) || enter.r <= leave.r;
    MulMono(len, 0.0, leave.r - enter.r);
    MulMono(cm.negInvDensity, logDraw.r, 0.0);
    if logDraw.r < 0.0 {
      assert cm.negInvDensity * logDraw.r < 0.0;
    }
  }

  /** `bounding_box`: the boundary's box. */
  function BoundingBox<T, M>(boxOf: T -> AABB, cm: ConstantMedium<T, M>): AABB {
    boxOf(cm.boundary)
  }

  /** Along a ray, the coordinate at a parameter between two others lies between their coordinates. */
  lemma CoordinateBetween(r: Ray, a: int, t1: real, t: real, t2: real)
    requires 0 <= a < 3 && t1 <= t <= t2
    ensures var x1, x, x2 := Get(At(r, t1), a), Get(At(r, t), a), Get(At(r, t2), a);
      (x1 <= x <= x2) || (x2 <= x <= x1)
  {
    var x1, x, x2 := Get(At(r, t1), a), Get(At(r, t), a), Get(At(r, t2), a);
    CoordinateAt(r, a, t1);
    CoordinateAt(r, a, t);
    CoordinateAt(r, a, t2);
    OffsetBetween(Get(r.origin, a), Get(r.direction, a), t1, t, t2, x1, x, x2);
  }

  /** `x = o + t d` for `t` between `t1` and `t2` lies between the two ends. */
  lemma OffsetBetween(o: real, d: real, t1: real, t: real, t2: real, x1: real, x: real, x2: real)
    requires t1 <= t <= t2
    requires x1 == Offset(o, t1, d) && x == Offset(o, t, d) && x2 == Offset(o, t2, d)
    ensures (x1 <= x <= x2) || (x2 <= x <= x1)
  {
    if 0.0 <= d {
      OffsetMono(o, t1, t, d);
      OffsetMono(o, t, t2, d);
    } else {
      OffsetAntitone(o, t1, t, d);
      OffsetAntitone(o, t, t2, d);
    }
  }

  /** The coordinate `o + t d` of a point on a line. */
  function Offset(o: real, t: real, d: real): real {
    o + t * d
  }

  lemma CoordinateAt(r: Ray, a: int, t: real)
    requires 0 <= a < 3
    ensures Get(At(r, t), a) == Offset(Get(r.origin, a), t, Get(r.direction, a))
  {
  }

  lemma OffsetMono(o: real, x: real, y: real, d: real)
    requires x <= y && 0.0 <= d
    ensures o + x * d <= o + y * d
  {
    MulMono(d, x, y);
  }

  lemma OffsetAntitone(o: real, x: real, y: real, d: real)
    requires x <= y && d < 0.0
    ensures o + y * d <= o + x * d
  {
    MulAntitone(d, x, y);
  }

  /** One axis of `SegmentInBox`: a slab is convex. */
  lemma AxisSegment(lo: EReal, hi: EReal, r: Ray, a: int, t1: real, t: real, t2: real)
    requires 0 <= a < 3 && t1 <= t <= t2
    requires Lt(lo, Fin(Get(At(r, t1), a))) && Lt(Fin(Get(At(r, t1), a)), hi)
    requires Lt(lo, Fin(Get(At(r, t2), a))) && Lt(Fin(Get(At(r, t2), a)), hi)
    ensures Lt(lo, Fin(Get(At(r, t), a))) && Lt(Fin(Get(At(r, t), a)), hi)
  {
    var x1, x, x2 := Get(At(r, t1), a), Get(At(r, t), a), Get(At(r, t2), a);
    CoordinateBetween(r, a, t1, t, t2);
    if x1 <= x <= x2 {
      BetweenInSlab(lo, hi, x1, x, x2);
    } else {
      BetweenInSlab(lo, hi, x2, x, x1);
    }
  }

  lemma BetweenInSlab(lo: EReal, hi: EReal, x: real, y: real, z: real)
    requires x <= y <= z && Lt(lo, Fin(x)) && Lt(Fin(z), hi)
    ensures Lt(lo, Fin(y)) && Lt(Fin(y), hi)
  {
  }

  /** The same for all three axes: boxes are convex. */
  lemma SegmentInBox(b: AABB, r: Ray, t1: real, t2: real, t: real)
    requires t1 <= t <= t2
    requires StrictlyInside(b, At(r, t1), 3) && StrictlyInside(b, At(r, t2), 3)
    ensures StrictlyInside(b, At(r, t), 3)
  {
    forall a | 0 <= a < 3
      ensures Lt(Axis(b, a).min, Fin(Get(At(r, t), a))) && Lt(Fin(Get(At(r, t), a)), Axis(b, a).max)
    {
      AxisSegment(Axis(b, a).min, Axis(b, a).max, r, a, t1, t, t2);
    }
  }

  /** Both boundary crossings of this ray, when there are two, lie strictly inside the boundary's box. */
  ghost predicate CrossingsStrictlyInside<T, M>(hit: (T, Ray, Interval) -> Option<HitRecord<M>>, boxOf: T -> AABB, cm: ConstantMedium<T, M>,
                                                r: Ray, universe: Interval) {
    var h1 := FirstHit(hit, cm, r, universe);
    h1.Some? && SecondHit(hit, cm, r, h1.value.t).Some? ==>
      && StrictlyInside(boxOf(cm.boundary), At(r, h1.value.t), 3)
      && StrictlyInside(boxOf(cm.boundary), At(r, SecondHit(hit, cm, r, h1.value.t).value.t), 3)
  }

  /** Both boundary crossings of this ray, when there are two, lie in the boundary's closed box. */
  ghost predicate CrossingsInBox<T, M>(hit: (T, Ray, Interval) -> Option<HitRecord<M>>, boxOf: T -> AABB, cm: ConstantMedium<T, M>,
                                       r: Ray, universe: Interval) {
    var h1 := FirstHit(hit, cm, r, universe);
    h1.Some? && SecondHit(hit, cm, r, h1.value.t).Some? ==>
      && InBox(boxOf(cm.boundary), At(r, h1.value.t))
      && InBox(boxOf(cm.boundary), At(r, SecondHit(hit, cm, r, h1.value.t).value.t))
  }

  /**
   When this ray's two boundary crossings lie strictly inside the boundary's
   box, so does every scattering point of the medium on the ray: the
   boundary's box bounds the medium.
   */
  lemma ScatterInBox<T, M>(hit: (T, Ray, Interval) -> Option<HitRecord<M>>, boxOf: T -> AABB, cm: ConstantMedium<T, M>,
                           r: Ray, rayT: Interval, universe: Interval, sqrt: real -> real, logDraw: EReal)
    requires CrossingsStrictlyInside(hit, boxOf, cm, r, universe)
    requires IsSqrt(sqrt) && LengthSquared(r.direction) > 0.0
    requires Le(logDraw, Fin(0.0))
    ensures cm.negInvDensity < 0.0 && Hit(hit, cm, r, rayT, universe, sqrt, logDraw).Some? ==>
      StrictlyInside(BoundingBox(boxOf, cm), At(r, Hit(hit, cm, r, rayT, universe, sqrt, logDraw).value.t), 3)
  {
    var o := Hit(hit, cm, r, rayT, universe, sqrt, logDraw);
    if cm.negInvDensity < 0.0 && o.Some? {
      var h1 := FirstHit(hit, cm, r, universe).value;
      var h2 := SecondHit(hit, cm, r, h1.t).value;
      SegmentInBox(boxOf(cm.boundary), r, h1.t, h2.t, o.value.t);
    }
  }

  /** One axis of `SegmentInClosedBox`. */
  lemma AxisSegmentClosed(i: Interval, r: Ray, a: int, t1: real, t: real, t2: real)
    requires 0 <= a < 3 && t1 <= t <= t2
    requires Contains(i, Get(At(r, t1), a)) && Contains(i, Get(At(r, t2), a))
    ensures Contains(i, Get(At(r, t), a))
  {
    CoordinateBetween(r, a, t1, t, t2);
  }

  /** A point between two points of a closed box lies in it. */
  lemma SegmentInClosedBox(b: AABB, r: Ray, t1: real, t2: real, t: real)
    requires t1 <= t <= t2
    requires InBox(b, At(r, t1)) && InBox(b, At(r, t2))
    ensures InBox(b, At(r, t))
  {
    AxisSegmentClosed(b.x, r, 0, t1, t, t2);
    AxisSegmentClosed(b.y, r, 1, t1, t, t2);
    AxisSegmentClosed(b.z, r, 2, t1, t, t2);
  }

  /**
   The closed-box form: when this ray's two boundary crossings lie in the
   boundary's box, faces included, so does every scattering point.
   */
  lemma ScatterInClosedBox<T, M>(hit: (T, Ray, Interval) -> Option<HitRecord<M>>, boxOf: T -> AABB, cm: ConstantMedium<T, M>,
                                 r: Ray, rayT: Interval, universe: Interval, sqrt: real -> real, logDraw: EReal)
    requires CrossingsInBox(hit, boxOf, cm, r, universe)
    requires IsSqrt(sqrt) && LengthSquared(r.direction) > 0.0
    requires Le(logDraw, Fin(0.0))
    ensures cm.negInvDensity < 0.0 && Hit(hit, cm, r, rayT, universe, sqrt, logDraw).Some? ==>
      InBox(BoundingBox(boxOf, cm), At(r, Hit(hit, cm, r, rayT, universe, sqrt, logDraw).value.t))
  {
    var o := Hit(hit, cm, r, rayT, universe, sqrt, logDraw);
    if cm.negInvDensity < 0.0 && o.Some? {
      var h1 := FirstHit(hit, cm, r, universe).value;
      var h2 := SecondHit(hit, cm, r, h1.t).value;
      SegmentInClosedBox(boxOf(cm.boundary), r, h1.t, h2.t, o.value.t);
    }
  }
}

=== FILE: ext_real.dfy ===
/**
 Extended reals: the real line with both infinities.

 The renderer's intervals use `f64::INFINITY` and `f64::NEG_INFINITY` as
 bounds (the empty default interval, the `[0.001, inf)` search window), so
 interval bounds are modelled over this type rather than over `real`.
 NaN is not modelled: every operation below that could produce it carries a
 precondition that excludes that case.
 */
module ExtReal {

  datatype EReal = NegInf | Fin(r: real) | PosInf {

    predicate IsFinite() {
      Fin?
    }
  }

  /** The total order of the extended real line. */
  predicate Le(a: EReal, b: EReal) {
    match (a, b)
    case (NegInf, _) => true
    case (_, PosInf) => true
    case (Fin(x), Fin(y)) => x <= y
    case _ => false
  }

  predicate Lt(a: EReal, b: EReal) {
    Le(a, b) && a != b
  }

  lemma LeTotal(a: EReal, b: EReal)
    ensures Le(a, b) || Le(b, a)
  {
  }

  lemma LeTrans(a: EReal, b: EReal, c: EReal)
    requires Le(a, b) && Le(b, c)
    ensures Le(a, c)
  {
  }

  lemma LtLeTrans(a: EReal, b: EReal, c: EReal)
    requires Lt(a, b) && Le(b, c)
    ensures Lt(a, c)
  {
  }

  lemma LeLtTrans(a: EReal, b: EReal, c: EReal)
    requires Le(a, b) && Lt(b, c)
    ensures Lt(a, c)
  {
  }

  lemma LeAntisym(a: EReal, b: EReal)
    requires Le(a, b) && Le(b, a)
    ensures a == b
  {
  }

  /** `f64::min`: the smaller of the two bounds. */
  function Min(a: EReal, b: EReal): (m: EReal)
    ensures Le(m, a) && Le(m, b)
    ensures m == a || m == b
  {
    if Le(a, b) then a else b
  }

  /** `f64::max`: the larger of the two bounds. */
  function Max(a: EReal, b: EReal): (m: EReal)
    ensures Le(a, m) && Le(b, m)
    ensures m == a || m == b
  {
    if Le(a, b) then b else a
  }

  /** Adds a finite amount; an infinite bound stays where it is. */
  function Shift(a: EReal, d: real): (s: EReal)
    ensures s.Fin? <==> a.Fin?
    ensures a.Fin? ==> s.r == a.r + d
  {
    match a
    case Fin(x) => Fin(x + d)
    case _ => a
  }

  /** Multiplies by a non-zero finite factor; a negative factor swaps the infinities. */
  function Times(a: EReal, k: real): (s: EReal)
    requires k != 0.0
    ensures s.Fin? <==> a.Fin?
    ensures a.Fin? ==> s.r == a.r * k
  {
    match a
    case Fin(x) => Fin(x * k)
    case PosInf => if k > 0.0 then PosInf else NegInf
    case NegInf => if k > 0.0 then NegInf else PosInf
  }

  /** Whether `b - a` is NaN: both bounds the same infinity. */
  predicate SubIsNaN(b: EReal, a: EReal) {
    (b.PosInf? && a.PosInf?) || (b.NegInf? && a.NegInf?)
  }

  /** `b - a` on the extended line, where it is defined. */
  function Diff(b: EReal, a: EReal): (d: EReal)
    requires !SubIsNaN(b, a)
    ensures d.Fin? <==> a.Fin? && b.Fin?
    ensures a.Fin? && b.Fin? ==> d.r == b.r - a.r
  {
    match (b, a)
    case (Fin(y), Fin(x)) => Fin(y - x)
    case (PosInf, _) => PosInf
    case (_, NegInf) => PosInf
    case _ => NegInf
  }
}

=== FILE: grazing.dfy ===
/**
 A quad the BVH as written loses: the box test's `<=` rejects a ray that
 meets a node's box on its boundary only, although the quad inside reports
 a hit there.
 */
module GrazingQuad {
  import opened ExtReal
  import opened Intervals
  import opened Vectors
  import opened Aabb
  import Tree = Bvh
  import Rays
  import Quads

  /** The tree as written rejects the square's node, so it reports nothing. */
  lemma GrazingTreeMissed<M(!new)>(mat: M, bbox: AABB)
    requires bbox.x == Interval(Fin(0.0), Fin(1.0)) && bbox.y == Interval(Fin(0.0), Fin(1.0)) && Contains(bbox.z, 0.0)
    ensures var s, w := Quads.UnitSquare(mat, bbox), Interval(Fin(0.001), PosInf);
      Tree.Hit(Quads.HitFunction(), Tree.Node(Tree.Leaf(s), Tree.Leaf(s), bbox), GrazingRay(), w).None?
  {
    GrazingMissedAsWritten(bbox);
  }

  /** The corrected box test keeps the grazing ray's window. */
  lemma GrazingClosedKeeps(bbox: AABB)
    requires bbox.x == Interval(Fin(0.0), Fin(1.0)) && bbox.y == Interval(Fin(0.0), Fin(1.0)) && Contains(bbox.z, 0.0)
    ensures Tree.ClosedTest(GrazingRay())(bbox, Interval(Fin(0.001), PosInf))
  {
    GrazingMissedAsWritten(bbox);
  }

  /** The square's hit function finds the corner on every window holding `t = 1`. */
  lemma GrazingFunctionHit<M>(mat: M, bbox: AABB, rayT: Interval)
    requires Contains(rayT, 1.0)
    ensures Quads.HitFunction()(Quads.UnitSquare(mat, bbox), GrazingRay(), rayT).Some?
    ensures Quads.HitFunction()(Quads.UnitSquare(mat, bbox), GrazingRay(), rayT).value.t == 1.0
  {
    var s, r := Quads.UnitSquare(mat, bbox), GrazingRay();
    ApplyHitFunction(s, r, rayT);
    Quads.GrazingCornerHit(mat, bbox, rayT);
  }

  /** Applying the quad's hit function is calling its `hit`. */
  lemma ApplyHitFunction<M>(s: Quads.Quad<M>, r: Rays.Ray, rayT: Interval)
    ensures Quads.HitFunction()(s, r, rayT) == Quads.Hit(s, r, rayT)
  {
  }

  /** The corrected tree keeps the square's node and reports the corner. */
  lemma GrazingTreeCorrected<M(!new)>(mat: M, bbox: AABB)
    requires bbox.x == Interval(Fin(0.0), Fin(1.0)) && bbox.y == Interval(Fin(0.0), Fin(1.0)) && Contains(bbox.z, 0.0)
    ensures var s, w := Quads.UnitSquare(mat, bbox), Interval(Fin(0.001), PosInf);
      var o := Tree.HitCorrected(Quads.HitFunction(), Tree.Node(Tree.Leaf(s), Tree.Leaf(s), bbox), GrazingRay(), w);
      o.Some? && o.value.t == 1.0
  {
    var w := Interval(Fin(0.001), PosInf);
    GrazingClosedKeeps(bbox);
    GrazingFunctionHit(mat, bbox, w);
    GrazingFunctionHit(mat, bbox, Interval(Fin(0.001), Fin(1.0)));
    Tree.SingleObjectFound(Tree.ClosedTest(GrazingRay()), Quads.HitFunction(), Quads.UnitSquare(mat, bbox), bbox, GrazingRay(), w, 1.0);
  }

  /**
   The box test as written loses a hit that a quad reports. The unit square
   (`Quads.NewUnitSquare`: what `Quad::new((0, 0, 0), (1, 0, 0), (0, 1, 0))`
   builds), alone in a tree, is hit at its corner `(0, 1, 0)` at `t = 1` by
   the grazing ray of `Aabb.GrazingRay`. The ray's window through the
   square's box shrinks to `[1, 1]`, so the tree as written reports nothing,
   while the corrected test reports the corner. Any box spanning exactly
   `[0, 1]` in x and y behaves so: the padded diagonal box and the padded
   corner box both do.
   */
  lemma GrazingQuadMissed<M(!new)>(mat: M, bbox: AABB)
    requires bbox.x == Interval(Fin(0.0), Fin(1.0)) && bbox.y == Interval(Fin(0.0), Fin(1.0)) && Contains(bbox.z, 0.0)
    ensures var s, w := Quads.UnitSquare(mat, bbox), Interval(Fin(0.001), PosInf);
      Quads.HitFunction()(s, GrazingRay(), w).Some?
      && Tree.Hit(Quads.HitFunction(), Tree.Node(Tree.Leaf(s), Tree.Leaf(s), bbox), GrazingRay(), w).None?
      && Tree.HitCorrected(Quads.HitFunction(), Tree.Node(Tree.Leaf(s), Tree.Leaf(s), bbox), GrazingRay(), w).Some?
  {
    GrazingFunctionHit(mat, bbox, Interval(Fin(0.001), PosInf));
    GrazingTreeMissed(mat, bbox);
    GrazingTreeCorrected(mat, bbox);
  }
}

=== FILE: hit_record.dfy ===
/**
 The record of a ray-surface intersection (`src/hittable/mod.rs`). The
 material is a type parameter: whatever the surface carries is stored and
 handed back unchanged.
 */
module HitRecords {
  import opened Vectors
  import opened Rays

  datatype HitRecord<M> = HitRecord(
    p: Vec3,          // absolute point of the hit
    normal: Vec3,     // always faces against the incoming ray
    material: M,
    t: real,          // ray parameter of the hit
    u: real,          // texture coordinates
    v: real,
    frontFace: bool)  // whether the ray met the outward side

  /**
   `HitRecord::new`: the ray meets the front face exactly when its direction
   opposes the outward normal; the stored normal is the outward one flipped,
   if needed, to face against the ray.
   */
  function New<M>(r: Ray, t: real, p: Vec3, u: real, v: real, material: M, outward: Vec3): (rec: HitRecord<M>)
    ensures rec.frontFace <==> Dot(r.direction, outward) < 0.0
    ensures rec.normal == (if rec.frontFace then outward else Neg(outward))
    ensures Dot(r.direction, rec.normal) <= 0.0
    ensures LengthSquared(rec.normal) == LengthSquared(outward)
    ensures rec.p == p && rec.t == t && rec.u == u && rec.v == v && rec.material == material
  {
    var frontFace := Dot(r.direction, outward) < 0.0;
    HitRecord(p, if frontFace then outward else Neg(outward), material, t, u, v, frontFace)
  }

  /** Only the sign of the outward normal decides the record: flipping it keeps the stored normal. */
  lemma NewFlipInvariant<M>(r: Ray, t: real, p: Vec3, u: real, v: real, material: M, outward: Vec3)
    requires Dot(r.direction, outward) != 0.0
    ensures New(r, t, p, u, v, material, Neg(outward)).normal == New(r, t, p, u, v, material, outward).normal
    ensures New(r, t, p, u, v, material, Neg(outward)).frontFace == !New(r, t, p, u, v, material, outward).frontFace
  {
    assert Dot(r.direction, Neg(outward)) == -Dot(r.direction, outward);
    assert Neg(Neg(outward)) == outward;
  }
}

=== FILE: hittable.dfy ===
/**
 The `Hittable` trait of `src/hittable/mod.rs`, seen from its callers.

 A scene object of type `T` is queried through a function value `hit`; the
 aggregates (the list and the BVH) are generic in `T`. The predicates below
 are the assumptions the aggregates' closest-hit guarantees rest on.
 `Quads.QuadHittable` and `Spheres.SphereHittable` establish the first two
 for the concrete shapes. `Spheres.StationaryHitsInBox` and
 `Spheres.MovingHitsInBox` establish the closed-box one for a sphere built
 by `new` or `new_moving` and one ray, and `SphereTrees.SphereTreeComplete`
 discharges it for every sphere of a tree.
 */
module Hittables {
  import opened ExtReal
  import opened Intervals
  import opened Rays
  import opened Options
  import opened HitRecords
  import opened Aabb

  /** A reported hit lies inside the window it was asked about. */
  ghost predicate RespectsInterval<T(!new), M>(hit: (T, Ray, Interval) -> Option<HitRecord<M>>) {
    forall o, r, i :: hit(o, r, i).Some? ==> Contains(i, hit(o, r, i).value.t)
  }

  /**
   Shrinking the upper end of the window, but not below a reported hit,
   still reports a hit, and one no farther away.
   */
  ghost predicate Monotone<T(!new), M>(hit: (T, Ray, Interval) -> Option<HitRecord<M>>) {
    forall o, r, lo, hi, m {:trigger hit(o, r, Interval(lo, hi)), hit(o, r, Interval(lo, m))} ::
      hit(o, r, Interval(lo, hi)).Some? && Le(Fin(hit(o, r, Interval(lo, hi)).value.t), m) && Le(m, hi) ==>
        hit(o, r, Interval(lo, m)).Some? && hit(o, r, Interval(lo, m)).value.t <= hit(o, r, Interval(lo, hi)).value.t
  }

  /** Every hit `o` reports for the ray, in any window, lies strictly inside `o`'s box on the first `n` axes. */
  ghost predicate HitsStrictlyInside<T(!new), M>(hit: (T, Ray, Interval) -> Option<HitRecord<M>>, boxOf: T -> AABB, o: T, r: Ray, n: nat) {
    forall i :: hit(o, r, i).Some? ==> StrictlyInside(boxOf(o), At(r, hit(o, r, i).value.t), n)
  }

  /** Every hit `o` reports for the ray, in any window, lies in `o`'s closed box. */
  ghost predicate HitsInBox<T(!new), M>(hit: (T, Ray, Interval) -> Option<HitRecord<M>>, boxOf: T -> AABB, o: T, r: Ray) {
    forall i :: hit(o, r, i).Some? ==> InBox(boxOf(o), At(r, hit(o, r, i).value.t))
  }

  /** Applies `Monotone` to one object and window. */
  lemma Narrow<T(!new), M>(hit: (T, Ray, Interval) -> Option<HitRecord<M>>, o: T, r: Ray, i: Interval, m: EReal)
    requires Monotone(hit)
    requires hit(o, r, i).Some? && Le(Fin(hit(o, r, i).value.t), m) && Le(m, i.max)
    ensures hit(o, r, Interval(i.min, m)).Some?
    ensures hit(o, r, Interval(i.min, m)).value.t <= hit(o, r, i).value.t
  {
    assert i == Interval(i.min, i.max);
    var _ := hit(o, r, Interval(i.min, i.max));
    var _ := hit(o, r, Interval(i.min, m));
  }
}

=== FILE: hittable_list.dfy ===
/**
 The linear scene list of `src/hittable/hittable_list.rs`: objects in
 insertion order, a bounding box, and the closest-hit scan that queries each
 object with the window's upper end pulled in to the nearest hit so far.
 */
module HittableLists {
  import opened ExtReal
  import opened Intervals
  import opened Rays
  import opened Options
  import opened HitRecords
  import opened Aabb
  import opened Hittables

  datatype HittableList<T> = HittableList(objects: seq<T>, bbox: AABB)

  /** `new`: no objects and the empty box. */
  function New<T>(): (l: HittableList<T>)
    ensures |l.objects| == 0
    ensures forall p :: !InBox(l.bbox, p)
  {
    HittableList([], NewEmpty())
  }

  /**
   `add` as written: the object is appended, but the box returned by
   `expand` is dropped, so the list keeps its old box.
   */
  function AddAsWritten<T>(l: HittableList<T>, o: T): (r: HittableList<T>)
    ensures r.objects == l.objects + [o]
    ensures r.bbox == l.bbox
  {
    HittableList(l.objects + [o], l.bbox)
  }

  /** `add` with the expanded box stored, the evident intent of the call to `expand`. */
  function Add<T>(boxOf: T -> AABB, l: HittableList<T>, o: T): (r: HittableList<T>)
    ensures r.objects == l.objects + [o]
    ensures Encloses(r.bbox, l.bbox) && Encloses(r.bbox, boxOf(o))
    ensures forall c :: Encloses(c, l.bbox) && Encloses(c, boxOf(o)) ==> Encloses(c, r.bbox)
  {
    HittableList(l.objects + [o], Aabb.Expand(l.bbox, boxOf(o)))
  }

  /** The list's box covers the box of every object in it. */
  ghost predicate BoxCovers<T>(boxOf: T -> AABB, l: HittableList<T>) {
    forall i :: 0 <= i < |l.objects| ==> Encloses(l.bbox, boxOf(l.objects[i]))
  }

  /** The corrected `add` keeps the box covering every object, starting from `new`. */
  lemma AddKeepsCover<T>(boxOf: T -> AABB, l: HittableList<T>, o: T)
    requires BoxCovers(boxOf, l)
    ensures BoxCovers(boxOf, Add(boxOf, l, o))
  {
    var r := Add(boxOf, l, o);
    forall i | 0 <= i < |r.objects|
      ensures Encloses(r.bbox, boxOf(r.objects[i]))
    {
      if i < |l.objects| {
        EnclosesTrans(r.bbox, l.bbox, boxOf(l.objects[i]));
      }
    }
  }

  /**
   With the result of `expand` dropped, a list holding the unit cube still
   has the empty box: the cube's corner lies in the object but not in the
   list's box.
   */
  lemma AddAsWrittenLosesBox()
    ensures var cube := FromPoints(Vectors.Vec3(0.0, 0.0, 0.0), Vectors.Vec3(1.0, 1.0, 1.0));
            var l := AddAsWritten(New(), cube);
            && InBox(cube, Vectors.Vec3(0.0, 0.0, 0.0))
            && !InBox(l.bbox, Vectors.Vec3(0.0, 0.0, 0.0))
            && !BoxCovers(x => x, l)
  {
    var cube := FromPoints(Vectors.Vec3(0.0, 0.0, 0.0), Vectors.Vec3(1.0, 1.0, 1.0));
    var l := AddAsWritten(New(), cube);
    assert l.objects[0] == cube;
    assert !Encloses(l.bbox, cube) by {
      assert Axis(l.bbox, 0).min == PosInf;
      assert Axis(cube, 0).min == Fin(0.0);
    }
  }

  // ---------------------------------------------------------------------------
  // Closest-hit scan
  // ---------------------------------------------------------------------------

  /** The loop state of `hit`: the current upper end `closest` and the record kept so far. */
  datatype ScanState<M> = ScanState(closest: EReal, rec: Option<HitRecord<M>>)

  /** One loop iteration: query the object on `[min, closest]` and keep its hit if there is one. */
  function Step<T, M>(hit: (T, Ray, Interval) -> Option<HitRecord<M>>, o: T, r: Ray, rayT: Interval, s: ScanState<M>): ScanState<M> {
    match hit(o, r, Interval(rayT.min, s.closest))
    case Some(h) => ScanState(Fin(h.t), Some(h))
    case None => s
  }

  function Scan<T, M>(hit: (T, Ray, Interval) -> Option<HitRecord<M>>, objs: seq<T>, r: Ray, rayT: Interval, s: ScanState<M>): ScanState<M>
    decreases |objs|
  {
    if |objs| == 0 then s else Scan(hit, objs[1..], r, rayT, Step(hit, objs[0], r, rayT, s))
  }

  /** `hit`: scan the objects in order, starting with `closest = ray_t.max` and no record. */
  function Hit<T, M>(hit: (T, Ray, Interval) -> Option<HitRecord<M>>, l: HittableList<T>, r: Ray, rayT: Interval): Option<HitRecord<M>> {
    Scan(hit, l.objects, r, rayT, ScanState(rayT.max, None)).rec
  }

  /** The upper end of the window after a scan that produced `rec`. */
  function Bound<M>(rec: Option<HitRecord<M>>, rayT: Interval): EReal {
    if rec.Some? then Fin(rec.value.t) else rayT.max
  }

  /** The scan state is always `closest = t` of the kept record, or the original upper end when there is none. */
  ghost predicate Consistent<M>(s: ScanState<M>, rayT: Interval) {
    s.closest == Bound(s.rec, rayT)
  }

  lemma {:induction false} ScanConsistent<T, M>(hit: (T, Ray, Interval) -> Option<HitRecord<M>>, objs: seq<T>, r: Ray, rayT: Interval, s: ScanState<M>)
    requires Consistent(s, rayT)
    ensures Consistent(Scan(hit, objs, r, rayT, s), rayT)
    decreases |objs|
  {
    if |objs| > 0 {
      ScanConsistent(hit, objs[1..], r, rayT, Step(hit, objs[0], r, rayT, s));
    }
  }

  lemma {:induction false} ScanAppend<T, M>(hit: (T, Ray, Interval) -> Option<HitRecord<M>>, objs: seq<T>, o: T, r: Ray, rayT: Interval, s: ScanState<M>)
    ensures Scan(hit, objs + [o], r, rayT, s) == Step(hit, o, r, rayT, Scan(hit, objs, r, rayT, s))
    decreases |objs|
  {
    if |objs| == 0 {
      assert (objs + [o])[1..] == [];
    } else {
      assert (objs + [o])[1..] == objs[1..] + [o];
      ScanAppend(hit, objs[1..], o, r, rayT, Step(hit, objs[0], r, rayT, s));
    }
  }

  /** `hit` on an empty list finds nothing. */
  lemma HitEmpty<T, M>(hit: (T, Ray, Interval) -> Option<HitRecord<M>>, r: Ray, rayT: Interval)
    ensures Hit(hit, New<T>(), r, rayT) == None
  {
  }

  /**
   Adding an object at the end: it is queried on `[min, t]` of the hit found
   so far (the whole window when there is none), and wins whenever it reports
   a hit, so an equal-distance hit goes to the later object.
   */
  lemma HitAppend<T, M>(hit: (T, Ray, Interval) -> Option<HitRecord<M>>, boxOf: T -> AABB, l: HittableList<T>, o: T, r: Ray, rayT: Interval)
    ensures Hit(hit, Add(boxOf, l, o), r, rayT) ==
      match hit(o, r, Interval(rayT.min, Bound(Hit(hit, l, r, rayT), rayT)))
      case Some(h) => Some(h)
      case None => Hit(hit, l, r, rayT)
  {
    var s0: ScanState<M> := ScanState(rayT.max, None);
    ScanAppend(hit, l.objects, o, r, rayT, s0);
    ScanConsistent(hit, l.objects, r, rayT, s0);
  }

  /** The record kept by the scan lies in the window, given hit functions that respect their windows. */
  lemma {:induction false} ScanSound<T(!new), M>(hit: (T, Ray, Interval) -> Option<HitRecord<M>>, objs: seq<T>, r: Ray, rayT: Interval, s: ScanState<M>)
    requires RespectsInterval(hit)
    requires Consistent(s, rayT) && Le(s.closest, rayT.max)
    requires s.rec.Some? ==> Contains(rayT, s.rec.value.t)
    ensures var e := Scan(hit, objs, r, rayT, s);
      Le(e.closest, s.closest) && (e.rec.Some? ==> Contains(rayT, e.rec.value.t))
    decreases |objs|
  {
    if |objs| > 0 {
      var s1 := Step(hit, objs[0], r, rayT, s);
      if s1 != s {
        var h := hit(objs[0], r, Interval(rayT.min, s.closest));
        assert Contains(Interval(rayT.min, s.closest), h.value.t);
        LeTrans(Fin(h.value.t), s.closest, rayT.max);
      }
      ScanSound(hit, objs[1..], r, rayT, s1);
      LeTrans(Scan(hit, objs, r, rayT, s).closest, s1.closest, s.closest);
    }
  }

  /** A hit found by the scan once is never lost, and the window only narrows. */
  lemma {:induction false} ScanKeeps<T(!new), M>(hit: (T, Ray, Interval) -> Option<HitRecord<M>>, objs: seq<T>, r: Ray, rayT: Interval, s: ScanState<M>, t: real)
    requires RespectsInterval(hit)
    requires s.rec.Some? && Le(s.closest, Fin(t))
    ensures var e := Scan(hit, objs, r, rayT, s); e.rec.Some? && Le(e.closest, Fin(t))
    decreases |objs|
  {
    if |objs| > 0 {
      var s1 := Step(hit, objs[0], r, rayT, s);
      if s1 != s {
        var h := hit(objs[0], r, Interval(rayT.min, s.closest));
        assert Contains(Interval(rayT.min, s.closest), h.value.t);
        LeTrans(Fin(h.value.t), s.closest, Fin(t));
      }
      ScanKeeps(hit, objs[1..], r, rayT, s1, t);
    }
  }

  lemma {:induction false} ScanClosest<T(!new), M>(hit: (T, Ray, Interval) -> Option<HitRecord<M>>, objs: seq<T>, r: Ray, rayT: Interval, s: ScanState<M>, i: nat)
    requires RespectsInterval(hit) && Monotone(hit)
    requires Consistent(s, rayT) && Le(s.closest, rayT.max)
    requires i < |objs| && hit(objs[i], r, rayT).Some?
    ensures var e := Scan(hit, objs, r, rayT, s);
      e.rec.Some? && e.rec.value.t <= hit(objs[i], r, rayT).value.t
    decreases |objs|
  {
    var s1 := Step(hit, objs[0], r, rayT, s);
    var t := hit(objs[i], r, rayT).value.t;
    if s1 != s {
      var h := hit(objs[0], r, Interval(rayT.min, s.closest));
      assert Contains(Interval(rayT.min, s.closest), h.value.t);
      LeTrans(Fin(h.value.t), s.closest, rayT.max);
    }
    if i == 0 {
      if Le(Fin(t), s.closest) {
        Narrow(hit, objs[0], r, rayT, s.closest);
      } else {
        LeTotal(Fin(t), s.closest);
        assert rayT.max != s.closest by {
          assert Contains(rayT, t);
        }
        assert s.rec.Some?;
        if s1 != s {
          LeTrans(s1.closest, s.closest, Fin(t));
        }
      }
      assert s1.rec.Some? && Le(s1.closest, Fin(t));
      ScanKeeps(hit, objs[1..], r, rayT, s1, t);
      ScanConsistent(hit, objs, r, rayT, s);
    } else {
      ScanConsistent(hit, [objs[0]], r, rayT, s);
      assert Scan(hit, [objs[0]], r, rayT, s) == s1;
      assert objs[1..][i - 1] == objs[i];
      ScanClosest(hit, objs[1..], r, rayT, s1, i - 1);
    }
  }

  /**
   The scan returns the closest hit: whenever some object hits inside the
   window, `hit` reports a record no farther than that object's hit, and the
   record lies in the window.
   */
  lemma HitClosest<T(!new), M>(hit: (T, Ray, Interval) -> Option<HitRecord<M>>, l: HittableList<T>, r: Ray, rayT: Interval, i: nat)
    requires RespectsInterval(hit) && Monotone(hit)
    requires i < |l.objects| && hit(l.objects[i], r, rayT).Some?
    ensures Hit(hit, l, r, rayT).Some?
    ensures Contains(rayT, Hit(hit, l, r, rayT).value.t)
    ensures Hit(hit, l, r, rayT).value.t <= hit(l.objects[i], r, rayT).value.t
  {
    var s0: ScanState<M> := ScanState(rayT.max, None);
    ScanClosest(hit, l.objects, r, rayT, s0, i);
    ScanSound(hit, l.objects, r, rayT, s0);
  }
}

=== FILE: instances.dfy ===
/**
 The instance wrappers of `src/hittable/instance.rs`: `Translate` moves a
 child object by an offset, `Rotation<AXIS_Y>` turns it about the y axis.
 Both answer a query by transforming the ray into the child's frame, asking
 the child, and transforming the reported point (and, for the rotation, the
 normal) back.
 */
module Instances {
  import opened ExtReal
  import opened Vectors
  import opened Numeric
  import opened Intervals
  import opened Rays
  import opened Options
  import opened HitRecords
  import opened Aabb
  import opened Hittables

  // ---------------------------------------------------------------------------
  // Translate
  // ---------------------------------------------------------------------------

  /** The box is the child's box moved by the offset, computed by an operator outside this model. */
  datatype Translate<T> = Translate(child: T, offset: Vec3, bbox: AABB)

  /** The ray in the child's frame: origin moved back by the offset; direction, time unchanged. */
  function TranslateRay(r: Ray, offset: Vec3): Ray {
    Ray(Sub(r.origin, offset), r.direction, r.time)
  }

  /**
   `Translate::hit`: the child is asked about the moved ray over the same
   window, and a reported point is moved forward by the offset. Nothing else
   in the record changes, and there is a hit exactly when the child reports one.
   */
  function TranslateHit<T, M>(hit: (T, Ray, Interval) -> Option<HitRecord<M>>, tr: Translate<T>, r: Ray, rayT: Interval): (o: Option<HitRecord<M>>)
    ensures o.Some? <==> hit(tr.child, TranslateRay(r, tr.offset), rayT).Some?
    ensures o.Some? ==>
      var c := hit(tr.child, TranslateRay(r, tr.offset), rayT).value;
      o.value.t == c.t && o.value.normal == c.normal && o.value.frontFace == c.frontFace &&
      o.value.u == c.u && o.value.v == c.v && o.value.material == c.material &&
      Sub(o.value.p, tr.offset) == c.p
  {
    match hit(tr.child, TranslateRay(r, tr.offset), rayT)
    case None => None
    case Some(rec) => Some(rec.(p := Add(rec.p, tr.offset)))
  }

  /**
   A child record that lies on the moved ray (`p = at(t)` in the child's
   frame) becomes a record that lies on the original ray.
   */
  lemma TranslateOnRay<T, M>(hit: (T, Ray, Interval) -> Option<HitRecord<M>>, tr: Translate<T>, r: Ray, rayT: Interval)
    requires hit(tr.child, TranslateRay(r, tr.offset), rayT).Some?
    requires var c := hit(tr.child, TranslateRay(r, tr.offset), rayT).value;
      c.p == At(TranslateRay(r, tr.offset), c.t)
    ensures TranslateHit(hit, tr, r, rayT).value.p == At(r, TranslateHit(hit, tr, r, rayT).value.t)
  {
  }

  /** Translating keeps the aggregates' assumptions about the child's hit function. */
  lemma TranslatePreserves<T(!new), M>(hit: (T, Ray, Interval) -> Option<HitRecord<M>>)
    requires RespectsInterval(hit) && Monotone(hit)
    ensures RespectsInterval((tr: Translate<T>, r: Ray, i: Interval) => TranslateHit(hit, tr, r, i))
    ensures Monotone((tr: Translate<T>, r: Ray, i: Interval) => TranslateHit(hit, tr, r, i))
  {
    var th := (tr: Translate<T>, r: Ray, i: Interval) => TranslateHit(hit, tr, r, i);
    forall tr: Translate<T>, r: Ray, i: Interval | th(tr, r, i).Some?
      ensures Contains(i, th(tr, r, i).value.t)
    {
      var _ := hit(tr.child, TranslateRay(r, tr.offset), i);
    }
    forall tr: Translate<T>, r: Ray, lo: EReal, hi: EReal, m: EReal |
      th(tr, r, Interval(lo, hi)).Some? && Le(Fin(th(tr, r, Interval(lo, hi)).value.t), m) && Le(m, hi)
      ensures th(tr, r, Interval(lo, m)).Some? && th(tr, r, Interval(lo, m)).value.t <= th(tr, r, Interval(lo, hi)).value.t
    {
      Narrow(hit, tr.child, TranslateRay(r, tr.offset), Interval(lo, hi), m);
    }
  }

  // ---------------------------------------------------------------------------
  // Rotation about the y axis
  // ---------------------------------------------------------------------------

  /** `sin_theta` and `cos_theta` are those of the rotation angle (trigonometry is outside this model). */
  datatype Rotation<T> = Rotation(child: T, bbox: AABB, sinTheta: real, cosTheta: real)

  /** World to object frame: `x' = cos x - sin z`, `z' = sin x + cos z`; `y` unchanged. */
  function ToObject(sin: real, cos: real, v: Vec3): Vec3 {
    Vec3(cos * v.x - sin * v.z, v.y, sin * v.x + cos * v.z)
  }

  /** Object to world frame: `x' = cos x + sin z`, `z' = -sin x + cos z`; `y` unchanged. */
  function ToWorld(sin: real, cos: real, v: Vec3): Vec3 {
    Vec3(cos * v.x + sin * v.z, v.y, -sin * v.x + cos * v.z)
  }

  /** For a genuine angle (`sin^2 + cos^2 = 1`) the two maps undo each other and keep dot products. */
  lemma RotationInverse(sin: real, cos: real, v: Vec3, a: Vec3, b: Vec3)
    requires sin * sin + cos * cos == 1.0
    ensures ToWorld(sin, cos, ToObject(sin, cos, v)) == v
    ensures ToObject(sin, cos, ToWorld(sin, cos, v)) == v
    ensures Dot(ToWorld(sin, cos, a), ToWorld(sin, cos, b)) == Dot(a, b)
    ensures Dot(ToObject(sin, cos, a), ToObject(sin, cos, b)) == Dot(a, b)
  {
    RotateBack(sin, cos, v.x, v.z);
    RotateBack(sin, cos, v.x, -v.z);
    DotToWorld(sin, cos, a, b);
    DotToObject(sin, cos, a, b);
  }

  lemma DotToWorld(s: real, c: real, a: Vec3, b: Vec3)
    requires s * s + c * c == 1.0
    ensures Dot(ToWorld(s, c, a), ToWorld(s, c, b)) == Dot(a, b)
  {
    var wa, wb := ToWorld(s, c, a), ToWorld(s, c, b);
    assert Dot(wa, wb) == (c * a.x + s * a.z) * (c * b.x + s * b.z) + a.y * b.y + (-s * a.x + c * a.z) * (-s * b.x + c * b.z);
    RotateDot(s, c, a.x, a.z, b.x, b.z);
  }

  lemma DotToObject(s: real, c: real, a: Vec3, b: Vec3)
    requires s * s + c * c == 1.0
    ensures Dot(ToObject(s, c, a), ToObject(s, c, b)) == Dot(a, b)
  {
    var oa, ob := ToObject(s, c, a), ToObject(s, c, b);
    assert Dot(oa, ob) == (c * a.x - s * a.z) * (c * b.x - s * b.z) + a.y * b.y + (s * a.x + c * a.z) * (s * b.x + c * b.z);
    RotateDot(-s, c, a.x, a.z, b.x, b.z);
    assert -s * a.x + c * a.z == -(s * a.x - c * a.z);
  }

  lemma RotateBack(s: real, c: real, x: real, z: real)
    requires s * s + c * c == 1.0
    ensures c * (c * x - s * z) + s * (s * x + c * z) == x
    ensures -s * (c * x - s * z) + c * (s * x + c * z) == z
    ensures c * (c * x + s * z) - s * (-s * x + c * z) == x
    ensures s * (c * x + s * z) + c * (-s * x + c * z) == z
  {
    assert c * (c * x - s * z) + s * (s * x + c * z) == (s * s + c * c) * x;
    assert -s * (c * x - s * z) + c * (s * x + c * z) == (s * s + c * c) * z;
    assert c * (c * x + s * z) - s * (-s * x + c * z) == (s * s + c * c) * x;
    assert s * (c * x + s * z) + c * (-s * x + c * z) == (s * s + c * c) * z;
  }

  lemma RotateDot(s: real, c: real, ax: real, az: real, bx: real, bz: real)
    requires s * s + c * c == 1.0
    ensures (c * ax + s * az) * (c * bx + s * bz) + (-s * ax + c * az) * (-s * bx + c * bz) == ax * bx + az * bz
  {
    assert (c * ax + s * az) * (c * bx + s * bz) + (-s * ax + c * az) * (-s * bx + c * bz)
      == (s * s + c * c) * (ax * bx) + (s * s + c * c) * (az * bz);
  }

  /** The ray in the child's frame: origin and direction turned, time unchanged. */
  function RotateRay(rot: Rotation, r: Ray): Ray {
    Ray(ToObject(rot.sinTheta, rot.cosTheta, r.origin), ToObject(rot.sinTheta, rot.cosTheta, r.direction), r.time)
  }

  /**
   `Rotation::hit`: the child is asked about the turned ray over the same
   window; a reported point and normal are turned back to the world frame and
   every other field is kept. There is a hit exactly when the child reports one.
   */
  function RotationHit<T, M>(hit: (T, Ray, Interval) -> Option<HitRecord<M>>, rot: Rotation<T>, r: Ray, rayT: Interval): (o: Option<HitRecord<M>>)
    ensures o.Some? <==> hit(rot.child, RotateRay(rot, r), rayT).Some?
    ensures o.Some? ==>
      var c := hit(rot.child, RotateRay(rot, r), rayT).value;
      o.value.t == c.t && o.value.frontFace == c.frontFace &&
      o.value.u == c.u && o.value.v == c.v && o.value.material == c.material
  {
    match hit(rot.child, RotateRay(rot, r), rayT)
    case None => None
    case Some(rec) =>
      Some(rec.(p := ToWorld(rot.sinTheta, rot.cosTheta, rec.p), normal := ToWorld(rot.sinTheta, rot.cosTheta, rec.normal)))
  }

  /** `ToWorld` is linear, so it carries `at` in the child's frame to `at` in the world. */
  lemma ToWorldAt(sin: real, cos: real, r: Ray, t: real)
    requires sin * sin + cos * cos == 1.0
    ensures ToWorld(sin, cos, At(Ray(ToObject(sin, cos, r.origin), ToObject(sin, cos, r.direction), r.time), t)) == At(r, t)
  {
    var o, d := ToObject(sin, cos, r.origin), ToObject(sin, cos, r.direction);
    assert ToWorld(sin, cos, Add(o, Scale(t, d))) == Add(ToWorld(sin, cos, o), Scale(t, ToWorld(sin, cos, d))) by {
      ToWorldLinear(sin, cos, o, d, t);
    }
    RotationInverse(sin, cos, r.origin, r.origin, r.origin);
    RotationInverse(sin, cos, r.direction, r.origin, r.origin);
  }

  lemma ToWorldLinear(s: real, c: real, o: Vec3, d: Vec3, t: real)
    ensures ToWorld(s, c, Add(o, Scale(t, d))) == Add(ToWorld(s, c, o), Scale(t, ToWorld(s, c, d)))
  {
    assert c * (o.x + t * d.x) + s * (o.z + t * d.z) == (c * o.x + s * o.z) + t * (c * d.x + s * d.z);
    assert -s * (o.x + t * d.x) + c * (o.z + t * d.z) == (-s * o.x + c * o.z) + t * (-s * d.x + c * d.z);
  }

  /**
   For a genuine angle the rotated record is consistent in the world: a child
   point on the turned ray becomes a point on the original ray, the normal
   keeps its length, and a normal facing against the turned ray faces
   against the original one.
   */
  lemma RotationConsistent<T, M>(hit: (T, Ray, Interval) -> Option<HitRecord<M>>, rot: Rotation<T>, r: Ray, rayT: Interval)
    requires rot.sinTheta * rot.sinTheta + rot.cosTheta * rot.cosTheta == 1.0
    requires hit(rot.child, RotateRay(rot, r), rayT).Some?
    ensures var c := hit(rot.child, RotateRay(rot, r), rayT).value;
      var o := RotationHit(hit, rot, r, rayT).value;
      (c.p == At(RotateRay(rot, r), c.t) ==> o.p == At(r, o.t)) &&
      LengthSquared(o.normal) == LengthSquared(c.normal) &&
      Dot(r.direction, o.normal) == Dot(RotateRay(rot, r).direction, c.normal)
  {
    var s, co := rot.sinTheta, rot.cosTheta;
    var c := hit(rot.child, RotateRay(rot, r), rayT).value;
    ToWorldAt(s, co, r, c.t);
    RotationInverse(s, co, r.direction, c.normal, c.normal);
    RotationInverse(s, co, r.direction, RotateRay(rot, r).direction, c.normal);
  }

  /** Rotating keeps the aggregates' assumptions about the child's hit function. */
  lemma RotationPreserves<T(!new), M>(hit: (T, Ray, Interval) -> Option<HitRecord<M>>)
    requires RespectsInterval(hit) && Monotone(hit)
    ensures RespectsInterval((rot: Rotation<T>, r: Ray, i: Interval) => RotationHit(hit, rot, r, i))
    ensures Monotone((rot: Rotation<T>, r: Ray, i: Interval) => RotationHit(hit, rot, r, i))
  {
    var rh := (rot: Rotation<T>, r: Ray, i: Interval) => RotationHit(hit, rot, r, i);
    forall rot: Rotation<T>, r: Ray, i: Interval | rh(rot, r, i).Some?
      ensures Contains(i, rh(rot, r, i).value.t)
    {
      var _ := hit(rot.child, RotateRay(rot, r), i);
    }
    forall rot: Rotation<T>, r: Ray, lo: EReal, hi: EReal, m: EReal |
      rh(rot, r, Interval(lo, hi)).Some? && Le(Fin(rh(rot, r, Interval(lo, hi)).value.t), m) && Le(m, hi)
      ensures rh(rot, r, Interval(lo, m)).Some? && rh(rot, r, Interval(lo, m)).value.t <= rh(rot, r, Interval(lo, hi)).value.t
    {
      Narrow(hit, rot.child, RotateRay(rot, r), Interval(lo, hi), m);
    }
  }

  // ---------------------------------------------------------------------------
  // The rotated bounding box
  // ---------------------------------------------------------------------------

  /** Every bound of the box is finite, so its corners are points. */
  predicate FiniteBox(b: AABB) {
    b.x.min.Fin? && b.x.max.Fin? && b.y.min.Fin? && b.y.max.Fin? && b.z.min.Fin? && b.z.max.Fin?
  }

  /**
   The eight corners in loop order: entry `4 i + 2 j + k` takes the x, y and
   z bounds chosen by `i`, `j` and `k` (`0` for `min`, `1` for `max`).
   */
  function Corners(b: AABB): (cs: seq<Vec3>)
    requires FiniteBox(b)
    ensures |cs| == 8
  {
    var x0, x1, y0, y1, z0, z1 := b.x.min.r, b.x.max.r, b.y.min.r, b.y.max.r, b.z.min.r, b.z.max.r;
    [Vec3(x0, y0, z0), Vec3(x0, y0, z1), Vec3(x0, y1, z0), Vec3(x0, y1, z1),
     Vec3(x1, y0, z0), Vec3(x1, y0, z1), Vec3(x1, y1, z0), Vec3(x1, y1, z1)]
  }

  /** `f64::min` folded over a sequence from `+inf`, as the corner loop accumulates `min[a]`. */
  function FoldMin(xs: seq<real>): (m: EReal)
    ensures forall i :: 0 <= i < |xs| ==> Le(m, Fin(xs[i]))
    ensures |xs| > 0 ==> m.Fin? && exists i :: 0 <= i < |xs| && m.r == xs[i]
  {
    if |xs| == 0 then PosInf
    else
      var m := FoldMin(xs[..|xs| - 1]);
      var last := xs[|xs| - 1];
      assert forall i :: 0 <= i < |xs| - 1 ==> xs[i] == xs[..|xs| - 1][i];
      ExtReal.Min(m, Fin(last))
  }

  /** `f64::max` folded over a sequence from `-inf`, as the corner loop accumulates `max[a]`. */
  function FoldMax(xs: seq<real>): (m: EReal)
    ensures forall i :: 0 <= i < |xs| ==> Le(Fin(xs[i]), m)
    ensures |xs| > 0 ==> m.Fin? && exists i :: 0 <= i < |xs| && m.r == xs[i]
  {
    if |xs| == 0 then NegInf
    else
      var m := FoldMax(xs[..|xs| - 1]);
      var last := xs[|xs| - 1];
      assert forall i :: 0 <= i < |xs| - 1 ==> xs[i] == xs[..|xs| - 1][i];
      ExtReal.Max(m, Fin(last))
  }

  /** The child's corners turned into the world frame (`tester` in the loop). */
  function Testers(b: AABB, sin: real, cos: real): (ts: seq<Vec3>)
    requires FiniteBox(b)
    ensures |ts| == 8
  {
    var cs := Corners(b);
    [ToWorld(sin, cos, cs[0]), ToWorld(sin, cos, cs[1]), ToWorld(sin, cos, cs[2]), ToWorld(sin, cos, cs[3]),
     ToWorld(sin, cos, cs[4]), ToWorld(sin, cos, cs[5]), ToWorld(sin, cos, cs[6]), ToWorld(sin, cos, cs[7])]
  }

  /** One coordinate of each of the eight turned corners. */
  function Xs(ts: seq<Vec3>): (xs: seq<real>)
    requires |ts| == 8
    ensures |xs| == 8 && forall n :: 0 <= n < 8 ==> xs[n] == ts[n].x
  {
    [ts[0].x, ts[1].x, ts[2].x, ts[3].x, ts[4].x, ts[5].x, ts[6].x, ts[7].x]
  }

  function Ys(ts: seq<Vec3>): (ys: seq<real>)
    requires |ts| == 8
    ensures |ys| == 8 && forall n :: 0 <= n < 8 ==> ys[n] == ts[n].y
  {
    [ts[0].y, ts[1].y, ts[2].y, ts[3].y, ts[4].y, ts[5].y, ts[6].y, ts[7].y]
  }

  function Zs(ts: seq<Vec3>): (zs: seq<real>)
    requires |ts| == 8
    ensures |zs| == 8 && forall n :: 0 <= n < 8 ==> zs[n] == ts[n].z
  {
    [ts[0].z, ts[1].z, ts[2].z, ts[3].z, ts[4].z, ts[5].z, ts[6].z, ts[7].z]
  }

  /**
   `Rotation::new` with the sine and cosine of the angle given: the box is
   `from_points` of the componentwise minimum and maximum of the eight turned
   corners of the child's box, which must be finite (an infinite bound makes
   the corner arithmetic NaN).
   */
  function NewRotation<T>(child: T, childBox: AABB, sin: real, cos: real): (rot: Rotation<T>)
    requires FiniteBox(childBox)
    ensures rot.child == child && rot.sinTheta == sin && rot.cosTheta == cos
    ensures forall n :: 0 <= n < 8 ==> InBox(rot.bbox, Testers(childBox, sin, cos)[n])
  {
    var ts := Testers(childBox, sin, cos);
    var minX, minY, minZ := FoldMin(Xs(ts)), FoldMin(Ys(ts)), FoldMin(Zs(ts));
    var maxX, maxY, maxZ := FoldMax(Xs(ts)), FoldMax(Ys(ts)), FoldMax(Zs(ts));
    var lo := Vec3(minX.r, minY.r, minZ.r);
    var hi := Vec3(maxX.r, maxY.r, maxZ.r);
    var bbox := FromPoints(lo, hi);
    assert forall n :: 0 <= n < 8 ==> InBox(bbox, ts[n]) by {
      forall n | 0 <= n < 8
        ensures InBox(bbox, ts[n])
      {
        assert Xs(ts)[n] == ts[n].x && Ys(ts)[n] == ts[n].y && Zs(ts)[n] == ts[n].z;
      }
    }
    Rotation(child, bbox, sin, cos)
  }

  /**
   The box is also the tightest one: each of its six bounds is the matching
   coordinate of one of the turned corners.
   */
  lemma RotationBoxTight<T>(child: T, b: AABB, sin: real, cos: real)
    requires FiniteBox(b)
    ensures var bx, ts := NewRotation(child, b, sin, cos).bbox, Testers(b, sin, cos);
      (exists n :: 0 <= n < 8 && bx.x.min == Fin(ts[n].x)) && (exists n :: 0 <= n < 8 && bx.x.max == Fin(ts[n].x)) &&
      (exists n :: 0 <= n < 8 && bx.y.min == Fin(ts[n].y)) && (exists n :: 0 <= n < 8 && bx.y.max == Fin(ts[n].y)) &&
      (exists n :: 0 <= n < 8 && bx.z.min == Fin(ts[n].z)) && (exists n :: 0 <= n < 8 && bx.z.max == Fin(ts[n].z))
  {
    var ts := Testers(b, sin, cos);
    FoldsOrdered(Xs(ts));
    FoldsOrdered(Ys(ts));
    FoldsOrdered(Zs(ts));
  }

  /** On a non-empty sequence the folded minimum is finite, at most the folded maximum, and both are elements. */
  lemma FoldsOrdered(xs: seq<real>)
    requires |xs| > 0
    ensures FoldMin(xs).Fin? && FoldMax(xs).Fin? && FoldMin(xs).r <= FoldMax(xs).r
    ensures exists n :: 0 <= n < |xs| && FoldMin(xs).r == xs[n]
    ensures exists n :: 0 <= n < |xs| && FoldMax(xs).r == xs[n]
  {
    assert Le(FoldMin(xs), Fin(xs[0])) && Le(Fin(xs[0]), FoldMax(xs));
  }
}

=== FILE: interval.dfy ===
/**
 The closed interval `[min, max]` of `src/util/interval.rs`: a window of ray
 parameters or the extent of a box along one axis. Bounds are extended reals
 so that the empty default interval `(+inf, -inf)` and the unbounded search
 window `[0.001, +inf)` are representable.
 */
module Intervals {
  import opened ExtReal

  datatype Interval = Interval(min: EReal, max: EReal)

  /** `contains`: inclusive at both ends. */
  predicate Contains(i: Interval, n: real) {
    Le(i.min, Fin(n)) && Le(Fin(n), i.max)
  }

  /** `Default`: `min = +inf`, `max = -inf`, the interval that contains no point. */
  function Default(): (e: Interval)
    ensures forall n :: !Contains(e, n)
  {
    Interval(PosInf, NegInf)
  }

  /** Every interval whose minimum exceeds its maximum is empty. */
  lemma InvertedIsEmpty(i: Interval, n: real)
    requires Lt(i.max, i.min)
    ensures !Contains(i, n)
  {
  }

  /** `contains` is convex: it holds on the whole segment between two members. */
  lemma ContainsConvex(i: Interval, a: real, b: real, n: real)
    requires Contains(i, a) && Contains(i, b)
    requires a <= n <= b
    ensures Contains(i, n)
  {
  }

  /** A finite interval contains its own endpoints exactly when `min <= max`. */
  lemma ContainsEndpoints(i: Interval)
    requires i.min.Fin? && i.max.Fin?
    ensures Contains(i, i.min.r) && Contains(i, i.max.r) <==> i.min.r <= i.max.r
  {
  }

  /**
   `from_intervals`: the smallest interval enclosing both arguments, i.e. the
   componentwise `min` of the minima and `max` of the maxima.
   */
  function FromIntervals(a: Interval, b: Interval): (r: Interval)
    ensures Le(r.min, a.min) && Le(r.min, b.min) && (r.min == a.min || r.min == b.min)
    ensures Le(a.max, r.max) && Le(b.max, r.max) && (r.max == a.max || r.max == b.max)
    ensures forall n :: Contains(a, n) || Contains(b, n) ==> Contains(r, n)
  {
    Interval(Min(a.min, b.min), Max(a.max, b.max))
  }

  lemma FromIntervalsCommutative(a: Interval, b: Interval)
    ensures FromIntervals(a, b) == FromIntervals(b, a)
  {
    var r, s := FromIntervals(a, b), FromIntervals(b, a);
    LeTotal(a.min, b.min);
    LeTotal(a.max, b.max);
    if Le(a.min, b.min) && Le(b.min, a.min) {
      LeAntisym(a.min, b.min);
    }
    if Le(a.max, b.max) && Le(b.max, a.max) {
      LeAntisym(a.max, b.max);
    }
  }

  lemma FromIntervalsAssociative(a: Interval, b: Interval, c: Interval)
    ensures FromIntervals(FromIntervals(a, b), c) == FromIntervals(a, FromIntervals(b, c))
  {
    var l, r := FromIntervals(FromIntervals(a, b), c), FromIntervals(a, FromIntervals(b, c));
    LeTotal(l.min, r.min);
    LeTotal(l.max, r.max);
    if Le(l.min, r.min) {
      LeAntisym(l.min, r.min);
    } else {
      LeAntisym(r.min, l.min);
    }
    if Le(l.max, r.max) {
      LeAntisym(l.max, r.max);
    } else {
      LeAntisym(r.max, l.max);
    }
  }

  /** The empty default interval is a two-sided identity of `from_intervals`. */
  lemma DefaultIsIdentity(a: Interval)
    ensures FromIntervals(Default(), a) == a
    ensures FromIntervals(a, Default()) == a
  {
  }

  /** `size`: `max - min`, defined unless both bounds are the same infinity. */
  function Size(i: Interval): (s: EReal)
    requires !SubIsNaN(i.max, i.min)
    ensures i.min.Fin? && i.max.Fin? ==> s == Fin(i.max.r - i.min.r)
    ensures s.Fin? ==> i.min.Fin? && i.max.Fin?
  {
    Diff(i.max, i.min)
  }

  /** `expand`: pads each side by half of `delta`, as a new interval. */
  function Expand(i: Interval, delta: real): (r: Interval)
    ensures r.min.Fin? == i.min.Fin? && r.max.Fin? == i.max.Fin?
    ensures i.min.Fin? && i.max.Fin? ==> Size(r) == Fin(i.max.r - i.min.r + delta)
    ensures delta >= 0.0 ==> forall n :: Contains(i, n) ==> Contains(r, n)
    ensures delta >= 0.0 && i.min.Fin? ==> r.min.r <= i.min.r
    ensures delta >= 0.0 && i.max.Fin? ==> i.max.r <= r.max.r
  {
    var padding := delta / 2.0;
    Interval(Shift(i.min, -padding), Shift(i.max, padding))
  }
}

=== FILE: legacy.dfy ===
/**
 The first generation of the scene code, still in the repository next to its
 successors: `src/interval.rs`, `src/ray.rs`, `src/hittable.rs`,
 `src/hittable_list.rs` and `src/sphere.rs`. Rays carry no time, records no
 texture coordinates, and spheres never move. Each operation is modelled as
 written and then related to the corresponding operation of the current
 generation, so the guarantees proved there carry over.
 */
module Legacy {
  import opened ExtReal
  import opened Vectors
  import opened Numeric
  import opened Options
  import Intervals
  import Rays
  import HitRecords
  import HittableLists
  import Hittables
  import Spheres

  // ---------------------------------------------------------------------------
  // Interval
  // ---------------------------------------------------------------------------

  /** `Interval<f64>`: both bounds stored as given by `new`. */
  datatype Bounds = Bounds(min: EReal, max: EReal)

  /** `contains`: `min <= n && max >= n`. */
  predicate Contains(b: Bounds, n: real) {
    Le(b.min, Fin(n)) && Le(Fin(n), b.max)
  }

  /** The same window as an interval of the current generation. */
  function ToInterval(b: Bounds): (i: Intervals.Interval)
    ensures forall n :: Contains(b, n) <==> Intervals.Contains(i, n)
  {
    Intervals.Interval(b.min, b.max)
  }

  /** On finite bounds `contains` is inclusive at both ends; inverted bounds contain nothing. */
  lemma ContainsFinite(lo: real, hi: real, n: real)
    ensures Contains(Bounds(Fin(lo), Fin(hi)), n) <==> lo <= n <= hi
    ensures hi < lo ==> !Contains(Bounds(Fin(lo), Fin(hi)), n)
    ensures Contains(Bounds(Fin(lo), Fin(hi)), lo) && Contains(Bounds(Fin(lo), Fin(hi)), hi) <==> lo <= hi
  {
  }

  // ---------------------------------------------------------------------------
  // Ray
  // ---------------------------------------------------------------------------

  datatype Ray = Ray(origin: Vec3, direction: Vec3)

  /** `at`: the point reached after `t` times the direction. */
  function At(r: Ray, t: real): (p: Vec3)
    ensures Sub(p, r.origin) == Scale(t, r.direction)
  {
    Add(r.origin, Scale(t, r.direction))
  }

  /** The same ray in the current generation, cast at time zero. */
  function Lift(r: Ray): (l: Rays.Ray)
    ensures l.origin == r.origin && l.direction == r.direction && l.time == 0.0
  {
    Rays.New(r.origin, r.direction)
  }

  /** `at` agrees with the current ray's `at`, starts at the origin and is affine in `t`. */
  lemma AtAgrees(r: Ray, s: real, t: real)
    ensures At(r, t) == Rays.At(Lift(r), t)
    ensures At(r, 0.0) == r.origin && At(r, 1.0) == Add(r.origin, r.direction)
    ensures At(r, s + t) == Add(At(r, s), Scale(t, r.direction))
  {
  }

  // ---------------------------------------------------------------------------
  // Hit record
  // ---------------------------------------------------------------------------

  datatype Record<M> = Record(p: Vec3, normal: Vec3, material: M, t: real, frontFace: bool)

  /** `HitRecord::new`: the normal is the outward one, flipped when the ray hits the back face. */
  function NewRecord<M>(r: Ray, t: real, p: Vec3, material: M, outward: Vec3): (rec: Record<M>)
    ensures rec.frontFace <==> Dot(r.direction, outward) < 0.0
    ensures rec.normal == outward || rec.normal == Neg(outward)
    ensures Dot(r.direction, rec.normal) <= 0.0
    ensures LengthSquared(rec.normal) == LengthSquared(outward)
    ensures rec.p == p && rec.t == t && rec.material == material
  {
    var frontFace := Dot(r.direction, outward) < 0.0;
    Record(p, if frontFace then outward else Neg(outward), material, t, frontFace)
  }

  /** A current record with its texture coordinates dropped. */
  function Forget<M>(rec: HitRecords.HitRecord<M>): Record<M> {
    Record(rec.p, rec.normal, rec.material, rec.t, rec.frontFace)
  }

  function ForgetOption<M>(o: Option<HitRecords.HitRecord<M>>): Option<Record<M>> {
    if o.Some? then Some(Forget(o.value)) else None
  }

  /** A legacy record as a current one, with texture coordinates zero. */
  function Embed<M>(o: Option<Record<M>>): (e: Option<HitRecords.HitRecord<M>>)
    ensures ForgetOption(e) == o
  {
    if o.Some? then
      var rec := o.value;
      Some(HitRecords.HitRecord(rec.p, rec.normal, rec.material, rec.t, 0.0, 0.0, rec.frontFace))
    else None
  }

  /** The old constructor builds the current record minus its texture coordinates. */
  lemma NewRecordAgrees<M>(r: Ray, t: real, p: Vec3, u: real, v: real, material: M, outward: Vec3)
    ensures NewRecord(r, t, p, material, outward) == Forget(HitRecords.New(Lift(r), t, p, u, v, material, outward))
  {
  }

  // ---------------------------------------------------------------------------
  // Hittable list
  // ---------------------------------------------------------------------------

  datatype List<T> = List(objects: seq<T>)

  /** `new`: no objects. */
  function NewList<T>(): (l: List<T>)
    ensures |l.objects| == 0
  {
    List([])
  }

  /** `add`: the object goes at the end. */
  function AddObject<T>(l: List<T>, o: T): (r: List<T>)
    ensures |r.objects| == |l.objects| + 1 && r.objects[|l.objects|] == o
    ensures r.objects[..|l.objects|] == l.objects
  {
    List(l.objects + [o])
  }

  /** An object's legacy `hit` seen as a current one: the time and texture coordinates are ignored. */
  function LiftHit<T, M>(hit: (T, Ray, Bounds) -> Option<Record<M>>): (T, Rays.Ray, Intervals.Interval) -> Option<HitRecords.HitRecord<M>> {
    (o: T, r: Rays.Ray, i: Intervals.Interval) => Embed(hit(o, Ray(r.origin, r.direction), Bounds(i.min, i.max)))
  }

  /**
   `hit` of the old list, a loop that narrows the window's upper end to the
   nearest hit so far. It is the current list's scan step for step, so the
   current list's closest-hit guarantee holds for it: given object hits that
   stay inside their windows and do not get farther when the window shrinks,
   the result is no farther than any object's own hit in the window.
   */
  method ListHit<T(!new), M>(hit: (T, Ray, Bounds) -> Option<Record<M>>, l: List<T>, r: Ray, bounds: Bounds)
    returns (found: Option<Record<M>>)
    ensures found == ForgetOption(HittableLists.Scan(LiftHit(hit), l.objects, Lift(r), ToInterval(bounds),
      HittableLists.ScanState(bounds.max, None)).rec)
    ensures |l.objects| == 0 ==> found == None
    ensures Hittables.RespectsInterval(LiftHit(hit)) && Hittables.Monotone(LiftHit(hit)) ==>
      forall i :: 0 <= i < |l.objects| && hit(l.objects[i], r, bounds).Some? ==>
        found.Some? && Contains(bounds, found.value.t) && found.value.t <= hit(l.objects[i], r, bounds).value.t
  {
    ghost var lifted, lr, window := LiftHit(hit), Lift(r), ToInterval(bounds);
    ghost var start := HittableLists.ScanState(bounds.max, None);
    var fRec: Option<Record<M>> := None;
    var closest := bounds.max;
    var n := 0;
    while n < |l.objects|
      invariant 0 <= n <= |l.objects|
      invariant HittableLists.Scan(lifted, l.objects, lr, window, start)
        == HittableLists.Scan(lifted, l.objects[n..], lr, window, HittableLists.ScanState(closest, Embed(fRec)))
    {
      var narrowed := Bounds(bounds.min, closest);
      var o := hit(l.objects[n], r, narrowed);
      ghost var state := HittableLists.ScanState(closest, Embed(fRec));
      assert lifted(l.objects[n], lr, Intervals.Interval(window.min, closest)) == Embed(o);
      assert l.objects[n..][1..] == l.objects[n + 1..];
      if o.Some? {
        closest := Fin(o.value.t);
        fRec := o;
      }
      assert HittableLists.Step(lifted, l.objects[n], lr, window, state) == HittableLists.ScanState(closest, Embed(fRec));
      n := n + 1;
    }
    found := fRec;
    assert l.objects[n..] == [];
    if Hittables.RespectsInterval(lifted) && Hittables.Monotone(lifted) {
      forall i | 0 <= i < |l.objects| && hit(l.objects[i], r, bounds).Some?
        ensures found.Some? && Contains(bounds, found.value.t) && found.value.t <= hit(l.objects[i], r, bounds).value.t
      {
        assert lifted(l.objects[i], lr, window) == Embed(hit(l.objects[i], r, bounds));
        HittableLists.HitClosest(lifted, HittableLists.HittableList(l.objects, HittableLists.New<T>().bbox), lr, window, i);
      }
    }
  }

  // ---------------------------------------------------------------------------
  // Sphere
  // ---------------------------------------------------------------------------

  datatype Sphere<M> = Sphere(center: Vec3, radius: real, material: M)

  /** The ray meets the surface of the sphere at parameter `t`. */
  predicate OnSphere<M>(s: Sphere<M>, r: Ray, t: real) {
    LengthSquared(Sub(At(r, t), s.center)) == s.radius * s.radius
  }

  /**
   The root choice of `Sphere::hit`, on the coefficients `a = |d|^2`,
   `half_b = (o - center) . d` and `c = |o - center|^2 - radius^2`: the same
   quadratic and the same preference for the nearer root as the current
   sphere (`Spheres.SolveQuadratic`).
   */
  function SphereRoot(sqrt: real -> real, center: Vec3, radius: real, r: Ray, b: Bounds): (o: Option<real>)
    ensures o.Some? ==> Contains(b, o.value)
  {
    var oc := Sub(r.origin, center);
    Spheres.SolveQuadratic(sqrt, LengthSquared(r.direction), Dot(oc, r.direction), LengthSquared(oc) - radius * radius, ToInterval(b))
  }

  /** `Sphere::hit`: the record at the chosen root, with outward normal `(p - center) / radius`. */
  function SphereHit<M>(sqrt: real -> real, s: Sphere<M>, r: Ray, b: Bounds): (o: Option<Record<M>>)
    requires s.radius != 0.0
    ensures o.Some? ==> Contains(b, o.value.t) && o.value.p == At(r, o.value.t) && o.value.material == s.material
    ensures o.Some? ==> Dot(r.direction, o.value.normal) <= 0.0
  {
    match SphereRoot(sqrt, s.center, s.radius, r, b)
    case None => None
    case Some(root) =>
      var p := At(r, root);
      Some(NewRecord(r, root, p, s.material, Scale(1.0 / s.radius, Sub(p, s.center))))
  }

  /** The old root choice is the current one on the same ray and window. */
  lemma SphereRootAgrees(sqrt: real -> real, center: Vec3, radius: real, r: Ray, b: Bounds)
    ensures SphereRoot(sqrt, center, radius, r, b) == Spheres.Root(sqrt, center, radius, Lift(r), ToInterval(b))
  {
    SphereRootCoefficients(sqrt, center, radius, r, b);
    RootOfSameRay(sqrt, center, radius, r, Lift(r), ToInterval(b));
  }

  lemma SphereRootCoefficients(sqrt: real -> real, center: Vec3, radius: real, r: Ray, b: Bounds)
    ensures var oc := Sub(r.origin, center);
      SphereRoot(sqrt, center, radius, r, b)
      == Spheres.SolveQuadratic(sqrt, LengthSquared(r.direction), Dot(oc, r.direction), LengthSquared(oc) - radius * radius, ToInterval(b))
  {
  }

  /** The current root choice on a ray with the old ray's origin and direction. */
  lemma RootOfSameRay(sqrt: real -> real, center: Vec3, radius: real, r: Ray, l: Rays.Ray, i: Intervals.Interval)
    requires l.origin == r.origin && l.direction == r.direction
    ensures var oc := Sub(r.origin, center);
      Spheres.Root(sqrt, center, radius, l, i)
      == Spheres.SolveQuadratic(sqrt, LengthSquared(r.direction), Dot(oc, r.direction), LengthSquared(oc) - radius * radius, i)
  {
  }

  /** A current sphere that stands still where the old one is. */
  ghost predicate SameSphere<M>(s: Sphere<M>, cur: Spheres.Sphere<M>) {
    !cur.isMoving && cur.origin == s.center && cur.radius == s.radius && cur.material == s.material
  }

  /**
   The old sphere hits like the current stationary sphere (`new_stationary`
   builds one) and records the same hit minus texture coordinates.
   */
  lemma SphereHitAgrees<M>(sqrt: real -> real, uv: Vec3 -> (real, real), s: Sphere<M>, cur: Spheres.Sphere<M>, r: Ray, b: Bounds)
    requires s.radius != 0.0 && SameSphere(s, cur)
    ensures SphereHit(sqrt, s, r, b) == ForgetOption(Spheres.Hit(sqrt, uv, cur, Lift(r), ToInterval(b)))
  {
    var lr := Lift(r);
    assert Spheres.Center(cur, lr) == s.center;
    SphereRootAgrees(sqrt, s.center, s.radius, r, b);
    var root := SphereRoot(sqrt, s.center, s.radius, r, b);
    if root.Some? {
      AtAgrees(r, 0.0, root.value);
      var p := At(r, root.value);
      var outward := Scale(1.0 / s.radius, Sub(p, s.center));
      NewRecordAgrees(r, root.value, p, uv(outward).0, uv(outward).1, s.material, outward);
    }
  }

  /** The old sphere's surface test is the current one on the lifted ray. */
  lemma OnSphereAgrees<M>(s: Sphere<M>, r: Ray, t: real)
    ensures OnSphere(s, r, t) <==> Spheres.OnSurface(s.center, s.radius, Lift(r), t)
  {
    AtAgrees(r, 0.0, t);
  }

  /** The stationary current sphere with the old sphere's centre, radius and material. */
  function Stationary<M>(s: Sphere<M>): (cur: Spheres.Sphere<M>)
    ensures SameSphere(s, cur)
  {
    Spheres.Sphere(s.center, s.radius, s.material, false, Zero, Spheres.BallBox(s.center, s.radius))
  }

  /**
   The old sphere reports the nearest surface point in the window, with a
   unit normal, and misses only when the window holds no surface point.
   */
  lemma SphereHitNearest<M>(sqrt: real -> real, s: Sphere<M>, r: Ray, b: Bounds)
    requires IsSqrt(sqrt)
    requires s.radius != 0.0 && LengthSquared(r.direction) > 0.0
    ensures var o := SphereHit(sqrt, s, r, b);
      && (o.Some? ==> OnSphere(s, r, o.value.t))
      && (o.Some? ==> forall t :: Contains(b, t) && OnSphere(s, r, t) ==> o.value.t <= t)
      && (o.Some? ==> LengthSquared(o.value.normal) == 1.0)
      && (o.None? ==> forall t :: Contains(b, t) ==> !OnSphere(s, r, t))
  {
    NearestViaCurrent(sqrt, (p: Vec3) => (0.0, 0.0), s, Stationary(s), r, b);
  }

  lemma NearestViaCurrent<M>(sqrt: real -> real, uv: Vec3 -> (real, real), s: Sphere<M>, cur: Spheres.Sphere<M>, r: Ray, b: Bounds)
    requires IsSqrt(sqrt)
    requires s.radius != 0.0 && LengthSquared(r.direction) > 0.0 && SameSphere(s, cur)
    ensures var o := SphereHit(sqrt, s, r, b);
      && (o.Some? ==> OnSphere(s, r, o.value.t))
      && (o.Some? ==> forall t :: Contains(b, t) && OnSphere(s, r, t) ==> o.value.t <= t)
      && (o.Some? ==> LengthSquared(o.value.normal) == 1.0)
      && (o.None? ==> forall t :: Contains(b, t) ==> !OnSphere(s, r, t))
  {
    SphereHitAgrees(sqrt, uv, s, cur, r, b);
    Spheres.HitNearest(sqrt, uv, cur, Lift(r), ToInterval(b));
    assert Spheres.Center(cur, Lift(r)) == s.center;
    forall t
      ensures OnSphere(s, r, t) <==> Spheres.OnSurface(s.center, s.radius, Lift(r), t)
    {
      OnSphereAgrees(s, r, t);
    }
  }
}

=== FILE: material.dfy ===
/**
 The surface materials of `src/material.rs`: diffuse (Lambertian), metal with
 optional fuzz, and dielectric (glass). Each scatters an incoming ray at a hit
 point into an outgoing ray and an attenuation colour, or absorbs it.

 The random draws each scatter makes are inputs: the unit vector of
 `random_unit_vector` and the uniform number in `[0, 1)` of `rand::random`.
 */
module Materials {
  import opened Vectors
  import opened Numeric
  import opened Rays
  import opened Options
  import opened HitRecords
  import opened VecOps

  /** The closed set of materials, each with its parameters. */
  datatype Material =
    | Lambertian(albedo: Vec3)
    | Metal(albedo: Vec3, fuzz: real)
    | Dielectric(ir: real)

  /** The random inputs of one scatter. */
  datatype Draws = Draws(unitVector: Vec3, uniform: real)

  /** `Metal::new`: the fuzz is capped at one (a negative fuzz is kept as given). */
  function NewMetal(albedo: Vec3, fuzz: real): (m: Material)
    ensures m.Metal? && m.albedo == albedo
    ensures m.fuzz <= 1.0 && (m.fuzz == fuzz || m.fuzz == 1.0)
    ensures fuzz <= 1.0 <==> m.fuzz == fuzz
  {
    Metal(albedo, MinReal(fuzz, 1.0))
  }

  /** The outgoing ray of a scatter: from the hit point, at the incoming ray's time. */
  function Outgoing<M>(rIn: Ray, rec: HitRecord<M>, direction: Vec3): (r: Ray)
    ensures r.origin == rec.p && r.direction == direction && r.time == rIn.time
  {
    Ray(rec.p, direction, rIn.time)
  }

  // Lambertian

  /**
   Lambertian `scatter`: always scatters, towards the normal plus a random
   unit vector, falling back to the normal itself when that sum is nearly
   zero; the colour is the albedo.
   */
  function LambertianScatter<M>(albedo: Vec3, rIn: Ray, rec: HitRecord<M>, unit: Vec3): (o: Option<(Ray, Vec3)>)
    ensures o.Some? && o.value.1 == albedo
    ensures o.value.0.origin == rec.p && o.value.0.time == rIn.time
    ensures !NearZero(Add(rec.normal, unit)) ==> o.value.0.direction == Add(rec.normal, unit)
    ensures NearZero(Add(rec.normal, unit)) ==> o.value.0.direction == rec.normal
  {
    var direction := Add(rec.normal, unit);
    Some((Outgoing(rIn, rec, if NearZero(direction) then rec.normal else direction), albedo))
  }

  /** A unit vector is not near zero. */
  lemma UnitNotNearZero(v: Vec3)
    requires LengthSquared(v) == 1.0
    ensures !NearZero(v)
  {
    NearZeroShort(v);
  }

  /**
   With a unit normal and a unit draw, the Lambertian direction is never
   degenerate and never points below the surface.
   */
  lemma LambertianAboveSurface<M>(albedo: Vec3, rIn: Ray, rec: HitRecord<M>, unit: Vec3)
    requires LengthSquared(rec.normal) == 1.0 && LengthSquared(unit) == 1.0
    ensures var d := LambertianScatter(albedo, rIn, rec, unit).value.0.direction;
      !NearZero(d) && Dot(d, rec.normal) >= 0.0
  {
    UnitNotNearZero(rec.normal);
    UnitDotBound(unit, rec.normal);
    assert Dot(Add(rec.normal, unit), rec.normal) == LengthSquared(rec.normal) + Dot(unit, rec.normal);
  }

  // Metal

  /** The metal's direction before the absorption test: the mirror reflection of the unit incoming direction, jittered by `fuzz` times the draw. */
  function FuzzedReflection(sqrt: real -> real, fuzz: real, rIn: Ray, normal: Vec3, unit: Vec3): Vec3
    requires IsSqrt(sqrt) && LengthSquared(rIn.direction) > 0.0
  {
    Add(Reflect(Normalize(sqrt, rIn.direction), normal), Scale(fuzz, unit))
  }

  /**
   Metal `scatter`: the fuzzed reflection, kept only when it leaves above the
   surface (positive dot product with the normal); otherwise the ray is
   absorbed. The colour is the albedo. A zero incoming direction normalises to
   NaN, whose dot product is never positive: such a ray is absorbed.
   */
  function MetalScatter<M>(albedo: Vec3, fuzz: real, sqrt: real -> real, rIn: Ray, rec: HitRecord<M>, unit: Vec3): (o: Option<(Ray, Vec3)>)
    requires IsSqrt(sqrt)
    ensures LengthSquared(rIn.direction) == 0.0 ==> o.None?
    ensures LengthSquared(rIn.direction) > 0.0 ==>
      (o.Some? <==> Dot(FuzzedReflection(sqrt, fuzz, rIn, rec.normal, unit), rec.normal) > 0.0)
    ensures o.Some? ==>
      LengthSquared(rIn.direction) > 0.0 && o.value.0.direction == FuzzedReflection(sqrt, fuzz, rIn, rec.normal, unit)
    ensures o.Some? ==> Dot(o.value.0.direction, rec.normal) > 0.0
    ensures o.Some? ==> o.value.0.origin == rec.p && o.value.0.time == rIn.time && o.value.1 == albedo
  {
    LengthSquaredNonNegative(rIn.direction);
    if LengthSquared(rIn.direction) == 0.0 then None
    else
      var out := Outgoing(rIn, rec, FuzzedReflection(sqrt, fuzz, rIn, rec.normal, unit));
      if Dot(out.direction, rec.normal) > 0.0 then Some((out, albedo)) else None
  }

  /** Normalising keeps the sign of every dot product. */
  lemma NormalizeDotSign(sqrt: real -> real, v: Vec3, n: Vec3)
    requires IsSqrt(sqrt) && LengthSquared(v) > 0.0
    ensures Dot(Normalize(sqrt, v), n) < 0.0 <==> Dot(v, n) < 0.0
  {
    SqrtPositive(sqrt, LengthSquared(v));
    var k := 1.0 / Length(sqrt, v);
    assert Normalize(sqrt, v) == Scale(k, v);
    DotSymmetric(Scale(k, v), n);
    DotScaleRight(n, k, v);
    DotSymmetric(n, v);
    assert Dot(Scale(k, v), n) == k * Dot(v, n);
  }

  /**
   A polished metal (`fuzz = 0`) with a unit normal reflects exactly the rays
   arriving against its normal, as a mirror: the outgoing direction is the
   reflection of the unit incoming direction, a unit vector.
   */
  lemma PolishedMetalMirrors<M>(albedo: Vec3, sqrt: real -> real, rIn: Ray, rec: HitRecord<M>, unit: Vec3)
    requires IsSqrt(sqrt) && LengthSquared(rIn.direction) > 0.0
    requires LengthSquared(rec.normal) == 1.0
    ensures var o := MetalScatter(albedo, 0.0, sqrt, rIn, rec, unit);
      (o.Some? <==> Dot(rIn.direction, rec.normal) < 0.0) &&
      (o.Some? ==> o.value.0.direction == Reflect(Normalize(sqrt, rIn.direction), rec.normal) &&
                   LengthSquared(o.value.0.direction) == 1.0)
  {
    var u := Normalize(sqrt, rIn.direction);
    ReflectComponents(u, rec.normal, rec.normal);
    NormalizeDotSign(sqrt, rIn.direction, rec.normal);
    assert Add(Reflect(u, rec.normal), Scale(0.0, unit)) == Reflect(u, rec.normal);
  }

  // Dielectric

  /** `r0` of Schlick's approximation: the reflectance at normal incidence. */
  function NormalReflectance(refIdx: real): (r0: real)
    requires refIdx > 0.0
    ensures 0.0 <= r0 < 1.0
    ensures r0 == 0.0 <==> refIdx == 1.0
  {
    var q := (1.0 - refIdx) / (1.0 + refIdx);
    RatioInside(refIdx);
    SquareBelowOne(q);
    q * q
  }

  lemma RatioInside(refIdx: real)
    requires refIdx > 0.0
    ensures -1.0 < (1.0 - refIdx) / (1.0 + refIdx) < 1.0
    ensures (1.0 - refIdx) / (1.0 + refIdx) == 0.0 <==> refIdx == 1.0
  {
    var q := (1.0 - refIdx) / (1.0 + refIdx);
    assert q * (1.0 + refIdx) == 1.0 - refIdx;
  }

  lemma SquareBelowOne(q: real)
    requires -1.0 < q < 1.0
    ensures 0.0 <= q * q < 1.0
    ensures q * q == 0.0 <==> q == 0.0
  {
    SquareNonNegative(q);
    if q >= 0.0 {
      SquareStrictMono(q, 1.0);
      if q > 0.0 { SquareStrictMono(0.0, q); }
    } else {
      SquareStrictMono(-q, 1.0);
      SquareStrictMono(0.0, -q);
      assert (-q) * (-q) == q * q;
    }
  }

  /** Looking from either side of the interface gives the same normal reflectance. */
  lemma NormalReflectanceSymmetric(refIdx: real)
    requires refIdx > 0.0
    ensures NormalReflectance(1.0 / refIdx) == NormalReflectance(refIdx)
  {
    var q := (1.0 - refIdx) / (1.0 + refIdx);
    var q' := (1.0 - 1.0 / refIdx) / (1.0 + 1.0 / refIdx);
    assert q' == -q by {
      assert (1.0 - 1.0 / refIdx) * refIdx == refIdx - 1.0;
      assert (1.0 + 1.0 / refIdx) * refIdx == refIdx + 1.0;
    }
  }

  /** Powers of a number in `[0, 1]` stay in `[0, 1]`. */
  lemma {:induction false} PowUnitInterval(x: real, n: nat)
    requires 0.0 <= x <= 1.0
    ensures 0.0 <= Pow(x, n) <= 1.0
  {
    if n > 0 {
      var p := Pow(x, n - 1);
      PowUnitInterval(x, n - 1);
      assert Pow(x, n) == x * p;
      MulMono(x, 0.0, p);
      assert 0.0 <= x * p;
      MulMono(x, p, 1.0);
      assert x * p <= x;
    }
  }

  /** `Dielectric::reflectance`: Schlick's approximation, `r0 + (1 - r0)(1 - cos)^5`. */
  function Reflectance(cosine: real, refIdx: real): (r: real)
    requires refIdx > 0.0
    ensures 0.0 <= cosine <= 1.0 ==> NormalReflectance(refIdx) <= r <= 1.0
  {
    var r0, p := NormalReflectance(refIdx), Pow(1.0 - cosine, 5);
    if 0.0 <= cosine <= 1.0 then
      PowUnitInterval(1.0 - cosine, 5);
      Blend(r0, p);
      r0 + (1.0 - r0) * p
    else
      r0 + (1.0 - r0) * p
  }

  /** Blending `r0` towards one by a weight in `[0, 1]` stays between them. */
  lemma Blend(r0: real, p: real)
    requires 0.0 <= r0 < 1.0 && 0.0 <= p <= 1.0
    ensures r0 <= r0 + (1.0 - r0) * p <= 1.0
  {
    MulMono(1.0 - r0, 0.0, p);
    MulMono(1.0 - r0, p, 1.0);
  }

  /** At normal incidence the approximation gives `r0`; at grazing incidence total reflection. */
  lemma ReflectanceEnds(refIdx: real)
    requires refIdx > 0.0
    ensures Reflectance(1.0, refIdx) == NormalReflectance(refIdx)
    ensures Reflectance(0.0, refIdx) == 1.0
  {
    assert Pow(0.0, 5) == 0.0;
    assert Pow(1.0, 5) == 1.0;
  }

  /** The ratio of refractive indices met by the ray: `1 / ir` entering through the front face, `ir` leaving. */
  function RefractionRatio(frontFace: bool, ir: real): (ratio: real)
    requires ir > 0.0
    ensures ratio > 0.0
    ensures frontFace ==> ratio * ir == 1.0
    ensures !frontFace ==> ratio == ir
  {
    if frontFace then 1.0 / ir else ir
  }

  /** The cosine of the angle between the unit incoming direction and the normal, capped at one. */
  function CosTheta(unitDir: Vec3, normal: Vec3): real {
    MinReal(-Dot(unitDir, normal), 1.0)
  }

  /** Snell's law has no solution: the ray is totally internally reflected. */
  predicate CannotRefract(sqrt: real -> real, ratio: real, cosTheta: real) {
    ratio * sqrt(1.0 - cosTheta * cosTheta) > 1.0
  }

  /**
   Dielectric `scatter`: always scatters, with a white colour. The ray is
   reflected when it cannot refract or when the uniform draw falls below the
   Schlick reflectance, and refracted otherwise. The incoming direction must
   be non-zero (it is normalised) and the refractive index positive.
   */
  function DielectricScatter<M>(ir: real, sqrt: real -> real, rIn: Ray, rec: HitRecord<M>, draw: real): (o: Option<(Ray, Vec3)>)
    requires IsSqrt(sqrt) && LengthSquared(rIn.direction) > 0.0 && ir > 0.0
    ensures o.Some? && o.value.1 == One
    ensures o.value.0.origin == rec.p && o.value.0.time == rIn.time
    ensures var u := Normalize(sqrt, rIn.direction);
      var ratio := RefractionRatio(rec.frontFace, ir);
      var cos := CosTheta(u, rec.normal);
      (CannotRefract(sqrt, ratio, cos) || Reflectance(cos, ratio) > draw ==> o.value.0.direction == Reflect(u, rec.normal)) &&
      (!CannotRefract(sqrt, ratio, cos) && Reflectance(cos, ratio) <= draw ==> o.value.0.direction == Refract(sqrt, u, rec.normal, ratio))
  {
    var u := Normalize(sqrt, rIn.direction);
    var ratio := RefractionRatio(rec.frontFace, ir);
    var cos := CosTheta(u, rec.normal);
    var direction :=
      if CannotRefract(sqrt, ratio, cos) || Reflectance(cos, ratio) > draw then Reflect(u, rec.normal)
      else Refract(sqrt, u, rec.normal, ratio);
    Some((Outgoing(rIn, rec, direction), One))
  }

  lemma SquareAtMostOne(c: real)
    requires -1.0 <= c <= 1.0
    ensures c * c <= 1.0
  {
    if c >= 0.0 {
      MulMono(c, c, 1.0);
      assert c * 1.0 == c;
    } else {
      var d := -c;
      MulMono(d, d, 1.0);
      assert d * d <= 1.0;
      assert d * d == c * c;
    }
  }

  lemma SquareProduct(a: real, b: real)
    ensures (a * b) * (a * b) == a * a * (b * b)
  {
  }

  /** When Snell's law has a solution, the refracted ray is not totally reflected. */
  lemma RefractionPossible(sqrt: real -> real, u: Vec3, n: Vec3, ratio: real)
    requires IsSqrt(sqrt) && ratio > 0.0
    requires LengthSquared(u) == 1.0 && LengthSquared(n) == 1.0
    requires !CannotRefract(sqrt, ratio, CosTheta(u, n))
    ensures ratio * ratio * (1.0 - Dot(u, n) * Dot(u, n)) <= 1.0
  {
    var c := CosTheta(u, n);
    CosThetaOfUnits(u, n);
    SquareAtMostOne(c);
    SquareOfSqrt(sqrt, 1.0 - c * c);
    RefractsAt(sqrt, ratio, c);
    BelowCritical(ratio, sqrt(1.0 - c * c), c);
  }

  /** For unit vectors the cap in `CosTheta` never applies. */
  lemma CosThetaOfUnits(u: Vec3, n: Vec3)
    requires LengthSquared(u) == 1.0 && LengthSquared(n) == 1.0
    ensures CosTheta(u, n) == -Dot(u, n) && -1.0 <= CosTheta(u, n) <= 1.0
    ensures CosTheta(u, n) * CosTheta(u, n) == Dot(u, n) * Dot(u, n)
  {
    UnitDotBound(u, n);
    var d := Dot(u, n);
    assert (-d) * (-d) == d * d;
  }

  lemma RefractsAt(sqrt: real -> real, ratio: real, cos: real)
    requires !CannotRefract(sqrt, ratio, cos)
    ensures ratio * sqrt(1.0 - cos * cos) <= 1.0
  {
  }

  /** `ratio sin <= 1` with `sin^2 = 1 - cos^2` bounds `ratio^2 (1 - cos^2)` by one. */
  lemma BelowCritical(ratio: real, s: real, c: real)
    requires ratio > 0.0 && 0.0 <= s && s * s == 1.0 - c * c
    requires ratio * s <= 1.0
    ensures ratio * ratio * (1.0 - c * c) <= 1.0
  {
    MulMono(ratio, 0.0, s);
    assert 0.0 <= ratio * s <= 1.0;
    SquareAtMostOne(ratio * s);
    SquareProduct(ratio, s);
  }

  /**
   With a unit normal the dielectric always sends out a unit direction: a
   reflection leaves on the incoming side with the normal component negated,
   a refraction passes to the far side of the surface.
   */
  lemma DielectricDirection<M>(ir: real, sqrt: real -> real, rIn: Ray, rec: HitRecord<M>, draw: real)
    requires IsSqrt(sqrt) && LengthSquared(rIn.direction) > 0.0 && ir > 0.0
    requires LengthSquared(rec.normal) == 1.0
    ensures var d := DielectricScatter(ir, sqrt, rIn, rec, draw).value.0.direction;
      var u := Normalize(sqrt, rIn.direction);
      LengthSquared(d) == 1.0 &&
      (d == Reflect(u, rec.normal) || Dot(d, rec.normal) <= 0.0)
  {
    var u := Normalize(sqrt, rIn.direction);
    var ratio := RefractionRatio(rec.frontFace, ir);
    var cos := CosTheta(u, rec.normal);
    if CannotRefract(sqrt, ratio, cos) || Reflectance(cos, ratio) > draw {
      ReflectComponents(u, rec.normal, rec.normal);
    } else {
      RefractionPossible(sqrt, u, rec.normal, ratio);
      RefractUnit(sqrt, u, rec.normal, ratio);
    }
  }

  // Dispatch

  /**
   `Material::scatter`: the variant's own scatter. Whatever the material, a
   scattered ray leaves from the hit point at the incoming ray's time; only a
   metal ever absorbs.
   */
  function Scatter<M>(m: Material, sqrt: real -> real, rIn: Ray, rec: HitRecord<M>, draws: Draws): (o: Option<(Ray, Vec3)>)
    requires IsSqrt(sqrt)
    requires m.Dielectric? ==> LengthSquared(rIn.direction) > 0.0 && m.ir > 0.0
    ensures o.Some? ==> o.value.0.origin == rec.p && o.value.0.time == rIn.time
    ensures o.None? ==> m.Metal?
    ensures m.Metal? && LengthSquared(rIn.direction) == 0.0 ==> o.None?
    ensures o.Some? ==> o.value.1 == (if m.Dielectric? then One else m.albedo)
  {
    match m
    case Lambertian(albedo) => LambertianScatter(albedo, rIn, rec, draws.unitVector)
    case Metal(albedo, fuzz) => MetalScatter(albedo, fuzz, sqrt, rIn, rec, draws.unitVector)
    case Dielectric(ir) => DielectricScatter(ir, sqrt, rIn, rec, draws.uniform)
  }
}

=== FILE: numeric.dfy ===
/**
 Scalar helpers shared by the whole model: the square root (a parameter
 constrained by its defining law, since Dafny's reals have no built-in square
 root), vector length and normalisation, and the float-to-integer conversions
 the renderer relies on (`f64::round`, `as i32`/`as u8` truncation,
 `f64::clamp`).
 */
module Numeric {
  import opened Vectors

  /** `f64::sqrt` on non-negative arguments: the non-negative square root. */
  ghost predicate IsSqrt(sqrt: real -> real) {
    forall x :: 0.0 <= x ==> 0.0 <= sqrt(x) && sqrt(x) * sqrt(x) == x
  }

  lemma SquareNonNegative(x: real)
    ensures x * x >= 0.0
  {
    if x < 0.0 {
      assert x * x == (-x) * (-x);
    }
  }

  lemma MulStrictMono(a: real, b: real, c: real)
    requires 0.0 <= a < b && c > 0.0
    ensures a * c < b * c
  {
  }

  lemma MulMono(a: real, x: real, y: real)
    requires 0.0 <= a && x <= y
    ensures a * x <= a * y
  {
    assert a * y - a * x == a * (y - x);
  }

  lemma MulAntitone(a: real, x: real, y: real)
    requires a <= 0.0 && x <= y
    ensures a * y <= a * x
  {
    MulMono(-a, x, y);
    assert a * x - a * y == (-a) * y - (-a) * x;
  }

  lemma SquareStrictMono(a: real, b: real)
    requires 0.0 <= a < b
    ensures a * a < b * b
  {
    if a > 0.0 {
      MulStrictMono(a, b, b);
      MulStrictMono(a, b, a);
    } else {
      MulStrictMono(0.0, b, b);
      calc {
        a * a;
        0.0;
      < b * b;
      }
    }
  }

  /** The square root of a square of a non-negative number is that number. */
  lemma SqrtOfSquare(sqrt: real -> real, y: real)
    requires IsSqrt(sqrt)
    requires y >= 0.0
    ensures sqrt(y * y) == y
  {
    var s := sqrt(y * y);
    assert 0.0 <= s && s * s == y * y;
    if s < y {
      SquareStrictMono(s, y);
    } else if y < s {
      SquareStrictMono(y, s);
    }
  }

  lemma SqrtMono(sqrt: real -> real, a: real, b: real)
    requires IsSqrt(sqrt)
    requires 0.0 <= a <= b
    ensures sqrt(a) <= sqrt(b)
  {
    var sa, sb := sqrt(a), sqrt(b);
    assert sa * sa == a && sb * sb == b;
    if sb < sa {
      SquareStrictMono(sb, sa);
    }
  }

  lemma SqrtPositive(sqrt: real -> real, x: real)
    requires IsSqrt(sqrt)
    requires x > 0.0
    ensures sqrt(x) > 0.0
  {
    var s := sqrt(x);
    assert s * s == x;
  }

  function Length(sqrt: real -> real, v: Vec3): real {
    sqrt(LengthSquared(v))
  }

  /**
   `normalize`: the unit vector pointing the same way as `v`. The zero vector
   (for which glam produces NaN components) is excluded.
   */
  function Normalize(sqrt: real -> real, v: Vec3): (r: Vec3)
    requires IsSqrt(sqrt)
    requires LengthSquared(v) > 0.0
    ensures LengthSquared(r) == 1.0
    ensures Dot(r, v) > 0.0
    ensures Cross(r, v) == Zero
  {
    var len := Length(sqrt, v);
    SqrtPositive(sqrt, LengthSquared(v));
    var k := 1.0 / len;
    var r := Scale(k, v);
    LengthSquaredScale(k, v);
    assert k * len == 1.0;
    assert k * k * LengthSquared(v) == (k * len) * (k * len) by {
      assert len * len == LengthSquared(v);
    }
    assert Dot(r, v) == k * LengthSquared(v);
    assert k > 0.0;
    MulStrictMono(0.0, k, LengthSquared(v));
    assert Cross(r, v) == Scale(k, Cross(v, v));
    CrossSelf(v);
    r
  }

  /** `f64::round`: to the nearest integer, halves away from zero. */
  function Round(x: real): (n: int)
    ensures x - 0.5 <= n as real <= x + 0.5
  {
    if x >= 0.0 then (x + 0.5).Floor else -((-x + 0.5).Floor)
  }

  /** Float-to-integer `as` cast: truncation toward zero (saturation at the type's bounds is not modelled). */
  function Trunc(x: real): (n: int)
    ensures 0.0 <= x ==> n == x.Floor
    ensures x < 0.0 ==> n == -((-x).Floor)
  {
    if x >= 0.0 then x.Floor else -((-x).Floor)
  }

  /** `f64::clamp` */
  function Clamp(x: real, lo: real, hi: real): (c: real)
    requires lo <= hi
    ensures lo <= c <= hi
    ensures lo <= x <= hi ==> c == x
  {
    if x < lo then lo else if x > hi then hi else x
  }

  /** `f64::min` on ordinary numbers. */
  function MinReal(a: real, b: real): (m: real)
    ensures m <= a && m <= b && (m == a || m == b)
  {
    if a <= b then a else b
  }

  /** `f64::max` on ordinary numbers. */
  function MaxReal(a: real, b: real): (m: real)
    ensures a <= m && b <= m && (m == a || m == b)
  {
    if a <= b then b else a
  }

  function Abs(x: real): (a: real)
    ensures a >= 0.0 && (a == x || a == -x)
  {
    if x < 0.0 then -x else x
  }

  /** `powi` with a natural exponent. */
  function Pow(x: real, n: nat): real {
    if n == 0 then 1.0 else x * Pow(x, n - 1)
  }
}

=== FILE: onb.dfy ===
/**
 The orthonormal basis of `src/util/onb.rs`, built around a given direction
 `w`, with `local` mapping basis coordinates to world coordinates.
 */
module Onbs {
  import opened Vectors
  import opened Numeric

  /** The basis vectors `axis[0]`, `axis[1]`, `axis[2]`, read by `u()`, `v()`, `w()`. */
  datatype Onb = Onb(u: Vec3, v: Vec3, w: Vec3)

  /** Three unit vectors, pairwise orthogonal. */
  predicate Orthonormal(b: Onb) {
    LengthSquared(b.u) == 1.0 && LengthSquared(b.v) == 1.0 && LengthSquared(b.w) == 1.0 &&
    Dot(b.u, b.v) == 0.0 && Dot(b.v, b.w) == 0.0 && Dot(b.u, b.w) == 0.0
  }

  /** `|a x b|^2 = |a|^2 |b|^2 - (a . b)^2`. */
  lemma Lagrange(a: Vec3, b: Vec3)
    ensures LengthSquared(Cross(a, b)) == LengthSquared(a) * LengthSquared(b) - Dot(a, b) * Dot(a, b)
  {
    var c := Cross(a, b);
    assert c.x * c.x == a.y * a.y * b.z * b.z - 2.0 * (a.y * b.z) * (a.z * b.y) + a.z * a.z * b.y * b.y;
    assert c.y * c.y == a.z * a.z * b.x * b.x - 2.0 * (a.z * b.x) * (a.x * b.z) + a.x * a.x * b.z * b.z;
    assert c.z * c.z == a.x * a.x * b.y * b.y - 2.0 * (a.x * b.y) * (a.y * b.x) + a.y * a.y * b.x * b.x;
  }

  /** The helper axis `new_from_w` crosses with `w`: `Y` when `|w.x| > 0.9`, else `X`. */
  function Helper(w: Vec3): Vec3 {
    if Abs(w.x) > 0.9 then UnitY else UnitX
  }

  /** For a unit `w` the helper axis is never parallel to it: `w x a` is at least `0.19` long, squared. */
  lemma HelperNotParallel(w: Vec3)
    requires LengthSquared(w) == 1.0
    ensures LengthSquared(Cross(w, Helper(w))) >= 0.19
  {
    if Abs(w.x) > 0.9 {
      assert Cross(w, UnitY) == Vec3(-w.z, 0.0, w.x);
      SquareStrictMono(0.9, Abs(w.x));
      assert Abs(w.x) * Abs(w.x) == w.x * w.x;
      SquareNonNegative(w.z);
    } else {
      assert Cross(w, UnitX) == Vec3(0.0, w.z, -w.y);
      if Abs(w.x) < 0.9 {
        SquareStrictMono(Abs(w.x), 0.9);
      }
      assert Abs(w.x) * Abs(w.x) == w.x * w.x;
    }
  }

  /**
   `new_from_w`: `w` is `n` normalised, `v = normalize(w x a)` for the helper
   axis `a`, and `u = w x v`. The result is orthonormal, with `w` along `n`.
   The zero vector is excluded, since its normalisation is NaN.
   */
  function NewFromW(sqrt: real -> real, n: Vec3): (b: Onb)
    requires IsSqrt(sqrt)
    requires LengthSquared(n) > 0.0
    ensures Orthonormal(b)
    ensures Dot(b.w, n) > 0.0 && Cross(b.w, n) == Zero
    ensures Cross(b.w, b.v) == b.u
  {
    var w := Normalize(sqrt, n);
    HelperNotParallel(w);
    var c := Cross(w, Helper(w));
    var v := Normalize(sqrt, c);
    var u := Cross(w, v);
    UnitCrossOrthogonal(w, Helper(w), c, v);
    Lagrange(w, v);
    CrossOrthogonal(w, v);
    DotSymmetric(u, w);
    DotSymmetric(u, v);
    Onb(u, v, w)
  }

  /** A unit vector along `w x a` is orthogonal to `w`. */
  lemma UnitCrossOrthogonal(w: Vec3, a: Vec3, c: Vec3, v: Vec3)
    requires c == Cross(w, a)
    requires Cross(v, c) == Zero && Dot(v, c) > 0.0
    ensures Dot(w, v) == 0.0
  {
    CrossOrthogonal(w, a);
    // v is parallel to c: v = (v . c / c . c) c, and c . w = 0.
    SelfDotPositive(v, c);
    ParallelIsMultiple(v, c);
    DotScaleRight(w, Dot(v, c) / Dot(c, c), c);
  }

  lemma SelfDotPositive(v: Vec3, c: Vec3)
    requires Dot(v, c) != 0.0
    ensures Dot(c, c) > 0.0
  {
    SquareNonNegative(c.x);
    SquareNonNegative(c.y);
    SquareNonNegative(c.z);
    assert c.x != 0.0 || c.y != 0.0 || c.z != 0.0;
    if c.x != 0.0 {
      SquareStrictMono(0.0, Abs(c.x));
      assert Abs(c.x) * Abs(c.x) == c.x * c.x;
    } else if c.y != 0.0 {
      SquareStrictMono(0.0, Abs(c.y));
      assert Abs(c.y) * Abs(c.y) == c.y * c.y;
    } else {
      SquareStrictMono(0.0, Abs(c.z));
      assert Abs(c.z) * Abs(c.z) == c.z * c.z;
    }
  }

  /** A vector whose cross product with a non-zero `c` vanishes is a multiple of `c`. */
  lemma ParallelIsMultiple(v: Vec3, c: Vec3)
    requires Cross(v, c) == Zero && Dot(c, c) > 0.0
    ensures v == Scale(Dot(v, c) / Dot(c, c), c)
  {
    var k := Dot(v, c) / Dot(c, c);
    // From v x c = 0: v_i c_j = v_j c_i for all i, j.
    assert v.y * c.z == v.z * c.y && v.z * c.x == v.x * c.z && v.x * c.y == v.y * c.x;
    assert v.x * Dot(c, c) == Dot(v, c) * c.x;
    assert v.y * Dot(c, c) == Dot(v, c) * c.y;
    assert v.z * Dot(c, c) == Dot(v, c) * c.z;
  }

  /** `local`: the world vector with coordinates `a` in the basis, `a.x u + a.y v + a.z w`. */
  function Local(b: Onb, a: Vec3): Vec3 {
    Add(Add(Scale(a.x, b.u), Scale(a.y, b.v)), Scale(a.z, b.w))
  }

  /**
   In an orthonormal basis the coordinates are recovered by dot products with
   the basis vectors, so `local` loses nothing; in particular `local(0, 0, 1) = w`.
   */
  lemma LocalCoordinates(b: Onb, a: Vec3)
    requires Orthonormal(b)
    ensures Dot(Local(b, a), b.u) == a.x
    ensures Dot(Local(b, a), b.v) == a.y
    ensures Dot(Local(b, a), b.w) == a.z
    ensures Local(b, Vec3(0.0, 0.0, 1.0)) == b.w
  {
    assert Dot(b.u, b.u) == 1.0 && Dot(b.v, b.v) == 1.0 && Dot(b.w, b.w) == 1.0;
    DotSymmetric(b.u, b.v);
    DotSymmetric(b.v, b.w);
    DotSymmetric(b.u, b.w);
    LocalDot(b, a, b.u, 1.0, 0.0, 0.0);
    LocalDot(b, a, b.v, 0.0, 1.0, 0.0);
    LocalDot(b, a, b.w, 0.0, 0.0, 1.0);
    LocalUnitZ(b);
  }

  lemma LocalDot(b: Onb, a: Vec3, e: Vec3, du: real, dv: real, dw: real)
    requires Dot(b.u, e) == du && Dot(b.v, e) == dv && Dot(b.w, e) == dw
    ensures Dot(Local(b, a), e) == a.x * du + a.y * dv + a.z * dw
  {
  }

  lemma LocalUnitZ(b: Onb)
    ensures Local(b, Vec3(0.0, 0.0, 1.0)) == b.w
  {
    assert Local(b, Vec3(0.0, 0.0, 1.0)) == Add(Add(Scale(0.0, b.u), Scale(0.0, b.v)), Scale(1.0, b.w));
    LastOnly(b.u, b.v, b.w);
  }

  lemma LastOnly(u: Vec3, v: Vec3, w: Vec3)
    ensures Add(Add(Scale(0.0, u), Scale(0.0, v)), Scale(1.0, w)) == w
  {
    assert Scale(0.0, u) == Zero && Scale(0.0, v) == Zero;
    assert Scale(1.0, w) == w;
  }

  lemma AddSum(x1: real, y1: real, z1: real, x2: real, y2: real, z2: real, p: real, q: real, r: real)
    ensures (x1 + x2) * p + (y1 + y2) * q + (z1 + z2) * r == (x1 * p + y1 * q + z1 * r) + (x2 * p + y2 * q + z2 * r)
  {
  }

  /** `local` is linear in the coordinates. */
  lemma LocalLinear(b: Onb, a1: Vec3, a2: Vec3, s: real)
    ensures Local(b, Add(a1, a2)) == Add(Local(b, a1), Local(b, a2))
    ensures Local(b, Scale(s, a1)) == Scale(s, Local(b, a1))
  {
    LocalAdditive(b, a1, a2);
    LocalHomogeneous(b, a1, s);
  }

  lemma LocalAdditive(b: Onb, a1: Vec3, a2: Vec3)
    ensures Local(b, Add(a1, a2)) == Add(Local(b, a1), Local(b, a2))
  {
    var l, l1, l2 := Local(b, Add(a1, a2)), Local(b, a1), Local(b, a2);
    AddSum(a1.x, a1.y, a1.z, a2.x, a2.y, a2.z, b.u.x, b.v.x, b.w.x);
    AddSum(a1.x, a1.y, a1.z, a2.x, a2.y, a2.z, b.u.y, b.v.y, b.w.y);
    AddSum(a1.x, a1.y, a1.z, a2.x, a2.y, a2.z, b.u.z, b.v.z, b.w.z);
    assert l.x == l1.x + l2.x;
    assert l.y == l1.y + l2.y;
    assert l.z == l1.z + l2.z;
  }

  lemma LocalHomogeneous(b: Onb, a: Vec3, s: real)
    ensures Local(b, Scale(s, a)) == Scale(s, Local(b, a))
  {
    var su, sv, sw := Scale(a.x, b.u), Scale(a.y, b.v), Scale(a.z, b.w);
    ScaleScale(s, a.x, b.u);
    ScaleScale(s, a.y, b.v);
    ScaleScale(s, a.z, b.w);
    assert Local(b, Scale(s, a)) == Add(Add(Scale(s, su), Scale(s, sv)), Scale(s, sw));
    ScaleAdd(s, su, sv);
    ScaleAdd(s, Add(su, sv), sw);
  }

  lemma ScaleScale(s: real, k: real, u: Vec3)
    ensures Scale(s * k, u) == Scale(s, Scale(k, u))
  {
  }

  lemma ScaleAdd(s: real, x: Vec3, y: Vec3)
    ensures Scale(s, Add(x, y)) == Add(Scale(s, x), Scale(s, y))
  {
  }
}

=== FILE: option.dfy ===
/** The optional value returned by every intersection and scatter query. */
module Options {

  datatype Option<+T> = None | Some(value: T)
}

=== FILE: perlin.dfy ===
/**
 The gradient-noise generator of `src/util/perlin.rs`.

 A generator holds `POINT_COUNT` random unit gradients and three shuffled
 index tables, one per axis. `noise(p)` looks up the gradients at the eight
 lattice corners around `p` by hashing the corner coordinates through the
 tables, and blends their dot products with the offsets from each corner.
 The random draws of the shuffle and of the gradients are parameters.
 */
module PerlinNoise {
  import opened Vectors
  import opened Numeric
  import opened Sampling
  import opened Smoothing

  const PointCount: nat := 256

  datatype Perlin = Perlin(ranVec: seq<Vec3>, permX: seq<int>, permY: seq<int>, permZ: seq<int>)

  /** A table of `POINT_COUNT` entries, each itself an index into such a table. */
  predicate IndexTable(s: seq<int>) {
    |s| == PointCount && forall k :: 0 <= k < |s| ==> 0 <= s[k] < PointCount
  }

  /** Every table lookup `noise` performs is in bounds. */
  predicate Valid(per: Perlin) {
    |per.ranVec| == PointCount && IndexTable(per.permX) && IndexTable(per.permY) && IndexTable(per.permZ)
  }

  // ---------------------------------------------------------------------------
  // The permutation tables
  // ---------------------------------------------------------------------------

  function Identity(n: nat): (s: seq<int>)
    ensures |s| == n && forall k :: 0 <= k < n ==> s[k] == k
  {
    seq(n, k => k)
  }

  /** A rearrangement of `0, 1, ..., POINT_COUNT - 1`. */
  predicate IsPermutation(s: seq<int>) {
    multiset(s) == multiset(Identity(PointCount))
  }

  /** `p.swap(i, j)` */
  function Swap(s: seq<int>, i: nat, j: nat): (r: seq<int>)
    requires i < |s| && j < |s|
    ensures |r| == |s| && r[i] == s[j] && r[j] == s[i]
    ensures forall k :: 0 <= k < |s| && k != i && k != j ==> r[k] == s[k]
    ensures multiset(r) == multiset(s)
  {
    s[i := s[j]][j := s[i]]
  }

  /**
   The draws of one shuffle: the `n`-th swap (at position `POINT_COUNT - 1 - n`)
   consumes a draw in `[0, POINT_COUNT - 1 - n)`, as `random_int_in_range(0, i)`
   does for `i` counting down from `POINT_COUNT - 1` to `1`.
   */
  predicate ValidDraws(draws: seq<real>) {
    |draws| == PointCount - 1 &&
    forall n :: 0 <= n < |draws| ==> 0.0 <= draws[n] < (PointCount - 1 - n) as real
  }

  /** The swap partner of the `n`-th swap, which is never beyond the position being swapped. */
  function Partner(draws: seq<real>, n: nat): (j: nat)
    requires ValidDraws(draws) && n < |draws|
    ensures j <= PointCount - 1 - n
  {
    RandomIntInRange(0, PointCount - 1 - n, draws[n])
  }

  /** The table after the first `n` swaps of the shuffle, starting from the identity. */
  function Shuffled(draws: seq<real>, n: nat): (s: seq<int>)
    requires ValidDraws(draws) && n <= |draws|
    ensures |s| == PointCount
  {
    if n == 0 then Identity(PointCount)
    else Swap(Shuffled(draws, n - 1), PointCount - n, Partner(draws, n - 1))
  }

  /** Every prefix of the shuffle is a permutation, since each step only swaps two entries. */
  lemma {:induction false} ShuffledPermutation(draws: seq<real>, n: nat)
    requires ValidDraws(draws) && n <= |draws|
    ensures IsPermutation(Shuffled(draws, n))
  {
    if n > 0 {
      ShuffledPermutation(draws, n - 1);
    }
  }

  /** A permutation holds exactly the values `0 .. POINT_COUNT - 1`. */
  lemma PermutationValues(s: seq<int>)
    requires IsPermutation(s)
    ensures forall k :: 0 <= k < |s| ==> 0 <= s[k] < PointCount
    ensures forall v :: 0 <= v < PointCount ==> v in s
  {
    var id := Identity(PointCount);
    forall k | 0 <= k < |s|
      ensures 0 <= s[k] < PointCount
    {
      assert s[k] in multiset(s);
      assert s[k] in multiset(id);
      assert s[k] in id;
    }
    forall v | 0 <= v < PointCount
      ensures v in s
    {
      assert id[v] == v;
      assert v in multiset(id);
      assert v in multiset(s);
    }
  }

  /**
   `generate_perm`: fill the table with the identity, then for `i` from
   `POINT_COUNT - 1` down to `1` swap entry `i` with a drawn partner in
   `[0, i]`. The result is the shuffle defined above, hence a permutation of
   `0 .. POINT_COUNT - 1`, and every entry is a valid index.
   */
  method GeneratePerm(draws: seq<real>) returns (perm: seq<int>)
    requires ValidDraws(draws)
    ensures perm == Shuffled(draws, PointCount - 1)
    ensures IsPermutation(perm) && IndexTable(perm)
    ensures forall v :: 0 <= v < PointCount ==> v in perm
  {
    var p := new int[PointCount];
    var i := 0;
    while i < PointCount
      invariant 0 <= i <= PointCount
      invariant forall k :: 0 <= k < i ==> p[k] == k
    {
      p[i] := i;
      i := i + 1;
    }
    assert p[..] == Identity(PointCount);
    i := PointCount - 1;
    while i > 0
      invariant 0 <= i < PointCount
      invariant p[..] == Shuffled(draws, PointCount - 1 - i)
    {
      var j := RandomIntInRange(0, i, draws[PointCount - 1 - i]);
      ghost var before := p[..];
      p[i], p[j] := p[j], p[i];
      assert p[..] == Swap(before, i, j);
      i := i - 1;
    }
    perm := p[..];
    ShuffledPermutation(draws, PointCount - 1);
    PermutationValues(perm);
  }

  /**
   `Perlin::new`: the gradients are the given unit-vector draws and each axis
   gets its own shuffled table.
   */
  method New(ranVec: seq<Vec3>, drawsX: seq<real>, drawsY: seq<real>, drawsZ: seq<real>) returns (per: Perlin)
    requires |ranVec| == PointCount
    requires ValidDraws(drawsX) && ValidDraws(drawsY) && ValidDraws(drawsZ)
    ensures Valid(per) && per.ranVec == ranVec
    ensures IsPermutation(per.permX) && IsPermutation(per.permY) && IsPermutation(per.permZ)
  {
    var px := GeneratePerm(drawsX);
    var py := GeneratePerm(drawsY);
    var pz := GeneratePerm(drawsZ);
    per := Perlin(ranVec, px, py, pz);
  }

  // ---------------------------------------------------------------------------
  // Lattice hashing
  // ---------------------------------------------------------------------------

  /**
   `((i + di) & 255) as usize`: on two's-complement integers the mask keeps
   the low eight bits, which is the non-negative remainder modulo 256.
   */
  function Lattice(i: int, di: int): (idx: nat)
    ensures idx < PointCount
    ensures 0 <= i + di < PointCount ==> idx == i + di
  {
    (i + di) % PointCount
  }

  /** The hash repeats every `POINT_COUNT` lattice cells. */
  lemma LatticePeriodic(i: int, di: int, m: int)
    ensures Lattice(i + m * PointCount, di) == Lattice(i, di)
  {
    var q := (i + di) / PointCount;
    assert i + m * PointCount + di == (q + m) * PointCount + Lattice(i, di);
  }

  /** The XOR of three table entries, itself an index into the gradient table. */
  function Xor3(a: int, b: int, c: int): (r: int)
    requires 0 <= a < PointCount && 0 <= b < PointCount && 0 <= c < PointCount
    ensures 0 <= r < PointCount
  {
    ((a as bv8) ^ (b as bv8) ^ (c as bv8)) as int
  }

  /** The position inside a lattice cell, `x - floor(x)`. */
  function Frac(x: real): (f: real)
    ensures 0.0 <= f < 1.0
    ensures (x - f).Floor as real == x - f
  {
    x - x.Floor as real
  }

  /** Moving by a whole number of cells keeps the position inside the cell. */
  lemma FracPeriodic(x: real, m: int)
    ensures Frac(x + m as real) == Frac(x)
    ensures (x + m as real).Floor == x.Floor + m
  {
  }

  /** The gradient at corner `(di, dj, dk)` of the cell whose low corner is `(i, j, k)`. */
  function Corner(per: Perlin, i: int, j: int, k: int, di: int, dj: int, dk: int): Vec3
    requires Valid(per)
  {
    per.ranVec[Xor3(per.permX[Lattice(i, di)], per.permY[Lattice(j, dj)], per.permZ[Lattice(k, dk)])]
  }

  // ---------------------------------------------------------------------------
  // Interpolation
  // ---------------------------------------------------------------------------

  /** The sum over the eight corners of the unit cube, in the loops' order. */
  function CubeSum(f: (int, int, int) -> real): real {
    f(0, 0, 0) + f(0, 0, 1) + f(0, 1, 0) + f(0, 1, 1) + f(1, 0, 0) + f(1, 0, 1) + f(1, 1, 0) + f(1, 1, 1)
  }

  /** The weight of corner coordinate `i` at position `x`: `x` for the high corner, `1 - x` for the low one. */
  function Weight(i: int, x: real): real {
    i as real * x + (1.0 - i as real) * (1.0 - x)
  }

  /** The contribution `x` of corner `(i, j, k)`, weighted for the position `(u, v, w)`. */
  function Weighted(i: int, j: int, k: int, u: real, v: real, w: real, x: real): real {
    Weight(i, u) * Weight(j, v) * Weight(k, w) * x
  }

  /** `trilinear_interp` */
  function Trilinear(c: (int, int, int) -> real, u: real, v: real, w: real): real {
    CubeSum((i, j, k) => Weighted(i, j, k, u, v, w, c(i, j, k)))
  }

  /** `(a0 + a1)(b0 + b1)(c0 + c1) z` expanded in the order `CubeSum` adds. */
  lemma Expand(a0: real, a1: real, b0: real, b1: real, c0: real, c1: real, z: real)
    ensures a0 * b0 * c0 * z + a0 * b0 * c1 * z + a0 * b1 * c0 * z + a0 * b1 * c1 * z +
            a1 * b0 * c0 * z + a1 * b0 * c1 * z + a1 * b1 * c0 * z + a1 * b1 * c1 * z
         == (a0 + a1) * (b0 + b1) * (c0 + c1) * z
  {
  }

  /** The same value at every corner. */
  function Constant(z: real): (int, int, int) -> real {
    (i, j, k) => z
  }

  lemma TrilinearExpanded(c: (int, int, int) -> real, u: real, v: real, w: real)
    ensures Trilinear(c, u, v, w) ==
      Weighted(0, 0, 0, u, v, w, c(0, 0, 0)) + Weighted(0, 0, 1, u, v, w, c(0, 0, 1)) +
      Weighted(0, 1, 0, u, v, w, c(0, 1, 0)) + Weighted(0, 1, 1, u, v, w, c(0, 1, 1)) +
      Weighted(1, 0, 0, u, v, w, c(1, 0, 0)) + Weighted(1, 0, 1, u, v, w, c(1, 0, 1)) +
      Weighted(1, 1, 0, u, v, w, c(1, 1, 0)) + Weighted(1, 1, 1, u, v, w, c(1, 1, 1))
  {
  }

  lemma UnitProduct(a: real, b: real, c: real, z: real)
    requires a == 1.0 && b == 1.0 && c == 1.0
    ensures a * b * c * z == z
  {
  }

  /** The weights sum to one, so interpolating a constant gives the constant back. */
  lemma TrilinearConstant(z: real, u: real, v: real, w: real)
    ensures Trilinear(Constant(z), u, v, w) == z
  {
    var a0, a1, b0, b1, c0, c1 := Weight(0, u), Weight(1, u), Weight(0, v), Weight(1, v), Weight(0, w), Weight(1, w);
    TrilinearExpanded(Constant(z), u, v, w);
    assert Weighted(0, 0, 0, u, v, w, z) == a0 * b0 * c0 * z;
    assert Weighted(0, 0, 1, u, v, w, z) == a0 * b0 * c1 * z;
    assert Weighted(0, 1, 0, u, v, w, z) == a0 * b1 * c0 * z;
    assert Weighted(0, 1, 1, u, v, w, z) == a0 * b1 * c1 * z;
    assert Weighted(1, 0, 0, u, v, w, z) == a1 * b0 * c0 * z;
    assert Weighted(1, 0, 1, u, v, w, z) == a1 * b0 * c1 * z;
    assert Weighted(1, 1, 0, u, v, w, z) == a1 * b1 * c0 * z;
    assert Weighted(1, 1, 1, u, v, w, z) == a1 * b1 * c1 * z;
    Expand(a0, a1, b0, b1, c0, c1, z);
    UnitProduct(a0 + a1, b0 + b1, c0 + c1, z);
  }

  /** At a corner of the cell, exactly that corner has weight one and the others weight zero. */
  lemma WeightAtCorner(i: int, a: int)
    requires i == 0 || i == 1
    requires a == 0 || a == 1
    ensures Weight(i, a as real) == if i == a then 1.0 else 0.0
  {
  }

  /** Interpolation reproduces the corner values at the corners; at `(0, 0, 0)` it is `c[0][0][0]`. */
  lemma TrilinearCorners(c: (int, int, int) -> real, a: int, b: int, d: int)
    requires a == 0 || a == 1
    requires b == 0 || b == 1
    requires d == 0 || d == 1
    ensures Trilinear(c, a as real, b as real, d as real) == c(a, b, d)
  {
    var x, y, z := a as real, b as real, d as real;
    WeightedCorner(0, 0, 0, a, b, d, c(0, 0, 0));
    WeightedCorner(0, 0, 1, a, b, d, c(0, 0, 1));
    WeightedCorner(0, 1, 0, a, b, d, c(0, 1, 0));
    WeightedCorner(0, 1, 1, a, b, d, c(0, 1, 1));
    WeightedCorner(1, 0, 0, a, b, d, c(1, 0, 0));
    WeightedCorner(1, 0, 1, a, b, d, c(1, 0, 1));
    WeightedCorner(1, 1, 0, a, b, d, c(1, 1, 0));
    WeightedCorner(1, 1, 1, a, b, d, c(1, 1, 1));
  }

  lemma WeightedCorner(i: int, j: int, k: int, a: int, b: int, d: int, x: real)
    requires i == 0 || i == 1
    requires j == 0 || j == 1
    requires k == 0 || k == 1
    requires a == 0 || a == 1
    requires b == 0 || b == 1
    requires d == 0 || d == 1
    ensures Weighted(i, j, k, a as real, b as real, d as real, x) == if i == a && j == b && k == d then x else 0.0
  {
    WeightAtCorner(i, a);
    WeightAtCorner(j, b);
    WeightAtCorner(k, d);
  }

  /** The offset of the point `(u, v, w)` from corner `(i, j, k)`. */
  function Offset(i: int, j: int, k: int, u: real, v: real, w: real): Vec3 {
    Vec3(u - i as real, v - j as real, w - k as real)
  }

  /**
   `perlin_interp`: each corner contributes the dot product of its gradient
   with the offset from that corner, weighted by the smoothed position.
   */
  function PerlinInterp(c: (int, int, int) -> Vec3, u: real, v: real, w: real): real {
    var uu, vv, ww := Hermite(u), Hermite(v), Hermite(w);
    CubeSum((i, j, k) => Weighted(i, j, k, uu, vv, ww, Dot(c(i, j, k), Offset(i, j, k, u, v, w))))
  }

  /** The dot product of each corner's gradient with the offset of `(u, v, w)` from that corner. */
  function CornerDots(c: (int, int, int) -> Vec3, u: real, v: real, w: real): (int, int, int) -> real {
    (i, j, k) => Dot(c(i, j, k), Offset(i, j, k, u, v, w))
  }

  /**
   `perlin_interp` is trilinear interpolation of the corner gradients' dot
   products, evaluated at the smoothed position.
   */
  lemma PerlinIsSmoothedTrilinear(c: (int, int, int) -> Vec3, u: real, v: real, w: real)
    ensures PerlinInterp(c, u, v, w) == Trilinear(CornerDots(c, u, v, w), Hermite(u), Hermite(v), Hermite(w))
  {
    var uu, vv, ww := Hermite(u), Hermite(v), Hermite(w);
    var g := CornerDots(c, u, v, w);
    var f1 := (i, j, k) => Weighted(i, j, k, uu, vv, ww, Dot(c(i, j, k), Offset(i, j, k, u, v, w)));
    var f2 := (i, j, k) => Weighted(i, j, k, uu, vv, ww, g(i, j, k));
    assert PerlinInterp(c, u, v, w) == CubeSum(f1);
    assert Trilinear(g, uu, vv, ww) == CubeSum(f2);
    forall i, j, k
      ensures f1(i, j, k) == f2(i, j, k)
    {
    }
    CubeSumExtensional(f1, f2);
  }

  /** Sums of pointwise equal terms are equal. */
  lemma CubeSumExtensional(f1: (int, int, int) -> real, f2: (int, int, int) -> real)
    requires forall i, j, k :: f1(i, j, k) == f2(i, j, k)
    ensures CubeSum(f1) == CubeSum(f2)
  {
  }

  /** At a corner of the cell the offset from that corner vanishes, so the noise is zero there. */
  lemma PerlinInterpCorners(c: (int, int, int) -> Vec3, a: int, b: int, d: int)
    requires a == 0 || a == 1
    requires b == 0 || b == 1
    requires d == 0 || d == 1
    ensures PerlinInterp(c, a as real, b as real, d as real) == 0.0
  {
    var x, y, z := a as real, b as real, d as real;
    var g := CornerDots(c, x, y, z);
    PerlinIsSmoothedTrilinear(c, x, y, z);
    assert Hermite(x) == x && Hermite(y) == y && Hermite(z) == z;
    TrilinearCorners(g, a, b, d);
    assert Offset(a, b, d, x, y, z) == Zero;
    assert g(a, b, d) == Dot(c(a, b, d), Zero);
    assert PerlinInterp(c, x, y, z) == g(a, b, d);
  }

  /** Interpolation only looks at the corner gradients, not at how they were produced. */
  lemma PerlinInterpExtensional(c1: (int, int, int) -> Vec3, c2: (int, int, int) -> Vec3, u: real, v: real, w: real)
    requires forall i, j, k :: c1(i, j, k) == c2(i, j, k)
    ensures PerlinInterp(c1, u, v, w) == PerlinInterp(c2, u, v, w)
  {
    var uu, vv, ww := Hermite(u), Hermite(v), Hermite(w);
    var f1 := (i, j, k) => Weighted(i, j, k, uu, vv, ww, Dot(c1(i, j, k), Offset(i, j, k, u, v, w)));
    var f2 := (i, j, k) => Weighted(i, j, k, uu, vv, ww, Dot(c2(i, j, k), Offset(i, j, k, u, v, w)));
    assert PerlinInterp(c1, u, v, w) == CubeSum(f1);
    assert PerlinInterp(c2, u, v, w) == CubeSum(f2);
    forall i, j, k
      ensures f1(i, j, k) == f2(i, j, k)
    {
      assert c1(i, j, k) == c2(i, j, k);
    }
    CubeSumExtensional(f1, f2);
  }

  // ---------------------------------------------------------------------------
  // Noise and turbulence
  // ---------------------------------------------------------------------------

  /** The corner gradients of the cell containing `p`. */
  function Corners(per: Perlin, p: Vec3): (int, int, int) -> Vec3
    requires Valid(per)
  {
    var i, j, k := p.x.Floor, p.y.Floor, p.z.Floor;
    (di, dj, dk) => Corner(per, i, j, k, di, dj, dk)
  }

  /**
   `noise`: the interpolated gradient noise at `p`. At lattice points (all
   coordinates whole numbers) the noise is zero.
   */
  function Noise(per: Perlin, p: Vec3): real
    requires Valid(per)
  {
    PerlinInterp(Corners(per, p), Frac(p.x), Frac(p.y), Frac(p.z))
  }

  /** At lattice points, where every coordinate is a whole number, the noise is zero. */
  lemma NoiseAtLattice(per: Perlin, p: Vec3)
    requires Valid(per)
    requires p.x.Floor as real == p.x && p.y.Floor as real == p.y && p.z.Floor as real == p.z
    ensures Noise(per, p) == 0.0
  {
    assert Frac(p.x) == 0.0 && Frac(p.y) == 0.0 && Frac(p.z) == 0.0;
    PerlinInterpCorners(Corners(per, p), 0, 0, 0);
  }

  /** The noise repeats every `POINT_COUNT` units along each axis. */
  lemma NoisePeriodic(per: Perlin, p: Vec3, a: int, b: int, d: int)
    requires Valid(per)
    ensures Noise(per, Add(p, Vec3((a * PointCount) as real, (b * PointCount) as real, (d * PointCount) as real))) == Noise(per, p)
  {
    var q := Add(p, Vec3((a * PointCount) as real, (b * PointCount) as real, (d * PointCount) as real));
    FracPeriodic(p.x, a * PointCount);
    FracPeriodic(p.y, b * PointCount);
    FracPeriodic(p.z, d * PointCount);
    forall di, dj, dk
      ensures Corners(per, q)(di, dj, dk) == Corners(per, p)(di, dj, dk)
    {
      LatticePeriodic(p.x.Floor, di, a);
      LatticePeriodic(p.y.Floor, dj, b);
      LatticePeriodic(p.z.Floor, dk, d);
    }
    PerlinInterpExtensional(Corners(per, q), Corners(per, p), Frac(q.x), Frac(q.y), Frac(q.z));
  }

  /**
   The sum of the first `depth` octaves of a noise function: octave `k` has
   weight `2^-k` and samples at `2^k p`. For a generator `per` the noise
   function is `Noise(per, _)`.
   */
  function Octaves(noise: Vec3 -> real, p: Vec3, depth: nat): real {
    if depth == 0 then 0.0 else Octaves(noise, p, depth - 1) + Octave(noise, p, depth - 1)
  }

  /** Octave `k`: the noise at `2^k p`, weighted by `2^-k`. */
  function Octave(noise: Vec3 -> real, p: Vec3, k: nat): real {
    Pow(0.5, k) * noise(Scale(Pow(2.0, k), p))
  }

  /**
   `_terb`: accumulate `depth` octaves, halving the weight and doubling the
   point each time, and return the magnitude of the sum, which is never
   negative. `terb` is this with seven octaves.
   */
  method Terb(noise: Vec3 -> real, p: Vec3, depth: nat) returns (r: real)
    ensures r == Abs(Octaves(noise, p, depth))
    ensures r >= 0.0
  {
    var acc := 0.0;
    var tempP := p;
    var weight := 1.0;
    var n := 0;
    while n < depth
      invariant 0 <= n <= depth
      invariant acc == Octaves(noise, p, n)
      invariant weight == Pow(0.5, n)
      invariant tempP == Scale(Pow(2.0, n), p)
    {
      OctaveStep(noise, p, n, acc, weight, tempP);
      acc := acc + weight * noise(tempP);
      weight := weight * 0.5;
      tempP := Scale(2.0, tempP);
      n := n + 1;
    }
    r := Abs(acc);
  }

  /** One turn of the loop adds octave `n` and moves the weight and the point on to octave `n + 1`. */
  lemma OctaveStep(noise: Vec3 -> real, p: Vec3, n: nat, acc: real, weight: real, tempP: Vec3)
    requires acc == Octaves(noise, p, n) && weight == Pow(0.5, n) && tempP == Scale(Pow(2.0, n), p)
    ensures acc + weight * noise(tempP) == Octaves(noise, p, n + 1)
    ensures weight * 0.5 == Pow(0.5, n + 1)
    ensures Scale(2.0, tempP) == Scale(Pow(2.0, n + 1), p)
  {
    assert Octaves(noise, p, n + 1) == Octaves(noise, p, n) + Octave(noise, p, n);
    HalfPow(n);
    DoubleScale(Pow(2.0, n), p);
    DoublePow(n);
  }

  lemma HalfPow(n: nat)
    ensures Pow(0.5, n) * 0.5 == Pow(0.5, n + 1)
  {
  }

  lemma DoublePow(n: nat)
    ensures 2.0 * Pow(2.0, n) == Pow(2.0, n + 1)
  {
  }

  lemma DoubleScale(k: real, p: Vec3)
    ensures Scale(2.0, Scale(k, p)) == Scale(2.0 * k, p)
  {
  }
}

=== FILE: quad.dfy ===
/**
 The planar quadrilateral of `src/hittable/quad.rs`: the parallelogram
 `q + a u + b v` with `a, b` in `[0, 1]`.
 */
module Quads {
  import opened ExtReal
  import opened Vectors
  import opened Numeric
  import opened Intervals
  import opened Rays
  import opened Options
  import opened HitRecords
  import opened Aabb
  import opened Hittables

  datatype Quad<M> = Quad(
    q: Vec3,        // corner
    u: Vec3,        // first edge
    v: Vec3,        // second edge
    mat: M,
    bbox: AABB,
    normal: Vec3,   // unit normal of the plane
    d: real,        // plane offset: normal . x == d
    w: Vec3)        // n / (n . n), for the plane coordinates

  /** The box of `update_bounding_box` before padding: the diagonal from `q` to `q + u + v`. */
  function DiagonalBoxAsWritten(q: Vec3, u: Vec3, v: Vec3): AABB {
    FromPoints(q, Add(Add(q, u), v))
  }

  /**
   The box through all four corners, axis by axis the smallest interval
   holding both diagonals `q .. q + u + v` and `q + u .. q + v`.
   */
  function CornerBox(q: Vec3, u: Vec3, v: Vec3): AABB {
    AABB(CornerSpan(q.x, u.x, v.x), CornerSpan(q.y, u.y, v.y), CornerSpan(q.z, u.z, v.z))
  }

  /** One axis of the corner box, from the corner's coordinate and the two edges'. */
  function CornerSpan(c: real, p: real, s: real): Interval {
    FromIntervals(Span(c, c + p + s), Span(c + p, c + s))
  }

  /**
   The plane data `Quad::new` computes, with a given box: the unit normal of
   `n = u x v`, the plane offset `d = normal . q`, and `w = n / (n . n)`.
   A degenerate quad (`u x v = 0`) is excluded: glam normalises it to NaN.
   */
  function Assemble<M>(sqrt: real -> real, q: Vec3, u: Vec3, v: Vec3, mat: M, bbox: AABB): (s: Quad<M>)
    requires IsSqrt(sqrt)
    requires LengthSquared(Cross(u, v)) > 0.0
    ensures s.q == q && s.u == u && s.v == v && s.mat == mat && s.bbox == bbox
    ensures LengthSquared(s.normal) == 1.0
    ensures Cross(s.normal, Cross(u, v)) == Zero && Dot(s.normal, Cross(u, v)) > 0.0
    ensures Dot(s.normal, u) == 0.0 && Dot(s.normal, v) == 0.0
    ensures Dot(s.normal, q) == s.d
    ensures Dot(s.w, Cross(u, v)) == 1.0
  {
    var n := Cross(u, v);
    var normal := Normalize(sqrt, n);
    ScaledOrthogonal(n, 1.0 / Length(sqrt, n), u, v);
    var w := Scale(1.0 / Dot(n, n), n);
    DotSymmetric(n, n);
    DotScaleRight(n, 1.0 / Dot(n, n), n);
    DotSymmetric(w, n);
    Quad(q, u, v, mat, bbox, normal, Dot(normal, q), w)
  }

  /**
   `Quad::new` followed by `update_bounding_box` as written: the plane data,
   and the padded box of the diagonal `q .. q + u + v` only. The padding
   `pad` is a parameter.
   */
  function New<M>(sqrt: real -> real, pad: AABB -> AABB, q: Vec3, u: Vec3, v: Vec3, mat: M): (s: Quad<M>)
    requires IsSqrt(sqrt)
    requires LengthSquared(Cross(u, v)) > 0.0
    ensures s.q == q && s.u == u && s.v == v && s.mat == mat
    ensures LengthSquared(s.normal) == 1.0
    ensures Cross(s.normal, Cross(u, v)) == Zero && Dot(s.normal, Cross(u, v)) > 0.0
    ensures Dot(s.normal, u) == 0.0 && Dot(s.normal, v) == 0.0
    ensures Dot(s.normal, q) == s.d
    ensures Dot(s.w, Cross(u, v)) == 1.0
    ensures s.bbox == pad(DiagonalBoxAsWritten(q, u, v))
  {
    Assemble(sqrt, q, u, v, mat, pad(DiagonalBoxAsWritten(q, u, v)))
  }

  /**
   `Quad::new` with the box the bounding-box update evidently intends: the
   padded box through all four corners, which holds every point of the quad
   (`PlanePointInCornerBox`).
   */
  function NewCorrected<M>(sqrt: real -> real, pad: AABB -> AABB, q: Vec3, u: Vec3, v: Vec3, mat: M): (s: Quad<M>)
    requires IsSqrt(sqrt)
    requires LengthSquared(Cross(u, v)) > 0.0
    ensures s.q == q && s.u == u && s.v == v && s.mat == mat
    ensures LengthSquared(s.normal) == 1.0
    ensures Cross(s.normal, Cross(u, v)) == Zero && Dot(s.normal, Cross(u, v)) > 0.0
    ensures Dot(s.normal, u) == 0.0 && Dot(s.normal, v) == 0.0
    ensures Dot(s.normal, q) == s.d
    ensures Dot(s.w, Cross(u, v)) == 1.0
    ensures s.bbox == pad(CornerBox(q, u, v))
    ensures s.normal == New(sqrt, pad, q, u, v, mat).normal && s.d == New(sqrt, pad, q, u, v, mat).d
    ensures s.w == New(sqrt, pad, q, u, v, mat).w
  {
    Assemble(sqrt, q, u, v, mat, pad(CornerBox(q, u, v)))
  }

  /** A multiple of `u x v` is orthogonal to `u` and `v`. */
  lemma ScaledOrthogonal(n: Vec3, k: real, u: Vec3, v: Vec3)
    requires n == Cross(u, v)
    ensures Dot(Scale(k, n), u) == 0.0 && Dot(Scale(k, n), v) == 0.0
  {
    CrossOrthogonal(u, v);
    DotSymmetric(Scale(k, n), u);
    DotSymmetric(Scale(k, n), v);
    DotScaleRight(u, k, n);
    DotScaleRight(v, k, n);
  }

  /** `is_interior`: both plane coordinates in `[0, 1]`, bounds included. */
  predicate IsInterior(a: real, b: real) {
    0.0 <= a <= 1.0 && 0.0 <= b <= 1.0
  }

  /** The plane coordinate along `u` of a point, as `hit` computes it. */
  function Alpha<M>(s: Quad<M>, p: Vec3): real {
    Dot(s.w, Cross(Sub(p, s.q), s.v))
  }

  /** The plane coordinate along `v` of a point, as `hit` computes it. */
  function Beta<M>(s: Quad<M>, p: Vec3): real {
    Dot(s.w, Cross(s.u, Sub(p, s.q)))
  }

  /** The point with plane coordinates `(a, b)`. */
  function PlanePoint<M>(s: Quad<M>, a: real, b: real): Vec3 {
    Add(s.q, Add(Scale(a, s.u), Scale(b, s.v)))
  }

  lemma DotScaleLinear(w: Vec3, k: real, n: Vec3)
    requires Dot(w, n) == 1.0
    ensures Dot(w, Scale(k, n)) == k
  {
    DotScaleRight(w, k, n);
  }

  /**
   The plane coordinates invert `PlanePoint`: the point `q + a u + b v` has
   `alpha = a` and `beta = b` (so the centre has `(1/2, 1/2)`), and it lies
   on the quad's plane.
   */
  lemma PlaneCoordinates<M>(s: Quad<M>, a: real, b: real)
    requires Dot(s.w, Cross(s.u, s.v)) == 1.0
    requires Dot(s.normal, s.u) == 0.0 && Dot(s.normal, s.v) == 0.0 && Dot(s.normal, s.q) == s.d
    ensures Alpha(s, PlanePoint(s, a, b)) == a
    ensures Beta(s, PlanePoint(s, a, b)) == b
    ensures Dot(s.normal, PlanePoint(s, a, b)) == s.d
  {
    var u, v := s.u, s.v;
    var e := Add(Scale(a, u), Scale(b, v));
    assert Sub(PlanePoint(s, a, b), s.q) == e;
    CrossLinearLeft(u, v, a, b, v);
    CrossSelf(v);
    assert Cross(e, v) == Scale(a, Cross(u, v));
    DotScaleLinear(s.w, a, Cross(u, v));
    CrossLinearRight(u, u, v, a, b);
    CrossSelf(u);
    assert Cross(u, e) == Scale(b, Cross(u, v));
    DotScaleLinear(s.w, b, Cross(u, v));
    DotAddRight(s.normal, Scale(a, u), Scale(b, v));
    DotScaleRight(s.normal, a, u);
    DotScaleRight(s.normal, b, v);
    DotAddRight(s.normal, s.q, e);
  }

  // ---------------------------------------------------------------------------
  // Ray intersection
  // ---------------------------------------------------------------------------

  /** Rays closer than this to parallel with the plane never hit it. */
  const ParallelEpsilon: real := 0.00000001

  /**
   `hit`: no hit for a ray (nearly) parallel to the plane; otherwise the
   plane is crossed at `t = (d - normal . origin) / denom`, which must lie in
   the window, and the crossing point must have both plane coordinates in
   `[0, 1]`. The record carries the plane coordinates as `(u, v)` and the
   plane's normal as the outward normal.
   */
  function Hit<M>(s: Quad<M>, r: Ray, rayT: Interval): (o: Option<HitRecord<M>>)
    ensures Abs(Dot(s.normal, r.direction)) < ParallelEpsilon ==> o.None?
    ensures o.Some? ==> Contains(rayT, o.value.t) && o.value.p == At(r, o.value.t)
    ensures o.Some? ==> Dot(s.normal, o.value.p) == s.d
    ensures o.Some? ==> IsInterior(o.value.u, o.value.v)
    ensures o.Some? ==> o.value.u == Alpha(s, o.value.p) && o.value.v == Beta(s, o.value.p)
    ensures o.Some? ==> o.value.material == s.mat
  {
    var denom := Dot(s.normal, r.direction);
    if Abs(denom) < ParallelEpsilon then None
    else
      var t := (s.d - Dot(s.normal, r.origin)) / denom;
      if !Contains(rayT, t) then None
      else
        var p := At(r, t);
        PlaneCrossing(s.normal, r, s.d, t);
        var alpha := Alpha(s, p);
        var beta := Beta(s, p);
        if !IsInterior(alpha, beta) then None
        else Some(HitRecords.New(r, t, p, alpha, beta, s.mat, s.normal))
  }

  /** The point at `t = (d - n . origin) / (n . direction)` lies on the plane `n . x = d`. */
  lemma PlaneCrossing(n: Vec3, r: Ray, d: real, t: real)
    requires Dot(n, r.direction) != 0.0
    requires t == (d - Dot(n, r.origin)) / Dot(n, r.direction)
    ensures Dot(n, At(r, t)) == d
  {
    DotAddRight(n, r.origin, Scale(t, r.direction));
    DotScaleRight(n, t, r.direction);
  }

  /**
   The converse of `Hit`'s contract: a ray that is not (nearly) parallel to
   the plane, crossing it inside the window at a point with both plane
   coordinates in `[0, 1]`, is reported, at that crossing.
   */
  lemma HitFindsCrossing<M>(s: Quad<M>, r: Ray, rayT: Interval, t: real)
    requires !(Abs(Dot(s.normal, r.direction)) < ParallelEpsilon)
    requires t == (s.d - Dot(s.normal, r.origin)) / Dot(s.normal, r.direction)
    requires Contains(rayT, t) && IsInterior(Alpha(s, At(r, t)), Beta(s, At(r, t)))
    ensures Hit(s, r, rayT).Some?
    ensures Hit(s, r, rayT).value.t == t && Hit(s, r, rayT).value.p == At(r, t)
  {
  }

  /**
   A quad's hit does not depend on the window beyond containing it: pulling
   the upper end in, but not below the hit, reports the same hit.
   */
  lemma HitMonotone<M>(s: Quad<M>, r: Ray, lo: EReal, hi: EReal, m: EReal)
    requires Hit(s, r, Interval(lo, hi)).Some?
    requires Le(Fin(Hit(s, r, Interval(lo, hi)).value.t), m) && Le(m, hi)
    ensures Hit(s, r, Interval(lo, m)) == Hit(s, r, Interval(lo, hi))
  {
  }

  /** The quad's `hit` as the aggregates query it. */
  function HitFunction<M>(): (Quad<M>, Ray, Interval) -> Option<HitRecord<M>> {
    (s: Quad<M>, r: Ray, i: Interval) => Hit(s, r, i)
  }

  /** The quad's hit function meets both of the aggregates' assumptions. */
  lemma QuadHittable<M(!new)>()
    ensures RespectsInterval(HitFunction<M>())
    ensures Monotone(HitFunction<M>())
  {
    forall s: Quad<M>, r: Ray, lo: EReal, hi: EReal, m: EReal |
      Hit(s, r, Interval(lo, hi)).Some? && Le(Fin(Hit(s, r, Interval(lo, hi)).value.t), m) && Le(m, hi)
      ensures Hit(s, r, Interval(lo, m)).Some? && Hit(s, r, Interval(lo, m)).value.t <= Hit(s, r, Interval(lo, hi)).value.t
    {
      HitMonotone(s, r, lo, hi, m);
    }
  }

  /** The unit square in the plane `z = 0`, with the plane data `Quad::new` computes for it and a given box. */
  function UnitSquare<M>(mat: M, bbox: AABB): Quad<M> {
    Quad(Zero, UnitX, UnitY, mat, bbox, UnitZ, 0.0, UnitZ)
  }

  /**
   When the edges' cross product is already a unit vector, `Quad::new` keeps
   it as the normal and as `w`.
   */
  lemma AssembleUnitNormal<M>(sqrt: real -> real, q: Vec3, u: Vec3, v: Vec3, mat: M, bbox: AABB)
    requires IsSqrt(sqrt)
    requires LengthSquared(Cross(u, v)) == 1.0
    ensures Assemble(sqrt, q, u, v, mat, bbox) == Quad(q, u, v, mat, bbox, Cross(u, v), Dot(Cross(u, v), q), Cross(u, v))
  {
    NormalizeUnit(sqrt, Cross(u, v));
    assert Scale(1.0 / 1.0, Cross(u, v)) == Cross(u, v);
  }

  /** `Quad::new` computes exactly this plane data for the unit square, whatever its box. */
  lemma AssembleUnitSquare<M>(sqrt: real -> real, mat: M, bbox: AABB)
    requires IsSqrt(sqrt)
    ensures LengthSquared(Cross(UnitX, UnitY)) > 0.0
    ensures Assemble(sqrt, Zero, UnitX, UnitY, mat, bbox) == UnitSquare(mat, bbox)
  {
    UnitCrossLength();
    DotZero(Cross(UnitX, UnitY));
    AssembleUnitNormal(sqrt, Zero, UnitX, UnitY, mat, bbox);
    UnitCross();
  }

  /** `Quad::new((0, 0, 0), (1, 0, 0), (0, 1, 0))` is the unit square with the padded diagonal box. */
  lemma NewUnitSquare<M>(sqrt: real -> real, pad: AABB -> AABB, mat: M)
    requires IsSqrt(sqrt)
    ensures LengthSquared(Cross(UnitX, UnitY)) > 0.0
    ensures New(sqrt, pad, Zero, UnitX, UnitY, mat) == UnitSquare(mat, pad(DiagonalBoxAsWritten(Zero, UnitX, UnitY)))
  {
    AssembleUnitSquare(sqrt, mat, pad(DiagonalBoxAsWritten(Zero, UnitX, UnitY)));
  }

  lemma UnitCrossLength()
    ensures LengthSquared(Cross(UnitX, UnitY)) == 1.0
  {
    UnitCross();
    UnitZLength();
  }

  lemma DotZero(a: Vec3)
    ensures Dot(a, Zero) == 0.0
  {
  }

  /** Normalising a unit vector gives it back. */
  lemma NormalizeUnit(sqrt: real -> real, v: Vec3)
    requires IsSqrt(sqrt)
    requires LengthSquared(v) == 1.0
    ensures Normalize(sqrt, v) == v
  {
    SqrtOfSquare(sqrt, 1.0);
    assert Length(sqrt, v) == 1.0;
    assert Scale(1.0 / 1.0, v) == v;
  }

  lemma UnitQuotient(num: real, den: real)
    requires num == 1.0 && den == 1.0
    ensures 1.0 == num / den
  {
  }

  /** The grazing ray's direction against the unit square's normal. */
  lemma GrazingDenominator<M>(mat: M, bbox: AABB)
    ensures Dot(UnitSquare(mat, bbox).normal, GrazingRay().direction) == 1.0
  {
  }

  /** The grazing ray's origin lies one unit below the unit square's plane. */
  lemma GrazingOriginHeight<M>(mat: M, bbox: AABB)
    ensures UnitSquare(mat, bbox).d - Dot(UnitSquare(mat, bbox).normal, GrazingRay().origin) == 1.0
  {
  }

  /** The grazing ray at `t = 1`: the square's corner `(0, 1, 0)`. */
  lemma GrazingCorner()
    ensures At(GrazingRay(), 1.0) == UnitY
  {
  }

  /** The first plane coordinate of `(0, 1, 0)` on the unit square. */
  lemma GrazingAlpha<M>(mat: M, bbox: AABB)
    ensures Alpha(UnitSquare(mat, bbox), UnitY) == 0.0
  {
    assert Sub(UnitY, Zero) == UnitY;
    assert Cross(UnitY, UnitY) == Zero;
  }

  /** The second plane coordinate of `(0, 1, 0)` on the unit square. */
  lemma GrazingBeta<M>(mat: M, bbox: AABB)
    ensures Beta(UnitSquare(mat, bbox), UnitY) == 1.0
  {
    assert Sub(UnitY, Zero) == UnitY;
    UnitCross();
    UnitZLength();
  }

  lemma UnitCross()
    ensures Cross(UnitX, UnitY) == UnitZ
  {
  }

  lemma UnitZLength()
    ensures Dot(UnitZ, UnitZ) == 1.0
  {
  }

  /**
   The grazing ray `(-1, 0, -1) + t (1, 1, 1)` meets the unit square at its
   corner `(0, 1, 0)`, at `t = 1`, with plane coordinates `(0, 1)`; any window
   holding `t = 1` reports it.
   */
  lemma GrazingCornerHit<M>(mat: M, bbox: AABB, rayT: Interval)
    requires Contains(rayT, 1.0)
    ensures Hit(UnitSquare(mat, bbox), GrazingRay(), rayT).Some?
    ensures Hit(UnitSquare(mat, bbox), GrazingRay(), rayT).value.t == 1.0
    ensures Hit(UnitSquare(mat, bbox), GrazingRay(), rayT).value.p == UnitY
  {
    GrazingCrossingFound(mat, bbox);
    GrazingCorner();
    HitFindsCrossing(UnitSquare(mat, bbox), GrazingRay(), rayT, 1.0);
  }

  /** The conditions under which `hit` reports the grazing ray's crossing of the unit square at `t = 1`. */
  lemma GrazingCrossingFound<M>(mat: M, bbox: AABB)
    ensures !(Abs(Dot(UnitSquare(mat, bbox).normal, GrazingRay().direction)) < ParallelEpsilon)
    ensures 1.0 == (UnitSquare(mat, bbox).d - Dot(UnitSquare(mat, bbox).normal, GrazingRay().origin)) / Dot(UnitSquare(mat, bbox).normal, GrazingRay().direction)
    ensures IsInterior(Alpha(UnitSquare(mat, bbox), At(GrazingRay(), 1.0)), Beta(UnitSquare(mat, bbox), At(GrazingRay(), 1.0)))
  {
    GrazingNotParallel(mat, bbox);
    GrazingPlaneCrossing(mat, bbox);
    GrazingInterior(mat, bbox);
  }

  /** The grazing ray is far from parallel to the unit square. */
  lemma GrazingNotParallel<M>(mat: M, bbox: AABB)
    ensures !(Abs(Dot(UnitSquare(mat, bbox).normal, GrazingRay().direction)) < ParallelEpsilon)
  {
    GrazingDenominator(mat, bbox);
  }

  /** The grazing ray crosses the unit square's plane at `t = 1`, at a slope of one. */
  lemma GrazingPlaneCrossing<M>(mat: M, bbox: AABB)
    ensures 1.0 == (UnitSquare(mat, bbox).d - Dot(UnitSquare(mat, bbox).normal, GrazingRay().origin)) / Dot(UnitSquare(mat, bbox).normal, GrazingRay().direction)
  {
    GrazingDenominator(mat, bbox);
    GrazingOriginHeight(mat, bbox);
    UnitQuotient(UnitSquare(mat, bbox).d - Dot(UnitSquare(mat, bbox).normal, GrazingRay().origin),
                 Dot(UnitSquare(mat, bbox).normal, GrazingRay().direction));
  }

  /** The crossing at `t = 1` has plane coordinates `(0, 1)`, a corner of the square. */
  lemma GrazingInterior<M>(mat: M, bbox: AABB)
    ensures IsInterior(Alpha(UnitSquare(mat, bbox), At(GrazingRay(), 1.0)), Beta(UnitSquare(mat, bbox), At(GrazingRay(), 1.0)))
  {
    GrazingCorner();
    GrazingAlpha(mat, bbox);
    GrazingBeta(mat, bbox);
  }

  // ---------------------------------------------------------------------------
  // Bounding box
  // ---------------------------------------------------------------------------

  lemma MulNonNegative(x: real, y: real)
    requires 0.0 <= x && 0.0 <= y
    ensures 0.0 <= x * y
  {
  }

  /** `x` lies between `0` and `p`, whichever sign `p` has. */
  predicate Within(x: real, p: real) {
    (0.0 <= p ==> 0.0 <= x <= p) && (p < 0.0 ==> p <= x <= 0.0)
  }

  /** `a p` for `a` in `[0, 1]` lies between `0` and `p`. */
  lemma ScaleBetween(a: real, p: real)
    requires 0.0 <= a <= 1.0
    ensures Within(a * p, p)
  {
    assert p - a * p == (1.0 - a) * p;
    if p >= 0.0 {
      MulNonNegative(1.0 - a, p);
      MulNonNegative(a, p);
    } else {
      MulNonNegative(1.0 - a, -p);
      MulNonNegative(a, -p);
    }
  }

  /**
   On one axis, a point `c + x + y` whose offsets `x` and `y` lie between `0`
   and the edge coordinates `p` and `s` lies in the span of the four corner
   coordinates `c`, `c + p`, `c + s`, `c + p + s`.
   */
  lemma BetweenCorners(c: real, p: real, s: real, x: real, y: real)
    requires Within(x, p) && Within(y, s)
    ensures Contains(CornerSpan(c, p, s), c + (x + y))
  {
    var d1, d2 := Span(c, c + p + s), Span(c + p, c + s);
    var lo := Min(d1.min, d2.min);
    var hi := Max(d1.max, d2.max);
    assert CornerSpan(c, p, s) == Interval(lo, hi);
    if p >= 0.0 && s >= 0.0 {
      LeTrans(lo, d1.min, Fin(c + (x + y)));
      LeTrans(Fin(c + (x + y)), d1.max, hi);
    } else if p >= 0.0 {
      LeTrans(lo, d2.min, Fin(c + (x + y)));
      LeTrans(Fin(c + (x + y)), d2.max, hi);
    } else if s >= 0.0 {
      LeTrans(lo, d2.min, Fin(c + (x + y)));
      LeTrans(Fin(c + (x + y)), d2.max, hi);
    } else {
      LeTrans(lo, d1.min, Fin(c + (x + y)));
      LeTrans(Fin(c + (x + y)), d1.max, hi);
    }
  }

  /** Each coordinate of `x` lies between `0` and the matching coordinate of `e`. */
  predicate WithinEdge(x: Vec3, e: Vec3) {
    Within(x.x, e.x) && Within(x.y, e.y) && Within(x.z, e.z)
  }

  /** `q + (x + y)` with offsets within the edges `u` and `v` lies in the corner box. */
  lemma CornerBoxHolds(q: Vec3, u: Vec3, v: Vec3, x: Vec3, y: Vec3)
    requires WithinEdge(x, u) && WithinEdge(y, v)
    ensures InBox(CornerBox(q, u, v), Add(q, Add(x, y)))
  {
    BetweenCorners(q.x, u.x, v.x, x.x, y.x);
    BetweenCorners(q.y, u.y, v.y, x.y, y.y);
    BetweenCorners(q.z, u.z, v.z, x.z, y.z);
  }

  /**
   Every point of the quad lies in the corner box, so padding that box gives
   a valid bounding box for the whole parallelogram.
   */
  lemma PlanePointInCornerBox<M>(s: Quad<M>, a: real, b: real)
    requires IsInterior(a, b)
    ensures InBox(CornerBox(s.q, s.u, s.v), PlanePoint(s, a, b))
  {
    ScaledWithinEdge(a, s.u);
    ScaledWithinEdge(b, s.v);
    CornerBoxHolds(s.q, s.u, s.v, Scale(a, s.u), Scale(b, s.v));
  }

  lemma ScaledWithinEdge(a: real, e: Vec3)
    requires 0.0 <= a <= 1.0
    ensures WithinEdge(Scale(a, e), e)
  {
    ScaleBetween(a, e.x);
    ScaleBetween(a, e.y);
    ScaleBetween(a, e.z);
  }

  /**
   The box `update_bounding_box` builds from the diagonal `q .. q + u + v`
   can miss the other two corners: for `q = 0`, `u = (1, 0, 0)` and
   `v = (-1, 1, 0)` the diagonal runs from the origin to `(0, 1, 0)`, so the
   corner `q + u = (1, 0, 0)` lies outside it, while the corner box holds it.
   */
  lemma DiagonalBoxMissesCorner()
    ensures !InBox(DiagonalBoxAsWritten(Zero, UnitX, Vec3(-1.0, 1.0, 0.0)), UnitX)
    ensures InBox(CornerBox(Zero, UnitX, Vec3(-1.0, 1.0, 0.0)), UnitX)
  {
    DiagonalExampleMisses();
    CornerExampleHolds();
  }

  lemma DiagonalExampleMisses()
    ensures !InBox(DiagonalBoxAsWritten(Zero, UnitX, Vec3(-1.0, 1.0, 0.0)), UnitX)
  {
  }

  lemma CornerExampleHolds()
    ensures InBox(CornerBox(Zero, UnitX, Vec3(-1.0, 1.0, 0.0)), UnitX)
  {
    CornerBoxHolds(Zero, UnitX, Vec3(-1.0, 1.0, 0.0), UnitX, Zero);
    UnitXPlusZero();
  }

  lemma UnitXPlusZero()
    ensures Add(Zero, Add(UnitX, Zero)) == UnitX
  {
  }
}

=== FILE: ray.dfy ===
/**
 The ray of `src/util/ray.rs`: `P(t) = origin + t * direction`, stamped with
 the time at which it is cast (used for motion blur).
 */
module Rays {
  import opened Vectors

  datatype Ray = Ray(origin: Vec3, direction: Vec3, time: real)

  /** `Ray::new`: a ray cast at time zero. */
  function New(origin: Vec3, direction: Vec3): (r: Ray)
    ensures r.origin == origin && r.direction == direction && r.time == 0.0
  {
    Ray(origin, direction, 0.0)
  }

  /** `at`: the point reached after travelling `t` times the direction. */
  function At(r: Ray, t: real): Vec3 {
    Add(r.origin, Scale(t, r.direction))
  }

  /** `at` starts at the origin and reaches `origin + direction` at one. */
  lemma AtEndpoints(r: Ray)
    ensures At(r, 0.0) == r.origin
    ensures At(r, 1.0) == Add(r.origin, r.direction)
  {
  }

  /** `at` is affine in its parameter and ignores the ray's time. */
  lemma AtAffine(r: Ray, s: real, t: real, time: real)
    ensures At(r, s + t) == Add(At(r, s), Scale(t, r.direction))
    ensures At(r.(time := time), s) == At(r, s)
  {
  }
}

=== FILE: sampling.dfy ===
/**
 The random helpers of `src/util/random.rs`, with every draw passed in.

 A draw from `Uniform::from(min..max)` is a real in `[min, max)`. The
 rejection samplers loop until a candidate is accepted; here they receive the
 finite sequence of candidates drawn so far and report the first accepted
 one, or `None` when the loop would still be running.
 */
module Sampling {
  import opened Vectors
  import opened Options
  import opened Numeric

  /** Every draw lies in the half-open range `[min, max)` that `Uniform::from(min..max)` samples. */
  predicate UniformDraws(draws: seq<real>, min: real, max: real) {
    forall k :: 0 <= k < |draws| ==> min <= draws[k] < max
  }

  /**
   `random_f64s::<N>`: fills an array of `n` entries, in order, from the
   draws of one uniform distribution. `Uniform::from` panics on an empty
   range, hence `min < max`.
   */
  method RandomF64s(n: nat, min: real, max: real, draws: seq<real>) returns (out: seq<real>)
    requires min < max
    requires n <= |draws| && UniformDraws(draws[..n], min, max)
    ensures |out| == n && UniformDraws(out, min, max)
    ensures forall k :: 0 <= k < n ==> out[k] == draws[k]
  {
    out := [];
    var i := 0;
    while i < n
      invariant 0 <= i <= n && |out| == i
      invariant forall k :: 0 <= k < i ==> out[k] == draws[k]
    {
      assert draws[..n][i] == draws[i];
      out := out + [draws[i]];
      i := i + 1;
    }
  }

  /** `random_f64`: one draw. */
  function RandomF64(min: real, max: real, draws: seq<real>): (x: real)
    requires min < max && |draws| == 1 && UniformDraws(draws, min, max)
    ensures min <= x < max
  {
    draws[0]
  }

  /** `two_random_f64s`: two draws, in drawing order. */
  function TwoRandomF64s(min: real, max: real, draws: seq<real>): (p: (real, real))
    requires min < max && |draws| == 2 && UniformDraws(draws, min, max)
    ensures min <= p.0 < max && min <= p.1 < max
  {
    (draws[0], draws[1])
  }

  /** `random_vec_in_range`: three draws as the x, y and z coordinates. */
  function RandomVecInRange(min: real, max: real, draws: seq<real>): (v: Vec3)
    requires min < max && |draws| == 3 && UniformDraws(draws, min, max)
    ensures min <= v.x < max && min <= v.y < max && min <= v.z < max
  {
    Vec3(draws[0], draws[1], draws[2])
  }

  /**
   A candidate of `random_in_unit_sphere` is three draws from `[-1, 1)`, so
   the sampler's answer, when it has one, lies in that cube as well as in
   the open unit ball.
   */
  lemma UnitSphereFromCube(draws: seq<seq<real>>)
    requires forall i :: 0 <= i < |draws| ==> |draws[i]| == 3 && UniformDraws(draws[i], -1.0, 1.0)
    ensures var o := InUnitSphere(Candidates(draws));
      o.Some? ==> -1.0 <= o.value.x < 1.0 && -1.0 <= o.value.y < 1.0 && -1.0 <= o.value.z < 1.0
  {
    var c := Candidates(draws);
    var o := InUnitSphere(c);
    if o.Some? {
      var i :| 0 <= i < |c| && c[i] == o.value && forall j :: 0 <= j < i ==> !InsideUnitSphere(c[j]);
      assert c[i] == RandomVecInRange(-1.0, 1.0, draws[i]);
    }
  }

  /** The candidate points built from successive triples of draws. */
  function Candidates(draws: seq<seq<real>>): (c: seq<Vec3>)
    requires forall i :: 0 <= i < |draws| ==> |draws[i]| == 3 && UniformDraws(draws[i], -1.0, 1.0)
    ensures |c| == |draws|
    ensures forall i :: 0 <= i < |draws| ==> c[i] == RandomVecInRange(-1.0, 1.0, draws[i])
  {
    seq(|draws|, i requires 0 <= i < |draws| => RandomVecInRange(-1.0, 1.0, draws[i]))
  }

  /**
   `random_int_in_range`: a draw in `[min, max)`, rounded half away from zero.
   The result never leaves `[min, max]`, so the `as i32` cast is exact for
   `i32` bounds; `Uniform` panics on an empty range, hence `min < max`.
   */
  function RandomIntInRange(min: int, max: int, draw: real): (n: int)
    requires min < max
    requires min as real <= draw < max as real
    ensures min <= n <= max
    ensures draw - 0.5 <= n as real <= draw + 0.5
  {
    Round(draw)
  }

  /** The candidate `random_in_unit_sphere` accepts: strictly inside the unit sphere. */
  predicate InsideUnitSphere(p: Vec3) {
    LengthSquared(p) < 1.0
  }

  /**
   `random_in_unit_sphere`: the first candidate strictly inside the unit
   sphere; `None` when every candidate so far was rejected.
   */
  function InUnitSphere(candidates: seq<Vec3>): (o: Option<Vec3>)
    ensures o.Some? ==> InsideUnitSphere(o.value)
    ensures o.Some? ==> exists i :: 0 <= i < |candidates| && candidates[i] == o.value &&
                          forall j :: 0 <= j < i ==> !InsideUnitSphere(candidates[j])
    ensures o.None? <==> forall i :: 0 <= i < |candidates| ==> !InsideUnitSphere(candidates[i])
  {
    if |candidates| == 0 then None
    else if InsideUnitSphere(candidates[0]) then Some(candidates[0])
    else
      var o := InUnitSphere(candidates[1..]);
      if o.Some? then
        var i :| 0 <= i < |candidates[1..]| && candidates[1..][i] == o.value &&
                 forall j :: 0 <= j < i ==> !InsideUnitSphere(candidates[1..][j]);
        assert candidates[i + 1] == o.value;
        assert forall j :: 0 <= j < i + 1 ==> !InsideUnitSphere(candidates[j]) by {
          forall j | 0 <= j < i + 1
            ensures !InsideUnitSphere(candidates[j])
          {
            if j > 0 {
              assert candidates[j] == candidates[1..][j - 1];
            }
          }
        }
        o
      else
        assert forall i :: 0 <= i < |candidates| ==> !InsideUnitSphere(candidates[i]) by {
          forall i | 0 <= i < |candidates|
            ensures !InsideUnitSphere(candidates[i])
          {
            if i > 0 {
              assert candidates[i] == candidates[1..][i - 1];
            }
          }
        }
        o
  }

  /** The point `random_in_unit_disk` builds from a pair of draws: z is zero. */
  function DiskPoint(d: (real, real)): Vec3 {
    Vec3(d.0, d.1, 0.0)
  }

  /**
   `random_in_unit_disk`: the first draw pair whose point `(a, b, 0)` is
   strictly inside the unit circle.
   */
  function InUnitDisk(candidates: seq<(real, real)>): (o: Option<Vec3>)
    ensures o.Some? ==> InsideUnitSphere(o.value) && o.value.z == 0.0
    ensures o.Some? ==> exists i :: 0 <= i < |candidates| && DiskPoint(candidates[i]) == o.value &&
                          forall j :: 0 <= j < i ==> !InsideUnitSphere(DiskPoint(candidates[j]))
    ensures o.None? <==> forall i :: 0 <= i < |candidates| ==> !InsideUnitSphere(DiskPoint(candidates[i]))
  {
    if |candidates| == 0 then None
    else if InsideUnitSphere(DiskPoint(candidates[0])) then Some(DiskPoint(candidates[0]))
    else
      var o := InUnitDisk(candidates[1..]);
      if o.Some? then
        var i :| 0 <= i < |candidates[1..]| && DiskPoint(candidates[1..][i]) == o.value &&
                 forall j :: 0 <= j < i ==> !InsideUnitSphere(DiskPoint(candidates[1..][j]));
        assert DiskPoint(candidates[i + 1]) == o.value;
        assert forall j :: 0 <= j < i + 1 ==> !InsideUnitSphere(DiskPoint(candidates[j])) by {
          forall j | 0 <= j < i + 1
            ensures !InsideUnitSphere(DiskPoint(candidates[j]))
          {
            if j > 0 {
              assert candidates[j] == candidates[1..][j - 1];
            }
          }
        }
        o
      else
        assert forall i :: 0 <= i < |candidates| ==> !InsideUnitSphere(DiskPoint(candidates[i])) by {
          forall i | 0 <= i < |candidates|
            ensures !InsideUnitSphere(DiskPoint(candidates[i]))
          {
            if i > 0 {
              assert candidates[i] == candidates[1..][i - 1];
            }
          }
        }
        o
  }

  /**
   `random_unit_vector`: the accepted unit-sphere sample, normalised. A sample
   at the origin (normalised to NaN by glam) is excluded.
   */
  function UnitVector(sqrt: real -> real, p: Vec3): (u: Vec3)
    requires IsSqrt(sqrt)
    requires InsideUnitSphere(p) && LengthSquared(p) > 0.0
    ensures LengthSquared(u) == 1.0
    ensures Dot(u, p) > 0.0
  {
    Normalize(sqrt, p)
  }

  /**
   `random_on_hemisphere`: the unit sample if it points into the normal's
   side, otherwise its negation.
   */
  function OnHemisphere(onUnitSphere: Vec3, normal: Vec3): (s: Vec3)
    ensures Dot(s, normal) >= 0.0
    ensures s == onUnitSphere || s == Neg(onUnitSphere)
    ensures LengthSquared(s) == LengthSquared(onUnitSphere)
    ensures Dot(onUnitSphere, normal) > 0.0 <==> s == onUnitSphere && Dot(s, normal) > 0.0
  {
    if Dot(onUnitSphere, normal) > 0.0 then onUnitSphere else Neg(onUnitSphere)
  }
}

=== FILE: smoothing.dfy ===
/**
 The Hermite smoothstep of `src/util/mod.rs`, `h(d) = d^2 (3 - 2d)`, which the
 Perlin interpolation applies to the fractional lattice coordinates so that
 the noise has no visible creases at cell boundaries.
 */
module Smoothing {

  /**
   `hermitian_smoothing`. Its only fixed points are `0`, `1/2` and `1`: the
   curve starts at `0`, ends at `1` and crosses the diagonal at the middle.
   */
  function Hermite(d: real): (h: real)
    ensures h == d <==> (d == 0.0 || d == 0.5 || d == 1.0)
  {
    var h := d * d * (3.0 - 2.0 * d);
    FixedPoints(d, h);
    h
  }

  /** `h(d) - d = -d (2d - 1)(d - 1)`. */
  lemma FixedPoints(d: real, h: real)
    requires h == d * d * (3.0 - 2.0 * d)
    ensures h == d <==> (d == 0.0 || d == 0.5 || d == 1.0)
  {
    var e := h - d;
    assert e == -(d * ((2.0 * d - 1.0) * (d - 1.0)));
    if e == 0.0 {
      ProductZero(d, (2.0 * d - 1.0) * (d - 1.0));
      if d != 0.0 {
        ProductZero(2.0 * d - 1.0, d - 1.0);
      }
    }
  }

  lemma ProductZero(x: real, y: real)
    requires x * y == 0.0
    ensures x == 0.0 || y == 0.0
  {
  }

  /** The curve maps the unit interval into itself. */
  lemma HermiteUnitInterval(d: real)
    requires 0.0 <= d <= 1.0
    ensures 0.0 <= Hermite(d) <= 1.0
  {
    var c := 1.0 - d;
    assert Hermite(d) == (d * d) * (3.0 - 2.0 * d);
    assert 1.0 - Hermite(d) == (c * c) * (1.0 + 2.0 * d);
    NonNegativeProduct(d * d, 3.0 - 2.0 * d);
    NonNegativeProduct(c * c, 1.0 + 2.0 * d);
  }

  lemma NonNegativeProduct(x: real, y: real)
    requires 0.0 <= x && 0.0 <= y
    ensures 0.0 <= x * y
  {
  }

  /** The curve is symmetric about the middle: `h(1 - d) = 1 - h(d)`. */
  lemma HermiteSymmetric(d: real)
    ensures Hermite(1.0 - d) == 1.0 - Hermite(d)
  {
    var c := 1.0 - d;
    assert c * c * (3.0 - 2.0 * c) == 1.0 - 3.0 * d * d + 2.0 * d * d * d;
  }

  /** The curve is non-decreasing on the unit interval. */
  lemma HermiteMonotone(a: real, b: real)
    requires 0.0 <= a <= b <= 1.0
    ensures Hermite(a) <= Hermite(b)
  {
    // h(b) - h(a) = (b - a) (3 (a + b) - 2 (a^2 + ab + b^2)), and the second factor is non-negative.
    var q := 3.0 * (a + b) - 2.0 * (a * a + a * b + b * b);
    assert Hermite(b) - Hermite(a) == (b - a) * q;
    SecondFactor(a, b);
    NonNegativeProduct(b - a, q);
  }

  lemma SecondFactor(a: real, b: real)
    requires 0.0 <= a <= b <= 1.0
    ensures 0.0 <= 3.0 * (a + b) - 2.0 * (a * a + a * b + b * b)
  {
    MulUpper(a, a);
    MulUpper(b, b);
    MulUpper(a, b);
    MulUpper(b, a);
    assert b * a == a * b;
    BelowSum(a, b, a * a, a * b, b * b);
  }

  lemma BelowSum(a: real, b: real, aa: real, ab: real, bb: real)
    requires aa <= a && bb <= b && ab <= a && ab <= b
    ensures 0.0 <= 3.0 * (a + b) - 2.0 * (aa + ab + bb)
  {
  }

  lemma MulUpper(x: real, y: real)
    requires 0.0 <= x && 0.0 <= y <= 1.0
    ensures x * y <= x
  {
    assert x - x * y == x * (1.0 - y);
  }
}

=== FILE: sphere.dfy ===
/**
 The sphere of `src/hittable/sphere.rs`, stationary or moving linearly
 between two centres over the shutter interval `[0, 1]`.
 */
module Spheres {
  import opened ExtReal
  import opened Vectors
  import opened Numeric
  import opened Intervals
  import opened Rays
  import opened Options
  import opened HitRecords
  import opened Aabb
  import opened Hittables

  datatype Sphere<M> = Sphere(
    origin: Vec3,     // centre at time 0
    radius: real,
    material: M,
    isMoving: bool,
    movement: Vec3,   // endpoint - origin
    bbox: AABB)

  /** The box `from_points(c - (r, r, r), c + (r, r, r))` around one centre. */
  function BallBox(c: Vec3, radius: real): AABB {
    var rvec := Vec3(radius, radius, radius);
    FromPoints(Sub(c, rvec), Add(c, rvec))
  }

  /** `new_stationary`: a fixed centre, no movement, and the box `[c - |r|, c + |r|]` on every axis. */
  function NewStationary<M>(origin: Vec3, radius: real, material: M): (s: Sphere<M>)
    ensures !s.isMoving && s.origin == origin && s.radius == radius && s.material == material
    ensures forall p :: InBox(s.bbox, p) <==>
      Abs(p.x - origin.x) <= Abs(radius) && Abs(p.y - origin.y) <= Abs(radius) && Abs(p.z - origin.z) <= Abs(radius)
  {
    Sphere(origin, radius, material, false, Zero, BallBox(origin, radius))
  }

  /** `position`: the centre at `time`, moving along `movement`. */
  function Position<M>(s: Sphere<M>, time: real): Vec3 {
    Add(s.origin, Scale(time, s.movement))
  }

  /**
   `new_moving`: the centre runs from `origin` at time 0 to `endpoint` at
   time 1, and the box is the union of the boxes around both ends.
   */
  function NewMoving<M>(origin: Vec3, endpoint: Vec3, radius: real, material: M): (s: Sphere<M>)
    ensures s.isMoving && s.origin == origin && s.radius == radius && s.material == material
    ensures Position(s, 0.0) == origin && Position(s, 1.0) == endpoint
    ensures Encloses(s.bbox, BallBox(origin, radius)) && Encloses(s.bbox, BallBox(endpoint, radius))
  {
    Sphere(origin, radius, material, true, Sub(endpoint, origin), FromBoxes(BallBox(origin, radius), BallBox(endpoint, radius)))
  }

  /** Every point of a ball lies in the box `from_points` builds around it. */
  lemma BallInBox(c: Vec3, radius: real, p: Vec3)
    requires LengthSquared(Sub(p, c)) <= radius * radius
    ensures InBox(BallBox(c, radius), p)
  {
    var d := Sub(p, c);
    SquareNonNegative(d.x);
    SquareNonNegative(d.y);
    SquareNonNegative(d.z);
    CoordinateWithinRadius(d.x, d.y * d.y + d.z * d.z, radius);
    CoordinateWithinRadius(d.y, d.x * d.x + d.z * d.z, radius);
    CoordinateWithinRadius(d.z, d.x * d.x + d.y * d.y, radius);
    var rvec := Vec3(radius, radius, radius);
    var lo, hi := Sub(c, rvec), Add(c, rvec);
    assert (lo.x <= p.x <= hi.x || hi.x <= p.x <= lo.x);
    assert (lo.y <= p.y <= hi.y || hi.y <= p.y <= lo.y);
    assert (lo.z <= p.z <= hi.z || hi.z <= p.z <= lo.z);
  }

  /** One coordinate of a vector no longer than `radius` is at most `|radius|` in size. */
  lemma CoordinateWithinRadius(x: real, rest: real, radius: real)
    requires rest >= 0.0 && x * x + rest <= radius * radius
    ensures Abs(x) <= Abs(radius)
  {
    var ar, ax := Abs(radius), Abs(x);
    assert ar * ar == radius * radius;
    assert ax * ax == x * x;
    if ax > ar {
      SquareStrictMono(ar, ax);
    }
  }

  // ---------------------------------------------------------------------------
  // Ray intersection
  // ---------------------------------------------------------------------------

  /** The centre `hit` uses: the moving centre at the ray's time, or the fixed one. */
  function Center<M>(s: Sphere<M>, r: Ray): Vec3 {
    if s.isMoving then Position(s, r.time) else s.origin
  }

  /** The ray is on the sphere around `center` at parameter `t`. */
  predicate OnSurface(center: Vec3, radius: real, r: Ray, t: real) {
    LengthSquared(Sub(At(r, t), center)) == radius * radius
  }

  /** The quadratic `a t^2 + 2 half_b t + c` that `hit` solves. */
  function Quadratic(a: real, halfB: real, c: real, t: real): real {
    a * t * t + 2.0 * halfB * t + c
  }

  /** The smaller root if the window holds it, else the larger one if the window holds it. */
  function PickRoot(rayT: Interval, near: real, far: real): (o: Option<real>)
    ensures o.Some? ==> Contains(rayT, o.value)
  {
    if Contains(rayT, near) then Some(near)
    else if Contains(rayT, far) then Some(far)
    else None
  }

  /**
   The root choice of `hit`: solve `a t^2 + 2 half_b t + c = 0`, return
   nothing for a negative discriminant, else pick a root in the window. A
   zero direction gives `0 / 0`, a NaN that no window contains, so nothing.
   */
  function Root(sqrt: real -> real, center: Vec3, radius: real, r: Ray, rayT: Interval): (o: Option<real>)
    ensures o.Some? ==> Contains(rayT, o.value)
  {
    var oc := Sub(r.origin, center);
    SolveQuadratic(sqrt, LengthSquared(r.direction), Dot(oc, r.direction), LengthSquared(oc) - radius * radius, rayT)
  }

  /** The root choice on the coefficients `a`, `half_b` and `c`. */
  function SolveQuadratic(sqrt: real -> real, a: real, halfB: real, c: real, rayT: Interval): (o: Option<real>)
    ensures o.Some? ==> Contains(rayT, o.value)
  {
    var discriminant := halfB * halfB - a * c;
    if a == 0.0 || discriminant < 0.0 then None
    else
      var sqrtD := sqrt(discriminant);
      PickRoot(rayT, (-halfB - sqrtD) / a, (-halfB + sqrtD) / a)
  }

  lemma ProductZero(x: real, y: real)
    requires x * y == 0.0
    ensures x == 0.0 || y == 0.0
  {
  }

  lemma PositiveFactor(a: real, q: real)
    requires a > 0.0 && a * q > 0.0
    ensures q > 0.0
  {
  }

  lemma ScaledQuadratic(a: real, hb: real, c: real, t: real)
    ensures a * (a * t * t + 2.0 * hb * t + c) == (a * t + hb) * (a * t + hb) - (hb * hb - a * c)
  {
  }

  /** With `sd` the root of the discriminant, the only solutions are the two roots. */
  lemma QuadraticSolutions(a: real, hb: real, c: real, sd: real, t: real)
    requires a > 0.0 && sd >= 0.0 && sd * sd == hb * hb - a * c
    requires Quadratic(a, hb, c, t) == 0.0
    ensures t == (-hb - sd) / a || t == (-hb + sd) / a
  {
    var at := a * t;
    ScaledQuadratic(a, hb, c, t);
    assert (at + hb - sd) * (at + hb + sd) == 0.0;
    ProductZero(at + hb - sd, at + hb + sd);
  }

  /** Both roots solve the quadratic. */
  lemma QuadraticRootsSolve(a: real, hb: real, c: real, sd: real, t: real)
    requires a > 0.0 && sd >= 0.0 && sd * sd == hb * hb - a * c
    requires t == (-hb - sd) / a || t == (-hb + sd) / a
    ensures Quadratic(a, hb, c, t) == 0.0
  {
    var at := a * t;
    ScaledQuadratic(a, hb, c, t);
    assert at + hb == sd || at + hb == -sd;
    assert a * (a * t * t + 2.0 * hb * t + c) == 0.0;
  }

  /** A negative discriminant leaves the quadratic positive everywhere. */
  lemma QuadraticNoRoot(a: real, hb: real, c: real, t: real)
    requires a > 0.0 && hb * hb - a * c < 0.0
    ensures Quadratic(a, hb, c, t) > 0.0
  {
    ScaledQuadratic(a, hb, c, t);
    SquareNonNegative(a * t + hb);
    PositiveFactor(a, a * t * t + 2.0 * hb * t + c);
  }

  /** Distance from the centre along the ray, as the quadratic `hit` solves. */
  lemma SurfaceQuadratic(center: Vec3, radius: real, r: Ray, t: real)
    ensures var oc := Sub(r.origin, center);
      OnSurface(center, radius, r, t) <==>
      Quadratic(LengthSquared(r.direction), Dot(oc, r.direction), LengthSquared(oc) - radius * radius, t) == 0.0
  {
    var oc := Sub(r.origin, center);
    var d := r.direction;
    var a, hb, c := LengthSquared(d), Dot(oc, d), LengthSquared(oc) - radius * radius;
    var ls := LengthSquared(Sub(At(r, t), center));
    assert Sub(At(r, t), center) == Add(oc, Scale(t, d));
    assert ls == LengthSquared(oc) + 2.0 * t * hb + t * t * a;
    assert Quadratic(a, hb, c, t) == ls - radius * radius;
  }

  /** The picked root is the smallest solution in the window; no pick means no solution in it. */
  lemma PickRootNearest(a: real, hb: real, c: real, sd: real, rayT: Interval)
    requires a > 0.0 && sd >= 0.0 && sd * sd == hb * hb - a * c
    ensures var o := PickRoot(rayT, (-hb - sd) / a, (-hb + sd) / a);
      && (o.Some? ==> Quadratic(a, hb, c, o.value) == 0.0)
      && (o.Some? ==> forall t :: Contains(rayT, t) && Quadratic(a, hb, c, t) == 0.0 ==> o.value <= t)
      && (o.None? ==> forall t :: Contains(rayT, t) ==> Quadratic(a, hb, c, t) != 0.0)
  {
    var near, far := (-hb - sd) / a, (-hb + sd) / a;
    var o := PickRoot(rayT, near, far);
    assert near <= far by {
      assert -hb - sd <= -hb + sd;
    }
    if o.Some? {
      QuadraticRootsSolve(a, hb, c, sd, o.value);
    }
    forall t | Contains(rayT, t) && Quadratic(a, hb, c, t) == 0.0
      ensures o.Some? && o.value <= t
    {
      QuadraticSolutions(a, hb, c, sd, t);
    }
  }

  /** `SolveQuadratic` returns the smallest solution in the window, or nothing when the window holds none. */
  lemma SolveNearest(sqrt: real -> real, a: real, hb: real, c: real, rayT: Interval)
    requires IsSqrt(sqrt)
    requires a > 0.0
    ensures var o := SolveQuadratic(sqrt, a, hb, c, rayT);
      && (o.Some? ==> Quadratic(a, hb, c, o.value) == 0.0)
      && (o.Some? ==> forall t :: Contains(rayT, t) && Quadratic(a, hb, c, t) == 0.0 ==> o.value <= t)
      && (o.None? ==> forall t :: Contains(rayT, t) ==> Quadratic(a, hb, c, t) != 0.0)
  {
    var disc := hb * hb - a * c;
    if disc < 0.0 {
      forall t | Contains(rayT, t)
        ensures Quadratic(a, hb, c, t) != 0.0
      {
        QuadraticNoRoot(a, hb, c, t);
      }
    } else {
      var sd := sqrt(disc);
      assert sd >= 0.0 && sd * sd == disc;
      PickRootNearest(a, hb, c, sd, rayT);
    }
  }

  /**
   `Root` finds the nearest point of the sphere inside the window: the
   returned parameter is on the surface and no surface parameter in the
   window is smaller; when nothing is returned, the window holds no surface
   point (for a ray with a direction).
   */
  lemma RootNearest(sqrt: real -> real, center: Vec3, radius: real, r: Ray, rayT: Interval)
    requires IsSqrt(sqrt)
    requires LengthSquared(r.direction) > 0.0
    ensures var o := Root(sqrt, center, radius, r, rayT);
      && (o.Some? ==> OnSurface(center, radius, r, o.value))
      && (o.Some? ==> forall t :: Contains(rayT, t) && OnSurface(center, radius, r, t) ==> o.value <= t)
      && (o.None? ==> forall t :: Contains(rayT, t) ==> !OnSurface(center, radius, r, t))
  {
    var oc := Sub(r.origin, center);
    var a, hb, c := LengthSquared(r.direction), Dot(oc, r.direction), LengthSquared(oc) - radius * radius;
    forall t
      ensures OnSurface(center, radius, r, t) <==> Quadratic(a, hb, c, t) == 0.0
    {
      SurfaceQuadratic(center, radius, r, t);
    }
    SolveNearest(sqrt, a, hb, c, rayT);
  }

  /**
   `hit` as written: the outward normal is `(p - origin) / radius`, measured
   from the time-0 centre even when the sphere is moving.
   */
  function HitAsWritten<M>(sqrt: real -> real, uv: Vec3 -> (real, real), s: Sphere<M>, r: Ray, rayT: Interval): (o: Option<HitRecord<M>>)
    requires s.radius != 0.0
    ensures o.Some? ==> Contains(rayT, o.value.t) && o.value.p == At(r, o.value.t)
  {
    match Root(sqrt, Center(s, r), s.radius, r, rayT)
    case None => None
    case Some(root) =>
      var p := At(r, root);
      var outward := Scale(1.0 / s.radius, Sub(p, s.origin));
      var (u, v) := uv(outward);
      Some(HitRecords.New(r, root, p, u, v, s.material, outward))
  }

  /** `hit` with the normal measured from the centre at the ray's time. */
  function Hit<M>(sqrt: real -> real, uv: Vec3 -> (real, real), s: Sphere<M>, r: Ray, rayT: Interval): (o: Option<HitRecord<M>>)
    requires s.radius != 0.0
    ensures o.Some? ==> Contains(rayT, o.value.t) && o.value.p == At(r, o.value.t)
    ensures o.Some? ==> o.value.material == s.material
    ensures o.Some? ==> Dot(r.direction, o.value.normal) <= 0.0
  {
    match Root(sqrt, Center(s, r), s.radius, r, rayT)
    case None => None
    case Some(root) =>
      var p := At(r, root);
      var outward := Scale(1.0 / s.radius, Sub(p, Center(s, r)));
      var (u, v) := uv(outward);
      Some(HitRecords.New(r, root, p, u, v, s.material, outward))
  }

  /**
   The sphere reports the nearest surface point in the window, with a unit
   normal; a miss means the window holds no surface point.
   */
  lemma HitNearest<M>(sqrt: real -> real, uv: Vec3 -> (real, real), s: Sphere<M>, r: Ray, rayT: Interval)
    requires IsSqrt(sqrt)
    requires s.radius != 0.0 && LengthSquared(r.direction) > 0.0
    ensures var o := Hit(sqrt, uv, s, r, rayT);
      && (o.Some? ==> OnSurface(Center(s, r), s.radius, r, o.value.t))
      && (o.Some? ==> forall t :: Contains(rayT, t) && OnSurface(Center(s, r), s.radius, r, t) ==> o.value.t <= t)
      && (o.Some? ==> LengthSquared(o.value.normal) == 1.0)
      && (o.None? ==> forall t :: Contains(rayT, t) ==> !OnSurface(Center(s, r), s.radius, r, t))
  {
    RootNearest(sqrt, Center(s, r), s.radius, r, rayT);
    var o := Hit(sqrt, uv, s, r, rayT);
    if o.Some? {
      var k := 1.0 / s.radius;
      var d := Sub(At(r, o.value.t), Center(s, r));
      LengthSquaredScale(k, d);
      assert k * k * (s.radius * s.radius) == (k * s.radius) * (k * s.radius);
    }
  }

  /**
   The sphere satisfies the aggregates' narrowing assumption exactly: pulling
   the window's upper end in, but not below the reported hit, reports the
   same hit.
   */
  lemma HitMonotone<M>(sqrt: real -> real, uv: Vec3 -> (real, real), s: Sphere<M>, r: Ray, lo: EReal, hi: EReal, m: EReal)
    requires IsSqrt(sqrt)
    requires s.radius != 0.0
    requires Hit(sqrt, uv, s, r, Interval(lo, hi)).Some?
    requires Le(Fin(Hit(sqrt, uv, s, r, Interval(lo, hi)).value.t), m) && Le(m, hi)
    ensures Hit(sqrt, uv, s, r, Interval(lo, m)) == Hit(sqrt, uv, s, r, Interval(lo, hi))
  {
    var t := Hit(sqrt, uv, s, r, Interval(lo, hi)).value.t;
    if LengthSquared(r.direction) > 0.0 {
      HitNearest(sqrt, uv, s, r, Interval(lo, hi));
      HitNearest(sqrt, uv, s, r, Interval(lo, m));
      var o := Hit(sqrt, uv, s, r, Interval(lo, m));
      assert Contains(Interval(lo, m), t);
      assert o.Some?;
      LeTrans(Fin(o.value.t), m, hi);
      assert o.value.t == t;
    } else {
      LengthSquaredNonNegative(r.direction);
    }
  }

  /**
   The sphere's `hit` as the aggregates query it. A sphere of radius 0 reports
   nothing here: the source divides by the radius for its normal.
   */
  function HitFunction<M>(sqrt: real -> real, uv: Vec3 -> (real, real)): (Sphere<M>, Ray, Interval) -> Option<HitRecord<M>> {
    (s: Sphere<M>, r: Ray, i: Interval) => if s.radius != 0.0 then Hit(sqrt, uv, s, r, i) else None
  }

  /** The sphere's hit function meets both of the aggregates' assumptions. */
  lemma SphereHittable<M(!new)>(sqrt: real -> real, uv: Vec3 -> (real, real))
    requires IsSqrt(sqrt)
    ensures RespectsInterval(HitFunction<M>(sqrt, uv))
    ensures Monotone(HitFunction<M>(sqrt, uv))
  {
    var f := HitFunction<M>(sqrt, uv);
    forall s: Sphere<M>, r: Ray, lo: EReal, hi: EReal, m: EReal |
      f(s, r, Interval(lo, hi)).Some? && Le(Fin(f(s, r, Interval(lo, hi)).value.t), m) && Le(m, hi)
      ensures f(s, r, Interval(lo, m)).Some? && f(s, r, Interval(lo, m)).value.t <= f(s, r, Interval(lo, hi)).value.t
    {
      HitMonotone(sqrt, uv, s, r, lo, hi, m);
    }
  }

  /**
   A stationary sphere built by `new` reports only points of its box: every
   hit, in any window, lies on the sphere and so in the closed box around it
   (touching a face where the ray grazes the sphere there).
   */
  lemma StationaryHitsInBox<M(!new)>(sqrt: real -> real, uv: Vec3 -> (real, real), s: Sphere<M>, r: Ray)
    requires IsSqrt(sqrt)
    requires !s.isMoving && s.bbox == BallBox(s.origin, s.radius)
    requires LengthSquared(r.direction) > 0.0
    ensures HitsInBox(HitFunction<M>(sqrt, uv), (x: Sphere<M>) => x.bbox, s, r)
  {
    var f := HitFunction<M>(sqrt, uv);
    forall i | f(s, r, i).Some?
      ensures InBox(s.bbox, At(r, f(s, r, i).value.t))
    {
      assert f(s, r, i) == Hit(sqrt, uv, s, r, i);
      StationaryHitInBox(sqrt, uv, s, r, i);
    }
  }

  /** One window of `StationaryHitsInBox`. */
  lemma StationaryHitInBox<M>(sqrt: real -> real, uv: Vec3 -> (real, real), s: Sphere<M>, r: Ray, i: Interval)
    requires IsSqrt(sqrt)
    requires !s.isMoving && s.bbox == BallBox(s.origin, s.radius)
    requires s.radius != 0.0 && LengthSquared(r.direction) > 0.0
    ensures Hit(sqrt, uv, s, r, i).Some? ==> InBox(s.bbox, At(r, Hit(sqrt, uv, s, r, i).value.t))
  {
    HitNearest(sqrt, uv, s, r, i);
    var o := Hit(sqrt, uv, s, r, i);
    if o.Some? {
      SurfaceInBox(s, r, o.value.t);
    }
  }

  /** A point of a stationary sphere lies in its box. */
  lemma SurfaceInBox<M>(s: Sphere<M>, r: Ray, t: real)
    requires !s.isMoving && s.bbox == BallBox(s.origin, s.radius)
    requires OnSurface(Center(s, r), s.radius, r, t)
    ensures InBox(s.bbox, At(r, t))
  {
    BallInBox(s.origin, s.radius, At(r, t));
  }

  /** A coordinate between two coordinates of an interval lies in it. */
  lemma BetweenContained(i: Interval, x1: real, x: real, x2: real)
    requires Contains(i, x1) && Contains(i, x2)
    requires x1 <= x <= x2 || x2 <= x <= x1
    ensures Contains(i, x)
  {
  }

  /** `x1 + time (x2 - x1)` lies between `x1` and `x2` for `time` in `[0, 1]`. */
  lemma Blend(x1: real, x2: real, time: real)
    requires 0.0 <= time <= 1.0
    ensures x1 <= x1 + time * (x2 - x1) <= x2 || x2 <= x1 + time * (x2 - x1) <= x1
  {
    var k := x2 - x1;
    assert time * (x2 - x1) == k * time;
    if k >= 0.0 {
      MulMono(k, 0.0, time);
      MulMono(k, time, 1.0);
      assert 0.0 <= k * time <= k;
      assert x1 <= x1 + k * time <= x2;
    } else {
      MulAntitone(k, 0.0, time);
      MulAntitone(k, time, 1.0);
      assert k <= k * time <= 0.0;
      assert x2 <= x1 + k * time <= x1;
    }
  }

  /**
   One axis of a moving ball: the centre `o + time (e - o)` moved by `d` lies
   in an interval holding both ends `o` and `e` moved by `d`.
   */
  lemma AxisBlend(i: Interval, o: real, e: real, time: real, d: real)
    requires 0.0 <= time <= 1.0
    requires Contains(i, o + d) && Contains(i, e + d)
    ensures Contains(i, (o + time * (e - o)) + d)
  {
    var k := e - o;
    var z := time * k;
    Blend(o + d, e + d, time);
    assert (e + d) - (o + d) == k;
    var w := (o + d) + time * ((e + d) - (o + d));
    assert o + d <= w <= e + d || e + d <= w <= o + d;
    assert w == (o + z) + d;
    BetweenContained(i, o + d, (o + z) + d, e + d);
  }

  /** Both end balls, moved by the same offset `d`, stay in the box of `new_moving`. */
  lemma EndsInMovingBox(o: Vec3, endpoint: Vec3, radius: real, d: Vec3)
    requires LengthSquared(d) <= radius * radius
    ensures InBox(FromBoxes(BallBox(o, radius), BallBox(endpoint, radius)), Add(o, d))
    ensures InBox(FromBoxes(BallBox(o, radius), BallBox(endpoint, radius)), Add(endpoint, d))
  {
    assert Sub(Add(o, d), o) == d;
    assert Sub(Add(endpoint, d), endpoint) == d;
    BallInBox(o, radius, Add(o, d));
    BallInBox(endpoint, radius, Add(endpoint, d));
  }

  /**
   The box `new_moving` builds holds the ball around the centre at every time
   in `[0, 1]`, not only at the two ends.
   */
  lemma MovingBallInBox<M>(s: Sphere<M>, endpoint: Vec3, time: real, p: Vec3)
    requires s.movement == Sub(endpoint, s.origin)
    requires s.bbox == FromBoxes(BallBox(s.origin, s.radius), BallBox(endpoint, s.radius))
    requires 0.0 <= time <= 1.0
    requires LengthSquared(Sub(p, Position(s, time))) <= s.radius * s.radius
    ensures InBox(s.bbox, p)
  {
    var d := Sub(p, Position(s, time));
    EndsInMovingBox(s.origin, endpoint, s.radius, d);
    BlendInBox(s.bbox, s.origin, endpoint, time, d);
    assert p == Add(Position(s, time), d);
  }

  /** A box holding both ends moved by `d` holds every centre in between moved by `d`. */
  lemma BlendInBox(b: AABB, o: Vec3, e: Vec3, time: real, d: Vec3)
    requires 0.0 <= time <= 1.0
    requires InBox(b, Add(o, d)) && InBox(b, Add(e, d))
    ensures InBox(b, Add(Add(o, Scale(time, Sub(e, o))), d))
  {
    AxisBlend(b.x, o.x, e.x, time, d.x);
    AxisBlend(b.y, o.y, e.y, time, d.y);
    AxisBlend(b.z, o.z, e.z, time, d.z);
  }

  /**
   A moving sphere built by `new_moving` reports only points of its box for
   a ray whose time lies in `[0, 1]`, the times the camera draws.
   */
  lemma MovingHitsInBox<M(!new)>(sqrt: real -> real, uv: Vec3 -> (real, real), s: Sphere<M>, endpoint: Vec3, r: Ray)
    requires IsSqrt(sqrt)
    requires s == NewMoving(s.origin, endpoint, s.radius, s.material)
    requires 0.0 <= r.time <= 1.0
    requires LengthSquared(r.direction) > 0.0
    ensures HitsInBox(HitFunction<M>(sqrt, uv), (x: Sphere<M>) => x.bbox, s, r)
  {
    var f := HitFunction<M>(sqrt, uv);
    forall i | f(s, r, i).Some?
      ensures InBox(s.bbox, At(r, f(s, r, i).value.t))
    {
      HitNearest(sqrt, uv, s, r, i);
      MovingBallInBox(s, endpoint, r.time, At(r, f(s, r, i).value.t));
    }
  }

  /** The root the moving-sphere example below runs into: the top of the sphere, at `t = 4`. */
  lemma MovingExampleRoot<M>(sqrt: real -> real, s: Sphere<M>, r: Ray, w: Interval)
    requires sqrt(1.0) == 1.0
    requires s.isMoving && s.origin == Zero && s.movement == Vec3(10.0, 0.0, 0.0) && s.radius == 1.0
    requires r == Ray(Vec3(10.0, 0.0, 5.0), Vec3(0.0, 0.0, -1.0), 1.0) && w == Interval(Fin(0.001), PosInf)
    ensures Center(s, r) == Vec3(10.0, 0.0, 0.0)
    ensures Root(sqrt, Center(s, r), s.radius, r, w) == Some(4.0)
  {
    var center := Center(s, r);
    assert center == Vec3(10.0, 0.0, 0.0);
    var oc := Sub(r.origin, center);
    assert oc == Vec3(0.0, 0.0, 5.0);
    assert LengthSquared(r.direction) == 1.0;
    assert Dot(oc, r.direction) == -5.0;
    assert LengthSquared(oc) - 1.0 * 1.0 == 24.0;
    assert (-5.0) * (-5.0) - 1.0 * 24.0 == 1.0;
    assert PickRoot(w, (5.0 - 1.0) / 1.0, (5.0 + 1.0) / 1.0) == Some(4.0);
    assert SolveQuadratic(sqrt, 1.0, -5.0, 24.0, w) == Some(4.0);
  }

  /**
   The normal as written is wrong for a moving sphere: a unit sphere moving
   from the origin to (10, 0, 0) (as `new_moving` builds it), hit at time 1
   from above, gets the normal (10, 0, 1) instead of the unit normal (0, 0, 1).
   */
  lemma MovingNormalAsWritten<M>(sqrt: real -> real, uv: Vec3 -> (real, real), s: Sphere<M>)
    requires sqrt(1.0) == 1.0
    requires s.isMoving && s.origin == Zero && s.movement == Vec3(10.0, 0.0, 0.0) && s.radius == 1.0
    ensures var r := Ray(Vec3(10.0, 0.0, 5.0), Vec3(0.0, 0.0, -1.0), 1.0);
            var w := Interval(Fin(0.001), PosInf);
            && HitAsWritten(sqrt, uv, s, r, w).Some?
            && HitAsWritten(sqrt, uv, s, r, w).value.normal == Vec3(10.0, 0.0, 1.0)
            && Hit(sqrt, uv, s, r, w).Some?
            && Hit(sqrt, uv, s, r, w).value.normal == Vec3(0.0, 0.0, 1.0)
  {
    var r := Ray(Vec3(10.0, 0.0, 5.0), Vec3(0.0, 0.0, -1.0), 1.0);
    var w := Interval(Fin(0.001), PosInf);
    MovingExampleRoot(sqrt, s, r, w);
    var p := At(r, 4.0);
    assert p == Vec3(10.0, 0.0, 1.0);
    assert 1.0 / s.radius == 1.0;
    var written := Scale(1.0 / s.radius, Sub(p, s.origin));
    var intended := Scale(1.0 / s.radius, Sub(p, Center(s, r)));
    assert written == Vec3(10.0, 0.0, 1.0);
    assert intended == Vec3(0.0, 0.0, 1.0);
  }
}

=== FILE: sphere_tree.dfy ===
/**
 The BVH over spheres: the sphere's `hit` meets every assumption the
 corrected traversal's completeness needs, so a tree of spheres built by
 `Sphere::new` or `Sphere::new_moving` never loses a sphere's hit.
 */
module SphereTrees {
  import opened ExtReal
  import opened Vectors
  import opened Numeric
  import opened Intervals
  import opened Rays
  import opened Aabb
  import Tree = Bvh
  import Spheres

  /** The box of a sphere, as the tree reads it. */
  function BoxOf<M>(): Spheres.Sphere<M> -> AABB {
    (x: Spheres.Sphere<M>) => x.bbox
  }

  /** A ray with no zero direction component has a non-zero direction. */
  lemma NonZeroDirectionLength(r: Ray)
    requires NonZeroDirection(r, 3)
    ensures LengthSquared(r.direction) > 0.0
  {
    assert Get(r.direction, 0) != 0.0;
    var d := r.direction;
    SquareNonNegative(d.y);
    SquareNonNegative(d.z);
    if d.x < 0.0 {
      SquareStrictMono(0.0, -d.x);
    } else {
      SquareStrictMono(0.0, d.x);
    }
  }

  /**
   Every sphere built by `new` or `new_moving` that a ray meets in a
   non-degenerate window is found by the corrected traversal of any
   well-boxed tree holding it, no farther away. A moving sphere (built with
   `endpoint`) needs a ray time in `[0, 1]`, the span its box covers.
   */
  lemma SphereTreeComplete<M(!new)>(sqrt: real -> real, uv: Vec3 -> (real, real), n: Tree.Bvh<Spheres.Sphere<M>>,
                                    r: Ray, rayT: Interval, s: Spheres.Sphere<M>, endpoint: Vec3)
    requires IsSqrt(sqrt)
    requires NonZeroDirection(r, 3)
    requires (!s.isMoving && s.bbox == Spheres.BallBox(s.origin, s.radius))
          || (s == Spheres.NewMoving(s.origin, endpoint, s.radius, s.material) && 0.0 <= r.time <= 1.0)
    requires Tree.WellBoxed(BoxOf(), n) && s in Tree.Leaves(n)
    requires Lt(rayT.min, rayT.max)
    requires Spheres.HitFunction(sqrt, uv)(s, r, rayT).Some?
    ensures Tree.HitCorrected(Spheres.HitFunction(sqrt, uv), n, r, rayT).Some?
    ensures Tree.HitCorrected(Spheres.HitFunction(sqrt, uv), n, r, rayT).value.t <= Spheres.HitFunction(sqrt, uv)(s, r, rayT).value.t
  {
    var f := Spheres.HitFunction<M>(sqrt, uv);
    Spheres.SphereHittable<M>(sqrt, uv);
    NonZeroDirectionLength(r);
    if !s.isMoving && s.bbox == Spheres.BallBox(s.origin, s.radius) {
      Spheres.StationaryHitsInBox(sqrt, uv, s, r);
    } else {
      Spheres.MovingHitsInBox(sqrt, uv, s, endpoint, r);
    }
    assert BoxOf<M>() == (x: Spheres.Sphere<M>) => x.bbox;
    Tree.HitCorrectedComplete(f, BoxOf(), n, r, rayT, s);
  }
}

=== FILE: texture.dfy ===
/**
 The textures of `src/texture.rs`: a solid colour, a 3D checker pattern, an
 image looked up by texture coordinates, and a marble-like noise pattern.

 The sine of the noise pattern and the turbulence function it calls are
 parameters (the turbulence it names is not defined by the noise generator's
 source, whose own octave sum is `PerlinNoise.Terb`). Image pixels are
 channel triples in `0 .. 255`; a lookup outside the image panics, which the
 as-written sampler reports as `None`.
 */
module Textures {
  import opened Vectors
  import opened Numeric
  import opened Options
  import opened PerlinNoise

  /** The defining bound of the sine: every value lies in `[-1, 1]`. */
  ghost predicate IsSine(sin: real -> real) {
    forall x :: -1.0 <= sin(x) <= 1.0
  }

  /** An 8-bit RGB pixel. */
  datatype Rgb8 = Rgb8(r: int, g: int, b: int)

  predicate ValidPixel(px: Rgb8) {
    0 <= px.r < 256 && 0 <= px.g < 256 && 0 <= px.b < 256
  }

  /** A decoded image: `width * height` pixels, row by row. */
  datatype Image = Image(width: nat, height: nat, pixels: seq<Rgb8>)

  predicate ValidImage(img: Image) {
    |img.pixels| == img.width * img.height &&
    forall k :: 0 <= k < |img.pixels| ==> ValidPixel(img.pixels[k])
  }

  datatype Texture =
    | Solid(color: Vec3)
    | Checker(invScale: real, even: Texture, odd: Texture)
    | ImageTexture(image: Image)
    | Noise(perlin: Perlin, scale: real)

  predicate ValidTexture(t: Texture) {
    match t
    case Solid(_) => true
    case Checker(_, even, odd) => ValidTexture(even) && ValidTexture(odd)
    case ImageTexture(img) => ValidImage(img)
    case Noise(_, _) => true
  }

  // ---------------------------------------------------------------------------
  // Checker
  // ---------------------------------------------------------------------------

  /** `CheckerTexture::new`: the cell size is stored as its reciprocal. */
  function NewChecker(scale: real, even: Texture, odd: Texture): (t: Texture)
    requires scale != 0.0
    ensures t.Checker? && t.invScale * scale == 1.0 && t.even == even && t.odd == odd
  {
    Checker(1.0 / scale, even, odd)
  }

  /**
   Rust's `a % 2` on integers: the remainder takes the sign of the dividend,
   so it is `-1`, `0` or `1`, and `a - r` is even.
   */
  function RemTwo(a: int): (r: int)
    ensures -2 < r < 2
    ensures a >= 0 ==> r >= 0
    ensures a <= 0 ==> r <= 0
    ensures (a - r) % 2 == 0
  {
    if a >= 0 then a % 2 else -((-a) % 2)
  }

  /**
   The truncating remainder by two is zero exactly for even numbers, and a
   negative odd number gives `-1` rather than `1`.
   */
  lemma RemTwoParity(a: int)
    ensures RemTwo(a) == 0 <==> a % 2 == 0
    ensures a < 0 && a % 2 == 1 ==> RemTwo(a) == -1
  {
  }

  /** `(inv_scale * x).floor() as i32`: the index of the cell along one axis. */
  function Cell(invScale: real, x: real): int {
    (invScale * x).Floor
  }

  /** The checker's parity test on the sum of the three cell indices. */
  predicate EvenCell(invScale: real, p: Vec3) {
    RemTwo(Cell(invScale, p.x) + Cell(invScale, p.y) + Cell(invScale, p.z)) == 0
  }

  /** The even texture is chosen exactly when the sum of the cell indices is even, negative sums included. */
  lemma EvenCellIffEven(invScale: real, p: Vec3)
    ensures EvenCell(invScale, p) <==> (Cell(invScale, p.x) + Cell(invScale, p.y) + Cell(invScale, p.z)) % 2 == 0
  {
    RemTwoParity(Cell(invScale, p.x) + Cell(invScale, p.y) + Cell(invScale, p.z));
  }

  /** Moving one cell size along an axis moves to the next cell. */
  lemma CellShift(invScale: real, scale: real, x: real)
    requires invScale * scale == 1.0
    ensures Cell(invScale, x + scale) == Cell(invScale, x) + 1
  {
    assert invScale * (x + scale) == invScale * x + 1.0;
  }

  /** Moving one cell size along the x axis flips the checker between its two textures. */
  lemma CheckerShiftFlips(invScale: real, scale: real, p: Vec3)
    requires invScale * scale == 1.0
    ensures EvenCell(invScale, Add(p, Vec3(scale, 0.0, 0.0))) <==> !EvenCell(invScale, p)
  {
    var q := Add(p, Vec3(scale, 0.0, 0.0));
    CellShift(invScale, scale, p.x);
    assert q.y == p.y && q.z == p.z;
    EvenCellIffEven(invScale, p);
    EvenCellIffEven(invScale, q);
  }

  // ---------------------------------------------------------------------------
  // Image
  // ---------------------------------------------------------------------------

  /** The colour returned for an image without rows. */
  const DebugColor := Vec3(0.0, 1.0, 1.0)

  /** `get_pixel`, which panics (here: `None`) outside the image. */
  function GetPixel(img: Image, i: int, j: int): (o: Option<Rgb8>)
    requires ValidImage(img)
    ensures o.Some? <==> 0 <= i < img.width && 0 <= j < img.height
    ensures o.Some? ==> ValidPixel(o.value)
  {
    if 0 <= i < img.width && 0 <= j < img.height then
      RowMajorInBounds(img.width, img.height, i, j);
      Some(img.pixels[j * img.width + i])
    else None
  }

  lemma RowMajorInBounds(width: nat, height: nat, i: nat, j: nat)
    requires i < width && j < height
    ensures 0 <= j * width + i < width * height
  {
    assert j * width <= (height - 1) * width;
    assert (height - 1) * width + width == height * width;
  }

  /** Each 8-bit channel divided by 256. */
  function Channels(px: Rgb8): (c: Vec3)
    requires ValidPixel(px)
    ensures 0.0 <= c.x <= 255.0 / 256.0 && 0.0 <= c.y <= 255.0 / 256.0 && 0.0 <= c.z <= 255.0 / 256.0
    ensures c.x * 256.0 == px.r as real && c.y * 256.0 == px.g as real && c.z * 256.0 == px.b as real
  {
    Vec3(px.r as real / 256.0, px.g as real / 256.0, px.b as real / 256.0)
  }

  /**
   The pixel coordinates the image sampler computes: `u` is clamped to
   `[0, 1]`, `v` is clamped and flipped, and each is scaled by the image size
   and truncated. The column reaches `width` at `u >= 1`, the row reaches
   `height` at `v <= 0`.
   */
  function PixelIndex(width: nat, height: nat, u: real, v: real): (ij: (int, int))
    ensures 0 <= ij.0 <= width && 0 <= ij.1 <= height
    ensures u >= 1.0 ==> ij.0 == width
    ensures v <= 0.0 ==> ij.1 == height
    ensures 0.0 <= u < 1.0 ==> ij.0 < width || width == 0
    ensures 0.0 < v <= 1.0 ==> ij.1 < height || height == 0
  {
    var uc := Clamp(u, 0.0, 1.0);
    var vc := 1.0 - Clamp(v, 0.0, 1.0);
    ScaledIndex(uc, width);
    ScaledIndex(vc, height);
    (Trunc(uc * width as real), Trunc(vc * height as real))
  }

  /** Truncating `x * n` for `x` in `[0, 1]` gives an index in `0 ..= n`, equal to `n` only at `x = 1`. */
  lemma ScaledIndex(x: real, n: nat)
    requires 0.0 <= x <= 1.0
    ensures 0 <= Trunc(x * n as real) <= n
    ensures x == 1.0 ==> Trunc(x * n as real) == n
    ensures x < 1.0 && n > 0 ==> Trunc(x * n as real) < n
  {
    MulMono(n as real, x, 1.0);
    assert 0.0 <= x * n as real;
    if x < 1.0 && n > 0 {
      var y := x * n as real;
      MulStrictMono(x, 1.0, n as real);
      assert y < n as real;
      assert y.Floor < n;
    }
  }

  /**
   The image sampler as written: a zero-height image gives the debug colour;
   otherwise the pixel at `PixelIndex` is read, which panics at `u >= 1` or
   `v <= 0` because the index equals the width or height there.
   */
  function ImageSampleAsWritten(img: Image, u: real, v: real): (o: Option<Vec3>)
    requires ValidImage(img)
  {
    if img.height == 0 then Some(DebugColor)
    else
      var (i, j) := PixelIndex(img.width, img.height, u, v);
      match GetPixel(img, i, j)
      case None => None
      case Some(px) => Some(Channels(px))
  }

  /** Sampling a non-empty image at its right edge (`u = 1`) reads past the last column and panics. */
  lemma ImageEdgePanics(img: Image, v: real)
    requires ValidImage(img) && img.width > 0 && img.height > 0
    ensures ImageSampleAsWritten(img, 1.0, v) == None
  {
  }

  /**
   The image sampler with each index clamped to the last column and row, and
   an image without pixels treated like the zero-height case. Every pixel it
   reads exists.
   */
  function ImageSample(img: Image, u: real, v: real): (c: Vec3)
    requires ValidImage(img)
    ensures img.width == 0 || img.height == 0 ==> c == DebugColor
    ensures img.width > 0 && img.height > 0 ==>
      0.0 <= c.x <= 255.0 / 256.0 && 0.0 <= c.y <= 255.0 / 256.0 && 0.0 <= c.z <= 255.0 / 256.0
  {
    if img.width == 0 || img.height == 0 then DebugColor
    else
      var (i, j) := PixelIndex(img.width, img.height, u, v);
      var px := GetPixel(img, if i < img.width then i else img.width - 1, if j < img.height then j else img.height - 1);
      Channels(px.value)
  }

  /** Wherever the sampler as written does not panic, the clamped sampler returns the same colour. */
  lemma ImageSampleAgrees(img: Image, u: real, v: real)
    requires ValidImage(img)
    ensures ImageSampleAsWritten(img, u, v).Some? ==> ImageSampleAsWritten(img, u, v).value == ImageSample(img, u, v)
    ensures img.width > 0 && img.height > 0 && 0.0 <= u < 1.0 && 0.0 < v <= 1.0 ==> ImageSampleAsWritten(img, u, v).Some?
  {
  }

  // ---------------------------------------------------------------------------
  // Noise
  // ---------------------------------------------------------------------------

  /**
   The marble pattern: a grey level `(1 + sin(s.x + s.y + s.z + 10 turb(s))) / 2`
   at the scaled point `s`, which stays in `[0, 1]`.
   */
  function NoiseSample(sin: real -> real, turb: (Perlin, Vec3, nat) -> real, per: Perlin, scale: real, p: Vec3): (c: Vec3)
    requires IsSine(sin)
    ensures c.x == c.y == c.z
    ensures 0.0 <= c.x <= 1.0
  {
    var s := Scale(scale, p);
    var g := 0.5 * (1.0 + sin(s.z + s.x + s.y + 10.0 * turb(per, s, 7)));
    Scale(g, One)
  }

  // ---------------------------------------------------------------------------
  // Dispatch
  // ---------------------------------------------------------------------------

  /**
   `Texture::sample`. A solid colour is returned as it is, a checker defers to
   the texture of the cell `p` falls in, an image is read at `(u, v)` and the
   noise pattern is evaluated at `p`. The image is read with the corrected
   index, which agrees with the sample as written wherever that one does not
   panic.
   */
  function Sample(sin: real -> real, turb: (Perlin, Vec3, nat) -> real, t: Texture, u: real, v: real, p: Vec3): (c: Vec3)
    requires IsSine(sin) && ValidTexture(t)
    ensures t.Solid? ==> c == t.color
    ensures t.Checker? ==> c == Sample(sin, turb, if EvenCell(t.invScale, p) then t.even else t.odd, u, v, p)
    ensures t.Noise? ==> c.x == c.y == c.z && 0.0 <= c.x <= 1.0
    ensures t.ImageTexture? ==> c == ImageSample(t.image, u, v)
    ensures t.ImageTexture? && ImageSampleAsWritten(t.image, u, v).Some? ==> c == ImageSampleAsWritten(t.image, u, v).value
  {
    match t
    case Solid(color) => color
    case Checker(invScale, even, odd) =>
      if EvenCell(invScale, p) then Sample(sin, turb, even, u, v, p) else Sample(sin, turb, odd, u, v, p)
    case ImageTexture(img) =>
      ImageSampleAgrees(img, u, v);
      ImageSample(img, u, v)
    case Noise(per, scale) => NoiseSample(sin, turb, per, scale, p)
  }

  /** A texture built without images: solid colours, noise, and checkers of those. */
  predicate Spatial(t: Texture) {
    match t
    case Solid(_) => true
    case Checker(_, even, odd) => Spatial(even) && Spatial(odd)
    case ImageTexture(_) => false
    case Noise(_, _) => true
  }

  /** A texture without images depends on the point only, never on the texture coordinates. */
  lemma {:induction false} SpatialIgnoresUV(sin: real -> real, turb: (Perlin, Vec3, nat) -> real, t: Texture, u1: real, v1: real, u2: real, v2: real, p: Vec3)
    requires IsSine(sin) && ValidTexture(t) && Spatial(t)
    ensures Sample(sin, turb, t, u1, v1, p) == Sample(sin, turb, t, u2, v2, p)
  {
    match t
    case Solid(_) =>
    case Checker(_, even, odd) =>
      SpatialIgnoresUV(sin, turb, even, u1, v1, u2, v2, p);
      SpatialIgnoresUV(sin, turb, odd, u1, v1, u2, v2, p);
    case Noise(_, _) =>
  }
}

=== FILE: vec3.dfy ===
/**
 Three-component vectors over the reals, standing for the `glam` vector types
 (`DVec3`, `Vec3A`) that the renderer uses for points, directions and colours.
 All arithmetic is component-wise except `Dot` and `Cross`; floating-point
 rounding is not modelled.
 */
module Vectors {

  datatype Vec3 = Vec3(x: real, y: real, z: real)

  const Zero := Vec3(0.0, 0.0, 0.0)
  const One := Vec3(1.0, 1.0, 1.0)
  const UnitX := Vec3(1.0, 0.0, 0.0)
  const UnitY := Vec3(0.0, 1.0, 0.0)
  const UnitZ := Vec3(0.0, 0.0, 1.0)

  function Add(a: Vec3, b: Vec3): Vec3 {
    Vec3(a.x + b.x, a.y + b.y, a.z + b.z)
  }

  function Sub(a: Vec3, b: Vec3): Vec3 {
    Vec3(a.x - b.x, a.y - b.y, a.z - b.z)
  }

  function Neg(a: Vec3): Vec3 {
    Vec3(-a.x, -a.y, -a.z)
  }

  /** `k * a` */
  function Scale(k: real, a: Vec3): Vec3 {
    Vec3(k * a.x, k * a.y, k * a.z)
  }

  /** Component-wise product, used for colours (`attenuation * colour`). */
  function Mul(a: Vec3, b: Vec3): Vec3 {
    Vec3(a.x * b.x, a.y * b.y, a.z * b.z)
  }

  function Dot(a: Vec3, b: Vec3): real {
    a.x * b.x + a.y * b.y + a.z * b.z
  }

  function Cross(a: Vec3, b: Vec3): Vec3 {
    Vec3(a.y * b.z - a.z * b.y, a.z * b.x - a.x * b.z, a.x * b.y - a.y * b.x)
  }

  function LengthSquared(a: Vec3): real {
    Dot(a, a)
  }

  /** Indexing `v[a]` for an axis `a` in 0..=2. */
  function Get(v: Vec3, a: int): real
    requires 0 <= a <= 2
  {
    if a == 0 then v.x else if a == 1 then v.y else v.z
  }

  lemma LengthSquaredNonNegative(a: Vec3)
    ensures LengthSquared(a) >= 0.0
  {
  }

  lemma LengthSquaredScale(k: real, a: Vec3)
    ensures LengthSquared(Scale(k, a)) == k * k * LengthSquared(a)
  {
  }

  lemma DotScaleRight(a: Vec3, k: real, b: Vec3)
    ensures Dot(a, Scale(k, b)) == k * Dot(a, b)
  {
  }

  lemma DotAddRight(a: Vec3, b: Vec3, c: Vec3)
    ensures Dot(a, Add(b, c)) == Dot(a, b) + Dot(a, c)
  {
  }

  lemma DotSymmetric(a: Vec3, b: Vec3)
    ensures Dot(a, b) == Dot(b, a)
  {
  }

  /** The cross product is orthogonal to both of its arguments. */
  lemma CrossOrthogonal(a: Vec3, b: Vec3)
    ensures Dot(a, Cross(a, b)) == 0.0
    ensures Dot(b, Cross(a, b)) == 0.0
  {
  }

  lemma CrossSelf(a: Vec3)
    ensures Cross(a, a) == Zero
  {
  }

  lemma CrossLinearLeft(a: Vec3, b: Vec3, s: real, t: real, c: Vec3)
    ensures Cross(Add(Scale(s, a), Scale(t, b)), c) == Add(Scale(s, Cross(a, c)), Scale(t, Cross(b, c)))
  {
    CrossAdd(Scale(s, a), Scale(t, b), c);
    CrossScale(s, a, c);
    CrossScale(t, b, c);
  }

  lemma CrossAdd(a: Vec3, b: Vec3, c: Vec3)
    ensures Cross(Add(a, b), c) == Add(Cross(a, c), Cross(b, c))
  {
  }

  lemma CrossScale(s: real, a: Vec3, c: Vec3)
    ensures Cross(Scale(s, a), c) == Scale(s, Cross(a, c))
  {
    var l, r := Cross(Scale(s, a), c), Scale(s, Cross(a, c));
    assert l.x == r.x by {
      ScaleDifference(s, a.y, c.z, a.z, c.y);
    }
    assert l.y == r.y by {
      ScaleDifference(s, a.z, c.x, a.x, c.z);
    }
    assert l.z == r.z by {
      ScaleDifference(s, a.x, c.y, a.y, c.x);
    }
  }

  lemma ScaleDifference(s: real, p: real, k: real, q: real, l: real)
    ensures (s * p) * k - (s * q) * l == s * (p * k - q * l)
  {
  }

  lemma CrossAntiCommutative(a: Vec3, b: Vec3)
    ensures Cross(a, b) == Neg(Cross(b, a))
  {
  }

  lemma CrossLinearRight(c: Vec3, a: Vec3, b: Vec3, s: real, t: real)
    ensures Cross(c, Add(Scale(s, a), Scale(t, b))) == Add(Scale(s, Cross(c, a)), Scale(t, Cross(c, b)))
  {
    var v := Add(Scale(s, a), Scale(t, b));
    CrossAntiCommutative(c, v);
    CrossLinearLeft(a, b, s, t, c);
    CrossAntiCommutative(a, c);
    CrossAntiCommutative(b, c);
  }
}

=== FILE: vec_ops.dfy ===
/**
 The vector helpers of `src/util/vec.rs` (repeated verbatim in `src/lib.rs`):
 the near-zero test used to reject degenerate scatter directions, mirror
 reflection about a normal, and Snell refraction.
 */
module VecOps {
  import opened Vectors
  import opened Numeric

  /** Components below this magnitude count as zero. */
  const NearZeroEpsilon: real := 0.00000001

  /** `dvec3_near_zero`: every component is strictly below the threshold in magnitude. */
  predicate NearZero(v: Vec3) {
    Abs(v.x) < NearZeroEpsilon && Abs(v.y) < NearZeroEpsilon && Abs(v.z) < NearZeroEpsilon
  }

  lemma AbsSquare(x: real)
    ensures Abs(x) * Abs(x) == x * x
  {
  }

  /**
   A near-zero vector is short: its squared length is below three times the
   squared threshold. Conversely the zero vector is near zero.
   */
  lemma NearZeroShort(v: Vec3)
    ensures NearZero(Zero)
    ensures NearZero(v) ==> LengthSquared(v) < 3.0 * NearZeroEpsilon * NearZeroEpsilon
  {
    if NearZero(v) {
      SquareStrictMono(Abs(v.x), NearZeroEpsilon);
      SquareStrictMono(Abs(v.y), NearZeroEpsilon);
      SquareStrictMono(Abs(v.z), NearZeroEpsilon);
      AbsSquare(v.x);
      AbsSquare(v.y);
      AbsSquare(v.z);
    }
  }

  /** `reflect`: `v - 2 (v . n) n`, the mirror image of `v` in the plane with normal `n`. */
  function Reflect(v: Vec3, n: Vec3): Vec3 {
    Sub(v, Scale(2.0 * Dot(v, n), n))
  }

  lemma DotSubScale(a: Vec3, c: real, n: Vec3, b: Vec3)
    ensures Dot(Sub(a, Scale(c, n)), b) == Dot(a, b) - c * Dot(n, b)
  {
  }

  lemma LengthSquaredSubScale(a: Vec3, c: real, n: Vec3)
    ensures LengthSquared(Sub(a, Scale(c, n))) == LengthSquared(a) - 2.0 * c * Dot(a, n) + c * c * LengthSquared(n)
  {
    SquareSubScale(a.x, c, n.x);
    SquareSubScale(a.y, c, n.y);
    SquareSubScale(a.z, c, n.z);
  }

  /** One coordinate of `LengthSquaredSubScale`. */
  lemma SquareSubScale(x: real, c: real, y: real)
    ensures (x - c * y) * (x - c * y) == x * x - 2.0 * c * (x * y) + c * c * (y * y)
  {
  }

  /**
   Reflection about a unit normal negates the normal component, keeps every
   component orthogonal to the normal, and preserves length.
   */
  lemma ReflectComponents(v: Vec3, n: Vec3, t: Vec3)
    requires LengthSquared(n) == 1.0
    ensures Dot(Reflect(v, n), n) == -Dot(v, n)
    ensures Dot(n, t) == 0.0 ==> Dot(Reflect(v, n), t) == Dot(v, t)
    ensures LengthSquared(Reflect(v, n)) == LengthSquared(v)
  {
    var k := Dot(v, n);
    DotSubScale(v, 2.0 * k, n, n);
    assert Dot(n, n) == LengthSquared(n);
    DotSubScale(v, 2.0 * k, n, t);
    LengthSquaredSubScale(v, 2.0 * k, n);
  }

  /** Reflecting twice about the same unit normal gives back the original vector. */
  lemma ReflectInvolution(v: Vec3, n: Vec3)
    requires LengthSquared(n) == 1.0
    ensures Reflect(Reflect(v, n), n) == v
  {
    ReflectComponents(v, n, n);
    var k := Dot(v, n);
    assert Reflect(Reflect(v, n), n) == Sub(Sub(v, Scale(2.0 * k, n)), Scale(-2.0 * k, n));
  }

  /**
   `refract`: Snell's law for the unit incident direction `uv` at a surface
   with unit normal `n`, `ratio` being `eta / eta'`. The perpendicular part is
   `ratio (uv + cos n)` with `cos = min(-uv . n, 1)`; the parallel part has the
   length that would make the result a unit vector, along `-n`.
   */
  function Refract(sqrt: real -> real, uv: Vec3, n: Vec3, ratio: real): Vec3 {
    var cosTheta := MinReal(-Dot(uv, n), 1.0);
    var perp := Scale(ratio, Add(uv, Scale(cosTheta, n)));
    var parallel := Scale(sqrt(Abs(1.0 - LengthSquared(perp))), Neg(n));
    Add(perp, parallel)
  }

  /** For unit vectors `a . b >= -1`, so `min(-a . b, 1)` is just `-a . b`. */
  lemma UnitDotBound(a: Vec3, b: Vec3)
    requires LengthSquared(a) == 1.0 && LengthSquared(b) == 1.0
    ensures -1.0 <= Dot(a, b) <= 1.0
  {
    LengthSquaredNonNegative(Add(a, b));
    LengthSquaredNonNegative(Sub(a, b));
    assert LengthSquared(Add(a, b)) == LengthSquared(a) + 2.0 * Dot(a, b) + LengthSquared(b);
    assert LengthSquared(Sub(a, b)) == LengthSquared(a) - 2.0 * Dot(a, b) + LengthSquared(b);
  }

  /** The perpendicular part of the refracted ray, for unit `uv` and `n`. */
  lemma RefractPerpendicular(uv: Vec3, n: Vec3, ratio: real)
    requires LengthSquared(uv) == 1.0 && LengthSquared(n) == 1.0
    ensures var c := -Dot(uv, n);
      var perp := Scale(ratio, Add(uv, Scale(c, n)));
      Dot(perp, n) == 0.0 && LengthSquared(perp) == ratio * ratio * (1.0 - c * c)
  {
    var c := -Dot(uv, n);
    var e := Add(uv, Scale(c, n));
    assert e == Sub(uv, Scale(-c, n));
    DotSubScale(uv, -c, n, n);
    assert Dot(n, n) == 1.0;
    LengthSquaredSubScale(uv, -c, n);
    DotSymmetric(Scale(ratio, e), n);
    DotScaleRight(n, ratio, e);
    DotSymmetric(n, e);
    LengthSquaredScale(ratio, e);
  }

  lemma SquareOfSqrt(sqrt: real -> real, x: real)
    requires IsSqrt(sqrt) && 0.0 <= x
    ensures sqrt(x) * sqrt(x) == x && 0.0 <= sqrt(x)
  {
  }

  /**
   Without total internal reflection (`ratio^2 (1 - cos^2) <= 1`), refracting
   a unit direction at a unit normal gives a unit direction that leaves on the
   far side of the surface (`r . n <= 0`).
   */
  lemma RefractUnit(sqrt: real -> real, uv: Vec3, n: Vec3, ratio: real)
    requires IsSqrt(sqrt)
    requires LengthSquared(uv) == 1.0 && LengthSquared(n) == 1.0
    requires ratio * ratio * (1.0 - Dot(uv, n) * Dot(uv, n)) <= 1.0
    ensures LengthSquared(Refract(sqrt, uv, n, ratio)) == 1.0
    ensures Dot(Refract(sqrt, uv, n, ratio), n) <= 0.0
  {
    UnitDotBound(uv, n);
    var c := -Dot(uv, n);
    assert MinReal(c, 1.0) == c;
    RefractPerpendicular(uv, n, ratio);
    var perp := Scale(ratio, Add(uv, Scale(c, n)));
    var m := 1.0 - LengthSquared(perp);
    assert 0.0 <= m;
    assert Abs(m) == m;
    var s := sqrt(m);
    SquareOfSqrt(sqrt, m);
    var r := Sub(perp, Scale(s, n));
    assert Refract(sqrt, uv, n, ratio) == r;
    DotSubScale(perp, s, n, n);
    assert Dot(n, n) == 1.0;
    LengthSquaredSubScale(perp, s, n);
    DotSymmetric(perp, n);
  }

  lemma CancelScaled(a: Vec3, c: real, n: Vec3)
    ensures Add(Add(a, Scale(c, n)), Scale(c, Neg(n))) == a
  {
  }

  /** With equal refractive indices (`ratio = 1`) a ray entering from the front passes straight through. */
  lemma RefractStraight(sqrt: real -> real, uv: Vec3, n: Vec3)
    requires IsSqrt(sqrt)
    requires LengthSquared(uv) == 1.0 && LengthSquared(n) == 1.0
    requires Dot(uv, n) <= 0.0
    ensures Refract(sqrt, uv, n, 1.0) == uv
  {
    UnitDotBound(uv, n);
    var c := -Dot(uv, n);
    assert MinReal(c, 1.0) == c;
    RefractPerpendicular(uv, n, 1.0);
    var perp := Scale(1.0, Add(uv, Scale(c, n)));
    assert 1.0 - LengthSquared(perp) == c * c;
    SquareNonNegative(c);
    SqrtOfSquare(sqrt, c);
    assert sqrt(Abs(1.0 - LengthSquared(perp))) == c;
    assert perp == Add(uv, Scale(c, n));
    CancelScaled(uv, c, n);
  }
}
